=== FILE: README.md ===
# School library: textbook inventory ingestion and reconciliation

A Dafny model of the core of the school-library system: how stock
spreadsheets are read into the database and how the stock is then checked
against the curriculum.

- **Imports.** The librarian's stock template, the registry (our own
  template, or a MESH export whose copies are split over edition years),
  the old registry, the curriculum, and the current and coming-year class
  lists. Each import reads the header, parses the cells, finds or creates
  subjects, book titles and stock rows, and collects row failures up to 30.
- **Class administration.** Saving a class, promoting a building's classes
  into next year's projected classes (graduating the 11th grade), and saving
  a projected class with its enrollment log entry.
- **Reports.** Reconciliation (needed against available copies, and the
  summary by key), the plan for a coming year, and the inventory, whose
  expected total is what is on the shelf, with students and in classrooms.
- **Write-off.** The guarded decrement of a stock row, recorded as one
  write-off and one adjustment movement.

The database is one immutable value, `Entities.Db`. It holds one sequence
per table, and a row's id is its index. An id outside its table stands for
a null reference. A repository query that returns an `Optional` is
`Entities.UniqueLookup`:

- none, when no row matches;
- the row, when exactly one matches;
- `Ambiguous`, when several match. This is the exception Spring raises for
  a non-unique result.

A sheet is a sequence of optional rows: a row missing from the file is
`None`. Cells are held as their text. Each import is a pure function from
the database and the sheet to the new database and an `Outcome`. Rows
written before a failure stay written, as they do in the source, because
none of the import methods is transactional. `writeOff` is transactional
and lets its exception escape, so a failed write-off leaves the database
unchanged. `promote` is transactional too, but it catches its exception
inside the transaction, which then commits. So a failed promotion returns
the database with the steps done before the failure, together with the
error (`ClassGroups.PromoteKeepsCompletedSteps`).

Modules follow the source: `Sheets`, `Numbers`, `Text`, `BuildingCodes`,
`ClassNames` and `YearSplit` hold the parsing helpers of
`ExcelImportService`. `RowImport` is its row loop. `Catalog` holds the
find-or-create rules. `StockImport`, `ClassImport` and `CurriculumImport`
are the import methods. `Enrollment` and `ClassGroups` are the class
controller. `Reconciliation`, `Planning`, `Inventory` and `WriteOffs` are
the four services. `Sorting` is the `Comparator` chains.

Behaviour of the code worth noting, which the model keeps:

- Reconciliation's `calcForBuilding` does not sort. Its rows come out in
  the order `curriculum.findAll()` returns, modelled as id order.
- `importCurriculum` and `importClasses` do not collect failures. The first
  failing row ends the import, and the rows before it stay saved
  (`RowImport.FinishFirst`).
- Our registry template has no blank-row skip. A blank row is looked up
  by its empty building code and fails when no building has that code.
- `splitPart` divides with Java's truncating `/` but takes the remainder
  with `Math.floorMod`. For a negative total the parts do not add up
  (`YearSplit.SplitNegativeTotal`). The model keeps this as written.

## Model

| member | source | states |
|---|---|---|
| BuildingCodes.StrippedKeepsDigits | src/main/java/ru/school/library/service/ExcelImportService.java:645-655 | lower-casing, trimming, removing «корпус», rewriting «сп» as «sp» and stripping a leading «sp» keep every ASCII digit of the code, in order |
| BuildingCodes.NormalizeBuildingCodeSpec | src/main/java/ru/school/library/service/ExcelImportService.java:645-659 | a building code with any digit normalises to exactly its digits in order; a code without digits normalises to the code trimmed, case kept |
| BuildingCodes.NormalizeBuildingCodeIdempotent | src/main/java/ru/school/library/service/ExcelImportService.java:645-659 | normalising an already normalised code changes nothing |
| BuildingCodes.BuildingOneSpellings | src/main/java/ru/school/library/service/ExcelImportService.java:644-659 | the spellings its comment lists («сп1», «sp1», «корпус 1», «1») all name building «1»; so do the capitalised «Корпус 1» and «SP1» |
| Text.Trim | src/main/java/ru/school/library/service/ExcelImportService.java:318-330 | the trimmed text is no longer than the cell and has no character up to U+0020 at either end |
| Text.TrimKeepsChars | src/main/java/ru/school/library/service/ExcelImportService.java:318-330 | trimming adds no character and keeps every character above U+0020 |
| Text.TrimIdempotent | src/main/java/ru/school/library/service/ExcelImportService.java:318-330 | trimming a trimmed text changes nothing |
| Text.Digits | src/main/java/ru/school/library/service/ExcelImportService.java:655 | `replaceAll("[^0-9]", "")` leaves only ASCII digits, and leaves some exactly when the text has one |
| Text.TrimKeepsDigits | src/main/java/ru/school/library/service/ExcelImportService.java:646-655 | trimming never removes a digit |
| Text.ReplaceKeepsDigits | src/main/java/ru/school/library/service/ExcelImportService.java:648-650 | replacing a digit-free word by digit-free text keeps the digits of the code |
| Text.Lower | src/main/java/ru/school/library/service/ExcelImportService.java:126-131 | lower-casing keeps the length and folds each character on its own |
| Text.FoldLaws | src/main/java/ru/school/library/web/admin/AdminClassGroupsController.java:57 | case folding is idempotent, and lower-casing after upper-casing is lower-casing |
| Text.LexLeqTransitive | src/main/java/ru/school/library/service/ReconciliationService.java:63 | `String.compareTo` order is transitive, so sorting by it is well defined |
| Text.LeqIgnoreCaseBoth | src/main/java/ru/school/library/service/InventoryService.java:36-38 | two texts each no later than the other ignoring case are equal ignoring case |
| Text.IntToStringInjective | src/main/java/ru/school/library/service/ExcelImportService.java:360-361 | different years give different decimal texts, hence different keys |
| Numbers.SaturateInt | src/main/java/ru/school/library/service/ExcelImportService.java:346 | the `(int)` cast stays in the int range and keeps values already in it |
| Numbers.Max0 | src/main/java/ru/school/library/service/ExcelImportService.java:90-96 | `Math.max(0, x)` is never negative, never below `x`, and is `x` or 0 |
| Numbers.ParseJavaInt | src/main/java/ru/school/library/service/ExcelImportService.java:668-676 | `Integer.parseInt` yields an int-range value or fails with the text |
| Numbers.ParseJavaIntRoundTrip | src/main/java/ru/school/library/service/ExcelImportService.java:668-676 | the decimal text of every int parses back to it, by `Integer.parseInt` and by `getInt` |
| Numbers.ParseInt | src/main/java/ru/school/library/service/ExcelImportService.java:342-347 | a blank cell is 0; every parsed value is in the int range |
| Numbers.ParseIntRoundTrip | src/main/java/ru/school/library/service/ExcelImportService.java:342-347 | the decimal text of every int reads back as that int |
| Numbers.ParseIntNullable | src/main/java/ru/school/library/service/ExcelImportService.java:349-354 | null exactly for a blank cell; otherwise the same number `parseInt` reads |
| Numbers.GetInt | src/main/java/ru/school/library/service/ExcelImportService.java:668-676 | a blank cell is 0; otherwise `Integer.parseInt` of the trimmed text |
| Numbers.GetIntNullable | src/main/java/ru/school/library/service/ExcelImportService.java:677-685 | null exactly for a blank cell; otherwise what `getInt` reads |
| Numbers.ParseGrade | src/main/java/ru/school/library/service/ExcelImportService.java:332-340 | a grade is between 0 and 99, and 0 when the text has no digit |
| Numbers.ParseGradeValue | src/main/java/ru/school/library/service/ExcelImportService.java:332-340 | the grade is the value of the first digit run's first two digits, or of its only digit, whatever text comes before or after |
| Numbers.ParseGradeExampleWord | src/main/java/ru/school/library/service/ExcelImportService.java:332-340 | «5 класс» is grade 5 |
| Numbers.ParseGradeExampleLong | src/main/java/ru/school/library/service/ExcelImportService.java:332-340 | «123» is grade 12: the pattern takes at most two digits |
| Numbers.ParseGradeExampleLetter | src/main/java/ru/school/library/service/ExcelImportService.java:332-340 | «10-А» is grade 10 |
| Numbers.ParseGradeRoundTrip | src/main/java/ru/school/library/service/ExcelImportService.java:332-340 | the text of every grade up to 99 reads back as that grade |
| Sheets.Cell | src/main/java/ru/school/library/service/ExcelImportService.java:318-330 | a cell reads as its trimmed text, a missing cell as "" |
| Sheets.ColumnMap | src/main/java/ru/school/library/service/ExcelImportService.java:126-131 | the keys are exactly the header texts trimmed and lower-cased; each maps to a column holding it, the last one when repeated |
| Sheets.ByAnyHeader | src/main/java/ru/school/library/service/ExcelImportService.java:294-300 | the cell under the first of the names the header has, "" when it has none |
| Sheets.FindRow | src/main/java/ru/school/library/service/ExcelImportService.java:267-286 | the header search returns the first existing row within the limit that qualifies, and -1 only when none does |
| Sheets.LibrarianHeaderExample | src/main/java/ru/school/library/service/ExcelImportService.java:302-316 | missing rows are skipped and an English «Subject»/«Title» header is found |
| RowImport.Apply | src/main/java/ru/school/library/service/ExcelImportService.java:96-101 | a saved row counts as processed, a failed row adds «line n» (1-based) to the failures, a skipped row changes nothing |
| RowImport.ApplyReportsLine | src/main/java/ru/school/library/service/ExcelImportService.java:98-99 | the failure line of the row at index i reads «Строка i+1: message», the row's 1-based number and the exception's message |
| RowImport.RowErrorTextInjective | src/main/java/ru/school/library/service/ExcelImportService.java:99 | two failure lines are equal only for the same row number and the same message |
| RowImport.RunAll | src/main/java/ru/school/library/service/ExcelImportService.java:141-143 | the loop without a cap only appends failures, each on an existing row of the range |
| RowImport.RunIsRunAllUntilStop | src/main/java/ru/school/library/service/ExcelImportService.java:255-259 | the capped loop is the uncapped loop up to the row of the 30th failure, and it stops early only for that |
| RowImport.RunKeepsFirstErrors | src/main/java/ru/school/library/service/ExcelImportService.java:255-259 | the failures reported are the first 30 of those an uncapped loop would collect; with fewer the two loops agree |
| RowImport.RunAllKeeps | src/main/java/ru/school/library/service/ExcelImportService.java:141-143 | an invariant every row step keeps holds after the loop, failed rows included |
| RowImport.ScanSheet | src/main/java/ru/school/library/service/ExcelImportService.java:43-47 | at most `cap` failures, each on a row after the header |
| RowImport.ScanSheetKeeps | src/main/java/ru/school/library/service/ExcelImportService.java:43-47 | an invariant every row step keeps holds after the scan |
| RowImport.Finish | src/main/java/ru/school/library/service/ExcelImportService.java:104-106 | the import succeeds exactly when no row failed; otherwise it reports the failures with the processed count |
| RowImport.FinishFirst | src/main/java/ru/school/library/service/ExcelImportService.java:510-540 | without a failure list the first failure is the import's failure |
| RowImport.AsNumber | src/main/java/ru/school/library/service/ExcelImportService.java:342-347 | a number that does not parse fails the row with its text; a parsed one passes through |
| Entities.MatchesFrom | src/main/java/ru/school/library/repo/BookTitleRepository.java:2-4 | the matching row ids, ascending, all of them |
| Entities.UniqueLookup | src/main/java/ru/school/library/repo/StockRepository.java:13-14 | an `Optional` query: empty exactly when no row matches, the row when it is the only match, an error exactly when two rows match |
| Entities.SaveAt | src/main/java/ru/school/library/service/ExcelImportService.java:64-69 | `orElseGet(save)`: a found row is overwritten, a missing one appended, and no other row changes |
| Entities.IsbnUniqueAfterWrite | src/main/java/ru/school/library/repo/BookTitleRepository.java:2 | a saved title that alone carries its ISBN, grade and subject is what the ISBN query then finds |
| Entities.KeyUniqueAfterWrite | src/main/java/ru/school/library/repo/BookTitleRepository.java:3 | likewise for the external-key query |
| Entities.NameUniqueAfterWrite | src/main/java/ru/school/library/repo/BookTitleRepository.java:4 | likewise for the title query, ignoring case |
| Catalog.FindOrCreateSubject | src/main/java/ru/school/library/service/ExcelImportService.java:64-69 | the subject named so ignoring case, or a new one appended exactly when there is none; fails exactly when two match |
| Catalog.FindOrCreateSubjectIdempotent | src/main/java/ru/school/library/service/ExcelImportService.java:64-69 | finding or creating the same subject again finds it and writes nothing |
| Catalog.LibrarianHit | src/main/java/ru/school/library/service/ExcelImportService.java:71-78 | a title with the row's trimmed ISBN wins; otherwise the lookup is by title ignoring case |
| Catalog.ResolveLibrarianTitle | src/main/java/ru/school/library/service/ExcelImportService.java:71-88 | the resolved title gets the row's fields; the ISBN title is chosen when one exists; a new title exactly when neither ISBN nor title matches; external key kept |
| Catalog.ResolveLibrarianTitleIdempotent | src/main/java/ru/school/library/service/ExcelImportService.java:71-88 | resolving the same librarian row again finds the same title and writes nothing |
| Catalog.EffectiveKeysDistinct | src/main/java/ru/school/library/service/ExcelImportService.java:358-362 | two edition years of one split row get different title keys |
| Catalog.FindOrCreateMeshTitle | src/main/java/ru/school/library/service/ExcelImportService.java:357-384 | the title under the effective key is updated, or a new one created without ISBN; a blank key always creates; a non-blank key's title is the only one under it afterwards |
| Catalog.FindOrCreateMeshTitleIdempotent | src/main/java/ru/school/library/service/ExcelImportService.java:357-384 | with a non-blank key, repeating the call finds the same title and writes nothing |
| Catalog.MeshBlankKeyAlwaysCreates | src/main/java/ru/school/library/service/ExcelImportService.java:364-378 | a MESH row without a federal-list number adds a new title each time |
| Catalog.ResolveTemplateTitle | src/main/java/ru/school/library/service/ExcelImportService.java:216-237 | a non-blank ISBN finds and updates its title, keeping publisher and key; otherwise a new title with the ISBN as written |
| Catalog.ResolveTemplateTitleIdempotent | src/main/java/ru/school/library/service/ExcelImportService.java:216-237 | with an ISBN, repeating the row resolves the same title and writes nothing |
| Catalog.ResolveLegacyTitle | src/main/java/ru/school/library/service/ExcelImportService.java:465-482 | the title matched ignoring case gets the row's title and publisher and keeps the rest; otherwise a bare new one; fails exactly on two matches |
| Catalog.LegacyTitleIdempotent | src/main/java/ru/school/library/service/ExcelImportService.java:465-482 | repeating an old-registry title resolves the same title and writes nothing |
| Catalog.WriteStockCounts | src/main/java/ru/school/library/service/ExcelImportService.java:90-96 | the stock row of the building and title gets the three counts, replacing the old ones, its other columns kept, or a new row is made; stock keys stay unique |
| Catalog.WriteStockCountsHeld | src/main/java/ru/school/library/service/ExcelImportService.java:90-96 | writing the counts a row already holds changes nothing |
| Catalog.WriteStockCountsIdempotent | src/main/java/ru/school/library/service/ExcelImportService.java:90-96 | writing the same counts twice leaves the table as the first write did |
| Catalog.StockUniqueAfterWrite | src/main/java/ru/school/library/entity/Stock.java:10 | the saved stock row is then the one the building-and-title query finds |
| YearSplit.ScanYearsSound | src/main/java/ru/school/library/service/ExcelImportService.java:393-397 | the match loop appends distinct years in 1900..2099, each read from the cell |
| YearSplit.ScanYearsEmpty | src/main/java/ru/school/library/service/ExcelImportService.java:393-397 | the loop finds nothing only when no year pattern occurs in the cell |
| YearSplit.ScanYearsMatches | src/main/java/ru/school/library/service/ExcelImportService.java:392-397 | the `find` loop yields the years it had, then every year the matches reach that it lacks, each once, in order of first appearance |
| YearSplit.NewInMeans | src/main/java/ru/school/library/service/ExcelImportService.java:395-396 | `if (!years.contains(y)) years.add(y)` keeps each new value once, loses none, adds none, and keeps the order of first appearance |
| YearSplit.DedupMeans | src/main/java/ru/school/library/service/ExcelImportService.java:395-396 | deduplication from an empty list: distinct, every value present, nothing else, first-appearance order |
| YearSplit.ParseYearCandidatesMatches | src/main/java/ru/school/library/service/ExcelImportService.java:386-397 | in a non-blank cell with a match, the candidates are exactly the matched years, each once, in order of first appearance |
| YearSplit.ParseYearCandidatesNoMatch | src/main/java/ru/school/library/service/ExcelImportService.java:398-402 | in a non-blank cell the matches miss, the single candidate is the cell as a nullable number |
| YearSplit.ParseYearCandidates | src/main/java/ru/school/library/service/ExcelImportService.java:386-404 | at least one candidate; a blank cell gives the single candidate null |
| YearSplit.ParseYearCandidatesFound | src/main/java/ru/school/library/service/ExcelImportService.java:392-397 | when a year occurs, the candidates are distinct years in range, each found in the cell |
| YearSplit.ParseYearCandidatesSeveral | src/main/java/ru/school/library/service/ExcelImportService.java:392-404 | several candidates are all present and pairwise different |
| YearSplit.ParseYearCandidatesFallback | src/main/java/ru/school/library/service/ExcelImportService.java:398-402 | a non-blank cell without a year is read as one nullable number, failing as that number fails |
| YearSplit.ParseYearCandidatesExamples | src/main/java/ru/school/library/service/ExcelImportService.java:386-404 | «» gives [null], «2019» gives [2019], «2019, 2020» gives both, «2020/2020» gives one |
| YearSplit.Split | src/main/java/ru/school/library/service/ExcelImportService.java:171-173 | one part per edition year |
| YearSplit.SplitConserves | src/main/java/ru/school/library/service/ExcelImportService.java:406-411 | the parts of a non-negative total add up to it |
| YearSplit.SplitEven | src/main/java/ru/school/library/service/ExcelImportService.java:406-411 | the parts never grow along the years and differ by at most one |
| YearSplit.SplitMonotone | src/main/java/ru/school/library/service/ExcelImportService.java:406-411 | a larger total never gives a smaller part |
| YearSplit.SplitExamples | src/main/java/ru/school/library/service/ExcelImportService.java:406-411 | 10 over three is 4, 3, 3; 7 over three is 3, 2, 2; one part is the total |
| YearSplit.SplitNegativeTotal | src/main/java/ru/school/library/service/ExcelImportService.java:406-411 | −7 over three gives −1, −1, −2, which add up to −4 |
| YearSplit.Shares | src/main/java/ru/school/library/service/ExcelImportService.java:169-173 | one share per year candidate |
| YearSplit.SharesConserve | src/main/java/ru/school/library/service/ExcelImportService.java:169-190 | the year shares' totals and free counts add up to the row's, each share keeps its year, in-use is never negative, and when the free count does not exceed the total, each share's in-use is its total minus its free |
| YearSplit.SharesExample | src/main/java/ru/school/library/service/ExcelImportService.java:169-190 | 10 copies with 7 free over three years give 4/3, 3/2, 3/2 |
| ClassNames.ScanClass | src/main/java/ru/school/library/service/ExcelImportService.java:564 | the scanned positions of digits, dash and letter are in order within the text |
| ClassNames.LooksLikeClassIsPattern | src/main/java/ru/school/library/service/ExcelImportService.java:564 | the matcher accepts exactly the texts the class-name expression matches |
| ClassNames.ShapeIsScan | src/main/java/ru/school/library/service/ExcelImportService.java:564 | however the expression matches, the scan finds the same digits and letter |
| ClassNames.IndexOf | src/main/java/ru/school/library/service/ExcelImportService.java:618 | the first occurrence of the character, or the length when absent |
| ClassNames.JavaSplit | src/main/java/ru/school/library/service/ExcelImportService.java:618 | `String.split` returns the text whole when the separator is absent and drops trailing empty pieces |
| ClassNames.ClassParts | src/main/java/ru/school/library/service/ExcelImportService.java:618-628 | whenever the compacted name splits into grade text and letter text, the letter text is not empty |
| ClassNames.ParseClassName | src/main/java/ru/school/library/service/ExcelImportService.java:614-634 | an accepted name has an int-range grade and a letter; a name too short is rejected with its text |
| ClassNames.NormalizeClassName | src/main/java/ru/school/library/service/ExcelImportService.java:615-617 | trimming, turning the en dash into a hyphen and removing spaces leave digits, optional hyphen and letter |
| ClassNames.SplitClassName | src/main/java/ru/school/library/service/ExcelImportService.java:618-628 | digits, optional hyphen and letter split into the digits and the letter |
| ClassNames.ParseAcceptedClassName | src/main/java/ru/school/library/service/ExcelImportService.java:564-634 | every name the matcher accepts parses to its digits' value and its letter upper-cased |
| ClassNames.ParseShape | src/main/java/ru/school/library/service/ExcelImportService.java:564-634 | the same, for any way the expression matches |
| ClassNames.DashedExample | src/main/java/ru/school/library/service/ExcelImportService.java:564-634 | «10-А» is a class name and parses to grade 10, letter А |
| ClassNames.BareNumberExample | src/main/java/ru/school/library/service/ExcelImportService.java:564 | a bare number is not a class name |
| ClassNames.PlainExample | src/main/java/ru/school/library/service/ExcelImportService.java:564-634 | «10А» parses to grade 10, letter А |
| ClassNames.SpacedExample | src/main/java/ru/school/library/service/ExcelImportService.java:564-634 | «10 - А» parses to grade 10, letter А |
| ClassNames.RejectedNamesFail | src/main/java/ru/school/library/service/ExcelImportService.java:614-634 | «А» is too short and fails; «А-10» fails on the number «А» |
| Enrollment.UpsertClass | src/main/java/ru/school/library/web/admin/AdminClassGroupsController.java:59-66 | the class of the building, grade and letter (ignoring case) is overwritten, or appended exactly when none exists; fails exactly when two match; class keys stay unique |
| Enrollment.SaveClassKeepsUnique | src/main/java/ru/school/library/entity/ClassGroup.java:9 | saving through the key lookup keeps the class key unique |
| Enrollment.UpsertClassHeld | src/main/java/ru/school/library/web/admin/AdminClassGroupsController.java:59-66 | saving what a class already holds changes nothing |
| Enrollment.UpsertClassIdempotent | src/main/java/ru/school/library/web/admin/AdminClassGroupsController.java:59-66 | saving the same class twice equals saving it once |
| Enrollment.UpsertFuture | src/main/java/ru/school/library/web/admin/AdminClassGroupsController.java:216-225 | the same for the projected class of a year |
| Enrollment.SaveFutureKeepsUnique | src/main/java/ru/school/library/entity/FutureClassGroup.java:11 | saving keeps the projected class key unique |
| Enrollment.UpsertFutureHeld | src/main/java/ru/school/library/web/admin/AdminClassGroupsController.java:216-225 | saving what a projected class already holds changes nothing |
| Enrollment.UpsertFutureFinds | src/main/java/ru/school/library/web/admin/AdminClassGroupsController.java:216-225 | after the save, the key lookup finds the saved class |
| Enrollment.UpsertFutureIdempotent | src/main/java/ru/school/library/web/admin/AdminClassGroupsController.java:216-225 | saving the same projected class twice equals saving it once |
| Enrollment.UpsertFutureKeeps | src/main/java/ru/school/library/web/admin/AdminClassGroupsController.java:145-157 | a save keeps every projected class present before it, by key |
| Enrollment.UpsertFutureHas | src/main/java/ru/school/library/web/admin/AdminClassGroupsController.java:145-157 | after a save the projected class of its key is present |
| ClassImport.ReadClassLine | src/main/java/ru/school/library/service/ExcelImportService.java:564-602 | a school list row reads name, headcount and building from columns 0, 1, 2; a template row reads code, grade, letter, headcount; the first bad cell fails the row |
| ClassImport.SaveClassLine | src/main/java/ru/school/library/service/ExcelImportService.java:576-582 | an unknown building fails the row with nothing written; a known one gets the class, saved exactly when the upsert succeeds; only the class table changes |
| ClassImport.ClassRow | src/main/java/ru/school/library/service/ExcelImportService.java:557-602 | a blank row is skipped and only a blank one; a bad row fails with nothing written; only the class table changes |
| ClassImport.ClassRowIdempotent | src/main/java/ru/school/library/service/ExcelImportService.java:557-602 | importing the same class row twice leaves the table as once |
| ClassImport.SchoolListExample | src/main/java/ru/school/library/service/ExcelImportService.java:567-582 | the row «10-А», 29, «сп1» saves class 10 А of building 1 with 29 students |
| ClassImport.TemplateExample | src/main/java/ru/school/library/service/ExcelImportService.java:583-602 | the row «1», 5, «б», 25 saves class 5 Б of building 1 with 25 students |
| ClassImport.TemplateLayoutRead | src/main/java/ru/school/library/service/ExcelImportService.java:583-602 | a template row reads as code, grade, letter upper-cased and headcount |
| ClassImport.ImportClasses | src/main/java/ru/school/library/service/ExcelImportService.java:546-605 | only the class table changes, class keys stay unique, failures never come back as a row list, and an empty sheet changes nothing |
| ClassImport.ClassScanKeeps | src/main/java/ru/school/library/service/ExcelImportService.java:546-605 | the loop keeps to the class table and keeps class keys unique |
| ClassImport.ClassImportFailsOnlyOnBadRows | src/main/java/ru/school/library/service/ExcelImportService.java:546-605 | when every row reads and names a known building, and class keys are unique, the import succeeds |
| ClassImport.ClassRowsSucceed | src/main/java/ru/school/library/service/ExcelImportService.java:546-605 | under the same conditions no row of the loop fails |
| ClassImport.SaveFutureLine | src/main/java/ru/school/library/service/ExcelImportService.java:713-748 | as SaveClassLine, for the projected classes of the given year |
| ClassImport.FutureRow | src/main/java/ru/school/library/service/ExcelImportService.java:705-748 | as ClassRow, for the projected classes of the given year |
| ClassImport.FutureRowIdempotent | src/main/java/ru/school/library/service/ExcelImportService.java:705-748 | importing the same projected row twice leaves the table as once |
| ClassImport.ImportFutureClasses | src/main/java/ru/school/library/service/ExcelImportService.java:692-760 | only projected classes change, their keys stay unique, up to 30 failures on rows after the header are reported, and an empty sheet changes nothing |
| ClassImport.FutureScanKeeps | src/main/java/ru/school/library/service/ExcelImportService.java:692-760 | the loop keeps to the projected classes and keeps their keys unique |
| CurriculumImport.ReadCurriculumLine | src/main/java/ru/school/library/service/ExcelImportService.java:516-519 | reads grade, subject, ISBN and copies per student; fails exactly when a number cell fails, grade first |
| CurriculumImport.CurriculumLineRoundTrip | src/main/java/ru/school/library/service/ExcelImportService.java:516-519 | a curriculum line written as cells reads back as itself |
| CurriculumImport.AddItem | src/main/java/ru/school/library/service/ExcelImportService.java:529-537 | a missing book fails with its ISBN, an ambiguous one fails, a repeated item violates the unique key; otherwise exactly one item is appended; the curriculum stays well formed |
| CurriculumImport.WithSubjects | src/main/java/ru/school/library/service/ExcelImportService.java:521-526 | adding a subject keeps the curriculum well formed |
| CurriculumImport.SaveCurriculumLine | src/main/java/ru/school/library/service/ExcelImportService.java:521-537 | the subject, then the item; an ambiguous subject fails with nothing written; the curriculum only grows |
| CurriculumImport.SaveCurriculumLineSaves | src/main/java/ru/school/library/service/ExcelImportService.java:521-537 | a saved line appends the item for its grade, subject, book and count |
| CurriculumImport.CurriculumRow | src/main/java/ru/school/library/service/ExcelImportService.java:513-537 | a row that does not read fails with nothing written; otherwise it is saved as its line |
| CurriculumImport.CurriculumRowTwiceFails | src/main/java/ru/school/library/entity/CurriculumItem.java:10 | importing a saved curriculum row again fails on the unique key |
| CurriculumImport.ImportCurriculum | src/main/java/ru/school/library/service/ExcelImportService.java:510-540 | the curriculum only grows and stays well formed, failures never come back as a row list, and an empty sheet changes nothing |
| CurriculumImport.CurriculumScanKeeps | src/main/java/ru/school/library/service/ExcelImportService.java:510-540 | the loop keeps the curriculum growing and well formed |
| StockImport.TitleThenStock | src/main/java/ru/school/library/service/ExcelImportService.java:90-96 | after the title, the stock row of the building and title holds the counts; a failed title writes nothing more; only stock tables change |
| StockImport.LibrarianRow | src/main/java/ru/school/library/service/ExcelImportService.java:49-96 | a bad number fails the row even when it would be skipped; a row is skipped exactly when title and subject are blank; only stock tables change and stock keys stay unique |
| StockImport.SaveLibrarianRow | src/main/java/ru/school/library/service/ExcelImportService.java:64-96 | a row that is not skipped is saved or fails, writing only stock tables |
| StockImport.LibrarianRowStores | src/main/java/ru/school/library/service/ExcelImportService.java:64-96 | a saved row leaves a title with its title, grade and subject whose stock in the building holds the row's counts clamped at zero |
| StockImport.LibrarianRowIdempotent | src/main/java/ru/school/library/service/ExcelImportService.java:49-96 | importing the same librarian row twice equals importing it once |
| StockImport.ImportLibrarianStock | src/main/java/ru/school/library/service/ExcelImportService.java:25-108 | an unknown building or a missing header rejects the file with nothing written; otherwise up to 30 failures are reported |
| StockImport.ImportLibrarianStockKeeps | src/main/java/ru/school/library/service/ExcelImportService.java:25-108 | the import writes only stock tables and keeps one stock row per building and title |
| StockImport.ReadTemplateRow | src/main/java/ru/school/library/service/ExcelImportService.java:195-204 | the ten fixed columns; the code and ISBN are the trimmed cells |
| StockImport.TemplateRow | src/main/java/ru/school/library/service/ExcelImportService.java:193-254 | no row is skipped; a bad number or an unknown building code fails the row with nothing written |
| StockImport.SaveTemplateRow | src/main/java/ru/school/library/service/ExcelImportService.java:209-251 | a template row with a known building is saved or fails, writing only stock tables |
| StockImport.TemplateRowStores | src/main/java/ru/school/library/service/ExcelImportService.java:209-251 | a saved row leaves its title with the row's stock counts as written, negatives included |
| StockImport.TemplateRowIdempotent | src/main/java/ru/school/library/service/ExcelImportService.java:209-251 | with an ISBN, importing the same template row twice equals once |
| StockImport.TemplateRowWithoutIsbnAddsTitle | src/main/java/ru/school/library/service/ExcelImportService.java:216-237 | without an ISBN, every import of a template row creates one more title |
| StockImport.MeshYears | src/main/java/ru/school/library/service/ExcelImportService.java:160 | the year cell gives at least one candidate, several only when distinct years; its failure is the year parse's |
| StockImport.ReadMeshRow | src/main/java/ru/school/library/service/ExcelImportService.java:152-160 | a MESH row that reads has year candidates that are apart |
| StockImport.ParseMeshCells | src/main/java/ru/school/library/service/ExcelImportService.java:152-160 | the MESH cells parsed in the source's order; title, subject and federal-list number kept as read |
| StockImport.MeshRow | src/main/java/ru/school/library/service/ExcelImportService.java:146-192 | skipped exactly when the title is blank; a row that does not read fails with nothing written; only stock tables change |
| StockImport.SaveMeshRow | src/main/java/ru/school/library/service/ExcelImportService.java:162-190 | the subject, then every year share, writing only stock tables |
| StockImport.WriteShares | src/main/java/ru/school/library/service/ExcelImportService.java:169-190 | the year loop writes only stock tables and no subject |
| StockImport.ShareRecorded | src/main/java/ru/school/library/service/ExcelImportService.java:175-189 | writing one share leaves a title under its key whose stock holds the share's counts |
| StockImport.ShareKeepsRecorded | src/main/java/ru/school/library/service/ExcelImportService.java:175-189 | writing a share with another key keeps what an earlier share recorded |
| StockImport.WriteSharesKeeps | src/main/java/ru/school/library/service/ExcelImportService.java:169-190 | the rest of the year loop keeps what an earlier share recorded |
| StockImport.WriteSharesRecordsAll | src/main/java/ru/school/library/service/ExcelImportService.java:169-190 | a completed year loop records every share, when no two share a non-blank key |
| StockImport.MeshKeysApart | src/main/java/ru/school/library/service/ExcelImportService.java:358-362 | the year shares of one row never share a key |
| StockImport.MeshRowStores | src/main/java/ru/school/library/service/ExcelImportService.java:162-190 | a saved MESH row records every year share under the row's subject |
| StockImport.MeshRowRecords | src/main/java/ru/school/library/service/ExcelImportService.java:146-192 | a MESH row that goes through records every year share of the row as read |
| StockImport.ImportRegistry | src/main/java/ru/school/library/service/ExcelImportService.java:116-265 | a missing header or an unknown building rejects the file with nothing written; otherwise up to 30 failures are reported |
| StockImport.RegistryScan | src/main/java/ru/school/library/service/ExcelImportService.java:133-263 | the row loop, MESH or template by the header, never rejects the file and reports at most 30 failures |
| StockImport.ImportRegistryKeeps | src/main/java/ru/school/library/service/ExcelImportService.java:116-265 | the registry import writes only stock tables and keeps one stock row per building and title |
| StockImport.LegacyRow | src/main/java/ru/school/library/service/ExcelImportService.java:445-496 | skipped exactly when grade and title are blank; a bad quantity fails the row with nothing written; only stock tables change |
| StockImport.SaveLegacyRow | src/main/java/ru/school/library/service/ExcelImportService.java:458-496 | an old-registry row is saved or fails, writing only stock tables |
| StockImport.LegacyRowStores | src/main/java/ru/school/library/service/ExcelImportService.java:458-496 | a saved row leaves its title with the quantity as total and as free, none in use |
| StockImport.LegacyRowIdempotent | src/main/java/ru/school/library/service/ExcelImportService.java:458-496 | importing the same old-registry row twice equals once |
| StockImport.ImportLegacyRegistry | src/main/java/ru/school/library/service/ExcelImportService.java:421-509 | a missing header or an unknown building rejects the file with nothing written; otherwise up to 30 failures are reported |
| StockImport.ImportLegacyRegistryKeeps | src/main/java/ru/school/library/service/ExcelImportService.java:421-509 | the old-registry import writes only stock tables and keeps one stock row per building and title |
| StockImport.ScanWrites | src/main/java/ru/school/library/service/ExcelImportService.java:141-143 | a loop of stock row steps writes only stock tables and keeps stock keys unique |
| ClassGroups.SaveClass | src/main/java/ru/school/library/web/admin/AdminClassGroupsController.java:47-73 | an unknown building fails; otherwise the class under the normalised letter gets the headcount clamped at zero; nothing else changes and class keys stay unique |
| ClassGroups.SaveClassIdempotent | src/main/java/ru/school/library/web/admin/AdminClassGroupsController.java:47-73 | saving the same class twice equals once |
| ClassGroups.TargetYear | src/main/java/ru/school/library/web/admin/AdminClassGroupsController.java:119 | the year asked for, or the one after the current year |
| ClassGroups.PriorStudents | src/main/java/ru/school/library/web/admin/AdminClassGroupsController.java:150 | the headcount the projected class had before the save, 0 when new |
| ClassGroups.PromoteGroups | src/main/java/ru/school/library/web/admin/AdminClassGroupsController.java:127-157 | a graduating class writes nothing; any other gets its projected class one grade up; other buildings and years are kept |
| ClassGroups.PromoteOne | src/main/java/ru/school/library/web/admin/AdminClassGroupsController.java:125-172 | one class of the loop: counted once as promoted or graduated, with one log entry carrying the headcount it replaced |
| ClassGroups.PromoteOneUnique | src/main/java/ru/school/library/entity/FutureClassGroup.java:11 | with unique projected keys a step cannot fail and keeps them unique |
| ClassGroups.PromoteAll | src/main/java/ru/school/library/web/admin/AdminClassGroupsController.java:125-172 | the loop fails only on a non-unique projected class, which needs a class that moves up |
| ClassGroups.PromoteAllStops | src/main/java/ru/school/library/web/admin/AdminClassGroupsController.java:125-178 | a loop that failed stopped at some class: it kept what the classes before it did, and that class's step is the one that failed |
| ClassGroups.CountGraduates | src/main/java/ru/school/library/web/admin/AdminClassGroupsController.java:127-143 | at most one graduate per class |
| ClassGroups.PromoteAllMeans | src/main/java/ru/school/library/web/admin/AdminClassGroupsController.java:125-172 | the loop counts every class once, the graduates being the classes of grade 11 or above; it appends one log entry per class and keeps other years |
| ClassGroups.PromoteAllUnique | src/main/java/ru/school/library/web/admin/AdminClassGroupsController.java:125-172 | with unique projected keys the loop cannot fail and keeps them unique |
| ClassGroups.PromoteAllLog | src/main/java/ru/school/library/web/admin/AdminClassGroupsController.java:127-171 | the new entries are, in order, a DELETE of each graduating class and an UPSERT one grade up of each other class |
| ClassGroups.MoveUp | src/main/java/ru/school/library/web/admin/AdminClassGroupsController.java:145-157 | the save of a promoted class fails only on a non-unique key, writes the class, keeps other buildings and years, and keeps every projected class found by key before |
| ClassGroups.MoveUpAppends | src/main/java/ru/school/library/web/admin/AdminClassGroupsController.java:145-157 | a promoted class whose next-year key no projected class has is saved as a new projected class, appended after all the others |
| ClassGroups.PromoteOneTarget | src/main/java/ru/school/library/web/admin/AdminClassGroupsController.java:145-157 | a class that moved up has its projected class right after its step |
| ClassGroups.PromoteAllTargets | src/main/java/ru/school/library/web/admin/AdminClassGroupsController.java:125-172 | after the loop every class that moved up has its projected class |
| ClassGroups.ClassesOf | src/main/java/ru/school/library/repo/ClassGroupRepository.java:10 | exactly the building's classes |
| ClassGroups.Promote | src/main/java/ru/school/library/web/admin/AdminClassGroupsController.java:104-180 | an unknown building fails with nothing written; a building without classes is refused with nothing written; a failure in the loop is reported with the earlier steps' writes kept; in every case only projected classes and the log change |
| ClassGroups.PromoteKeepsCompletedSteps | src/main/java/ru/school/library/web/admin/AdminClassGroupsController.java:105-178 | a promotion that failed on an existing building stopped at a class that was to move up; the log keeps one entry for each class before it, in order, their projected classes are present, and other years are kept |
| ClassGroups.PromoteUnique | src/main/java/ru/school/library/web/admin/AdminClassGroupsController.java:104-180 | with unique projected keys, promoting an existing building does not fail and keeps them unique |
| ClassGroups.PromoteCounts | src/main/java/ru/school/library/web/admin/AdminClassGroupsController.java:104-180 | when the promotion did not fail: promoted plus graduated is the building's class count, one log entry per class after the old log, other years kept |
| ClassGroups.PromoteMeans | src/main/java/ru/school/library/web/admin/AdminClassGroupsController.java:104-180 | when the promotion did not fail: the log gains the classes' entries in order, and every class that moved up has its projected class |
| ClassGroups.PromoteAtomic | src/main/java/ru/school/library/web/admin/AdminClassGroupsController.java:105 | promote as one transaction: the same outcome as Promote, a failure writing nothing and a success writing what Promote writes |
| ClassGroups.PromotePartialExample | src/main/java/ru/school/library/web/admin/AdminClassGroupsController.java:146-148 | classes 5-A and 6-A against projected 7-A and 7-a: the second step fails, the first step's class and log entry stay, and the transactional reading writes nothing |
| ClassGroups.SaveFutureWith | src/main/java/ru/school/library/web/admin/AdminClassGroupsController.java:216-240 | the upsert and one UPSERT log entry with the trimmed note; only projected classes and the log change |
| ClassGroups.SaveFuture | src/main/java/ru/school/library/web/admin/AdminClassGroupsController.java:203-247 | an unknown building fails; the projected class gets the headcount clamped at zero; the log gets one entry from the previous headcount (0 when new) to the new one |
| ClassGroups.SaveFutureLogsChange | src/main/java/ru/school/library/web/admin/AdminClassGroupsController.java:216-240 | two saves under one key log the first's headcount as the second's old value |
| ClassGroups.SaveFutureAsWritten | src/main/java/ru/school/library/web/admin/AdminClassGroupsController.java:216-240 | as the source reads it, an existing projected class logs old equal to new |
| ClassGroups.SaveFutureAsWrittenExample | src/main/java/ru/school/library/web/admin/AdminClassGroupsController.java:223-224 | a class of 25 saved with 30 logs 30 as old in the source and 25 in the corrected model |
| Reconciliation.GradeStudentsNone | src/main/java/ru/school/library/service/ReconciliationService.java:30-36 | a grade without classes in the building has no students |
| Reconciliation.GradeStudentsReplace | src/main/java/ru/school/library/service/ReconciliationService.java:30-32 | replacing a class changes its grade's sum by the headcount difference and no other grade's |
| Reconciliation.GradeStudentsAppend | src/main/java/ru/school/library/service/ReconciliationService.java:30-32 | a new class adds its headcount to its own grade only |
| Reconciliation.AvailableOf | src/main/java/ru/school/library/service/ReconciliationService.java:38 | the stock row's free copies, or 0 without a row |
| Reconciliation.Deficit | src/main/java/ru/school/library/service/ReconciliationService.java:39 | never negative; zero exactly when the need is covered; otherwise the missing count (on unbounded integers, see Left out) |
| Reconciliation.CalcForBuilding | src/main/java/ru/school/library/service/ReconciliationService.java:29-51 | one row per curriculum item, in the order the curriculum query returns them (modelled as id order) |
| Reconciliation.CalcForBuildingRows | src/main/java/ru/school/library/service/ReconciliationService.java:35-48 | each row has the building code, the item's grade, subject and title, students times copies as the need, the building's free copies, and the deficit |
| Reconciliation.DeficitExample | src/main/java/ru/school/library/service/ReconciliationService.java:36-39 | 30 students needing 2 copies each against 40 free: 60 needed, 20 missing |
| Reconciliation.InsertKey | src/main/java/ru/school/library/service/ReconciliationService.java:55-63 | a key put among sorted distinct keys keeps them sorted and distinct |
| Reconciliation.KeysOf | src/main/java/ru/school/library/service/ReconciliationService.java:55 | the distinct keys of the rows, ascending, exactly those some row has |
| Reconciliation.Groups | src/main/java/ru/school/library/service/ReconciliationService.java:56-62 | one summary row per key with the sums of its rows |
| Reconciliation.Summarize | src/main/java/ru/school/library/service/ReconciliationService.java:53-65 | groups strictly ascending by key in `String.compareTo` order, each holding its rows' sums |
| Reconciliation.SummarizeKeys | src/main/java/ru/school/library/service/ReconciliationService.java:55 | a group for every row's key and for no other |
| Reconciliation.KeyTotalCovers | src/main/java/ru/school/library/service/ReconciliationService.java:55-61 | over distinct keys covering every row, the group totals add up to the rows' total |
| Reconciliation.GroupsTotal | src/main/java/ru/school/library/service/ReconciliationService.java:56-62 | summing the summary rows is summing the groups key by key |
| Reconciliation.SummarizeConserves | src/main/java/ru/school/library/service/ReconciliationService.java:53-65 | the summary loses nothing: needed, available and deficit add up to their totals over the rows |
| Planning.FutureGradeStudentsNone | src/main/java/ru/school/library/service/PlanningService.java:24-38 | without a projected class of the building, year and grade there are no students to plan for |
| Planning.FutureGradeStudentsOwnOnly | src/main/java/ru/school/library/service/PlanningService.java:24-31 | classes of other buildings or years do not count |
| Planning.IsbnOrKey | src/main/java/ru/school/library/service/PlanningService.java:43-53 | the non-blank ISBN, else the external key, else empty |
| Planning.PlanOfMeans | src/main/java/ru/school/library/service/PlanningService.java:43-78 | a plan row has the item's grade and count, the need as students times copies, the building's free copies (0 without a title or stock), and a deficit zero exactly when covered (without 32-bit wrap, see Left out) |
| Planning.PlanRows | src/main/java/ru/school/library/service/PlanningService.java:35-80 | no row for a grade without students |
| Planning.PlanRowsExactly | src/main/java/ru/school/library/service/PlanningService.java:35-80 | a row for every item whose grade has students, and every row is such an item's |
| Planning.CalcPlan | src/main/java/ru/school/library/service/PlanningService.java:20-88 | an unknown building fails; otherwise the plan rows, sorted by grade, subject and title |
| Planning.PlanKeyLeq | src/main/java/ru/school/library/service/PlanningService.java:82-85 | the sort key orders by grade, then subject, then title, ignoring case |
| Planning.CalcPlanOrdered | src/main/java/ru/school/library/service/PlanningService.java:82-85 | the plan as shown: grades ascending, then subjects, then titles, ignoring case |
| Sorting.KeyLeqTotal | src/main/java/ru/school/library/service/InventoryService.java:36-38 | any two sort keys are comparable |
| Sorting.KeyLeqTransitive | src/main/java/ru/school/library/service/InventoryService.java:36-38 | the comparator chain is transitive |
| Sorting.InsertByKey | src/main/java/ru/school/library/service/InventoryService.java:36-38 | inserting keeps the rows sorted and adds exactly the row |
| Sorting.SortByKey | src/main/java/ru/school/library/service/InventoryService.java:36-38 | the same rows, in key order |
| Sorting.SortByKeyKeepsSorted | src/main/java/ru/school/library/service/InventoryService.java:36-38 | rows already in order come back unchanged |
| Sorting.PermutationNoDuplicates | src/main/java/ru/school/library/service/InventoryService.java:34-38 | reordering rows without repeats introduces none |
| Inventory.MapStock | src/main/java/ru/school/library/service/InventoryService.java:52-73 | the row of a stock: expected is free plus issued plus in classrooms; diff is zero exactly when the total matches and positive exactly when it exceeds; a grade exactly when the stock has a title |
| Inventory.MapAll | src/main/java/ru/school/library/service/InventoryService.java:34-35 | one row per stock, in order |
| Inventory.MapAllNoDuplicates | src/main/java/ru/school/library/service/InventoryService.java:34-35 | distinct stocks give distinct rows |
| Inventory.StocksOf | src/main/java/ru/school/library/repo/StockRepository.java:11 | exactly the building's stocks, in id order, which stands for the unordered query's order |
| Inventory.ForBuilding | src/main/java/ru/school/library/service/InventoryService.java:33-40 | the building's stock rows, reordered and sorted |
| Inventory.All | src/main/java/ru/school/library/service/InventoryService.java:42-50 | every stock row, reordered and sorted |
| Inventory.ForBuildingRows | src/main/java/ru/school/library/service/InventoryService.java:33-40 | one building's inventory lists each of its stocks once and nothing else |
| Inventory.AllRows | src/main/java/ru/school/library/service/InventoryService.java:42-50 | the whole inventory lists every stock exactly once |
| Inventory.ForBuildingOrdered | src/main/java/ru/school/library/service/InventoryService.java:36-38 | grades ascending (a missing grade as 0), then subjects, then titles, ignoring case |
| Inventory.AllOrdered | src/main/java/ru/school/library/service/InventoryService.java:45-48 | building names ignoring case, then as ForBuildingOrdered |
| WriteOffs.MovementNote | src/main/java/ru/school/library/service/WriteOffService.java:51 | the note is «Списание: » followed by the reason, or by nothing |
| WriteOffs.WriteOffStock | src/main/java/ru/school/library/service/WriteOffService.java:22-53 | a missing stock row, a duplicated one, a non-positive count or too few free copies fail, in that order; success exactly otherwise, decrementing free copies and the total (not below zero, without 32-bit wrap) and appending one write-off and one movement, nothing else changed |
| WriteOffs.WriteOffConserves | src/main/java/ru/school/library/service/WriteOffService.java:30-41 | free copies plus written-off copies of the stock are the same before and after; other stocks' write-offs are unchanged |
| WriteOffs.WriteOffTwice | src/main/java/ru/school/library/service/WriteOffService.java:27-32 | two write-offs succeed together exactly when both are positive and their sum is free, and then leave the stock as one of the sum |
| WriteOffs.StockOfAfterWriteOff | src/main/java/ru/school/library/service/WriteOffService.java:24-32 | after a write-off the stock lookup finds the same row |

## Left out

- The spreadsheet codec: workbooks, numeric and boolean cells, and
  `setCellType`. Every cell is its text. `cellString` gives a whole number
  as its decimal text, which is what a text cell holding it reads as.
- `Double.parseDouble` accepts more than plain decimal literals (exponents,
  `NaN`, hexadecimal). Numbers.ParseDoubleTruncated reads optional sign,
  digits and an optional fraction, and fails on anything else.
- Numbers.ParseDoubleTruncated: drops the fraction exactly, where Java first
  rounds the literal to the nearest double. Beyond about 16 significant
  digits the two differ: "0.99999999999999999" is 1 in Java and 0 here,
  "2.9999999999999999" is 3 in Java and 2 here. The failure text is always
  `For input string: "…"`, where Java words some failures differently
  ("1.2.3" fails with "multiple points").
- Numbers.ParseInt: inherits both differences of ParseDoubleTruncated.
- Numbers.ParseJavaInt: accepts ASCII digits only. `Integer.parseInt` also
  accepts other Unicode decimal digits ("١٢" reads as 12).
- Text.Lower: case folding covers ASCII and the Cyrillic block
  U+0400..U+045F only. `compareToIgnoreCase` is modelled as comparing the
  lower-cased texts.
- Reconciliation.CalcForBuilding: does not model 32-bit wrap-around of
  `students * perStudent` or of the `summingInt` sums, because the numbers
  are unbounded integers.
- Reconciliation.GroupSum: does not model 32-bit wrap-around of the
  `mapToInt().sum()` sums, for the same reason.
- Planning.PlanOf: does not model 32-bit wrap-around of the need.
- Planning.FutureGradeStudents: does not model 32-bit wrap-around of the
  `summingInt` sum.
- Inventory.Accounted: does not model 32-bit wrap-around of the expected
  total or of the diff.
- YearSplit.Shares: does not model 32-bit wrap-around of
  `totalPart - availablePart` (ExcelImportService.java:173). With a total
  that saturated to 2147483647 and a free count of -5, Java's in-use is 0
  and the model's is 2147483652.
- Reconciliation.Deficit: does not model 32-bit wrap-around of
  `needed - available` (ReconciliationService.java:39). Its "0 exactly when
  needed <= available" holds of the unbounded difference only: with needed
  1 and a stored available of -2147483648, Java's deficit is 0 and the
  model's is 2147483649.
- Planning.PlanOfMeans: the deficit it states inherits the same missing
  wrap-around of `needed - available` (PlanningService.java:64).
- WriteOffs.WriteOffStock: does not model 32-bit wrap-around of
  `st.getTotal() - count` (WriteOffService.java:31). A stored total of
  -2147483648 written off by 1 gives 2147483647 in Java and 0 in the model.
- List queries without an ORDER BY (`classes.findByBuilding_Id`,
  `stocks.findByBuilding_Id`, `curriculum.findAll`) are modelled as
  returning rows in id order. The database may return another order, so the
  order of Promote's log, which steps of a failed promotion completed, and
  the order of the reconciliation rows follow that assumption.
- Sorting.SortByKey: the sort is proved to be sorted and a permutation.
  Its stability is not proved, so the order of rows with equal keys is not
  promised to be the order `List.sort` gives.
- Text.LexLeq: orders by code point. `String.compareTo` orders by UTF-16
  unit, and the two differ between a supplementary character and one in
  U+E000..U+FFFF.
- `Comparator.nullsLast` is left out. Names are never null in the model;
  a missing subject or title reads as "", as in `map`.
- The `requires StockKeysUnique` of the reports and the `CurriculumLinked`
  of reconciliation stand for the database's unique and foreign-key
  constraints. The model does not derive them from the constraints.
- `FutureClassGroupRepository` as given lacks the query
  `findByBuilding_IdAndAcademicYearAndGradeAndLetterIgnoreCase` that the
  controller calls. It is modelled by the key it names.
- Controllers: redirects, flash messages, the current user and the clock.
  The actor, the current year and the timestamp are parameters.
- Exception texts are kept only where the model reports them. The row
  failure line is built (`RowImport.RowErrorText`). The final summary
  message that joins the lines is not. The texts of `NonUniqueResult` and
  `DuplicateKey` are stand-ins: Hibernate appends the count of results
  found, and the database's message names the statement and the
  constraint.
- ClassGroups.Promote: every log entry of one promotion carries the same
  `now`. The controller calls `OffsetDateTime.now()` once per entry
  (AdminClassGroupsController.java:130 and :160), so Java's entries may
  differ by the time between the calls.
- The write-off takes one timestamp `now` for the write-off and the
  movement. `WriteOffService` reads the clock twice (lines 40 and 50), so
  the two stamps may differ by the time between the reads.
- `delete`, `deleteFuture`, the page views and the Excel export are left
  out. They are outside the modelled core.
- The stock columns `meshTotal` and `suufTotal` are carried but no import
  writes them.
- Column lengths are not modelled: a text is stored whatever its length,
  where the database rejects a value longer than its column and the save
  throws. The limits are 10 for the projected class's letter
  (FutureClassGroup.java:25) and the log's letter
  (EnrollmentChangeLog.java:35), 500 for the log's note
  (EnrollmentChangeLog.java:46), 2000 for the stock's comment
  (Stock.java:40), and the default 255 for every other text column,
  among them the movement's note and the write-off's reason. Members that
  report success where Java would fail on an over-long text:
  - WriteOffs.WriteOffStock: a reason longer than 245 characters makes
    the movement note «Списание: reason» too long, and the transactional
    `writeOff` rolls back.
  - ClassGroups.SaveFuture and ClassGroups.SaveFutureAsWritten: a note
    longer than 500 characters fails the log's save after the projected
    class was saved. `saveFuture` is not transactional, so Java keeps the
    class without a log entry.
  - ClassGroups.Promote: a class letter longer than 10 characters fails
    the save of its projected class.
  - ClassImport.ImportFutureClasses, ClassImport.ImportClasses and the
    stock imports: a cell longer than its column fails that row in Java.
- Concurrency and transaction isolation are left out.
- The rollback of a failed import is left out: the import methods are not
  transactional, and the model keeps the rows written before a failure.

## Findings

| source | as written | input that shows it | evidently intended | confidence | as-written member | corrected member |
|---|---|---|---|---|---|---|
| src/main/java/ru/school/library/web/admin/AdminClassGroupsController.java:105-178 | `promote` is `@Transactional` but catches every exception inside the transaction, so the transaction commits: the projected classes and log entries of the steps before a failing step stay written, and the user sees only the error | a building with classes 5-A then 6-A, whose target year already holds projected classes 7-A and 7-a (a pair no writer in the modelled code stores, since each upper-cases the letter, so it comes from data written elsewhere); the step of 6-A finds two classes under its key and fails after 6-A and its log entry were written | a failed promotion writes nothing | not executed | ClassGroups.Promote, ClassGroups.PromoteKeepsCompletedSteps, ClassGroups.PromotePartialExample | ClassGroups.PromoteAtomic |
| src/main/java/ru/school/library/web/admin/AdminClassGroupsController.java:216-224 | the log's old headcount is read from the projected class after `setStudents` has already set the new one on the same object, so an existing class always logs old equal to new | a projected class 5 А of 2026 with 25 students, saved with 30 | the log records 25 → 30 | not executed | ClassGroups.SaveFutureAsWritten, ClassGroups.SaveFutureAsWrittenExample | ClassGroups.SaveFuture, ClassGroups.SaveFutureLogsChange |

=== FILE: building_code.dfy ===
/**
 * normalizeBuildingCode: free-form building references in the spreadsheets
 * ("1", "корпус 1", "сп1", "sp1") are reduced to the code buildings are
 * stored under. The function never fails; an unknown result is rejected
 * later by the building lookup.
 */
module BuildingCodes {
  import opened Text

  /**
   * The text left for the digit filter: lower-cased and trimmed, the word
   * "корпус" removed, a Cyrillic "сп" turned into Latin "sp", and a leading
   * "sp" stripped.
   */
  function Stripped(raw: string): string {
    var lowered := Lower(Trim(raw));
    var noWord := Trim(Replace(lowered, "корпус", ""));
    var latin := Replace(noWord, "сп", "sp");
    if StartsWith(latin, "sp") then Trim(latin[2..]) else latin
  }

  /** The digits of the stripped text, or, when it has none, the original text trimmed with its case kept. */
  function NormalizeBuildingCode(raw: string): string {
    var digits := Digits(Stripped(raw));
    if !IsBlank(digits) then digits else Trim(raw)
  }

  lemma LiteralsHaveNoDigits()
    ensures !HasDigit("корпус") && !HasDigit("") && !HasDigit("сп") && !HasDigit("sp")
  {
  }

  lemma DropSpKeepsDigits(latin: string)
    requires StartsWith(latin, "sp")
    ensures Digits(Trim(latin[2..])) == Digits(latin)
  {
    assert latin == latin[..2] + latin[2..];
    DigitsAppend(latin[..2], latin[2..]);
    assert latin[..2] == "sp";
    LiteralsHaveNoDigits();
    TrimKeepsDigits(latin[2..]);
  }

  /** Every stripping step only removes or rewrites letters and blanks, so the digits survive. */
  lemma StrippedKeepsDigits(raw: string)
    ensures Digits(Stripped(raw)) == Digits(raw)
  {
    LiteralsHaveNoDigits();
    var lowered := Lower(Trim(raw));
    TrimKeepsDigits(raw);
    LowerKeepsDigits(Trim(raw));
    var replaced := Replace(lowered, "корпус", "");
    ReplaceKeepsDigits(lowered, "корпус", "");
    var noWord := Trim(replaced);
    TrimKeepsDigits(replaced);
    var latin := Replace(noWord, "сп", "sp");
    ReplaceKeepsDigits(noWord, "сп", "sp");
    if StartsWith(latin, "sp") {
      DropSpKeepsDigits(latin);
    }
  }

  lemma DigitsNotBlank(d: string)
    requires |d| > 0 && AllDigits(d)
    ensures !IsBlank(d)
  {
    assert !IsJavaWhitespace(d[0]);
  }

  /**
   * The whole behaviour in one line: a code with any digit becomes exactly
   * its digits, in order; a code without digits is only trimmed.
   */
  lemma {:induction false} NormalizeBuildingCodeSpec(raw: string)
    ensures NormalizeBuildingCode(raw) == (if HasDigit(raw) then Digits(raw) else Trim(raw))
  {
    var d := Digits(Stripped(raw));
    StrippedKeepsDigits(raw);
    assert d == Digits(raw);
    if HasDigit(raw) {
      DigitsNotBlank(d);
    } else {
      assert d == "";
    }
  }

  /** Normalising an already normalised code changes nothing. */
  lemma {:induction false} NormalizeBuildingCodeIdempotent(raw: string)
    ensures NormalizeBuildingCode(NormalizeBuildingCode(raw)) == NormalizeBuildingCode(raw)
  {
    var n := NormalizeBuildingCode(raw);
    NormalizeBuildingCodeSpec(raw);
    NormalizeBuildingCodeSpec(n);
    if HasDigit(raw) {
      DigitsOfAllDigits(n);
      assert IsAsciiDigit(n[0]);
    } else {
      TrimIdempotent(raw);
      TrimKeepsDigits(raw);
      assert !HasDigit(n);
    }
  }

  /**
   * The spellings of building 1 the normaliser's comment lists («сп1»,
   * «sp1», «корпус 1», «1») all normalise to "1", and so do the
   * capitalised «Корпус 1» and «SP1».
   */
  lemma BuildingOneSpellings()
    ensures NormalizeBuildingCode("1") == "1"
    ensures NormalizeBuildingCode("сп1") == "1"
    ensures NormalizeBuildingCode("sp1") == "1"
    ensures NormalizeBuildingCode("корпус 1") == "1"
    ensures NormalizeBuildingCode("Корпус 1") == "1"
    ensures NormalizeBuildingCode("SP1") == "1"
  {
    NormalizeBuildingCodeSpec("1");
    NormalizeBuildingCodeSpec("сп1");
    NormalizeBuildingCodeSpec("sp1");
    NormalizeBuildingCodeSpec("корпус 1");
    NormalizeBuildingCodeSpec("Корпус 1");
    NormalizeBuildingCodeSpec("SP1");
    assert IsAsciiDigit("1"[0]);
    assert "сп1"[2] == '1';
    assert "sp1"[2] == '1';
    assert "корпус 1"[7] == '1';
    assert "Корпус 1"[7] == '1';
    assert "SP1"[2] == '1';
    assert Digits("сп1") == "1";
    assert Digits("sp1") == "1";
    assert Digits("корпус 1") == "1";
    assert Digits("Корпус 1") == "1";
    assert Digits("SP1") == "1";
  }
}

=== FILE: catalog.dfy ===
/**
 * Finding or creating the subjects, book titles and stock rows an imported
 * row refers to.
 *
 * A book title is identified differently by each import format: the
 * librarian template by ISBN and then by title, the MESH registry by its
 * federal-list number (one title per edition year when a row lists several
 * years), our registry template by ISBN alone, the old registry by title
 * alone. Every lookup is within one grade and one subject.
 */
module Catalog {
  import opened Wrappers
  import opened Text
  import opened Entities

  // ---------------------------------------------------------------------
  // Subjects
  // ---------------------------------------------------------------------

  /**
   * subjects.findByNameIgnoreCase(name).orElseGet(save new): the subject
   * whose name equals `name` ignoring case, or a new one named `name`.
   */
  function FindOrCreateSubject(subjects: seq<Subject>, name: string): (r: Result<Stored<Subject>, ImportError>)
    ensures r.Failure? <==> exists i, j :: 0 <= i < j < |subjects| && EqualsIgnoreCase(subjects[i].name, name) && EqualsIgnoreCase(subjects[j].name, name)
    ensures r.Success? ==> r.value.id < |r.value.rows| && EqualsIgnoreCase(r.value.rows[r.value.id].name, name)
    ensures r.Success? ==>
      || (r.value.rows == subjects && r.value.id < |subjects|)
      || (r.value.rows == subjects + [Subject(name)] && r.value.id == |subjects|)
    ensures r.Success? ==> (r.value.id == |subjects| <==> forall j :: 0 <= j < |subjects| ==> !EqualsIgnoreCase(subjects[j].name, name))
  {
    match SubjectByName(subjects, name)
    case Ambiguous => Failure(NonUniqueResult)
    case Found(i) => Success(Stored(subjects, i))
    case Missing => Success(Stored(subjects + [Subject(name)], |subjects|))
  }

  /** Once a subject was found or created, doing it again finds the same one and writes nothing. */
  lemma FindOrCreateSubjectIdempotent(subjects: seq<Subject>, name: string)
    requires FindOrCreateSubject(subjects, name).Success?
    ensures var s := FindOrCreateSubject(subjects, name).value;
      FindOrCreateSubject(s.rows, name) == Success(s)
  {
    var s := FindOrCreateSubject(subjects, name).value;
    var l := SubjectByName(s.rows, name);
    if s.id == |subjects| {
      assert forall j :: 0 <= j < |s.rows| && j != s.id ==> s.rows[j] == subjects[j];
    }
    assert !l.Missing?;
    assert l == Found(s.id);
  }

  // ---------------------------------------------------------------------
  // Book titles
  // ---------------------------------------------------------------------

  /** A title with only its subject and grade set, as `new BookTitle()` plus the two setters. */
  function NewTitle(subject: Id, grade: int): BookTitle {
    BookTitle(None, "", None, None, None, None, subject, grade)
  }

  /** Some existing title carries the ISBN of a librarian row (the row's ISBN being non-blank). */
  predicate IsbnHit(titles: seq<BookTitle>, isbn: string, grade: int, subject: Id) {
    !IsBlank(isbn) && exists j :: 0 <= j < |titles| && IsbnMatch(titles[j], Trim(isbn), grade, subject)
  }

  /** The librarian template's lookup: by trimmed ISBN when the row has one, then by title ignoring case. */
  function LibrarianHit(titles: seq<BookTitle>, subject: Id, grade: int, title: string, isbn: string): (l: Lookup)
    ensures l.Found? ==> l.id < |titles|
    ensures IsbnHit(titles, isbn, grade, subject) ==> !l.Missing?
    ensures IsbnHit(titles, isbn, grade, subject) && l.Found? ==>
      IsbnMatch(titles[l.id], Trim(isbn), grade, subject)
      && forall j :: 0 <= j < |titles| && j != l.id ==> !IsbnMatch(titles[j], Trim(isbn), grade, subject)
    ensures !IsbnHit(titles, isbn, grade, subject) ==> l == TitleByName(titles, title, grade, subject)
  {
    var byIsbn := if IsBlank(isbn) then Missing else TitleByIsbn(titles, Trim(isbn), grade, subject);
    if byIsbn.Missing? then TitleByName(titles, title, grade, subject) else byIsbn
  }

  /**
   * The librarian template: the title with the row's trimmed ISBN, else the
   * one with the row's title ignoring case, else a new one; whichever it is
   * gets the row's title, authors, publisher, year and ISBN (null if blank).
   */
  function ResolveLibrarianTitle(titles: seq<BookTitle>, subject: Id, grade: int, title: string,
                                 authors: string, publisher: string, year: Option<int>, isbn: string): (r: Result<Stored<BookTitle>, ImportError>)
    ensures r.Success? ==> WroteOne(titles, r.value.rows, r.value.id)
    ensures r.Success? ==> var t := r.value.rows[r.value.id];
      && t.title == title && t.authors == Some(authors) && t.publisher == Some(publisher) && t.year == year
      && t.isbn == (if IsBlank(isbn) then None else Some(Trim(isbn)))
      && t.grade == grade && t.subject == subject
    ensures r.Success? && r.value.id < |titles| ==> r.value.rows[r.value.id].externalKey == titles[r.value.id].externalKey
    ensures r.Success? && IsbnHit(titles, isbn, grade, subject) ==>
      r.value.id < |titles| && IsbnMatch(titles[r.value.id], Trim(isbn), grade, subject)
    ensures r.Success? && !IsBlank(isbn) ==>
      forall j :: 0 <= j < |titles| && j != r.value.id ==> !IsbnMatch(titles[j], Trim(isbn), grade, subject)
    ensures r.Success? && !IsbnHit(titles, isbn, grade, subject) ==>
      forall j :: 0 <= j < |titles| && j != r.value.id ==> !NameMatch(titles[j], title, grade, subject)
    ensures r.Success? ==> (r.value.id == |titles| <==>
      !IsbnHit(titles, isbn, grade, subject) && forall j :: 0 <= j < |titles| ==> !NameMatch(titles[j], title, grade, subject))
    ensures r.Failure? ==> r.error == NonUniqueResult
  {
    var hit := LibrarianHit(titles, subject, grade, title, isbn);
    if hit.Ambiguous? then Failure(NonUniqueResult)
    else
      var base := if hit.Found? then titles[hit.id] else NewTitle(subject, grade);
      var t := base.(title := title, authors := Some(authors), publisher := Some(publisher), year := year,
                     isbn := if IsBlank(isbn) then None else Some(Trim(isbn)));
      Success(Stored(SaveAt(titles, hit, t), SavedId(|titles|, hit)))
  }

  /** Importing the same librarian row twice resolves to the same title and the second time changes nothing. */
  lemma ResolveLibrarianTitleIdempotent(titles: seq<BookTitle>, subject: Id, grade: int, title: string,
                                        authors: string, publisher: string, year: Option<int>, isbn: string)
    requires ResolveLibrarianTitle(titles, subject, grade, title, authors, publisher, year, isbn).Success?
    ensures var s := ResolveLibrarianTitle(titles, subject, grade, title, authors, publisher, year, isbn).value;
      ResolveLibrarianTitle(s.rows, subject, grade, title, authors, publisher, year, isbn) == Success(s)
  {
    var s := ResolveLibrarianTitle(titles, subject, grade, title, authors, publisher, year, isbn).value;
    if !IsBlank(isbn) {
      IsbnUniqueAfterWrite(titles, s.rows, s.id, Trim(isbn), grade, subject);
      assert IsbnHit(s.rows, isbn, grade, subject);
    } else {
      NameUniqueAfterWrite(titles, s.rows, s.id, title, grade, subject);
    }
    assert LibrarianHit(s.rows, subject, grade, title, isbn) == Found(s.id);
    assert s.rows[s.id := s.rows[s.id]] == s.rows;
  }

  /**
   * The key a MESH row's title is stored under: the trimmed federal-list
   * number, followed by `#` and the edition year when the row is split by
   * year and both are present.
   */
  function EffectiveKey(fpu: string, year: Option<int>, splitByYears: bool): string {
    var key := Trim(fpu);
    if splitByYears && !IsBlank(key) && year.Some? then key + "#" + IntToString(year.value) else key
  }

  /** Different edition years of one split row get different keys. */
  lemma EffectiveKeysDistinct(fpu: string, y1: int, y2: int)
    requires !IsBlank(Trim(fpu)) && y1 != y2
    ensures EffectiveKey(fpu, Some(y1), true) != EffectiveKey(fpu, Some(y2), true)
  {
    var p := Trim(fpu) + "#";
    var a := IntToString(y1);
    var b := IntToString(y2);
    if p + a == p + b {
      assert a == (p + a)[|p|..];
      assert b == (p + b)[|p|..];
      IntToStringInjective(y1, y2);
    }
  }

  /**
   * findOrCreateMeshTitle: the title stored under the effective key (looked
   * up only when the key is non-blank), updated with the row's title,
   * authors, publisher and year; otherwise a new title under that key, with
   * no ISBN.
   */
  function FindOrCreateMeshTitle(titles: seq<BookTitle>, fpu: string, grade: int, subject: Id, title: string,
                                 authors: string, publisher: string, year: Option<int>, splitByYears: bool): (r: Result<Stored<BookTitle>, ImportError>)
    ensures r.Success? ==> WroteOne(titles, r.value.rows, r.value.id)
    ensures r.Success? ==> var t := r.value.rows[r.value.id];
      && t.title == title && t.authors == Some(authors) && t.publisher == Some(publisher) && t.year == year
      && t.grade == grade && t.subject == subject
      && t.externalKey == Some(EffectiveKey(fpu, year, splitByYears))
    ensures r.Success? && r.value.id < |titles| ==>
      r.value.rows[r.value.id].isbn == titles[r.value.id].isbn
    ensures r.Success? && r.value.id == |titles| ==> r.value.rows[r.value.id].isbn == None
    ensures r.Success? && r.value.id < |titles| ==> KeyMatch(titles[r.value.id], EffectiveKey(fpu, year, splitByYears), grade, subject)
    ensures r.Success? && !IsBlank(EffectiveKey(fpu, year, splitByYears)) ==>
      forall j :: 0 <= j < |titles| && KeyMatch(titles[j], EffectiveKey(fpu, year, splitByYears), grade, subject) ==> r.value.id == j
    ensures r.Success? && !IsBlank(EffectiveKey(fpu, year, splitByYears)) ==>
      forall j :: 0 <= j < |titles| && j != r.value.id ==> !KeyMatch(titles[j], EffectiveKey(fpu, year, splitByYears), grade, subject)
    ensures r.Success? && IsBlank(EffectiveKey(fpu, year, splitByYears)) ==> r.value.id == |titles|
    ensures r.Failure? ==> r.error == NonUniqueResult
  {
    var key := EffectiveKey(fpu, year, splitByYears);
    var hit := if IsBlank(key) then Missing else TitleByExternalKey(titles, key, grade, subject);
    if hit.Ambiguous? then Failure(NonUniqueResult)
    else if hit.Found? then
      var t := titles[hit.id].(title := title, authors := Some(authors), publisher := Some(publisher), year := year);
      Success(Stored(titles[hit.id := t], hit.id))
    else
      Success(Stored(titles + [BookTitle(Some(key), title, Some(authors), Some(publisher), year, None, subject, grade)], |titles|))
  }

  /** A MESH row with a federal-list number, imported twice, resolves to the same title and the second time changes nothing. */
  lemma FindOrCreateMeshTitleIdempotent(titles: seq<BookTitle>, fpu: string, grade: int, subject: Id, title: string,
                                        authors: string, publisher: string, year: Option<int>, splitByYears: bool)
    requires !IsBlank(EffectiveKey(fpu, year, splitByYears))
    requires FindOrCreateMeshTitle(titles, fpu, grade, subject, title, authors, publisher, year, splitByYears).Success?
    ensures var s := FindOrCreateMeshTitle(titles, fpu, grade, subject, title, authors, publisher, year, splitByYears).value;
      FindOrCreateMeshTitle(s.rows, fpu, grade, subject, title, authors, publisher, year, splitByYears) == Success(s)
  {
    var s := FindOrCreateMeshTitle(titles, fpu, grade, subject, title, authors, publisher, year, splitByYears).value;
    KeyUniqueAfterWrite(titles, s.rows, s.id, EffectiveKey(fpu, year, splitByYears), grade, subject);
    assert s.rows[s.id := s.rows[s.id]] == s.rows;
  }

  /** A MESH row without a federal-list number creates a new title on every import. */
  lemma MeshBlankKeyAlwaysCreates(titles: seq<BookTitle>, grade: int, subject: Id, title: string,
                                  authors: string, publisher: string, year: Option<int>)
    ensures var r := FindOrCreateMeshTitle(titles, "", grade, subject, title, authors, publisher, year, false);
      r.Success? && r.value.id == |titles| && |r.value.rows| == |titles| + 1
  {
  }

  /**
   * Our registry template: the title with the row's ISBN (looked up only
   * when the ISBN is non-blank) gets the row's title, authors and year;
   * otherwise a new title with the row's ISBN as written, possibly empty.
   */
  function ResolveTemplateTitle(titles: seq<BookTitle>, isbn: string, grade: int, subject: Id, title: string,
                                authors: string, year: Option<int>): (r: Result<Stored<BookTitle>, ImportError>)
    ensures r.Success? ==> WroteOne(titles, r.value.rows, r.value.id)
    ensures r.Success? ==> var t := r.value.rows[r.value.id];
      t.title == title && t.authors == Some(authors) && t.year == year && t.grade == grade && t.subject == subject
    ensures r.Success? && r.value.id < |titles| ==>
      var (o, t) := (titles[r.value.id], r.value.rows[r.value.id]);
      !IsBlank(isbn) && IsbnMatch(o, isbn, grade, subject)
      && t.isbn == o.isbn && t.publisher == o.publisher && t.externalKey == o.externalKey
    ensures r.Success? && r.value.id == |titles| ==>
      var t := r.value.rows[r.value.id];
      t.isbn == Some(isbn) && t.publisher == None && t.externalKey == None
    ensures r.Success? ==> (r.value.id == |titles| <==>
      IsBlank(isbn) || forall j :: 0 <= j < |titles| ==> !IsbnMatch(titles[j], isbn, grade, subject))
    ensures r.Success? && !IsBlank(isbn) ==>
      forall j :: 0 <= j < |titles| && j != r.value.id ==> !IsbnMatch(titles[j], isbn, grade, subject)
    ensures r.Failure? ==> r.error == NonUniqueResult
  {
    var hit := if IsBlank(isbn) then Missing else TitleByIsbn(titles, isbn, grade, subject);
    if hit.Ambiguous? then Failure(NonUniqueResult)
    else if hit.Found? then
      var t := titles[hit.id].(title := title, authors := Some(authors), year := year);
      Success(Stored(titles[hit.id := t], hit.id))
    else
      Success(Stored(titles + [BookTitle(None, title, Some(authors), None, year, Some(isbn), subject, grade)], |titles|))
  }

  /** With a non-blank ISBN, importing the same template row twice resolves to the same title and changes nothing more. */
  lemma ResolveTemplateTitleIdempotent(titles: seq<BookTitle>, isbn: string, grade: int, subject: Id, title: string,
                                       authors: string, year: Option<int>)
    requires !IsBlank(isbn)
    requires ResolveTemplateTitle(titles, isbn, grade, subject, title, authors, year).Success?
    ensures var s := ResolveTemplateTitle(titles, isbn, grade, subject, title, authors, year).value;
      ResolveTemplateTitle(s.rows, isbn, grade, subject, title, authors, year) == Success(s)
  {
    var s := ResolveTemplateTitle(titles, isbn, grade, subject, title, authors, year).value;
    var t := s.rows[s.id];
    assert IsbnMatch(t, isbn, grade, subject);
    IsbnUniqueAfterWrite(titles, s.rows, s.id, isbn, grade, subject);
    assert t.(title := title, authors := Some(authors), year := year) == t;
    assert s.rows[s.id := t] == s.rows;
  }

  /**
   * The old registry: the title with the row's title ignoring case gets the
   * row's publisher and title; otherwise a new title with only those.
   */
  function ResolveLegacyTitle(titles: seq<BookTitle>, title: string, grade: int, subject: Id, publisher: string): (r: Result<Stored<BookTitle>, ImportError>)
    ensures r.Success? ==> WroteOne(titles, r.value.rows, r.value.id)
    ensures r.Success? ==> var t := r.value.rows[r.value.id];
      t.title == title && t.publisher == Some(publisher) && t.grade == grade && t.subject == subject
    ensures r.Success? && r.value.id < |titles| ==>
      var (o, t) := (titles[r.value.id], r.value.rows[r.value.id]);
      NameMatch(o, title, grade, subject)
      && t.isbn == o.isbn && t.authors == o.authors && t.year == o.year && t.externalKey == o.externalKey
    ensures r.Success? && r.value.id == |titles| ==>
      var t := r.value.rows[r.value.id];
      t.isbn == None && t.authors == None && t.year == None && t.externalKey == None
      && forall j :: 0 <= j < |titles| ==> !NameMatch(titles[j], title, grade, subject)
    ensures r.Failure? <==> exists i, j :: 0 <= i < j < |titles| && NameMatch(titles[i], title, grade, subject) && NameMatch(titles[j], title, grade, subject)
  {
    match TitleByName(titles, title, grade, subject)
    case Ambiguous => Failure(NonUniqueResult)
    case Found(i) =>
      var t := titles[i].(publisher := Some(publisher), title := title);
      Success(Stored(titles[i := t], i))
    case Missing =>
      Success(Stored(titles + [BookTitle(None, title, None, Some(publisher), None, None, subject, grade)], |titles|))
  }

  // ---------------------------------------------------------------------
  // Stock rows
  // ---------------------------------------------------------------------

  /** `new Stock()`: every count zero and no note. */
  function NewStock(building: Id, title: Id): Stock {
    Stock(building, title, 0, 0, 0, 0, 0, 0, 0, None)
  }

  /**
   * Overwrite (not add to) the three counts of the stock row of one building
   * and title, creating the row when there is none; the other columns of an
   * existing row are kept.
   */
  function WriteStockCounts(stocks: seq<Stock>, building: Id, title: Id, total: int, available: int, inUse: int): (r: Result<Stored<Stock>, ImportError>)
    ensures StockKeysUnique(stocks) ==> r.Success? && StockKeysUnique(r.value.rows)
    ensures r.Success? ==> WroteOne(stocks, r.value.rows, r.value.id)
    ensures r.Success? ==> var s := r.value.rows[r.value.id];
      s.building == building && s.bookTitle == title && s.total == total && s.available == available && s.inUse == inUse
    ensures r.Success? && r.value.id < |stocks| ==>
      var (o, s) := (stocks[r.value.id], r.value.rows[r.value.id]);
      o.building == building && o.bookTitle == title
      && s.meshTotal == o.meshTotal && s.suufTotal == o.suufTotal && s.issuedToStudents == o.issuedToStudents
      && s.inCabinets == o.inCabinets && s.note == o.note
    ensures r.Success? && r.value.id == |stocks| ==>
      r.value.rows[r.value.id] == NewStock(building, title).(total := total, available := available, inUse := inUse)
      && forall j :: 0 <= j < |stocks| ==> !(stocks[j].building == building && stocks[j].bookTitle == title)
    ensures r.Success? ==>
      forall j :: 0 <= j < |stocks| && j != r.value.id ==> !(stocks[j].building == building && stocks[j].bookTitle == title)
    ensures r.Failure? ==> r.error == NonUniqueResult
  {
    var hit := StockOf(stocks, building, title);
    if hit.Ambiguous? then Failure(NonUniqueResult)
    else
      var base := if hit.Found? then stocks[hit.id] else NewStock(building, title);
      var rows := SaveAt(stocks, hit, base.(total := total, available := available, inUse := inUse));
      StockKeysAfterWrite(stocks, rows, SavedId(|stocks|, hit));
      Success(Stored(rows, SavedId(|stocks|, hit)))
  }

  /** Saving a row whose building and title no other row has keeps the (building, title) pairs unique. */
  lemma StockKeysAfterWrite(before: seq<Stock>, after: seq<Stock>, id: Id)
    requires WroteOne(before, after, id) && id < |after|
    requires forall j :: 0 <= j < |before| && j != id ==>
      !(before[j].building == after[id].building && before[j].bookTitle == after[id].bookTitle)
    ensures StockKeysUnique(before) ==> StockKeysUnique(after)
  {
    assert forall j :: 0 <= j < |after| && j != id ==> after[j] == before[j];
  }

  /** After a save, the saved stock is the only row of its building and title when no other row had them. */
  lemma StockUniqueAfterWrite(before: seq<Stock>, after: seq<Stock>, id: Id, building: Id, title: Id)
    requires WroteOne(before, after, id) && id < |after| && after[id].building == building && after[id].bookTitle == title
    requires forall j :: 0 <= j < |before| && j != id ==> !(before[j].building == building && before[j].bookTitle == title)
    ensures StockOf(after, building, title) == Found(id)
  {
    assert forall j :: 0 <= j < |after| && j != id ==> after[j] == before[j];
  }

  /** Writing counts a table's only row of the building and title already holds changes nothing. */
  lemma WriteStockCountsHeld(stocks: seq<Stock>, building: Id, title: Id, total: int, available: int, inUse: int, id: Id)
    requires StockOf(stocks, building, title) == Found(id)
    requires stocks[id].total == total && stocks[id].available == available && stocks[id].inUse == inUse
    ensures WriteStockCounts(stocks, building, title, total, available, inUse) == Success(Stored(stocks, id))
  {
    var o := stocks[id];
    assert o.(total := total, available := available, inUse := inUse) == o;
    assert stocks[id := o] == stocks;
  }

  /** Writing the same counts for the same building and title twice leaves the table as the first write left it. */
  lemma WriteStockCountsIdempotent(stocks: seq<Stock>, building: Id, title: Id, total: int, available: int, inUse: int)
    requires WriteStockCounts(stocks, building, title, total, available, inUse).Success?
    ensures var s := WriteStockCounts(stocks, building, title, total, available, inUse).value;
      WriteStockCounts(s.rows, building, title, total, available, inUse) == Success(s)
  {
    var s := WriteStockCounts(stocks, building, title, total, available, inUse).value;
    StockUniqueAfterWrite(stocks, s.rows, s.id, building, title);
    WriteStockCountsHeld(s.rows, building, title, total, available, inUse, s.id);
  }

  /** Importing the same old-registry title twice resolves to the same title and the second time changes nothing. */
  lemma LegacyTitleIdempotent(titles: seq<BookTitle>, title: string, grade: int, subject: Id, publisher: string)
    requires ResolveLegacyTitle(titles, title, grade, subject, publisher).Success?
    ensures var s := ResolveLegacyTitle(titles, title, grade, subject, publisher).value;
      ResolveLegacyTitle(s.rows, title, grade, subject, publisher) == Success(s)
  {
    var s := ResolveLegacyTitle(titles, title, grade, subject, publisher).value;
    NameUniqueAfterWrite(titles, s.rows, s.id, title, grade, subject);
    assert s.rows[s.id := s.rows[s.id]] == s.rows;
  }
}

=== FILE: class_groups.dfy ===
/**
 * The class-group administration: saving one class's headcount, saving one
 * class's projected headcount for a coming year, and the annual promotion
 * that turns a building's classes into next year's projected classes.
 *
 * save and saveFuture either fail with the message of the exception they
 * caught, leaving the database as it was, or succeed with the new
 * database. promote catches its exception inside its own transaction, so
 * the steps it completed before a failure stay written.
 */
module ClassGroups {
  import opened Wrappers
  import opened Text
  import opened Numbers
  import opened Entities
  import opened Enrollment

  // ---------------------------------------------------------------------
  // save: one class of the current year
  // ---------------------------------------------------------------------

  /**
   * save: the building must exist; the class under (building, grade,
   * normalised letter) gets the headcount, clamped at zero, or is created.
   * Nothing is logged.
   */
  function SaveClass(db: Db, building: Id, grade: int, letter: string, students: int): (r: Result<Db, ImportError>)
    ensures building >= |db.buildings| ==> r == Failure(NoValuePresent)
    ensures building < |db.buildings| && ClassKeysUnique(db.classes) ==> r.Success? && ClassKeysUnique(r.value.classes)
    ensures r.Failure? ==> r.error == NoValuePresent || r.error == NonUniqueResult
    ensures r.Success? ==> r.value == db.(classes := r.value.classes)
    ensures r.Success? ==> WroteValue(db.classes, r.value.classes, ClassGroup(building, grade, NormalizeLetter(letter), Max0(students)))
  {
    if building >= |db.buildings| then Failure(NoValuePresent)
    else
      var s := UpsertClass(db.classes, building, grade, NormalizeLetter(letter), Max0(students));
      if s.Failure? then Failure(s.error)
      else Success(db.(classes := s.value.rows))
  }

  /** Saving the same class twice is the same as saving it once. */
  lemma SaveClassIdempotent(db: Db, building: Id, grade: int, letter: string, students: int)
    requires SaveClass(db, building, grade, letter, students).Success?
    ensures var once := SaveClass(db, building, grade, letter, students).value;
      SaveClass(once, building, grade, letter, students) == Success(once)
  {
    var u := UpsertClass(db.classes, building, grade, NormalizeLetter(letter), Max0(students));
    UpsertClassIdempotent(db.classes, building, grade, NormalizeLetter(letter), Max0(students));
  }

  // ---------------------------------------------------------------------
  // promote: the annual promotion into next year's projected classes
  // ---------------------------------------------------------------------

  const GraduationNote: string := "Годовой перевод в будущий контингент: выпуск из 11 класса"
  const PromotionPrefix: string := "Годовой перевод в будущий контингент: из "

  /** The note of a promoted class: where it came from, as grade-letter. */
  function PromotionNote(grade: int, letter: string): string {
    PromotionPrefix + IntToString(grade) + "-" + letter
  }

  /** The year promoted into: the one asked for, or the one after the current year. */
  function TargetYear(academicYear: Option<int>, currentYear: int): (y: int)
    ensures academicYear.Some? ==> y == academicYear.value
    ensures academicYear.None? ==> y == currentYear + 1
  {
    if academicYear.Some? then academicYear.value else currentYear + 1
  }

  /** A class leaves the school instead of moving up. */
  predicate Graduates(c: ClassGroup) {
    c.grade >= 11
  }

  /** The promotion so far: the projected classes, the log, and the two counters. */
  datatype Promotion = Promotion(groups: seq<FutureClassGroup>, log: seq<EnrollmentChange>, promoted: nat, graduated: nat)

  /** How the loop ended: the promotion it reached, and the failure that stopped it, if one did. */
  datatype PromoteRun = PromoteRun(done: Promotion, failure: Option<ImportError>)

  /** How a promotion request ended. */
  datatype PromoteOutcome = NoClasses | Promoted(promoted: nat, graduated: nat) | Failed(error: ImportError)

  /** The log entry of one class's promotion: `prior` is the projected headcount it replaced, 0 when new. */
  function PromotionEntry(c: ClassGroup, building: Id, year: int, actor: Option<Id>, now: Timestamp, prior: int): EnrollmentChange {
    var l := NormalizeLetter(c.letter);
    if Graduates(c) then
      EnrollmentChange(now, actor, building, Future, year, c.grade, l, c.students, 0, Delete, Some(GraduationNote))
    else
      EnrollmentChange(now, actor, building, Future, year, c.grade + 1, l, prior, c.students, Upsert, Some(PromotionNote(c.grade, l)))
  }

  /** The entry is the promotion entry of class `c`, with whatever headcount it replaced. */
  predicate EntryOf(e: EnrollmentChange, c: ClassGroup, building: Id, year: int, actor: Option<Id>, now: Timestamp) {
    e == PromotionEntry(c, building, year, actor, now, e.oldStudents)
  }

  /** The headcount projected under the key before the save: the found class's, 0 when there is none. */
  function PriorStudents(groups: seq<FutureClassGroup>, building: Id, year: int, grade: int, l: string): (n: int)
    ensures FutureClassOf(groups, building, year, grade, l).Found? ==> n == groups[FutureClassOf(groups, building, year, grade, l).id].students
    ensures !FutureClassOf(groups, building, year, grade, l).Found? ==> n == 0
  {
    var hit := FutureClassOf(groups, building, year, grade, l);
    if hit.Found? then groups[hit.id].students else 0
  }

  /** Projected classes of other buildings and other years are as they were. */
  predicate OtherYearsKept(before: seq<FutureClassGroup>, after: seq<FutureClassGroup>, building: Id, year: int) {
    && |before| <= |after|
    && forall j :: 0 <= j < |before| && (before[j].building != building || before[j].academicYear != year) ==> after[j] == before[j]
  }

  /**
   * The projected classes after one class of the loop: a graduating class
   * writes nothing; any other class's next-year group (building, year,
   * grade + 1, normalised letter) gets its headcount, replacing what was
   * projected or created anew.
   */
  function PromoteGroups(groups: seq<FutureClassGroup>, building: Id, year: int, c: ClassGroup): (r: Result<seq<FutureClassGroup>, ImportError>)
    ensures Graduates(c) ==> r == Success(groups)
    ensures r.Failure? ==> r.error == NonUniqueResult
    ensures r.Success? ==> OtherYearsKept(groups, r.value, building, year)
    ensures r.Success? && !Graduates(c) ==>
      WroteValue(groups, r.value, FutureClassGroup(building, year, c.grade + 1, NormalizeLetter(c.letter), c.students))
  {
    if Graduates(c) then Success(groups)
    else MoveUp(groups, building, year, c.grade + 1, NormalizeLetter(c.letter), c.students)
  }

  /**
   * The save of a projected class under its key, as the rows it leaves: it
   * fails only on a non-unique key, writes the class, leaves other
   * buildings and years alone, and every projected class found by key
   * before is still found.
   */
  function MoveUp(groups: seq<FutureClassGroup>, building: Id, year: int, grade: int, letter: string, students: int): (r: Result<seq<FutureClassGroup>, ImportError>)
    ensures r.Failure? ==> r.error == NonUniqueResult
    ensures r.Success? ==> OtherYearsKept(groups, r.value, building, year)
    ensures r.Success? ==> WroteValue(groups, r.value, FutureClassGroup(building, year, grade, letter, students))
    ensures r.Success? ==> forall b, y, g, l :: HasFuture(groups, b, y, g, l) ==> HasFuture(r.value, b, y, g, l)
  {
    var s := UpsertFuture(groups, building, year, grade, letter, students);
    if s.Failure? then Failure(s.error)
    else
      UpsertFutureKeepsAll(groups, building, year, grade, letter, students);
      Success(s.value.rows)
  }

  /**
   * One class of the loop: its projected classes written, its log entry
   * appended with the headcount it replaced, and the class counted as
   * promoted or graduated.
   */
  function PromoteOne(p: Promotion, building: Id, year: int, actor: Option<Id>, now: Timestamp, c: ClassGroup): (r: Result<Promotion, ImportError>)
    ensures r.Failure? <==> PromoteGroups(p.groups, building, year, c).Failure?
    ensures r.Failure? ==> r.error == NonUniqueResult && !Graduates(c)
    ensures r.Success? ==> r.value.groups == PromoteGroups(p.groups, building, year, c).value
    ensures r.Success? ==> r.value.promoted + r.value.graduated == p.promoted + p.graduated + 1
    ensures r.Success? ==> r.value.graduated == p.graduated + (if Graduates(c) then 1 else 0)
    ensures r.Success? ==>
      r.value.log == p.log + [PromotionEntry(c, building, year, actor, now, PriorStudents(p.groups, building, year, c.grade + 1, NormalizeLetter(c.letter)))]
  {
    var g := PromoteGroups(p.groups, building, year, c);
    var entry := PromotionEntry(c, building, year, actor, now, PriorStudents(p.groups, building, year, c.grade + 1, NormalizeLetter(c.letter)));
    if g.Failure? then Failure(g.error)
    else if Graduates(c) then Success(p.(log := p.log + [entry], graduated := p.graduated + 1))
    else Success(p.(groups := g.value, log := p.log + [entry], promoted := p.promoted + 1))
  }

  /** With projected keys unique, a step of the loop cannot fail, and keeps them unique. */
  lemma PromoteOneUnique(p: Promotion, building: Id, year: int, actor: Option<Id>, now: Timestamp, c: ClassGroup)
    requires FutureKeysUnique(p.groups)
    ensures PromoteOne(p, building, year, actor, now, c).Success?
    ensures FutureKeysUnique(PromoteOne(p, building, year, actor, now, c).value.groups)
  {
  }

  /**
   * The loop over the building's classes. The first failure ends it; the
   * steps before it stay done.
   */
  function PromoteAll(p: Promotion, building: Id, year: int, actor: Option<Id>, now: Timestamp, list: seq<ClassGroup>): (r: PromoteRun)
    ensures r.failure.Some? ==> r.failure.value == NonUniqueResult && exists k :: 0 <= k < |list| && !Graduates(list[k])
    decreases |list|
  {
    if |list| == 0 then PromoteRun(p, None)
    else
      var q := PromoteOne(p, building, year, actor, now, list[0]);
      if q.Failure? then PromoteRun(p, Some(q.error))
      else PromoteAll(q.value, building, year, actor, now, list[1..])
  }

  /**
   * A loop that failed stopped at some class k: what it reached is what
   * the loop over the classes before k reaches without failing, and the
   * step of class k is the one that failed.
   */
  lemma {:induction false} PromoteAllStops(p: Promotion, building: Id, year: int, actor: Option<Id>, now: Timestamp, list: seq<ClassGroup>)
    requires PromoteAll(p, building, year, actor, now, list).failure.Some?
    ensures var r := PromoteAll(p, building, year, actor, now, list);
      exists k :: 0 <= k < |list|
        && PromoteAll(p, building, year, actor, now, list[..k]) == PromoteRun(r.done, None)
        && PromoteOne(r.done, building, year, actor, now, list[k]).Failure?
    decreases |list|
  {
    var r := PromoteAll(p, building, year, actor, now, list);
    var q := PromoteOne(p, building, year, actor, now, list[0]);
    if q.Failure? {
      assert r.done == p;
      assert list[..0] == [];
      assert PromoteAll(p, building, year, actor, now, list[..0]) == PromoteRun(p, None);
    } else {
      var tail := list[1..];
      assert r == PromoteAll(q.value, building, year, actor, now, tail);
      PromoteAllStops(q.value, building, year, actor, now, tail);
      var k :| 0 <= k < |tail|
        && PromoteAll(q.value, building, year, actor, now, tail[..k]) == PromoteRun(r.done, None)
        && PromoteOne(r.done, building, year, actor, now, tail[k]).Failure?;
      var head := list[..k + 1];
      PrefixTail(list, k);
      assert PromoteAll(p, building, year, actor, now, head) == PromoteAll(q.value, building, year, actor, now, tail[..k]);
      assert tail[k] == list[k + 1];
    }
  }

  /** The first k + 1 elements are the first element, then the first k elements of the rest. */
  lemma PrefixTail<T>(s: seq<T>, k: nat)
    requires k < |s|
    ensures |s[..k + 1]| > 0 && s[..k + 1][0] == s[0] && s[..k + 1][1..] == s[1..][..k]
  {
  }

  /** The number of graduating classes. */
  function CountGraduates(list: seq<ClassGroup>): (n: nat)
    ensures n <= |list|
  {
    if |list| == 0 then 0 else (if Graduates(list[0]) then 1 else 0) + CountGraduates(list[1..])
  }

  /**
   * The loop counts every class once, as promoted or graduated; it appends
   * one log entry per class; and it leaves projected classes of other
   * buildings and other years as they were.
   */
  lemma {:induction false} PromoteAllMeans(p: Promotion, building: Id, year: int, actor: Option<Id>, now: Timestamp, list: seq<ClassGroup>)
    requires PromoteAll(p, building, year, actor, now, list).failure.None?
    ensures var r := PromoteAll(p, building, year, actor, now, list).done;
      && r.graduated == p.graduated + CountGraduates(list)
      && r.promoted + r.graduated == p.promoted + p.graduated + |list|
      && |r.log| == |p.log| + |list| && r.log[..|p.log|] == p.log
      && OtherYearsKept(p.groups, r.groups, building, year)
    decreases |list|
  {
    if |list| > 0 {
      var q := PromoteOne(p, building, year, actor, now, list[0]).value;
      PromoteAllMeans(q, building, year, actor, now, list[1..]);
      var r := PromoteAll(q, building, year, actor, now, list[1..]).done;
      assert r.log[..|p.log|] == r.log[..|q.log|][..|p.log|];
    }
  }

  /** With projected keys unique the loop cannot fail, and keeps them unique. */
  lemma {:induction false} PromoteAllUnique(p: Promotion, building: Id, year: int, actor: Option<Id>, now: Timestamp, list: seq<ClassGroup>)
    requires FutureKeysUnique(p.groups)
    ensures PromoteAll(p, building, year, actor, now, list).failure.None?
    ensures FutureKeysUnique(PromoteAll(p, building, year, actor, now, list).done.groups)
    decreases |list|
  {
    if |list| > 0 {
      PromoteOneUnique(p, building, year, actor, now, list[0]);
      PromoteAllUnique(PromoteOne(p, building, year, actor, now, list[0]).value, building, year, actor, now, list[1..]);
    }
  }

  /** The two sequences are equally long and each pair of elements at the same position satisfies `ok`. */
  predicate Pairwise<E, C>(es: seq<E>, cs: seq<C>, ok: (E, C) -> bool)
    decreases |cs|
  {
    && |es| == |cs|
    && (|cs| == 0 || (ok(es[0], cs[0]) && Pairwise(es[1..], cs[1..], ok)))
  }

  /** The pair at position k satisfies `ok`. */
  lemma {:induction false} PairwiseAt<E, C>(es: seq<E>, cs: seq<C>, ok: (E, C) -> bool, k: nat)
    requires Pairwise(es, cs, ok) && k < |cs|
    ensures ok(es[k], cs[k])
    decreases k
  {
    if k > 0 {
      PairwiseAt(es[1..], cs[1..], ok, k - 1);
      assert es[1..][k - 1] == es[k] && cs[1..][k - 1] == cs[k];
    }
  }

  /** The entries are, one for one and in order, the promotion entries of the classes. */
  predicate EntriesOf(entries: seq<EnrollmentChange>, list: seq<ClassGroup>, building: Id, year: int, actor: Option<Id>, now: Timestamp) {
    Pairwise(entries, list, (e, c) => EntryOf(e, c, building, year, actor, now))
  }

  /** The k-th entry belongs to the k-th class. */
  lemma EntriesOfAt(entries: seq<EnrollmentChange>, list: seq<ClassGroup>, building: Id, year: int, actor: Option<Id>, now: Timestamp, k: nat)
    requires EntriesOf(entries, list, building, year, actor, now) && k < |list|
    ensures EntryOf(entries[k], list[k], building, year, actor, now)
  {
    PairwiseAt(entries, list, (e, c) => EntryOf(e, c, building, year, actor, now), k);
  }

  /**
   * The new log entries are the entries of the classes in loop order: a
   * DELETE of a graduating class with its headcount, or an UPSERT of the
   * class one grade up with its headcount as the new value.
   */
  lemma {:induction false} PromoteAllLog(p: Promotion, building: Id, year: int, actor: Option<Id>, now: Timestamp, list: seq<ClassGroup>)
    requires PromoteAll(p, building, year, actor, now, list).failure.None?
    ensures var log := PromoteAll(p, building, year, actor, now, list).done.log;
      |p.log| <= |log| && EntriesOf(log[|p.log|..], list, building, year, actor, now)
    decreases |list|
  {
    if |list| > 0 {
      var q := PromoteOne(p, building, year, actor, now, list[0]).value;
      PromoteAllLog(q, building, year, actor, now, list[1..]);
      PromoteAllMeans(q, building, year, actor, now, list[1..]);
      var log := PromoteAll(q, building, year, actor, now, list[1..]).done.log;
      var entries := log[|p.log|..];
      assert entries[1..] == log[|q.log|..];
      assert entries[0] == q.log[|p.log|];
      EntriesOfCons(entries, list, building, year, actor, now);
    }
  }

  /** An entry of the first class followed by the entries of the rest are the entries of the whole list. */
  lemma EntriesOfCons(entries: seq<EnrollmentChange>, list: seq<ClassGroup>, building: Id, year: int, actor: Option<Id>, now: Timestamp)
    requires |entries| == |list| > 0 && EntryOf(entries[0], list[0], building, year, actor, now)
    requires EntriesOf(entries[1..], list[1..], building, year, actor, now)
    ensures EntriesOf(entries, list, building, year, actor, now)
  {
  }

  /** The rest of the loop keeps every projected class present before it. */
  lemma {:induction false} HasFutureStays(p: Promotion, building: Id, year: int, actor: Option<Id>, now: Timestamp, list: seq<ClassGroup>,
                                          b: Id, y: int, grade: int, letter: string)
    requires PromoteAll(p, building, year, actor, now, list).failure.None?
    requires HasFuture(p.groups, b, y, grade, letter)
    ensures HasFuture(PromoteAll(p, building, year, actor, now, list).done.groups, b, y, grade, letter)
    decreases |list|
  {
    if |list| > 0 {
      var q := PromoteOne(p, building, year, actor, now, list[0]).value;
      HasFutureStays(q, building, year, actor, now, list[1..], b, y, grade, letter);
    }
  }

  /** A class that moved up has its projected class right after its step. */
  lemma PromoteOneTarget(groups: seq<FutureClassGroup>, building: Id, year: int, c: ClassGroup)
    requires PromoteGroups(groups, building, year, c).Success? && !Graduates(c)
    ensures HasFuture(PromoteGroups(groups, building, year, c).value, building, year, c.grade + 1, NormalizeLetter(c.letter))
  {
    UpsertFutureHas(groups, building, year, c.grade + 1, NormalizeLetter(c.letter), c.students);
  }

  /** Every element satisfies `ok`. */
  predicate Every<C>(cs: seq<C>, ok: C -> bool)
    decreases |cs|
  {
    |cs| == 0 || (ok(cs[0]) && Every(cs[1..], ok))
  }

  lemma {:induction false} EveryAt<C>(cs: seq<C>, ok: C -> bool, k: nat)
    requires Every(cs, ok) && k < |cs|
    ensures ok(cs[k])
    decreases k
  {
    if k > 0 {
      EveryAt(cs[1..], ok, k - 1);
      assert cs[1..][k - 1] == cs[k];
    }
  }

  /** The class, if it moves up, has its projected class for the next grade under the normalised letter. */
  predicate TargetPresent(groups: seq<FutureClassGroup>, c: ClassGroup, building: Id, year: int) {
    Graduates(c) || HasFuture(groups, building, year, c.grade + 1, NormalizeLetter(c.letter))
  }

  /** Every class of the list that moves up has its projected class. */
  predicate TargetsPresent(groups: seq<FutureClassGroup>, list: seq<ClassGroup>, building: Id, year: int) {
    Every(list, (c: ClassGroup) => TargetPresent(groups, c, building, year))
  }

  /** The k-th class, when it moves up, has its projected class. */
  lemma TargetsPresentAt(groups: seq<FutureClassGroup>, list: seq<ClassGroup>, building: Id, year: int, k: nat)
    requires TargetsPresent(groups, list, building, year) && k < |list| && !Graduates(list[k])
    ensures HasFuture(groups, building, year, list[k].grade + 1, NormalizeLetter(list[k].letter))
  {
    EveryAt(list, (c: ClassGroup) => TargetPresent(groups, c, building, year), k);
  }

  /** After the loop, every class that moved up has its projected class. */
  lemma {:induction false} PromoteAllTargets(p: Promotion, building: Id, year: int, actor: Option<Id>, now: Timestamp, list: seq<ClassGroup>)
    requires PromoteAll(p, building, year, actor, now, list).failure.None?
    ensures TargetsPresent(PromoteAll(p, building, year, actor, now, list).done.groups, list, building, year)
    decreases |list|
  {
    if |list| > 0 {
      var q := PromoteOne(p, building, year, actor, now, list[0]).value;
      PromoteAllTargets(q, building, year, actor, now, list[1..]);
      var c := list[0];
      if !Graduates(c) {
        PromoteOneTarget(p.groups, building, year, c);
        HasFutureStays(q, building, year, actor, now, list[1..], building, year, c.grade + 1, NormalizeLetter(c.letter));
      }
    }
  }

  /** classes.findByBuilding_Id: the building's classes. The query has no ORDER BY; the model takes table order. */
  function ClassesOf(db: Db, building: Id): (list: seq<ClassGroup>)
    ensures forall k :: 0 <= k < |list| ==> list[k] in db.classes && list[k].building == building
    ensures forall j :: 0 <= j < |db.classes| && db.classes[j].building == building ==> db.classes[j] in list
  {
    ClassesIn(db.classes, building)
  }

  function ClassesIn(classes: seq<ClassGroup>, building: Id): (list: seq<ClassGroup>)
    ensures forall k :: 0 <= k < |list| ==> list[k] in classes && list[k].building == building
    ensures forall j :: 0 <= j < |classes| && classes[j].building == building ==> classes[j] in list
  {
    if |classes| == 0 then []
    else
      var rest := ClassesIn(classes[1..], building);
      assert forall j :: 1 <= j < |classes| ==> classes[j] == classes[1..][j - 1];
      (if classes[0].building == building then [classes[0]] else []) + rest
  }

  /** The promotion state the loop starts from: the projected classes and the log as stored, nothing counted. */
  function Start(db: Db): Promotion {
    Promotion(db.futureClasses, db.enrollmentLog, 0, 0)
  }

  /**
   * promote: the building must exist; a building without classes is
   * refused with nothing written; otherwise every class is promoted or
   * graduated in table order. The exception of a failing step is caught
   * inside the transaction, so the transaction commits: the projected
   * classes and log entries of the steps before it stay written, and the
   * outcome carries the error. This year's classes are never written.
   */
  function Promote(db: Db, building: Id, academicYear: Option<int>, currentYear: int, actor: Option<Id>, now: Timestamp): (r: (Db, PromoteOutcome))
    ensures building >= |db.buildings| ==> r == (db, Failed(NoValuePresent))
    ensures building < |db.buildings| && |ClassesOf(db, building)| == 0 ==> r == (db, NoClasses)
    ensures r.1.Failed? ==> r.1.error == NoValuePresent || r.1.error == NonUniqueResult
    ensures r.1.Failed? && r.1.error == NoValuePresent ==> r.0 == db
    ensures r.0 == db.(futureClasses := r.0.futureClasses, enrollmentLog := r.0.enrollmentLog)
  {
    if building >= |db.buildings| then (db, Failed(NoValuePresent))
    else
      var list := ClassesOf(db, building);
      if |list| == 0 then (db, NoClasses)
      else
        var r := PromoteAll(Start(db), building, TargetYear(academicYear, currentYear), actor, now, list);
        var after := db.(futureClasses := r.done.groups, enrollmentLog := r.done.log);
        if r.failure.Some? then (after, Failed(r.failure.value))
        else (after, Promoted(r.done.promoted, r.done.graduated))
  }

  /**
   * A promotion that failed on an existing building stopped at a class k
   * that was to move up: the log holds one entry for each class before k,
   * in order, the projected classes of those classes are present, and
   * projected classes of other buildings and years are as they were.
   */
  lemma PromoteKeepsCompletedSteps(db: Db, building: Id, academicYear: Option<int>, currentYear: int, actor: Option<Id>, now: Timestamp)
    requires building < |db.buildings|
    requires Promote(db, building, academicYear, currentYear, actor, now).1.Failed?
    ensures var (after, outcome) := Promote(db, building, academicYear, currentYear, actor, now);
      var list := ClassesOf(db, building);
      var year := TargetYear(academicYear, currentYear);
      && outcome.error == NonUniqueResult
      && (exists k ::
            && 0 <= k < |list| && !Graduates(list[k])
            && |after.enrollmentLog| == |db.enrollmentLog| + k
            && after.enrollmentLog[..|db.enrollmentLog|] == db.enrollmentLog
            && EntriesOf(after.enrollmentLog[|db.enrollmentLog|..], list[..k], building, year, actor, now)
            && TargetsPresent(after.futureClasses, list[..k], building, year)
            && OtherYearsKept(db.futureClasses, after.futureClasses, building, year))
  {
    var list := ClassesOf(db, building);
    var year := TargetYear(academicYear, currentYear);
    PromoteAllKeepsPrefix(Start(db), building, year, actor, now, list);
  }

  /**
   * A run that failed stopped at a class k that was to move up, with the
   * steps before k done: one log entry each after the earlier log, their
   * projected classes present, other projected classes kept.
   */
  lemma PromoteAllKeepsPrefix(p: Promotion, building: Id, year: int, actor: Option<Id>, now: Timestamp, list: seq<ClassGroup>)
    requires PromoteAll(p, building, year, actor, now, list).failure.Some?
    ensures var r := PromoteAll(p, building, year, actor, now, list).done;
      exists k ::
        && 0 <= k < |list| && !Graduates(list[k])
        && |r.log| == |p.log| + k
        && r.log[..|p.log|] == p.log
        && EntriesOf(r.log[|p.log|..], list[..k], building, year, actor, now)
        && TargetsPresent(r.groups, list[..k], building, year)
        && OtherYearsKept(p.groups, r.groups, building, year)
  {
    var r := PromoteAll(p, building, year, actor, now, list).done;
    PromoteAllStops(p, building, year, actor, now, list);
    var k :| 0 <= k < |list|
      && PromoteAll(p, building, year, actor, now, list[..k]) == PromoteRun(r, None)
      && PromoteOne(r, building, year, actor, now, list[k]).Failure?;
    var prefix := list[..k];
    PromoteAllMeans(p, building, year, actor, now, prefix);
    PromoteAllLog(p, building, year, actor, now, prefix);
    PromoteAllTargets(p, building, year, actor, now, prefix);
    assert !Graduates(list[k]);
    assert |r.log| == |p.log| + k && r.log[..|p.log|] == p.log;
    assert EntriesOf(r.log[|p.log|..], prefix, building, year, actor, now);
    assert TargetsPresent(r.groups, prefix, building, year);
    assert OtherYearsKept(p.groups, r.groups, building, year);
  }

  /**
   * promote as one transaction, which its annotation evidently intends: a
   * failure leaves the database as it was; otherwise the outcome and the
   * writes are those of Promote.
   */
  function PromoteAtomic(db: Db, building: Id, academicYear: Option<int>, currentYear: int, actor: Option<Id>, now: Timestamp): (r: (Db, PromoteOutcome))
    ensures r.1 == Promote(db, building, academicYear, currentYear, actor, now).1
    ensures r.1.Failed? ==> r.0 == db
    ensures !r.1.Failed? ==> r.0 == Promote(db, building, academicYear, currentYear, actor, now).0
  {
    var (after, outcome) := Promote(db, building, academicYear, currentYear, actor, now);
    if outcome.Failed? then (db, outcome) else (after, outcome)
  }

  /**
   * Classes 5-A and 6-A of a building, and two projected classes 7-A and
   * 7-a of the target year: the step of 5-A writes 6-A and its log entry,
   * then the step of 6-A finds two classes under its key and fails. As
   * written, the first step's writes stay; as one transaction, nothing
   * is written.
   */
  lemma PromotePartialExample()
    ensures var db := Db([Building("1", "Корпус 1")], [], [], [], [],
                         [ClassGroup(0, 5, "A", 20), ClassGroup(0, 6, "A", 22)],
                         [FutureClassGroup(0, 2027, 7, "A", 24), FutureClassGroup(0, 2027, 7, "a", 25)], [], [], []);
      && Promote(db, 0, Some(2027), 2026, None, 0).1 == Failed(NonUniqueResult)
      && |Promote(db, 0, Some(2027), 2026, None, 0).0.enrollmentLog| == 1
      && |Promote(db, 0, Some(2027), 2026, None, 0).0.futureClasses| == 3
      && PromoteAtomic(db, 0, Some(2027), 2026, None, 0) == (db, Failed(NonUniqueResult))
  {
    var c5, c6 := ClassGroup(0, 5, "A", 20), ClassGroup(0, 6, "A", 22);
    var g1, g2 := FutureClassGroup(0, 2027, 7, "A", 24), FutureClassGroup(0, 2027, 7, "a", 25);
    var db := Db([Building("1", "Корпус 1")], [], [], [], [], [c5, c6], [g1, g2], [], [], []);
    assert ClassesIn([c6], 0) == [c6];
    assert ClassesOf(db, 0) == [c5, c6];
    assert Start(db) == Promotion([g1, g2], [], 0, 0);
    PromotePartialRun();
  }

  /** The loop of the example above: the step of 5-A succeeds and adds one projected class and one entry; that of 6-A fails. */
  lemma PromotePartialRun()
    ensures var r := PromoteAll(Promotion([FutureClassGroup(0, 2027, 7, "A", 24), FutureClassGroup(0, 2027, 7, "a", 25)], [], 0, 0),
                                0, 2027, None, 0, [ClassGroup(0, 5, "A", 20), ClassGroup(0, 6, "A", 22)]);
      r.failure == Some(NonUniqueResult) && |r.done.log| == 1 && |r.done.groups| == 3
  {
    var c5, c6 := ClassGroup(0, 5, "A", 20), ClassGroup(0, 6, "A", 22);
    var g1, g2 := FutureClassGroup(0, 2027, 7, "A", 24), FutureClassGroup(0, 2027, 7, "a", 25);
    var p0 := Promotion([g1, g2], [], 0, 0);
    PromotePartialFirstStep();
    var p1 := PromoteOne(p0, 0, 2027, None, 0, c5).value;
    LetterLatinA();
    assert p1.groups[0] == g1 && p1.groups[1] == g2;
    PromoteOneAmbiguous(p1, 0, 2027, None, 0, c6, 0, 1);
    assert PromoteAll(p1, 0, 2027, None, 0, [c6]) == PromoteRun(p1, Some(NonUniqueResult));
    assert [c5, c6][1..] == [c6];
  }

  /** The first step of the example above: 7-A and 7-a stay first, 6-A is added, and one entry is logged. */
  lemma PromotePartialFirstStep()
    ensures var g1, g2 := FutureClassGroup(0, 2027, 7, "A", 24), FutureClassGroup(0, 2027, 7, "a", 25);
      var q := PromoteOne(Promotion([g1, g2], [], 0, 0), 0, 2027, None, 0, ClassGroup(0, 5, "A", 20));
      && q.Success? && |q.value.groups| == 3 && |q.value.log| == 1
      && q.value.groups[0] == g1 && q.value.groups[1] == g2
  {
    var g1, g2 := FutureClassGroup(0, 2027, 7, "A", 24), FutureClassGroup(0, 2027, 7, "a", 25);
    LetterLatinA();
    assert FutureClassOf([g1, g2], 0, 2027, 6, "A").Missing?;
    MoveUpAppends([g1, g2], 0, 2027, 6, "A", 20);
  }

  /** Moving a class up under a key no projected class has appends it as a new projected class. */
  lemma MoveUpAppends(groups: seq<FutureClassGroup>, building: Id, year: int, grade: int, letter: string, students: int)
    requires FutureClassOf(groups, building, year, grade, letter).Missing?
    ensures MoveUp(groups, building, year, grade, letter, students) == Success(groups + [FutureClassGroup(building, year, grade, letter, students)])
  {
    var s := UpsertFuture(groups, building, year, grade, letter, students);
    assert s == Success(Stored(groups + [FutureClassGroup(building, year, grade, letter, students)], |groups|));
  }

  /** A step whose class would move up under a key two projected classes share fails. */
  lemma PromoteOneAmbiguous(p: Promotion, building: Id, year: int, actor: Option<Id>, now: Timestamp, c: ClassGroup, i: nat, j: nat)
    requires !Graduates(c) && i < j < |p.groups|
    requires FutureKey(p.groups[i], building, year, c.grade + 1, NormalizeLetter(c.letter))
    requires FutureKey(p.groups[j], building, year, c.grade + 1, NormalizeLetter(c.letter))
    ensures PromoteOne(p, building, year, actor, now, c).Failure?
  {
  }

  /** The Latin capital A is its own normal form, and the small a folds to the same letter. */
  lemma LetterLatinA()
    ensures NormalizeLetter("A") == "A"
    ensures EqualsIgnoreCase("a", "A")
  {
    assert Trim("A") == "A";
    assert Upper("A") == "A";
    assert Lower("a") == Lower("A");
  }

  /** With projected keys unique, promoting an existing building cannot fail, and keeps them unique. */
  lemma PromoteUnique(db: Db, building: Id, academicYear: Option<int>, currentYear: int, actor: Option<Id>, now: Timestamp)
    requires building < |db.buildings| && FutureKeysUnique(db.futureClasses)
    ensures !Promote(db, building, academicYear, currentYear, actor, now).1.Failed?
    ensures FutureKeysUnique(Promote(db, building, academicYear, currentYear, actor, now).0.futureClasses)
  {
    PromoteAllUnique(Start(db), building, TargetYear(academicYear, currentYear), actor, now, ClassesOf(db, building));
  }

  /**
   * The counters of a promotion: every class of the building counted once,
   * as promoted or graduated, with one log entry each after the log as it
   * was, and projected classes of other buildings and years as they were.
   */
  lemma PromoteCounts(db: Db, building: Id, academicYear: Option<int>, currentYear: int, actor: Option<Id>, now: Timestamp)
    requires !Promote(db, building, academicYear, currentYear, actor, now).1.Failed?
    ensures var (after, outcome) := Promote(db, building, academicYear, currentYear, actor, now);
      var list := ClassesOf(db, building);
      && (outcome.NoClasses? <==> |list| == 0)
      && (outcome.Promoted? ==> outcome.promoted + outcome.graduated == |list| && outcome.graduated == CountGraduates(list))
      && |after.enrollmentLog| == |db.enrollmentLog| + |list|
      && after.enrollmentLog[..|db.enrollmentLog|] == db.enrollmentLog
      && OtherYearsKept(db.futureClasses, after.futureClasses, building, TargetYear(academicYear, currentYear))
  {
    var list := ClassesOf(db, building);
    if |list| > 0 {
      PromoteAllMeans(Start(db), building, TargetYear(academicYear, currentYear), actor, now, list);
    }
  }

  /**
   * What promote writes: one log entry per class of the building, in the
   * order of the classes, and a projected class of the target year for
   * every class that moved up.
   */
  lemma PromoteMeans(db: Db, building: Id, academicYear: Option<int>, currentYear: int, actor: Option<Id>, now: Timestamp)
    requires !Promote(db, building, academicYear, currentYear, actor, now).1.Failed?
    ensures var after := Promote(db, building, academicYear, currentYear, actor, now).0;
      var list := ClassesOf(db, building);
      var year := TargetYear(academicYear, currentYear);
      && |db.enrollmentLog| <= |after.enrollmentLog|
      && EntriesOf(after.enrollmentLog[|db.enrollmentLog|..], list, building, year, actor, now)
      && TargetsPresent(after.futureClasses, list, building, year)
  {
    var list := ClassesOf(db, building);
    if |list| > 0 {
      var year := TargetYear(academicYear, currentYear);
      PromoteAllLog(Start(db), building, year, actor, now, list);
      PromoteAllTargets(Start(db), building, year, actor, now, list);
    }
  }

  // ---------------------------------------------------------------------
  // saveFuture: one projected class of a coming year
  // ---------------------------------------------------------------------

  /** The log note: the note trimmed, or none. */
  function TrimNote(note: Option<string>): Option<string> {
    if note.Some? then Some(Trim(note.value)) else None
  }

  /** The write shared by both readings of saveFuture: the upsert, then one UPSERT log entry carrying `prior`. */
  function SaveFutureWith(db: Db, year: int, building: Id, grade: int, l: string, n: int, prior: int, note: Option<string>,
                          actor: Option<Id>, now: Timestamp): (r: Result<Db, ImportError>)
    ensures FutureKeysUnique(db.futureClasses) ==> r.Success? && FutureKeysUnique(r.value.futureClasses)
    ensures r.Failure? ==> r.error == NonUniqueResult
    ensures r.Success? ==> r.value == db.(futureClasses := r.value.futureClasses, enrollmentLog := r.value.enrollmentLog)
    ensures r.Success? ==> WroteValue(db.futureClasses, r.value.futureClasses, FutureClassGroup(building, year, grade, l, n))
    ensures r.Success? ==>
      r.value.enrollmentLog == db.enrollmentLog + [EnrollmentChange(now, actor, building, Future, year, grade, l, prior, n, Upsert, TrimNote(note))]
  {
    var s := UpsertFuture(db.futureClasses, building, year, grade, l, n);
    if s.Failure? then Failure(s.error)
    else
      Success(db.(futureClasses := s.value.rows,
                  enrollmentLog := db.enrollmentLog + [EnrollmentChange(now, actor, building, Future, year, grade, l, prior, n, Upsert, TrimNote(note))]))
  }

  /**
   * saveFuture as intended: the projected class under (building, year,
   * grade, normalised letter) gets the headcount, clamped at zero, or is
   * created; the log records the headcount it had before (0 when new) and
   * the one it has now.
   */
  function SaveFuture(db: Db, year: int, building: Id, grade: int, letter: string, students: int, note: Option<string>,
                      actor: Option<Id>, now: Timestamp): (r: Result<Db, ImportError>)
    ensures building >= |db.buildings| ==> r == Failure(NoValuePresent)
    ensures building < |db.buildings| && FutureKeysUnique(db.futureClasses) ==> r.Success? && FutureKeysUnique(r.value.futureClasses)
    ensures r.Success? ==> r.value == db.(futureClasses := r.value.futureClasses, enrollmentLog := r.value.enrollmentLog)
    ensures r.Success? ==> WroteValue(db.futureClasses, r.value.futureClasses,
                                      FutureClassGroup(building, year, grade, NormalizeLetter(letter), Max0(students)))
    ensures r.Success? ==> |r.value.enrollmentLog| == |db.enrollmentLog| + 1
    ensures r.Success? ==> r.value.enrollmentLog[|db.enrollmentLog|] == EnrollmentChange(now, actor, building, Future, year, grade,
      NormalizeLetter(letter), PriorStudents(db.futureClasses, building, year, grade, NormalizeLetter(letter)), Max0(students), Upsert, TrimNote(note))
  {
    if building >= |db.buildings| then Failure(NoValuePresent)
    else
      var l := NormalizeLetter(letter);
      SaveFutureWith(db, year, building, grade, l, Max0(students), PriorStudents(db.futureClasses, building, year, grade, l), note, actor, now)
  }

  /**
   * The log of the corrected saveFuture tells the change: saving a
   * headcount and then another under the same key, the second entry's old
   * headcount is the one the first save stored.
   */
  lemma SaveFutureLogsChange(db: Db, year: int, building: Id, grade: int, letter: string, a: int, b: int, note: Option<string>,
                             actor: Option<Id>, now: Timestamp)
    requires building < |db.buildings| && FutureKeysUnique(db.futureClasses)
    ensures var first := SaveFuture(db, year, building, grade, letter, a, note, actor, now).value;
      var second := SaveFuture(first, year, building, grade, letter, b, note, actor, now).value;
      && second.enrollmentLog[|db.enrollmentLog|].newStudents == Max0(a)
      && second.enrollmentLog[|db.enrollmentLog| + 1].oldStudents == Max0(a)
      && second.enrollmentLog[|db.enrollmentLog| + 1].newStudents == Max0(b)
  {
    var l := NormalizeLetter(letter);
    UpsertFutureFinds(db.futureClasses, building, year, grade, l, Max0(a));
  }

  /** saveFuture as written: the "old" headcount is read after the new one was set on the same object. */
  function SaveFutureAsWritten(db: Db, year: int, building: Id, grade: int, letter: string, students: int, note: Option<string>,
                               actor: Option<Id>, now: Timestamp): (r: Result<Db, ImportError>)
    ensures r.Success? ==> |r.value.enrollmentLog| == |db.enrollmentLog| + 1
    ensures r.Success? ==> r.value.enrollmentLog[|db.enrollmentLog|].newStudents == Max0(students)
    ensures r.Success? && FutureClassOf(db.futureClasses, building, year, grade, NormalizeLetter(letter)).Found? ==>
      r.value.enrollmentLog[|db.enrollmentLog|].oldStudents == r.value.enrollmentLog[|db.enrollmentLog|].newStudents
  {
    if building >= |db.buildings| then Failure(NoValuePresent)
    else
      var l := NormalizeLetter(letter);
      var hit := FutureClassOf(db.futureClasses, building, year, grade, l);
      var prior := if hit.Found? then Max0(students) else 0;
      SaveFutureWith(db, year, building, grade, l, Max0(students), prior, note, actor, now)
  }

  /**
   * The discrepancy: on a projected class that held 25 students, saving 30
   * logs 30 as the old headcount, where the intended log records 25.
   */
  lemma SaveFutureAsWrittenExample()
    ensures var g := FutureClassGroup(0, 2026, 5, "А", 25);
      var db := Db([Building("1", "Корпус 1")], [], [], [], [], [], [g], [], [], []);
      && SaveFutureAsWritten(db, 2026, 0, 5, "А", 30, None, None, 0).value.enrollmentLog[0].oldStudents == 30
      && SaveFuture(db, 2026, 0, 5, "А", 30, None, None, 0).value.enrollmentLog[0].oldStudents == 25
  {
    var g := FutureClassGroup(0, 2026, 5, "А", 25);
    var db := Db([Building("1", "Корпус 1")], [], [], [], [], [], [g], [], [], []);
    SaveFutureExampleFound(db, g);
  }

  /** In the example above the projected class is found under the saved key, alone. */
  lemma SaveFutureExampleFound(db: Db, g: FutureClassGroup)
    requires g == FutureClassGroup(0, 2026, 5, "А", 25) && db.futureClasses == [g] && |db.buildings| == 1
    ensures NormalizeLetter("А") == "А"
    ensures FutureClassOf(db.futureClasses, 0, 2026, 5, "А") == Found(0)
    ensures FutureKeysUnique(db.futureClasses)
  {
    LetterAUpper();
    assert FutureKey(g, 0, 2026, 5, "А");
  }

  /** The Cyrillic capital А is its own normal form. */
  lemma LetterAUpper()
    ensures NormalizeLetter("А") == "А"
  {
    assert Trim("А") == "А";
    assert Upper("А") == "А";
  }
}

=== FILE: class_import.dfy ===
/**
 * The class-list importers: this year's headcounts (importClasses) and the
 * projected headcounts of a coming academic year (importFutureClasses).
 *
 * Both read the first sheet from row 1 on (row 0 is the header), skip rows
 * whose first three cells are blank, and accept two layouts:
 *   A (the template): building code | grade | letter | students
 *   B (the school's own list): class name such as «10-А» | students | building
 * A row is read as B when its first cell looks like a class name and its
 * third is not blank. Each row then overwrites the headcount of its class.
 * importClasses stops at the first failing row; importFutureClasses collects
 * up to 30 failures. Rows saved before a failure stay saved.
 */
module ClassImport {
  import opened Wrappers
  import opened Text
  import opened Numbers
  import opened Entities
  import opened Sheets
  import opened RowImport
  import opened BuildingCodes
  import opened ClassNames
  import opened Enrollment

  /** What a class row says: the building code (normalised), grade, letter (upper-cased) and headcount. */
  datatype ClassLine = ClassLine(code: string, grade: int, letter: string, students: int)

  /** The first three cells are blank: the row is skipped. */
  predicate BlankRow(r: Row) {
    IsBlank(Cell(r, 0)) && IsBlank(Cell(r, 1)) && IsBlank(Cell(r, 2))
  }

  /** Layout B: the first cell looks like a class name and the third names a building. */
  predicate NamedLayout(r: Row) {
    LooksLikeClass(Cell(r, 0)) && !IsBlank(Cell(r, 2))
  }

  /**
   * The row read in its layout. B: the class name split into grade and
   * letter, the headcount parsed leniently (blank is 0, a decimal is
   * truncated). A: grade and headcount as whole numbers, the letter trimmed
   * and upper-cased. Either way the building code is normalised.
   */
  function ReadClassLine(r: Row): (l: Result<ClassLine, ImportError>)
    ensures l.Success? ==> l.value.code == NormalizeBuildingCode(Cell(r, if NamedLayout(r) then 2 else 0))
    ensures l.Success? && NamedLayout(r) ==>
      ParseClassName(Cell(r, 0)) == Success(ParsedClass(l.value.grade, l.value.letter))
      && ParseInt(Cell(r, 1)) == Success(l.value.students)
    ensures l.Success? && !NamedLayout(r) ==>
      GetInt(Cell(r, 1)) == Success(l.value.grade) && l.value.letter == NormalizeLetter(Cell(r, 2))
      && GetInt(Cell(r, 3)) == Success(l.value.students)
    ensures NamedLayout(r) && ParseClassName(Cell(r, 0)).Failure? ==> l == Failure(ParseClassName(Cell(r, 0)).error)
    ensures !NamedLayout(r) && GetInt(Cell(r, 1)).Failure? ==> l == Failure(BadNumber(Cell(r, 1)))
  {
    if NamedLayout(r) then
      var pc :- ParseClassName(Cell(r, 0));
      var students :- AsNumber(ParseInt(Cell(r, 1)));
      Success(ClassLine(NormalizeBuildingCode(Cell(r, 2)), pc.grade, pc.letter, students))
    else
      var grade :- AsNumber(GetInt(Cell(r, 1)));
      var students :- AsNumber(GetInt(Cell(r, 3)));
      Success(ClassLine(NormalizeBuildingCode(Cell(r, 0)), grade, NormalizeLetter(Cell(r, 2)), students))
  }

  // ---------------------------------------------------------------------
  // This year's classes
  // ---------------------------------------------------------------------

  /** Only the class table differs. */
  predicate ClassesOnly(a: Db, b: Db) {
    b == a.(classes := b.classes)
  }

  /** The table has a class of the building, grade and letter with that headcount. */
  predicate HoldsClass(classes: seq<ClassGroup>, building: Id, l: ClassLine) {
    exists id :: 0 <= id < |classes| && classes[id] == ClassGroup(building, l.grade, l.letter, l.students)
  }

  /** Save a read row: the building by its code, then the class upserted. */
  function SaveClassLine(db: Db, l: ClassLine): (st: Step<Db>)
    ensures !st.Skip? && ClassesOnly(db, st.state)
    ensures ClassKeysUnique(db.classes) ==> ClassKeysUnique(st.state.classes)
    ensures BuildingByCode(db.buildings, l.code).Missing? <==> st == Failed(db, UnknownBuilding(l.code))
    ensures st.Saved? <==> BuildingByCode(db.buildings, l.code).Found? && UpsertClass(db.classes, BuildingByCode(db.buildings, l.code).id, l.grade, l.letter, l.students).Success?
    ensures st.Saved? ==> HoldsClass(st.state.classes, BuildingByCode(db.buildings, l.code).id, l)
    ensures ClassKeysUnique(db.classes) && BuildingByCode(db.buildings, l.code).Found? ==> st.Saved?
  {
    match BuildingByCode(db.buildings, l.code)
    case Missing => Failed(db, UnknownBuilding(l.code))
    case Ambiguous => Failed(db, NonUniqueResult)
    case Found(b) =>
      match UpsertClass(db.classes, b, l.grade, l.letter, l.students)
      case Failure(e) => Failed(db, e)
      case Success(s) => Saved(db.(classes := s.rows))
  }

  /** One row of importClasses. */
  function ClassRow(db: Db, r: Row): (st: Step<Db>)
    ensures st.Skip? <==> BlankRow(r)
    ensures !st.Skip? ==> ClassesOnly(db, st.state)
    ensures !st.Skip? && ClassKeysUnique(db.classes) ==> ClassKeysUnique(st.state.classes)
    ensures !BlankRow(r) && ReadClassLine(r).Failure? ==> st == Failed(db, ReadClassLine(r).error)
    ensures st.Saved? ==> ReadClassLine(r).Success? && st == SaveClassLine(db, ReadClassLine(r).value)
  {
    if BlankRow(r) then Skip
    else match ReadClassLine(r)
      case Failure(e) => Failed(db, e)
      case Success(l) => SaveClassLine(db, l)
  }

  /** Importing the same class row again changes nothing. */
  lemma ClassRowIdempotent(db: Db, r: Row)
    requires ClassRow(db, r).Saved?
    ensures var d := ClassRow(db, r).state;
      ClassRow(d, r) == Saved(d)
  {
    var l := ReadClassLine(r).value;
    var b := BuildingByCode(db.buildings, l.code).id;
    UpsertClassIdempotent(db.classes, b, l.grade, l.letter, l.students);
  }

  lemma SchoolListCells()
    ensures var r: Row := ["10-А", "29", "сп1"];
      Cell(r, 0) == "10-А" && Cell(r, 1) == "29" && Cell(r, 2) == "сп1"
  {
    SchoolListCell0();
    SchoolListCell1();
    SchoolListCell2();
  }

  lemma SchoolListCell0()
    ensures Cell(["10-А", "29", "сп1"], 0) == "10-А"
  {
    CellIsWord(["10-А", "29", "сп1"], 0, "10-А");
  }

  lemma SchoolListCell1()
    ensures Cell(["10-А", "29", "сп1"], 1) == "29"
  {
    CellIsWord(["10-А", "29", "сп1"], 1, "29");
  }

  lemma SchoolListCell2()
    ensures Cell(["10-А", "29", "сп1"], 2) == "сп1"
  {
    CellIsWord(["10-А", "29", "сп1"], 2, "сп1");
  }

  lemma SchoolListRead(r: Row)
    requires Cell(r, 0) == "10-А" && Cell(r, 1) == "29" && Cell(r, 2) == "сп1"
    ensures ReadClassLine(r) == Success(ClassLine("1", 10, "А", 29))
  {
    DashedExample();
    NotBlankSp1();
    Read29();
    NormalizeSp1();
    assert NamedLayout(r);
  }

  lemma NotBlankSp1()
    ensures !IsBlank("сп1")
  {
    assert !IsTrimmable("сп1"[0]);
  }

  lemma NormalizeSp1()
    ensures NormalizeBuildingCode("сп1") == "1" && NormalizeBuildingCode("1") == "1"
  {
    BuildingOneSpellings();
  }

  /** The school's own list: «10-А», 29 pupils, building «сп1» is class 10 «А» of building 1 with 29 pupils. */
  lemma SchoolListExample(db: Db, b: Id)
    requires BuildingByCode(db.buildings, "1") == Found(b) && ClassKeysUnique(db.classes)
    ensures ClassRow(db, ["10-А", "29", "сп1"]).Saved?
    ensures HoldsClass(ClassRow(db, ["10-А", "29", "сп1"]).state.classes, b, ClassLine("1", 10, "А", 29))
  {
    SchoolListCells();
    SchoolListRead(["10-А", "29", "сп1"]);
  }

  lemma TemplateCells()
    ensures var r: Row := ["1", "5", "б", "25"];
      Cell(r, 0) == "1" && Cell(r, 1) == "5" && Cell(r, 2) == "б" && Cell(r, 3) == "25"
  {
    TemplateCell0();
    TemplateCell1();
    TemplateCell2();
    TemplateCell3();
  }

  lemma TemplateCell0()
    ensures Cell(["1", "5", "б", "25"], 0) == "1"
  {
    CellIsWord(["1", "5", "б", "25"], 0, "1");
  }

  lemma TemplateCell1()
    ensures Cell(["1", "5", "б", "25"], 1) == "5"
  {
    CellIsWord(["1", "5", "б", "25"], 1, "5");
  }

  lemma TemplateCell2()
    ensures Cell(["1", "5", "б", "25"], 2) == "б"
  {
    CellIsWord(["1", "5", "б", "25"], 2, "б");
  }

  lemma TemplateCell3()
    ensures Cell(["1", "5", "б", "25"], 3) == "25"
  {
    CellIsWord(["1", "5", "б", "25"], 3, "25");
  }

  lemma TemplateRead(r: Row)
    requires Cell(r, 0) == "1" && Cell(r, 1) == "5" && Cell(r, 2) == "б" && Cell(r, 3) == "25"
    ensures ReadClassLine(r) == Success(ClassLine("1", 5, "Б", 25))
  {
    BareNumberExample();
    assert !NamedLayout(r);
    Read5And25();
    TemplateLayoutRead(r, 5, 25);
    LetterB();
    NormalizeSp1();
  }

  /** A template row whose numbers parse reads as its normalised cells. */
  lemma TemplateLayoutRead(r: Row, grade: int, students: int)
    requires !NamedLayout(r)
    requires GetInt(Cell(r, 1)) == Success(grade) && GetInt(Cell(r, 3)) == Success(students)
    ensures ReadClassLine(r) == Success(ClassLine(NormalizeBuildingCode(Cell(r, 0)), grade, NormalizeLetter(Cell(r, 2)), students))
  {
  }

  lemma LetterB()
    ensures NormalizeLetter("б") == "Б"
  {
    assert Trim("б") == "б" by {
      TrimSolid("б");
    }
    assert Upper("б")[0] == UpperChar('б');
  }

  /** The template: building «1», grade 5, letter «б», 25 pupils is class 5 «Б» of building 1. */
  lemma TemplateExample(db: Db, b: Id)
    requires BuildingByCode(db.buildings, "1") == Found(b) && ClassKeysUnique(db.classes)
    ensures ClassRow(db, ["1", "5", "б", "25"]).Saved?
    ensures HoldsClass(ClassRow(db, ["1", "5", "б", "25"]).state.classes, b, ClassLine("1", 5, "Б", 25))
  {
    TemplateCells();
    TemplateRead(["1", "5", "б", "25"]);
  }

  function ClassStep(): (Db, Row) -> Step<Db> {
    (db: Db, r: Row) => ClassRow(db, r)
  }

  /**
   * importClasses: rows 1.. of the sheet; the first failing row ends the
   * import with its message, the rows before it staying saved.
   */
  function ImportClasses(db: Db, sheet: Sheet): (r: (Db, Outcome))
    ensures ClassesOnly(db, r.0)
    ensures ClassKeysUnique(db.classes) ==> ClassKeysUnique(r.0.classes)
    ensures !r.1.RowErrors?
    ensures |sheet| <= 1 ==> r == (db, Done(0))
  {
    if |sheet| == 0 then (db, Done(0))
    else
      ClassScanKeeps(db, sheet, 1);
      var scan := ScanSheet(sheet, ClassStep(), 1, 0, db);
      (scan.state, FinishFirst(scan))
  }

  /** The class loop writes only classes and keeps their keys unique. */
  lemma ClassScanKeeps(db: Db, sheet: Sheet, cap: nat)
    requires cap >= 1 && |sheet| > 0
    ensures var d := ScanSheet(sheet, ClassStep(), cap, 0, db).state;
      ClassesOnly(db, d) && (ClassKeysUnique(db.classes) ==> ClassKeysUnique(d.classes))
  {
    var only := (s: Db) => ClassesOnly(db, s);
    forall s, row | only(s) ensures match ClassStep()(s, row) { case Skip => true case Saved(t) => only(t) case Failed(t, _) => only(t) } {
      assert ClassStep()(s, row) == ClassRow(s, row);
    }
    ScanSheetKeeps(sheet, ClassStep(), only, cap, 0, db);
    if ClassKeysUnique(db.classes) {
      var unique := (s: Db) => ClassKeysUnique(s.classes);
      forall s, row | unique(s) ensures match ClassStep()(s, row) { case Skip => true case Saved(t) => unique(t) case Failed(t, _) => unique(t) } {
        assert ClassStep()(s, row) == ClassRow(s, row);
      }
      ScanSheetKeeps(sheet, ClassStep(), unique, cap, 0, db);
    }
  }

  /**
   * With class keys unique and the sheet's rows all reading cleanly and
   * naming known buildings, importClasses does not stop early: the first
   * failure it could report is never reached.
   */
  lemma ClassImportFailsOnlyOnBadRows(db: Db, sheet: Sheet)
    requires ClassKeysUnique(db.classes)
    requires forall i :: 1 <= i < |sheet| && sheet[i].Some? && !BlankRow(sheet[i].value) ==>
      ReadClassLine(sheet[i].value).Success? && BuildingByCode(db.buildings, ReadClassLine(sheet[i].value).value.code).Found?
    ensures ImportClasses(db, sheet).1.Done?
  {
    if |sheet| > 0 {
      ClassRowsSucceed(db, sheet, 1, Scan(db, 0, []));
      RunIsRunAllUntilStop(sheet, ClassStep(), 1, 1, Scan(db, 0, []));
    }
  }

  /** From a state with unique keys, the uncapped loop over clean rows collects no failure. */
  lemma {:induction false} ClassRowsSucceed(db: Db, sheet: Sheet, from: nat, acc: Scan<Db>)
    requires from <= |sheet|
    requires ClassKeysUnique(acc.state.classes) && acc.state.buildings == db.buildings && |acc.errors| == 0
    requires forall i :: from <= i < |sheet| && sheet[i].Some? && !BlankRow(sheet[i].value) ==>
      ReadClassLine(sheet[i].value).Success? && BuildingByCode(db.buildings, ReadClassLine(sheet[i].value).value.code).Found?
    ensures forall until :: from <= until <= |sheet| ==> |RunAll(sheet, ClassStep(), from, until, acc).errors| == 0
    ensures |Run(sheet, ClassStep(), 1, from, acc).errors| == 0
    decreases |sheet| - from
  {
    if from < |sheet| {
      var next := match sheet[from] case None => acc case Some(row) => Apply(acc, ClassStep()(acc.state, row), from);
      if sheet[from].Some? {
        var row := sheet[from].value;
        assert ClassStep()(acc.state, row) == ClassRow(acc.state, row);
        assert !ClassRow(acc.state, row).Failed?;
      }
      ClassRowsSucceed(db, sheet, from + 1, next);
      forall until | from <= until <= |sheet| ensures |RunAll(sheet, ClassStep(), from, until, acc).errors| == 0 {
        if until > from {
          assert RunAll(sheet, ClassStep(), from, until, acc) == RunAll(sheet, ClassStep(), from + 1, until, next);
        }
      }
    }
  }

  // ---------------------------------------------------------------------
  // The classes of a coming academic year
  // ---------------------------------------------------------------------

  /** Only the table of future classes differs. */
  predicate FutureOnly(a: Db, b: Db) {
    b == a.(futureClasses := b.futureClasses)
  }

  /** The table has a class of the building, year, grade and letter with that headcount. */
  predicate HoldsFuture(groups: seq<FutureClassGroup>, building: Id, year: int, l: ClassLine) {
    exists id :: 0 <= id < |groups| && groups[id] == FutureClassGroup(building, year, l.grade, l.letter, l.students)
  }

  /** Save a read row as a class of academic year `year`. */
  function SaveFutureLine(db: Db, year: int, l: ClassLine): (st: Step<Db>)
    ensures !st.Skip? && FutureOnly(db, st.state)
    ensures FutureKeysUnique(db.futureClasses) ==> FutureKeysUnique(st.state.futureClasses)
    ensures BuildingByCode(db.buildings, l.code).Missing? <==> st == Failed(db, UnknownBuilding(l.code))
    ensures st.Saved? ==> BuildingByCode(db.buildings, l.code).Found?
    ensures st.Saved? ==> HoldsFuture(st.state.futureClasses, BuildingByCode(db.buildings, l.code).id, year, l)
    ensures FutureKeysUnique(db.futureClasses) && BuildingByCode(db.buildings, l.code).Found? ==> st.Saved?
  {
    match BuildingByCode(db.buildings, l.code)
    case Missing => Failed(db, UnknownBuilding(l.code))
    case Ambiguous => Failed(db, NonUniqueResult)
    case Found(b) =>
      match UpsertFuture(db.futureClasses, b, year, l.grade, l.letter, l.students)
      case Failure(e) => Failed(db, e)
      case Success(s) => Saved(db.(futureClasses := s.rows))
  }

  /** One row of importFutureClasses for academic year `year`. */
  function FutureRow(year: int, db: Db, r: Row): (st: Step<Db>)
    ensures st.Skip? <==> BlankRow(r)
    ensures !st.Skip? ==> FutureOnly(db, st.state)
    ensures !st.Skip? && FutureKeysUnique(db.futureClasses) ==> FutureKeysUnique(st.state.futureClasses)
    ensures !BlankRow(r) && ReadClassLine(r).Failure? ==> st == Failed(db, ReadClassLine(r).error)
    ensures st.Saved? ==> ReadClassLine(r).Success? && st == SaveFutureLine(db, year, ReadClassLine(r).value)
  {
    if BlankRow(r) then Skip
    else match ReadClassLine(r)
      case Failure(e) => Failed(db, e)
      case Success(l) => SaveFutureLine(db, year, l)
  }

  /** Importing the same future-class row again changes nothing. */
  lemma FutureRowIdempotent(year: int, db: Db, r: Row)
    requires FutureRow(year, db, r).Saved?
    ensures var d := FutureRow(year, db, r).state;
      FutureRow(year, d, r) == Saved(d)
  {
    var l := ReadClassLine(r).value;
    var b := BuildingByCode(db.buildings, l.code).id;
    UpsertFutureIdempotent(db.futureClasses, b, year, l.grade, l.letter, l.students);
  }

  function FutureStep(year: int): (Db, Row) -> Step<Db> {
    (db: Db, r: Row) => FutureRow(year, db, r)
  }

  /**
   * importFutureClasses: rows 1.. of the sheet as classes of `year`,
   * failures collected up to 30.
   */
  function ImportFutureClasses(db: Db, sheet: Sheet, year: int): (r: (Db, Outcome))
    ensures FutureOnly(db, r.0)
    ensures FutureKeysUnique(db.futureClasses) ==> FutureKeysUnique(r.0.futureClasses)
    ensures !r.1.Aborted?
    ensures r.1.RowErrors? ==> 0 < |r.1.errors| <= MaxErrors && forall k :: 0 <= k < |r.1.errors| ==> 1 < r.1.errors[k].line <= |sheet|
    ensures |sheet| <= 1 ==> r == (db, Done(0))
  {
    if |sheet| == 0 then (db, Done(0))
    else
      FutureScanKeeps(db, sheet, year);
      var scan := ScanSheet(sheet, FutureStep(year), MaxErrors, 0, db);
      (scan.state, Finish(scan))
  }

  /** The future-class loop writes only future classes and keeps their keys unique. */
  lemma FutureScanKeeps(db: Db, sheet: Sheet, year: int)
    requires |sheet| > 0
    ensures var d := ScanSheet(sheet, FutureStep(year), MaxErrors, 0, db).state;
      FutureOnly(db, d) && (FutureKeysUnique(db.futureClasses) ==> FutureKeysUnique(d.futureClasses))
  {
    var only := (s: Db) => FutureOnly(db, s);
    forall s, row | only(s) ensures match FutureStep(year)(s, row) { case Skip => true case Saved(t) => only(t) case Failed(t, _) => only(t) } {
      assert FutureStep(year)(s, row) == FutureRow(year, s, row);
    }
    ScanSheetKeeps(sheet, FutureStep(year), only, MaxErrors, 0, db);
    if FutureKeysUnique(db.futureClasses) {
      var unique := (s: Db) => FutureKeysUnique(s.futureClasses);
      forall s, row | unique(s) ensures match FutureStep(year)(s, row) { case Skip => true case Saved(t) => unique(t) case Failed(t, _) => unique(t) } {
        assert FutureStep(year)(s, row) == FutureRow(year, s, row);
      }
      ScanSheetKeeps(sheet, FutureStep(year), unique, MaxErrors, 0, db);
    }
  }
}

=== FILE: class_names.dfy ===
/**
 * Class names such as «10-А», «10А» or «10 - А», as the class-list importers
 * recognise and split them.
 *
 * A cell is taken for a class name when it matches the regular expression
 * `\s*\d{1,2}\s*[-–]?\s*[А-ЯA-Zа-яa-z]\s*` in full. The name is then split
 * into a grade and an upper-cased letter.
 */
module ClassNames {
  import opened Wrappers
  import opened Text
  import opened Numbers
  import opened Entities

  /** `[А-ЯA-Zа-яa-z]`: a Latin or basic Cyrillic letter (Ё and ё are not in these ranges). */
  predicate IsClassLetter(c: char) {
    ('А' <= c <= 'Я') || ('A' <= c <= 'Z') || ('а' <= c <= 'я') || ('a' <= c <= 'z')
  }

  /** `[-–]`: a hyphen or an en dash. */
  predicate IsDash(c: char) {
    c == '-' || c == '–'
  }

  predicate SpacesBetween(s: string, lo: nat, hi: nat)
    requires lo <= hi <= |s|
  {
    forall k :: lo <= k < hi ==> IsRegexSpace(s[k])
  }

  /**
   * The regular expression matches `s` with the digits at `i0..i1`, the
   * optional dash at `i2..i3` and the letter at `i4`; everything else is `\s`.
   */
  predicate ClassShape(s: string, i0: nat, i1: nat, i2: nat, i3: nat, i4: nat) {
    && i0 < i1 <= i2 <= i3 <= i4 < |s|
    && i1 - i0 <= 2 && AllDigits(s[i0..i1])
    && i3 - i2 <= 1 && (i3 == i2 + 1 ==> IsDash(s[i2]))
    && IsClassLetter(s[i4])
    && SpacesBetween(s, 0, i0) && SpacesBetween(s, i1, i2) && SpacesBetween(s, i3, i4) && SpacesBetween(s, i4 + 1, |s|)
  }

  /** `s.matches(...)` for the class-name expression. */
  ghost predicate MatchesClassPattern(s: string) {
    exists i0, i1, i2, i3, i4 :: ClassShape(s, i0, i1, i2, i3, i4)
  }

  /** The first index at or after `i` that is not `\s`. */
  function SkipSpaces(s: string, i: nat): (j: nat)
    requires i <= |s|
    ensures i <= j <= |s| && SpacesBetween(s, i, j)
    ensures j == |s| || !IsRegexSpace(s[j])
    decreases |s| - i
  {
    if i < |s| && IsRegexSpace(s[i]) then SkipSpaces(s, i + 1) else i
  }

  /** SkipSpaces lands on the first non-space. */
  lemma SkipSpacesTo(s: string, i: nat, j: nat)
    requires i <= j <= |s| && SpacesBetween(s, i, j)
    requires j == |s| || !IsRegexSpace(s[j])
    ensures SkipSpaces(s, i) == j
  {
  }

  /** The positions of a class name's parts, found left to right: digits (at most two), spaces, a dash, spaces, the letter. */
  datatype NameScan = NameScan(i0: nat, i1: nat, i2: nat, i3: nat, i4: nat)

  function ScanClass(s: string): (c: NameScan)
    ensures c.i0 <= c.i1 <= c.i2 <= c.i3 <= c.i4 <= |s|
  {
    var i0 := SkipSpaces(s, 0);
    var i1 := if i0 < |s| && IsAsciiDigit(s[i0]) then
                (if i0 + 1 < |s| && IsAsciiDigit(s[i0 + 1]) then i0 + 2 else i0 + 1)
              else i0;
    var i2 := SkipSpaces(s, i1);
    var i3 := if i2 < |s| && IsDash(s[i2]) then i2 + 1 else i2;
    var i4 := SkipSpaces(s, i3);
    NameScan(i0, i1, i2, i3, i4)
  }

  /** The matcher: the scan reads digits, optionally a dash, a letter, and nothing after it but spaces. */
  function LooksLikeClass(s: string): (b: bool)
  {
    var c := ScanClass(s);
    c.i0 < c.i1 && c.i4 < |s| && IsClassLetter(s[c.i4]) && SkipSpaces(s, c.i4 + 1) == |s|
  }

  /** The matcher accepts exactly the strings the regular expression matches. */
  lemma LooksLikeClassIsPattern(s: string)
    ensures LooksLikeClass(s) <==> MatchesClassPattern(s)
  {
    var c := ScanClass(s);
    if LooksLikeClass(s) {
      assert ClassShape(s, c.i0, c.i1, c.i2, c.i3, c.i4);
    }
    if MatchesClassPattern(s) {
      var i0, i1, i2, i3, i4 :| ClassShape(s, i0, i1, i2, i3, i4);
      ShapeIsScan(s, i0, i1, i2, i3, i4);
    }
  }

  /** Whatever way the expression matches, the scan finds the digits, the letter and the end. */
  lemma ShapeIsScan(s: string, i0: nat, i1: nat, i2: nat, i3: nat, i4: nat)
    requires ClassShape(s, i0, i1, i2, i3, i4)
    ensures var c := ScanClass(s);
      c.i0 == i0 && c.i1 == i1 && c.i4 == i4 && SkipSpaces(s, i4 + 1) == |s|
  {
    SkipSpacesTo(s, 0, i0);
    assert s[i0..i1][0] == s[i0];
    assert i1 == i0 + 2 ==> s[i0..i1][1] == s[i0 + 1];
    assert i1 < |s| ==> !IsAsciiDigit(s[i1]);
    var c := ScanClass(s);
    assert c.i1 == i1;
    if i3 == i2 + 1 {
      SkipSpacesTo(s, i1, i2);
      SkipSpacesTo(s, i3, i4);
    } else {
      SkipSpacesTo(s, i1, i4);
      SkipSpacesTo(s, i4, i4);
    }
    SkipSpacesTo(s, i4 + 1, |s|);
  }

  // ---------------------------------------------------------------------
  // parseClassName
  // ---------------------------------------------------------------------

  function IndexOf(s: string, c: char): (i: nat)
    ensures i <= |s|
    ensures forall k :: 0 <= k < i ==> s[k] != c
    ensures i < |s| ==> s[i] == c
  {
    if |s| == 0 || s[0] == c then 0 else 1 + IndexOf(s[1..], c)
  }

  /** The pieces between the occurrences of `c`, empty ones included. */
  function Pieces(s: string, c: char): (r: seq<string>)
    ensures |r| >= 1
    decreases |s|
  {
    var i := IndexOf(s, c);
    if i == |s| then [s] else [s[..i]] + Pieces(s[i + 1..], c)
  }

  function DropTrailingEmpty(r: seq<string>): (t: seq<string>)
    ensures |t| <= |r| && t == r[..|t|]
    ensures |t| == 0 || |t[|t| - 1]| > 0
  {
    if |r| > 0 && |r[|r| - 1]| == 0 then DropTrailingEmpty(r[..|r| - 1]) else r
  }

  /** String.split on a one-character separator: `[s]` when it does not occur, else the pieces without trailing empty ones. */
  function JavaSplit(s: string, c: char): (r: seq<string>)
    ensures IndexOf(s, c) == |s| ==> r == [s]
    ensures |r| >= 2 ==> |r[|r| - 1]| > 0
  {
    if IndexOf(s, c) == |s| then [s] else DropTrailingEmpty(Pieces(s, c))
  }

  datatype ParsedClass = ParsedClass(grade: int, letter: string)

  /** The first steps of parseClassName: trim, an en dash made a hyphen, `\s` removed. */
  function CompactClassName(raw: string): string {
    RemoveRegexSpaces(Replace(Trim(raw), "–", "-"))
  }

  /**
   * Grade text and letter text: the two pieces of a split on the hyphen,
   * or else everything but the last character and the last character;
   * nothing when a name without two pieces is shorter than two characters.
   */
  function ClassParts(s: string): (r: Option<(string, string)>)
    ensures r.Some? ==> |r.value.1| >= 1
  {
    var parts := JavaSplit(s, '-');
    if |parts| == 2 then Some((parts[0], parts[1]))
    else if |s| < 2 then None
    else Some((s[..|s| - 1], s[|s| - 1..]))
  }

  /**
   * parseClassName: the grade text goes through Integer.parseInt and the
   * letter is upper-cased; a name too short to split is rejected.
   */
  function ParseClassName(raw: string): (r: Result<ParsedClass, ImportError>)
    ensures r.Success? ==> InIntRange(r.value.grade) && |r.value.letter| >= 1
    ensures ClassParts(CompactClassName(raw)).None? ==> r == Failure(BadClassName(raw))
  {
    match ClassParts(CompactClassName(raw))
    case None => Failure(BadClassName(raw))
    case Some((left, right)) =>
      match ParseJavaInt(left)
      case Failure(text) => Failure(BadNumber(text))
      case Success(g) => Success(ParsedClass(g, Upper(right)))
  }

  /** The three steps before the split leave the digits, a hyphen if there was a dash, and the letter. */
  lemma NormalizeClassName(s: string, i0: nat, i1: nat, i2: nat, i3: nat, i4: nat)
    requires ClassShape(s, i0, i1, i2, i3, i4)
    ensures CompactClassName(s) == s[i0..i1] + (if i3 == i2 + 1 then "-" else "") + [s[i4]]
  {
    var dash: string := if i3 == i2 + 1 then "-" else "";
    var t := Trim(s);
    assert t == s[i0..i4 + 1] by {
      TrimShape(s, i0, i1, i2, i3, i4);
    }
    var u := Replace(t, "–", "-");
    assert u == s[i0..i1] + s[i1..i2] + dash + s[i3..i4] + [s[i4]] by {
      ReplaceShape(s, i0, i1, i2, i3, i4);
    }
    DropSpacesInShape(s, i0, i1, i2, i3, i4);
  }

  lemma DropSpacesInShape(s: string, i0: nat, i1: nat, i2: nat, i3: nat, i4: nat)
    requires ClassShape(s, i0, i1, i2, i3, i4)
    ensures var dash: string := if i3 == i2 + 1 then "-" else "";
      RemoveRegexSpaces(s[i0..i1] + s[i1..i2] + dash + s[i3..i4] + [s[i4]]) == s[i0..i1] + dash + [s[i4]]
  {
    var dash: string := if i3 == i2 + 1 then "-" else "";
    var (d, b, c) := (s[i0..i1], s[i1..i2], s[i3..i4]);
    assert forall k :: 0 <= k < |b| ==> b[k] == s[i1 + k];
    assert forall k :: 0 <= k < |c| ==> c[k] == s[i3 + k];
    DropSpacesShape(d, b, dash, c, s[i4]);
  }

  lemma TrimShape(s: string, i0: nat, i1: nat, i2: nat, i3: nat, i4: nat)
    requires ClassShape(s, i0, i1, i2, i3, i4)
    ensures Trim(s) == s[i0..i4 + 1]
  {
    assert s[i0..i1][0] == s[i0];
    assert SpacesBetween(s, 0, i0) && SpacesBetween(s, i4 + 1, |s|);
    TrimSlice(s, i0, i4 + 1);
  }

  lemma ReplaceShape(s: string, i0: nat, i1: nat, i2: nat, i3: nat, i4: nat)
    requires ClassShape(s, i0, i1, i2, i3, i4)
    ensures Replace(s[i0..i4 + 1], "–", "-") == s[i0..i1] + s[i1..i2] + (if i3 == i2 + 1 then "-" else "") + s[i3..i4] + [s[i4]]
  {
    var (d, b, src, c) := (s[i0..i1], s[i1..i2], s[i2..i3], s[i3..i4]);
    assert s[i0..i4 + 1] == d + b + src + c + [s[i4]];
    assert forall k :: 0 <= k < |b| ==> b[k] == s[i1 + k];
    assert forall k :: 0 <= k < |c| ==> c[k] == s[i3 + k];
    assert i3 == i2 + 1 ==> src == [s[i2]];
    ReplacePieces(d, b, src, c, s[i4]);
  }

  /** Only the dash between the digits and the letter can be an en dash. */
  lemma ReplacePieces(d: string, b: string, src: string, c: string, letter: char)
    requires AllDigits(d) && letter != '–'
    requires forall k :: 0 <= k < |b| ==> IsRegexSpace(b[k])
    requires forall k :: 0 <= k < |c| ==> IsRegexSpace(c[k])
    requires src == [] || (|src| == 1 && IsDash(src[0]))
    ensures Replace(d + b + src + c + [letter], "–", "-") == d + b + (if src == [] then "" else "-") + c + [letter]
  {
    assert "–" == ['–'] && "-" == ['-'];
    ReplaceCharAppend(d + b + src + c, [letter], '–', '-');
    ReplaceCharAppend(d + b + src, c, '–', '-');
    ReplaceCharAppend(d + b, src, '–', '-');
    ReplaceCharAppend(d, b, '–', '-');
    ReplaceCharAbsent(d, '–', '-');
    ReplaceCharAbsent(b, '–', '-');
    ReplaceCharAbsent(c, '–', '-');
    ReplaceCharAbsent([letter], '–', '-');
    ReplaceChar(src, '–', '-');
  }

  lemma DropSpacesShape(d: string, spacesB: string, dash: string, spacesC: string, letter: char)
    requires AllDigits(d) && (dash == "" || dash == "-") && !IsRegexSpace(letter)
    requires forall k :: 0 <= k < |spacesB| ==> IsRegexSpace(spacesB[k])
    requires forall k :: 0 <= k < |spacesC| ==> IsRegexSpace(spacesC[k])
    ensures RemoveRegexSpaces(d + spacesB + dash + spacesC + [letter]) == d + dash + [letter]
  {
    RemoveRegexSpacesAppend(d, spacesB);
    NoSpacesKept(d);
    OnlySpacesDropped(spacesB);
    assert RemoveRegexSpaces(d + spacesB) == d;
    RemoveRegexSpacesAppend(d + spacesB, dash);
    NoSpacesKept(dash);
    assert RemoveRegexSpaces(d + spacesB + dash) == d + dash;
    RemoveRegexSpacesAppend(d + spacesB + dash, spacesC);
    OnlySpacesDropped(spacesC);
    assert RemoveRegexSpaces(d + spacesB + dash + spacesC) == d + dash;
    RemoveRegexSpacesAppend(d + spacesB + dash + spacesC, [letter]);
    NoSpacesKept([letter]);
  }

  /** Splitting digits, an optional hyphen and a letter on the hyphen. */
  lemma SplitClassName(d: string, dash: string, letter: char)
    requires 1 <= |d| <= 2 && AllDigits(d) && (dash == "" || dash == "-") && letter != '-'
    ensures ClassParts(d + dash + [letter]) == Some((d, [letter]))
  {
    var v := d + dash + [letter];
    assert forall k :: 0 <= k < |d| ==> v[k] == d[k] && v[k] != '-';
    if dash == "-" {
      assert v[|d|] == '-';
      assert IndexOf(v, '-') == |d|;
      assert v[|d| + 1..] == [letter];
      assert v[..|d|] == d;
      assert IndexOf([letter], '-') == 1;
      assert Pieces([letter], '-') == [[letter]];
      assert Pieces(v, '-') == [d, [letter]];
      assert JavaSplit(v, '-') == [d, [letter]];
    } else {
      assert IndexOf(v, '-') == |v|;
      assert JavaSplit(v, '-') == [v];
      assert v[..|v| - 1] == d && v[|v| - 1..] == [letter];
    }
  }

  /**
   * Every string the matcher accepts parses, to the number its digits spell
   * and its letter upper-cased: the class-name branch of the importers never
   * fails on the name itself.
   */
  lemma ParseAcceptedClassName(s: string)
    requires LooksLikeClass(s)
    ensures var c := ScanClass(s);
      ParseClassName(s) == Success(ParsedClass(DigitsValue(s[c.i0..c.i1]), [UpperChar(s[c.i4])]))
  {
    var c := ScanClass(s);
    assert ClassShape(s, c.i0, c.i1, c.i2, c.i3, c.i4);
    ParseShape(s, c.i0, c.i1, c.i2, c.i3, c.i4);
  }

  lemma ParseShape(s: string, i0: nat, i1: nat, i2: nat, i3: nat, i4: nat)
    requires ClassShape(s, i0, i1, i2, i3, i4)
    ensures ParseClassName(s) == Success(ParsedClass(DigitsValue(s[i0..i1]), [UpperChar(s[i4])]))
  {
    NormalizeClassName(s, i0, i1, i2, i3, i4);
    ParseCompact(s, s[i0..i1], if i3 == i2 + 1 then "-" else "", s[i4]);
  }

  /** A name whose compact form is one or two digits, perhaps a hyphen, and a letter parses to their number and the letter upper-cased. */
  lemma ParseCompact(s: string, d: string, dash: string, letter: char)
    requires 1 <= |d| <= 2 && AllDigits(d) && (dash == "" || dash == "-") && letter != '-'
    requires CompactClassName(s) == d + dash + [letter]
    ensures ParseClassName(s) == Success(ParsedClass(DigitsValue(d), [UpperChar(letter)]))
  {
    SplitClassName(d, dash, letter);
    DigitsParse(d);
    assert Upper([letter]) == [UpperChar(letter)];
  }

  lemma NoSpacesKept(s: string)
    requires forall k :: 0 <= k < |s| ==> !IsRegexSpace(s[k])
    ensures RemoveRegexSpaces(s) == s
  {
    if |s| > 0 {
      NoSpacesKept(s[1..]);
    }
  }

  lemma OnlySpacesDropped(s: string)
    requires forall k :: 0 <= k < |s| ==> IsRegexSpace(s[k])
    ensures RemoveRegexSpaces(s) == ""
  {
    if |s| > 0 {
      OnlySpacesDropped(s[1..]);
    }
  }

  /** One or two digits read back through Integer.parseInt. */
  lemma DigitsParse(d: string)
    requires 1 <= |d| <= 2 && AllDigits(d)
    ensures ParseJavaInt(d) == Success(DigitsValue(d))
  {
    assert Unsigned(d) == d;
    assert DigitsValue(d[..1]) == DigitValue(d[0]) by {
      assert d[..1][..0] == [];
    }
    if |d| == 2 {
      assert DigitsValue(d) == DigitsValue(d[..1]) * 10 + DigitValue(d[1]);
    } else {
      assert d[..1] == d;
    }
  }

  /** «10-А» is a class name: grade 10, letter «А». */
  lemma DashedExample()
    ensures LooksLikeClass("10-А") && ParseClassName("10-А") == Success(ParsedClass(10, "А"))
  {
    var s := "10-А";
    assert s[0] == '1' && s[1] == '0' && s[2] == '-' && s[3] == 'А';
    TenDigits(s);
    assert ClassShape(s, 0, 2, 2, 3, 3);
    TenA(s, 2, 3);
  }

  /** A bare building number such as «1» is not a class name: no letter follows the digit. */
  lemma BareNumberExample()
    ensures !LooksLikeClass("1")
  {
    var s := "1";
    assert s[0] == '1' && |s| == 1;
    assert SkipSpaces(s, 0) == 0;
    assert ScanClass(s).i1 == 1;
  }

  /** «10А» is a class name: grade 10, letter «А». */
  lemma PlainExample()
    ensures LooksLikeClass("10А") && ParseClassName("10А") == Success(ParsedClass(10, "А"))
  {
    var s := "10А";
    assert s[0] == '1' && s[1] == '0' && s[2] == 'А';
    TenDigits(s);
    assert ClassShape(s, 0, 2, 2, 2, 2);
    TenA(s, 2, 2);
  }

  /** «10 - А» is a class name: grade 10, letter «А». */
  lemma SpacedExample()
    ensures LooksLikeClass("10 - А") && ParseClassName("10 - А") == Success(ParsedClass(10, "А"))
  {
    var s := "10 - А";
    assert s[0] == '1' && s[1] == '0' && s[2] == ' ' && s[3] == '-' && s[4] == ' ' && s[5] == 'А';
    TenDigits(s);
    assert SpacesBetween(s, 2, 3) && SpacesBetween(s, 4, 5);
    assert ClassShape(s, 0, 2, 3, 4, 5);
    TenA(s, 3, 4);
  }

  lemma TenDigits(s: string)
    requires |s| >= 2 && s[0] == '1' && s[1] == '0'
    ensures AllDigits(s[0..2]) && DigitsValue(s[0..2]) == 10
  {
    var d := s[0..2];
    assert d[0] == '1' && d[1] == '0';
    assert AllDigits(d);
    assert DigitsValue(d[..1]) == 1 by {
      assert d[..1][..0] == [];
      assert d[..1][0] == '1';
    }
    assert d[..|d| - 1] == d[..1];
  }

  /** «10», then an optional dash between `i2` and `i3` and spaces, then «А». */
  lemma TenA(s: string, i2: nat, i3: nat)
    requires |s| >= 3
    requires ClassShape(s, 0, 2, i2, i3, |s| - 1) && DigitsValue(s[0..2]) == 10 && s[|s| - 1] == 'А'
    ensures LooksLikeClass(s) && ParseClassName(s) == Success(ParsedClass(10, "А"))
  {
    ShapeIsScan(s, 0, 2, i2, i3, |s| - 1);
    ParseShape(s, 0, 2, i2, i3, |s| - 1);
    assert UpperChar('А') == 'А';
  }

  /** Names the matcher rejects can still fail to parse: a lone letter is too short, «А-10» has no number first. */
  lemma RejectedNamesFail()
    ensures ParseClassName("А") == Failure(BadClassName("А"))
    ensures ParseClassName("А-10") == Failure(BadNumber("А"))
  {
    LoneLetterFails();
    LetterFirstFails();
  }

  lemma LoneLetterFails()
    ensures ParseClassName("А") == Failure(BadClassName("А"))
  {
    LoneLetterCompact();
    assert ClassParts("А") == None by {
      assert IndexOf("А", '-') == 1;
    }
  }

  lemma LoneLetterCompact()
    ensures CompactClassName("А") == "А"
  {
    CompactPlain("А");
  }

  lemma LetterFirstFails()
    ensures ParseClassName("А-10") == Failure(BadNumber("А"))
  {
    LetterFirstCompact();
    LetterFirstParts();
    LetterNotNumber();
  }

  lemma LetterFirstCompact()
    ensures CompactClassName("А-10") == "А-10"
  {
    var s := "А-10";
    assert s[0] == 'А' && s[1] == '-' && s[2] == '1' && s[3] == '0';
    CompactPlain(s);
  }

  lemma LetterFirstParts()
    ensures ClassParts("А-10") == Some(("А", "10"))
  {
    var v := "А-10";
    assert v[0] == 'А' && v[1] == '-' && v[1..][0] == '-';
    assert IndexOf(v[1..], '-') == 0;
    assert IndexOf(v, '-') == 1;
    assert v[..1] == "А" && v[2..] == "10";
    assert IndexOf("10"[1..], '-') == 1;
    assert IndexOf("10", '-') == 2;
    assert Pieces("10", '-') == ["10"];
    assert Pieces(v, '-') == ["А", "10"];
    assert JavaSplit(v, '-') == ["А", "10"];
  }

  lemma LetterNotNumber()
    ensures ParseJavaInt("А") == Failure("А")
  {
  }

  /** A name with no space, no en dash and non-blank ends is its own compact form. */
  lemma CompactPlain(s: string)
    requires |s| > 0 && !IsTrimmable(s[0]) && !IsTrimmable(s[|s| - 1])
    requires forall k :: 0 <= k < |s| ==> !IsRegexSpace(s[k]) && s[k] != '–'
    ensures CompactClassName(s) == s
  {
    TrimSolid(s);
    assert "–" == ['–'] && "-" == ['-'];
    ReplaceCharAbsent(s, '–', '-');
    NoSpacesKept(s);
  }
}

=== FILE: curriculum_import.dfy ===
/**
 * importCurriculum: how many copies of which title each student of a grade
 * needs.
 *
 * Every row after the header (row 0) reads grade | subject | ISBN | copies
 * per student; there is no skip for blank rows. The subject is found by its
 * name ignoring case or created; the title must already exist under that
 * ISBN, grade and subject; the new curriculum item is then appended. The
 * (grade, subject, title) triple is unique in the table, so a row naming a
 * triple already present fails. The first failing row ends the import, the
 * rows before it (and a subject the failing row created) staying saved.
 */
module CurriculumImport {
  import opened Wrappers
  import opened Text
  import opened Numbers
  import opened Entities
  import opened Sheets
  import opened RowImport
  import opened Catalog

  /** What a curriculum row says. */
  datatype CurriculumLine = CurriculumLine(grade: int, subject: string, isbn: string, perStudent: int)

  /** The grade as getInt(0), the subject and ISBN as trimmed text, the copies as getInt(3). */
  function ReadCurriculumLine(r: Row): (l: Result<CurriculumLine, ImportError>)
    ensures l.Success? <==> GetInt(Cell(r, 0)).Success? && GetInt(Cell(r, 3)).Success?
    ensures l.Success? ==>
      && Success(l.value.grade) == GetInt(Cell(r, 0))
      && Success(l.value.perStudent) == GetInt(Cell(r, 3))
      && l.value.subject == Cell(r, 1) && l.value.isbn == Cell(r, 2)
    ensures GetInt(Cell(r, 0)).Failure? ==> l == Failure(BadNumber(GetInt(Cell(r, 0)).error))
    ensures GetInt(Cell(r, 0)).Success? && GetInt(Cell(r, 3)).Failure? ==> l == Failure(BadNumber(GetInt(Cell(r, 3)).error))
  {
    var grade :- AsNumber(GetInt(Cell(r, 0)));
    var perStudent :- AsNumber(GetInt(Cell(r, 3)));
    Success(CurriculumLine(grade, Cell(r, 1), Cell(r, 2), perStudent))
  }

  /** The row a curriculum line is written as, numbers in their decimal form. */
  function LineCells(l: CurriculumLine): Row {
    [IntToString(l.grade), l.subject, l.isbn, IntToString(l.perStudent)]
  }

  /** A line written out as a row reads back as itself, as long as its numbers fit an int and its texts carry no outer spaces. */
  lemma CurriculumLineRoundTrip(l: CurriculumLine)
    requires InIntRange(l.grade) && InIntRange(l.perStudent)
    requires Trim(l.subject) == l.subject && Trim(l.isbn) == l.isbn
    ensures ReadCurriculumLine(LineCells(l)) == Success(l)
  {
    LineCellsRead(l);
    ParseJavaIntRoundTrip(l.grade);
    ParseJavaIntRoundTrip(l.perStudent);
  }

  lemma LineCellsRead(l: CurriculumLine)
    requires Trim(l.subject) == l.subject && Trim(l.isbn) == l.isbn
    ensures var r := LineCells(l);
      Cell(r, 0) == IntToString(l.grade) && Cell(r, 1) == l.subject
      && Cell(r, 2) == l.isbn && Cell(r, 3) == IntToString(l.perStudent)
  {
    IntToStringTrimmed(l.grade);
    IntToStringTrimmed(l.perStudent);
    FourTrimmedCells(IntToString(l.grade), l.subject, l.isbn, IntToString(l.perStudent));
  }

  // ---------------------------------------------------------------------
  // The table and its invariants
  // ---------------------------------------------------------------------

  /** The item is the one of that grade, subject and title. */
  predicate CurriculumKey(c: CurriculumItem, grade: int, subject: Id, title: Id) {
    c.grade == grade && c.subject == subject && c.bookTitle == title
  }

  /** Some item of the table has that grade, subject and title. */
  predicate HasCurriculumKey(items: seq<CurriculumItem>, grade: int, subject: Id, title: Id) {
    exists k :: 0 <= k < |items| && CurriculumKey(items[k], grade, subject, title)
  }

  /** The unique constraint of CurriculumItem: no two items share grade, subject and title. */
  predicate CurriculumKeysUnique(items: seq<CurriculumItem>) {
    forall i, j :: 0 <= i < j < |items| ==> !CurriculumKey(items[j], items[i].grade, items[i].subject, items[i].bookTitle)
  }

  /** The item refers to an existing subject and to an existing title of its own grade and subject. */
  predicate Refers(db: Db, c: CurriculumItem) {
    c.subject < |db.subjects| && c.bookTitle < |db.titles|
    && db.titles[c.bookTitle].grade == c.grade && db.titles[c.bookTitle].subject == c.subject
  }

  /** Every curriculum item refers as Refers demands. */
  predicate CurriculumConsistent(db: Db) {
    forall k :: 0 <= k < |db.curriculum| ==> Refers(db, db.curriculum[k])
  }

  /** Only the subjects and the curriculum differ, and both only by rows appended at the end. */
  predicate CurriculumGrows(a: Db, b: Db) {
    && b == a.(subjects := b.subjects, curriculum := b.curriculum)
    && |a.subjects| <= |b.subjects| && b.subjects[..|a.subjects|] == a.subjects
    && |a.curriculum| <= |b.curriculum| && b.curriculum[..|a.curriculum|] == a.curriculum
  }

  /** The two invariants the importer keeps. */
  predicate CurriculumWellFormed(db: Db) {
    CurriculumKeysUnique(db.curriculum) && CurriculumConsistent(db)
  }

  // ---------------------------------------------------------------------
  // One row
  // ---------------------------------------------------------------------

  /**
   * The part of a row after its subject is settled: the title looked up by
   * ISBN within the grade and subject, the item appended unless its triple
   * is already present.
   */
  function AddItem(db: Db, subject: Id, l: CurriculumLine): (st: Step<Db>)
    requires subject < |db.subjects|
    ensures !st.Skip?
    ensures st.Failed? ==> st.state == db
    ensures st.Saved? ==> st.state == db.(curriculum := st.state.curriculum)
    ensures CurriculumWellFormed(db) ==> CurriculumWellFormed(st.state)
    ensures TitleByIsbn(db.titles, l.isbn, l.grade, subject).Missing? <==> st == Failed(db, BookNotFound(l.isbn))
    ensures TitleByIsbn(db.titles, l.isbn, l.grade, subject).Ambiguous? <==> st == Failed(db, NonUniqueResult)
    ensures st == Failed(db, DuplicateKey) <==>
      TitleByIsbn(db.titles, l.isbn, l.grade, subject).Found?
      && HasCurriculumKey(db.curriculum, l.grade, subject, TitleByIsbn(db.titles, l.isbn, l.grade, subject).id)
    ensures st.Saved? ==>
      && var t := TitleByIsbn(db.titles, l.isbn, l.grade, subject);
      && t.Found? && st.state.curriculum == db.curriculum + [CurriculumItem(l.grade, subject, t.id, l.perStudent)]
      && IsbnMatch(db.titles[t.id], l.isbn, l.grade, subject)
  {
    match TitleByIsbn(db.titles, l.isbn, l.grade, subject)
    case Missing => Failed(db, BookNotFound(l.isbn))
    case Ambiguous => Failed(db, NonUniqueResult)
    case Found(t) =>
      if HasCurriculumKey(db.curriculum, l.grade, subject, t) then Failed(db, DuplicateKey)
      else
        var item := CurriculumItem(l.grade, subject, t, l.perStudent);
        var e := db.(curriculum := db.curriculum + [item]);
        assert Refers(e, item);
        assert CurriculumConsistent(db) ==> CurriculumConsistent(e) by {
          if CurriculumConsistent(db) {
            forall k | 0 <= k < |e.curriculum| ensures Refers(e, e.curriculum[k]) {
              if k < |db.curriculum| {
                assert Refers(db, db.curriculum[k]);
              }
            }
          }
        }
        Saved(e)
  }

  /** The database with the subject table a subject lookup left; items keep referring where they did. */
  function WithSubjects(db: Db, s: Stored<Subject>): (d: Db)
    requires |db.subjects| <= |s.rows| && s.rows[..|db.subjects|] == db.subjects
    ensures CurriculumGrows(db, d) && d.curriculum == db.curriculum && d.subjects == s.rows
    ensures CurriculumWellFormed(db) ==> CurriculumWellFormed(d)
  {
    var d := db.(subjects := s.rows);
    assert d.curriculum[..|db.curriculum|] == db.curriculum;
    assert CurriculumConsistent(db) ==> CurriculumConsistent(d) by {
      if CurriculumConsistent(db) {
        forall k | 0 <= k < |d.curriculum| ensures Refers(d, d.curriculum[k]) {
          assert Refers(db, db.curriculum[k]);
        }
      }
    }
    d
  }

  /** The subject a line names, found by name ignoring case or created. */
  function LineSubject(db: Db, l: CurriculumLine): Result<Stored<Subject>, ImportError> {
    FindOrCreateSubject(db.subjects, l.subject)
  }

  /**
   * Save a read row: the subject found or created (and kept even when the
   * rest of the row fails), then the item added.
   */
  function SaveCurriculumLine(db: Db, l: CurriculumLine): (st: Step<Db>)
    ensures !st.Skip? && CurriculumGrows(db, st.state)
    ensures CurriculumWellFormed(db) ==> CurriculumWellFormed(st.state)
    ensures LineSubject(db, l).Failure? ==> st == Failed(db, NonUniqueResult)
    ensures LineSubject(db, l).Success? ==>
      st == AddItem(db.(subjects := LineSubject(db, l).value.rows), LineSubject(db, l).value.id, l)
  {
    match LineSubject(db, l)
    case Failure(e) => Failed(db, e)
    case Success(s) =>
      var d := WithSubjects(db, s);
      var st := AddItem(d, s.id, l);
      assert st.Saved? ==> st.state.curriculum[..|db.curriculum|] == db.curriculum;
      st
  }

  /**
   * A read row is saved exactly when its subject is unambiguous, its title
   * exists under the ISBN, grade and subject, and the triple is new; the
   * appended item then holds the row's numbers and refers to that subject
   * and title.
   */
  lemma SaveCurriculumLineSaves(db: Db, l: CurriculumLine)
    ensures var st := SaveCurriculumLine(db, l);
      st.Saved? <==>
      && LineSubject(db, l).Success?
      && var s := LineSubject(db, l).value;
      && TitleByIsbn(db.titles, l.isbn, l.grade, s.id).Found?
      && !HasCurriculumKey(db.curriculum, l.grade, s.id, TitleByIsbn(db.titles, l.isbn, l.grade, s.id).id)
    ensures var st := SaveCurriculumLine(db, l);
      st.Saved? ==>
      && |st.state.curriculum| == |db.curriculum| + 1
      && var c := st.state.curriculum[|db.curriculum|];
      && c.grade == l.grade && c.perStudent == l.perStudent
      && c.subject < |st.state.subjects| && EqualsIgnoreCase(st.state.subjects[c.subject].name, l.subject)
      && c.bookTitle < |db.titles| && IsbnMatch(db.titles[c.bookTitle], l.isbn, l.grade, c.subject)
  {
    if LineSubject(db, l).Success? {
      var s := LineSubject(db, l).value;
      assert SaveCurriculumLine(db, l) == AddItem(db.(subjects := s.rows), s.id, l);
    }
  }

  /** One row of importCurriculum: read, then saved. */
  function CurriculumRow(db: Db, r: Row): (st: Step<Db>)
    ensures !st.Skip? && CurriculumGrows(db, st.state)
    ensures CurriculumWellFormed(db) ==> CurriculumWellFormed(st.state)
    ensures ReadCurriculumLine(r).Failure? ==> st == Failed(db, ReadCurriculumLine(r).error)
    ensures ReadCurriculumLine(r).Success? ==> st == SaveCurriculumLine(db, ReadCurriculumLine(r).value)
  {
    match ReadCurriculumLine(r)
    case Failure(e) => Failed(db, e)
    case Success(l) => SaveCurriculumLine(db, l)
  }

  /**
   * Importing a curriculum row a second time fails: the subject and title
   * are found again, and their triple is now present.
   */
  lemma CurriculumRowTwiceFails(db: Db, r: Row)
    requires CurriculumRow(db, r).Saved?
    ensures var d := CurriculumRow(db, r).state;
      CurriculumRow(d, r) == Failed(d, DuplicateKey)
  {
    var l := ReadCurriculumLine(r).value;
    var s := LineSubject(db, l).value;
    var t := TitleByIsbn(db.titles, l.isbn, l.grade, s.id).id;
    var d := CurriculumRow(db, r).state;
    assert d == AddItem(db.(subjects := s.rows), s.id, l).state;
    FindOrCreateSubjectIdempotent(db.subjects, l.subject);
    assert LineSubject(d, l) == Success(s);
    assert d.titles == db.titles;
    assert CurriculumKey(d.curriculum[|db.curriculum|], l.grade, s.id, t);
    assert CurriculumRow(d, r) == AddItem(d.(subjects := s.rows), s.id, l);
  }

  function CurriculumStep(): (Db, Row) -> Step<Db> {
    (db: Db, r: Row) => CurriculumRow(db, r)
  }

  // ---------------------------------------------------------------------
  // The whole sheet
  // ---------------------------------------------------------------------

  /**
   * importCurriculum: rows 1.. of the first sheet; the first failing row
   * ends the import with its message, the rows before it staying saved.
   */
  function ImportCurriculum(db: Db, sheet: Sheet): (r: (Db, Outcome))
    ensures CurriculumGrows(db, r.0)
    ensures CurriculumWellFormed(db) ==> CurriculumWellFormed(r.0)
    ensures !r.1.RowErrors?
    ensures |sheet| <= 1 ==> r == (db, Done(0))
  {
    if |sheet| == 0 then (db, Done(0))
    else
      CurriculumScanKeeps(db, sheet, 1);
      var scan := ScanSheet(sheet, CurriculumStep(), 1, 0, db);
      (scan.state, FinishFirst(scan))
  }

  /** Growth is transitive: two steps that each only append make one that only appends. */
  lemma GrowsTransitive(a: Db, b: Db, c: Db)
    requires CurriculumGrows(a, b) && CurriculumGrows(b, c)
    ensures CurriculumGrows(a, c)
  {
    assert c.subjects[..|a.subjects|] == c.subjects[..|b.subjects|][..|a.subjects|];
    assert c.curriculum[..|a.curriculum|] == c.curriculum[..|b.curriculum|][..|a.curriculum|];
  }

  /** The curriculum loop only appends subjects and items, and keeps the table well formed. */
  lemma CurriculumScanKeeps(db: Db, sheet: Sheet, cap: nat)
    requires cap >= 1 && |sheet| > 0
    ensures var d := ScanSheet(sheet, CurriculumStep(), cap, 0, db).state;
      CurriculumGrows(db, d) && (CurriculumWellFormed(db) ==> CurriculumWellFormed(d))
  {
    var inv := (s: Db) => CurriculumGrows(db, s) && (CurriculumWellFormed(db) ==> CurriculumWellFormed(s));
    forall s, row | inv(s) ensures match CurriculumStep()(s, row) { case Skip => true case Saved(t) => inv(t) case Failed(t, _) => inv(t) } {
      var st := CurriculumRow(s, row);
      assert CurriculumStep()(s, row) == st;
      GrowsTransitive(db, s, st.state);
    }
    assert inv(db) by {
      assert db.subjects[..|db.subjects|] == db.subjects;
      assert db.curriculum[..|db.curriculum|] == db.curriculum;
    }
    ScanSheetKeeps(sheet, CurriculumStep(), inv, cap, 0, db);
  }
}

=== FILE: enrollment.dfy ===
/**
 * Upserting class headcounts, current and future.
 *
 * A class is identified by its building, grade and letter (and, for the
 * coming years, the academic year); letters are compared ignoring case.
 * Saving a class overwrites every column of the class found under that key,
 * or appends a new one.
 */
module Enrollment {
  import opened Wrappers
  import opened Text
  import opened Entities

  /** `letter.trim().toUpperCase(Locale.ROOT)`: how every writer of class groups normalises a letter. */
  function NormalizeLetter(letter: string): string {
    Upper(Trim(letter))
  }

  /**
   * findBy...LetterIgnoreCase(...).orElseGet(new), every column set, save:
   * the class under the key is overwritten, or a new class appended; with
   * keys unique before, the save succeeds and keeps them unique.
   */
  function UpsertClass(classes: seq<ClassGroup>, building: Id, grade: int, letter: string, students: int): (r: Result<Stored<ClassGroup>, ImportError>)
    ensures ClassKeysUnique(classes) ==> r.Success? && ClassKeysUnique(r.value.rows)
    ensures r.Success? ==> WroteOne(classes, r.value.rows, r.value.id)
    ensures r.Success? ==> r.value.rows[r.value.id] == ClassGroup(building, grade, letter, students)
    ensures r.Success? ==> (r.value.id < |classes| <==> exists j :: 0 <= j < |classes| && ClassKey(classes[j], building, grade, letter))
    ensures r.Success? && r.value.id < |classes| ==> ClassKey(classes[r.value.id], building, grade, letter)
    ensures r.Success? ==> forall j :: 0 <= j < |classes| && j != r.value.id ==> !ClassKey(classes[j], building, grade, letter)
    ensures r.Failure? <==> exists i, j :: 0 <= i < j < |classes| && ClassKey(classes[i], building, grade, letter) && ClassKey(classes[j], building, grade, letter)
    ensures r.Failure? ==> r.error == NonUniqueResult
  {
    var hit := ClassOf(classes, building, grade, letter);
    if hit.Ambiguous? then Failure(NonUniqueResult)
    else
      var rows := SaveAt(classes, hit, ClassGroup(building, grade, letter, students));
      assert ClassKeysUnique(classes) ==> ClassKeysUnique(rows) by {
        if ClassKeysUnique(classes) {
          SaveClassKeepsUnique(classes, building, grade, letter, students);
        }
      }
      Success(Stored(rows, SavedId(|classes|, hit)))
  }

  /** Saving through the key's lookup, with keys unique, keeps them unique: only the row under the key is written. */
  lemma SaveClassKeepsUnique(classes: seq<ClassGroup>, building: Id, grade: int, letter: string, students: int)
    requires ClassKeysUnique(classes) && !ClassOf(classes, building, grade, letter).Ambiguous?
    ensures ClassKeysUnique(SaveAt(classes, ClassOf(classes, building, grade, letter), ClassGroup(building, grade, letter, students)))
  {
    var hit := ClassOf(classes, building, grade, letter);
    var rows := SaveAt(classes, hit, ClassGroup(building, grade, letter, students));
    if hit.Missing? {
      assert forall j :: 0 <= j < |classes| ==> rows[j] == classes[j];
    }
  }

  /** Saving a class the table already holds, under a key no other class has, changes nothing. */
  lemma UpsertClassHeld(classes: seq<ClassGroup>, building: Id, grade: int, letter: string, students: int, id: Id)
    requires ClassOf(classes, building, grade, letter) == Found(id)
    requires classes[id] == ClassGroup(building, grade, letter, students)
    ensures UpsertClass(classes, building, grade, letter, students) == Success(Stored(classes, id))
  {
    assert classes[id := classes[id]] == classes;
  }

  /** Saving the same class twice leaves the table as the first save left it. */
  lemma UpsertClassIdempotent(classes: seq<ClassGroup>, building: Id, grade: int, letter: string, students: int)
    requires UpsertClass(classes, building, grade, letter, students).Success?
    ensures var s := UpsertClass(classes, building, grade, letter, students).value;
      UpsertClass(s.rows, building, grade, letter, students) == Success(s)
  {
    var s := UpsertClass(classes, building, grade, letter, students).value;
    ClassFoundAfterWrite(classes, s.rows, s.id, building, grade, letter);
    UpsertClassHeld(s.rows, building, grade, letter, students, s.id);
  }

  /** After a save, the saved class is the only one under its key when no other class was. */
  lemma ClassFoundAfterWrite(before: seq<ClassGroup>, after: seq<ClassGroup>, id: Id, building: Id, grade: int, letter: string)
    requires WroteOne(before, after, id) && id < |after| && ClassKey(after[id], building, grade, letter)
    requires forall j :: 0 <= j < |before| && j != id ==> !ClassKey(before[j], building, grade, letter)
    ensures ClassOf(after, building, grade, letter) == Found(id)
  {
    assert forall j :: 0 <= j < |after| && j != id ==> after[j] == before[j];
  }

  /** As UpsertClass, for the classes of a coming academic year. */
  function UpsertFuture(groups: seq<FutureClassGroup>, building: Id, year: int, grade: int, letter: string, students: int): (r: Result<Stored<FutureClassGroup>, ImportError>)
    ensures FutureKeysUnique(groups) ==> r.Success? && FutureKeysUnique(r.value.rows)
    ensures r.Success? ==> WroteOne(groups, r.value.rows, r.value.id)
    ensures r.Success? ==> r.value.rows[r.value.id] == FutureClassGroup(building, year, grade, letter, students)
    ensures r.Success? ==> (r.value.id < |groups| <==> exists j :: 0 <= j < |groups| && FutureKey(groups[j], building, year, grade, letter))
    ensures r.Success? && r.value.id < |groups| ==> FutureKey(groups[r.value.id], building, year, grade, letter)
    ensures r.Success? ==> forall j :: 0 <= j < |groups| && j != r.value.id ==> !FutureKey(groups[j], building, year, grade, letter)
    ensures r.Failure? <==> exists i, j :: 0 <= i < j < |groups| && FutureKey(groups[i], building, year, grade, letter) && FutureKey(groups[j], building, year, grade, letter)
    ensures r.Failure? ==> r.error == NonUniqueResult
  {
    var hit := FutureClassOf(groups, building, year, grade, letter);
    if hit.Ambiguous? then Failure(NonUniqueResult)
    else
      var rows := SaveAt(groups, hit, FutureClassGroup(building, year, grade, letter, students));
      assert FutureKeysUnique(groups) ==> FutureKeysUnique(rows) by {
        if FutureKeysUnique(groups) {
          SaveFutureKeepsUnique(groups, building, year, grade, letter, students);
        }
      }
      Success(Stored(rows, SavedId(|groups|, hit)))
  }

  /** As SaveClassKeepsUnique, for the classes of a coming academic year. */
  lemma SaveFutureKeepsUnique(groups: seq<FutureClassGroup>, building: Id, year: int, grade: int, letter: string, students: int)
    requires FutureKeysUnique(groups) && !FutureClassOf(groups, building, year, grade, letter).Ambiguous?
    ensures FutureKeysUnique(SaveAt(groups, FutureClassOf(groups, building, year, grade, letter), FutureClassGroup(building, year, grade, letter, students)))
  {
    var hit := FutureClassOf(groups, building, year, grade, letter);
    var rows := SaveAt(groups, hit, FutureClassGroup(building, year, grade, letter, students));
    if hit.Missing? {
      assert forall j :: 0 <= j < |groups| ==> rows[j] == groups[j];
    }
  }

  /** As UpsertClassHeld, for the classes of a coming academic year. */
  lemma UpsertFutureHeld(groups: seq<FutureClassGroup>, building: Id, year: int, grade: int, letter: string, students: int, id: Id)
    requires FutureClassOf(groups, building, year, grade, letter) == Found(id)
    requires groups[id] == FutureClassGroup(building, year, grade, letter, students)
    ensures UpsertFuture(groups, building, year, grade, letter, students) == Success(Stored(groups, id))
  {
    assert groups[id := groups[id]] == groups;
  }

  /** After a save, the lookup by the same key finds exactly the saved class. */
  lemma UpsertFutureFinds(groups: seq<FutureClassGroup>, building: Id, year: int, grade: int, letter: string, students: int)
    requires UpsertFuture(groups, building, year, grade, letter, students).Success?
    ensures var s := UpsertFuture(groups, building, year, grade, letter, students).value;
      FutureClassOf(s.rows, building, year, grade, letter) == Found(s.id)
  {
    var s := UpsertFuture(groups, building, year, grade, letter, students).value;
    FutureFoundAfterWrite(groups, s.rows, s.id, building, year, grade, letter);
  }

  /** As ClassFoundAfterWrite, for the classes of a coming academic year. */
  lemma FutureFoundAfterWrite(before: seq<FutureClassGroup>, after: seq<FutureClassGroup>, id: Id, building: Id, year: int, grade: int, letter: string)
    requires WroteOne(before, after, id) && id < |after| && FutureKey(after[id], building, year, grade, letter)
    requires forall j :: 0 <= j < |before| && j != id ==> !FutureKey(before[j], building, year, grade, letter)
    ensures FutureClassOf(after, building, year, grade, letter) == Found(id)
  {
    assert forall j :: 0 <= j < |after| && j != id ==> after[j] == before[j];
  }

  /** Saving the same future class twice leaves the table as the first save left it. */
  lemma UpsertFutureIdempotent(groups: seq<FutureClassGroup>, building: Id, year: int, grade: int, letter: string, students: int)
    requires UpsertFuture(groups, building, year, grade, letter, students).Success?
    ensures var s := UpsertFuture(groups, building, year, grade, letter, students).value;
      UpsertFuture(s.rows, building, year, grade, letter, students) == Success(s)
  {
    var s := UpsertFuture(groups, building, year, grade, letter, students).value;
    UpsertFutureFinds(groups, building, year, grade, letter, students);
    UpsertFutureHeld(s.rows, building, year, grade, letter, students, s.id);
  }

  /** Some projected class of the year answers to the key. */
  predicate HasFuture(groups: seq<FutureClassGroup>, building: Id, year: int, grade: int, letter: string) {
    exists j :: 0 <= j < |groups| && FutureKey(groups[j], building, year, grade, letter)
  }

  /** Equality ignoring case is symmetric and transitive. */
  lemma LowerSymmetric(a: string, b: string, c: string)
    requires EqualsIgnoreCase(a, b) && EqualsIgnoreCase(a, c)
    ensures EqualsIgnoreCase(b, c)
  {
  }

  /** UpsertFutureKeeps for every key at once. */
  lemma UpsertFutureKeepsAll(groups: seq<FutureClassGroup>, building: Id, year: int, grade: int, letter: string, students: int)
    ensures UpsertFuture(groups, building, year, grade, letter, students).Success? ==>
      forall b, y, g, l :: HasFuture(groups, b, y, g, l) ==> HasFuture(UpsertFuture(groups, building, year, grade, letter, students).value.rows, b, y, g, l)
  {
    forall b, y, g, l | HasFuture(groups, b, y, g, l) {
      UpsertFutureKeeps(groups, building, year, grade, letter, students, b, y, g, l);
    }
  }

  /** A save keeps every projected class by key: it overwrites only a class answering to its own key, with that key. */
  lemma UpsertFutureKeeps(groups: seq<FutureClassGroup>, building: Id, year: int, grade: int, letter: string, students: int,
                          b: Id, y: int, g: int, l: string)
    requires HasFuture(groups, b, y, g, l)
    ensures UpsertFuture(groups, building, year, grade, letter, students).Success? ==>
      HasFuture(UpsertFuture(groups, building, year, grade, letter, students).value.rows, b, y, g, l)
  {
    var u := UpsertFuture(groups, building, year, grade, letter, students);
    if u.Success? {
      var j :| 0 <= j < |groups| && FutureKey(groups[j], b, y, g, l);
      if j == u.value.id {
        LowerSymmetric(groups[j].letter, letter, l);
        assert FutureKey(u.value.rows[j], b, y, g, l);
      } else {
        assert u.value.rows[j] == groups[j];
      }
    }
  }

  /** After a save the saved key has its projected class. */
  lemma UpsertFutureHas(groups: seq<FutureClassGroup>, building: Id, year: int, grade: int, letter: string, students: int)
    ensures UpsertFuture(groups, building, year, grade, letter, students).Success? ==>
      HasFuture(UpsertFuture(groups, building, year, grade, letter, students).value.rows, building, year, grade, letter)
  {
    var u := UpsertFuture(groups, building, year, grade, letter, students);
    if u.Success? {
      assert FutureKey(u.value.rows[u.value.id], building, year, grade, letter);
    }
  }
}

=== FILE: entities.dfy ===
/**
 * The persisted entities and the repository that holds them.
 *
 * Each table is a sequence whose index is the row's id. A Spring Data query
 * returning Optional yields the single matching row, nothing, or an error
 * when more than one row matches; `UniqueLookup` models exactly that.
 */
module Entities {
  import opened Wrappers
  import opened Text

  type Id = nat

  /** A wall-clock reading, passed in by the caller. */
  type Timestamp = int

  datatype Building = Building(code: string, name: string)

  datatype Subject = Subject(name: string)

  datatype BookTitle = BookTitle(
    externalKey: Option<string>,
    title: string,
    authors: Option<string>,
    publisher: Option<string>,
    year: Option<int>,
    isbn: Option<string>,
    subject: Id,
    grade: int)

  /** One book title's copies in one building; (building, bookTitle) is unique. */
  datatype Stock = Stock(
    building: Id,
    bookTitle: Id,
    total: int,
    available: int,
    inUse: int,
    meshTotal: int,
    suufTotal: int,
    issuedToStudents: int,
    inCabinets: int,
    note: Option<string>)

  /** Each student of `grade` needs `perStudent` copies of the title; (grade, subject, bookTitle) is unique. */
  datatype CurriculumItem = CurriculumItem(grade: int, subject: Id, bookTitle: Id, perStudent: int)

  /** The headcount of one class; (building, grade, letter) is unique. */
  datatype ClassGroup = ClassGroup(building: Id, grade: int, letter: string, students: int)

  /** The projected headcount of one class in a coming academic year; (building, year, grade, letter) is unique. */
  datatype FutureClassGroup = FutureClassGroup(building: Id, academicYear: int, grade: int, letter: string, students: int)

  datatype Scope = Current | Future

  datatype ChangeAction = Upsert | Delete | Bulk

  datatype EnrollmentChange = EnrollmentChange(
    ts: Timestamp,
    actor: Option<Id>,
    building: Id,
    scope: Scope,
    academicYear: int,
    grade: int,
    letter: string,
    oldStudents: int,
    newStudents: int,
    action: ChangeAction,
    note: Option<string>)

  datatype MovementType = Transfer | Issue | Return | Adjustment

  datatype Movement = Movement(
    kind: MovementType,
    fromBuilding: Option<Id>,
    toBuilding: Option<Id>,
    bookTitle: Id,
    count: int,
    createdBy: Id,
    createdAt: Timestamp,
    note: string)

  datatype WriteOff = WriteOff(
    building: Id,
    bookTitle: Id,
    count: int,
    reason: Option<string>,
    createdBy: Id,
    createdAt: Timestamp)

  /** The whole database the core reads and writes. */
  datatype Db = Db(
    buildings: seq<Building>,
    subjects: seq<Subject>,
    titles: seq<BookTitle>,
    stocks: seq<Stock>,
    curriculum: seq<CurriculumItem>,
    classes: seq<ClassGroup>,
    futureClasses: seq<FutureClassGroup>,
    enrollmentLog: seq<EnrollmentChange>,
    writeOffs: seq<WriteOff>,
    movements: seq<Movement>)

  /** Why a row, or a whole request, failed. */
  datatype ImportError =
    | BadNumber(text: string)
    | UnknownBuilding(code: string)
    | BadClassName(raw: string)
    | BookNotFound(isbn: string)
    | NonUniqueResult
    | DuplicateKey
    | NoSuchBuilding
    | NoValuePresent

  // ---------------------------------------------------------------------
  // Queries
  // ---------------------------------------------------------------------

  /** The indices at or after `from` whose element satisfies `p`, in increasing order. */
  function MatchesFrom<T>(xs: seq<T>, p: T -> bool, from: nat): (m: seq<Id>)
    requires from <= |xs|
    ensures forall k :: 0 <= k < |m| ==> from <= m[k] < |xs| && p(xs[m[k]])
    ensures forall k, l :: 0 <= k < l < |m| ==> m[k] < m[l]
    ensures forall j :: from <= j < |xs| && p(xs[j]) ==> j in m
    decreases |xs| - from
  {
    if from == |xs| then []
    else (if p(xs[from]) then [from] else []) + MatchesFrom(xs, p, from + 1)
  }

  function Matches<T>(xs: seq<T>, p: T -> bool): seq<Id> {
    MatchesFrom(xs, p, 0)
  }

  /** The result of an Optional-returning repository query. */
  datatype Lookup = Missing | Found(id: Id) | Ambiguous

  /** The single element satisfying `p`, none, or a non-unique result. */
  function UniqueLookup<T>(xs: seq<T>, p: T -> bool): (r: Lookup)
    ensures r.Missing? <==> forall j :: 0 <= j < |xs| ==> !p(xs[j])
    ensures r.Found? ==> r.id < |xs| && p(xs[r.id]) && forall j :: 0 <= j < |xs| && j != r.id ==> !p(xs[j])
    ensures r.Ambiguous? <==> exists i, j :: 0 <= i < j < |xs| && p(xs[i]) && p(xs[j])
  {
    var m := Matches(xs, p);
    if |m| == 0 then
      NoMatches(xs, p);
      Missing
    else if |m| == 1 then
      OneMatch(xs, p);
      Found(m[0])
    else
      assert p(xs[m[0]]) && p(xs[m[1]]) && m[0] < m[1];
      Ambiguous
  }

  lemma NoMatches<T>(xs: seq<T>, p: T -> bool)
    requires |Matches(xs, p)| == 0
    ensures forall j :: 0 <= j < |xs| ==> !p(xs[j])
  {
    var m := Matches(xs, p);
    forall j | 0 <= j < |xs| ensures !p(xs[j]) {
      assert p(xs[j]) ==> j in m;
    }
  }

  lemma OneMatch<T>(xs: seq<T>, p: T -> bool)
    requires |Matches(xs, p)| == 1
    ensures p(xs[Matches(xs, p)[0]])
    ensures forall j :: 0 <= j < |xs| && p(xs[j]) ==> j == Matches(xs, p)[0]
  {
    var m := Matches(xs, p);
    forall j | 0 <= j < |xs| && p(xs[j]) ensures j == m[0] {
      assert j in m && m == [m[0]];
    }
  }

  /** A table after a save, with the id of the saved row. */
  datatype Stored<T> = Stored(rows: seq<T>, id: Id)

  /** `after` is `before` with row `id` replaced, or with one row appended as `id`; nothing else differs. */
  predicate WroteOne<T(==)>(before: seq<T>, after: seq<T>, id: Id) {
    ((|after| == |before| && id < |before|) || (|after| == |before| + 1 && id == |before|))
    && forall j :: 0 <= j < |before| && j != id ==> after[j] == before[j]
  }

  /** `after` is `before` with one row overwritten by `v`, or with `v` appended. */
  predicate WroteValue<T(==)>(before: seq<T>, after: seq<T>, v: T) {
    exists id: Id :: WroteOne(before, after, id) && id < |after| && after[id] == v
  }

  /** The id a save through `l` gives the saved row of a table of `n` rows. */
  function SavedId(n: nat, l: Lookup): Id {
    if l.Found? then l.id else n
  }

  /** Save through a lookup: a found row is replaced, a missing one appended. */
  function SaveAt<T(==)>(xs: seq<T>, l: Lookup, v: T): (r: seq<T>)
    requires !l.Ambiguous?
    requires l.Found? ==> l.id < |xs|
    ensures WroteOne(xs, r, SavedId(|xs|, l))
    ensures r[SavedId(|xs|, l)] == v
  {
    if l.Found? then xs[l.id := v] else xs + [v]
  }

  // ---------------------------------------------------------------------
  // Repository queries of the core
  // ---------------------------------------------------------------------

  /** buildings.findByCode: the code column is unique. */
  function BuildingByCode(buildings: seq<Building>, code: string): Lookup {
    UniqueLookup(buildings, (b: Building) => b.code == code)
  }

  /** subjects.findByNameIgnoreCase. */
  function SubjectByName(subjects: seq<Subject>, name: string): Lookup {
    UniqueLookup(subjects, (s: Subject) => EqualsIgnoreCase(s.name, name))
  }

  predicate IsbnMatch(t: BookTitle, isbn: string, grade: int, subject: Id) {
    t.isbn == Some(isbn) && t.grade == grade && t.subject == subject
  }

  predicate KeyMatch(t: BookTitle, key: string, grade: int, subject: Id) {
    t.externalKey == Some(key) && t.grade == grade && t.subject == subject
  }

  predicate NameMatch(t: BookTitle, title: string, grade: int, subject: Id) {
    EqualsIgnoreCase(t.title, title) && t.grade == grade && t.subject == subject
  }

  /** bookTitles.findByIsbnAndGradeAndSubject_Id. */
  function TitleByIsbn(titles: seq<BookTitle>, isbn: string, grade: int, subject: Id): Lookup {
    UniqueLookup(titles, (t: BookTitle) => IsbnMatch(t, isbn, grade, subject))
  }

  /** bookTitles.findByExternalKeyAndGradeAndSubject_Id. */
  function TitleByExternalKey(titles: seq<BookTitle>, key: string, grade: int, subject: Id): Lookup {
    UniqueLookup(titles, (t: BookTitle) => KeyMatch(t, key, grade, subject))
  }

  /** bookTitles.findByTitleIgnoreCaseAndGradeAndSubject_Id. */
  function TitleByName(titles: seq<BookTitle>, title: string, grade: int, subject: Id): Lookup {
    UniqueLookup(titles, (t: BookTitle) => NameMatch(t, title, grade, subject))
  }

  /** After a save, the saved title is the only one with its ISBN when no other row had it. */
  lemma IsbnUniqueAfterWrite(before: seq<BookTitle>, after: seq<BookTitle>, id: Id, isbn: string, grade: int, subject: Id)
    requires WroteOne(before, after, id) && IsbnMatch(after[id], isbn, grade, subject)
    requires forall j :: 0 <= j < |before| && j != id ==> !IsbnMatch(before[j], isbn, grade, subject)
    ensures TitleByIsbn(after, isbn, grade, subject) == Found(id)
  {
    assert forall j :: 0 <= j < |after| && j != id ==> after[j] == before[j];
  }

  lemma KeyUniqueAfterWrite(before: seq<BookTitle>, after: seq<BookTitle>, id: Id, key: string, grade: int, subject: Id)
    requires WroteOne(before, after, id) && KeyMatch(after[id], key, grade, subject)
    requires forall j :: 0 <= j < |before| && j != id ==> !KeyMatch(before[j], key, grade, subject)
    ensures TitleByExternalKey(after, key, grade, subject) == Found(id)
  {
    assert forall j :: 0 <= j < |after| && j != id ==> after[j] == before[j];
  }

  lemma NameUniqueAfterWrite(before: seq<BookTitle>, after: seq<BookTitle>, id: Id, title: string, grade: int, subject: Id)
    requires WroteOne(before, after, id) && NameMatch(after[id], title, grade, subject)
    requires forall j :: 0 <= j < |before| && j != id ==> !NameMatch(before[j], title, grade, subject)
    ensures TitleByName(after, title, grade, subject) == Found(id)
  {
    assert forall j :: 0 <= j < |after| && j != id ==> after[j] == before[j];
  }

  /** stocks.findOne(buildingId, bookTitleId). */
  function StockOf(stocks: seq<Stock>, building: Id, title: Id): Lookup {
    UniqueLookup(stocks, (s: Stock) => s.building == building && s.bookTitle == title)
  }

  /** The class is the one of the building, grade and letter, letters compared ignoring case. */
  predicate ClassKey(c: ClassGroup, building: Id, grade: int, letter: string) {
    c.building == building && c.grade == grade && EqualsIgnoreCase(c.letter, letter)
  }

  /** The class of the coming year is the one of the building, year, grade and letter. */
  predicate FutureKey(c: FutureClassGroup, building: Id, year: int, grade: int, letter: string) {
    c.building == building && c.academicYear == year && c.grade == grade && EqualsIgnoreCase(c.letter, letter)
  }

  /** classes.findByBuilding_IdAndGradeAndLetterIgnoreCase. */
  function ClassOf(classes: seq<ClassGroup>, building: Id, grade: int, letter: string): Lookup {
    UniqueLookup(classes, (c: ClassGroup) => ClassKey(c, building, grade, letter))
  }

  /** futureClasses.findByBuilding_IdAndAcademicYearAndGradeAndLetterIgnoreCase. */
  function FutureClassOf(groups: seq<FutureClassGroup>, building: Id, year: int, grade: int, letter: string): Lookup {
    UniqueLookup(groups, (c: FutureClassGroup) => FutureKey(c, building, year, grade, letter))
  }

  // ---------------------------------------------------------------------
  // Unique keys of the stores
  // ---------------------------------------------------------------------

  /** The unique constraint of Stock: no two rows for one (building, book title). */
  predicate StockKeysUnique(stocks: seq<Stock>) {
    forall i, j :: 0 <= i < j < |stocks| ==>
      (stocks[i].building, stocks[i].bookTitle) != (stocks[j].building, stocks[j].bookTitle)
  }

  /** No two classes of a building share a grade and a letter, letters compared ignoring case. */
  predicate ClassKeysUnique(classes: seq<ClassGroup>) {
    forall i, j :: 0 <= i < j < |classes| ==> !ClassKey(classes[j], classes[i].building, classes[i].grade, classes[i].letter)
  }

  /** As ClassKeysUnique, within each academic year. */
  predicate FutureKeysUnique(groups: seq<FutureClassGroup>) {
    forall i, j :: 0 <= i < j < |groups| ==>
      !FutureKey(groups[j], groups[i].building, groups[i].academicYear, groups[i].grade, groups[i].letter)
  }

  /** Every curriculum item names an existing subject and book title: both columns are non-null foreign keys. */
  predicate CurriculumLinked(db: Db) {
    forall k :: 0 <= k < |db.curriculum| ==>
      db.curriculum[k].subject < |db.subjects| && db.curriculum[k].bookTitle < |db.titles|
  }
}

=== FILE: inventory.dfy ===
/**
 * The inventory screen: every stock row of a building (or of all
 * buildings) with the copies it should hold, given what is available, with
 * students and in classrooms, and the difference from the recorded total.
 */
module Inventory {
  import opened Wrappers
  import opened Text
  import opened Entities
  import opened Sorting

  /** One line of the inventory; `grade` is absent when the stock has no book title. */
  datatype InventoryRow = InventoryRow(
    stockId: Id,
    buildingName: string,
    subject: string,
    grade: Option<int>,
    title: string,
    total: int,
    available: int,
    issuedToStudents: int,
    inCabinets: int,
    note: Option<string>,
    expectedTotal: int,
    diff: int)

  /** The copies accounted for: on the shelf, with students, in classrooms. */
  function Accounted(s: Stock): int {
    s.available + s.issuedToStudents + s.inCabinets
  }

  /**
   * The row of stock `id`. A building, book title or subject the stock does
   * not reach (an id outside its table stands for a null reference) gives
   * an empty name and, for a missing book title, no grade.
   */
  function MapStock(db: Db, id: Id): (r: InventoryRow)
    requires id < |db.stocks|
    ensures r.stockId == id
    ensures r.expectedTotal == Accounted(db.stocks[id])
    ensures r.total == r.expectedTotal + r.diff
    ensures r.diff == 0 <==> db.stocks[id].total == Accounted(db.stocks[id])
    ensures r.diff > 0 <==> db.stocks[id].total > Accounted(db.stocks[id])
    ensures r.grade.Some? <==> db.stocks[id].bookTitle < |db.titles|
    ensures r.grade.Some? ==> r.grade.value == db.titles[db.stocks[id].bookTitle].grade
  {
    var s := db.stocks[id];
    var hasTitle := s.bookTitle < |db.titles|;
    var expected := Accounted(s);
    InventoryRow(
      id,
      if s.building < |db.buildings| then db.buildings[s.building].name else "",
      if hasTitle && db.titles[s.bookTitle].subject < |db.subjects| then db.subjects[db.titles[s.bookTitle].subject].name else "",
      if hasTitle then Some(db.titles[s.bookTitle].grade) else None,
      if hasTitle then db.titles[s.bookTitle].title else "",
      s.total,
      s.available,
      s.issuedToStudents,
      s.inCabinets,
      s.note,
      expected,
      s.total - expected)
  }

  /** The rows of the given stocks, in the given order. */
  function MapAll(db: Db, ids: seq<Id>): (rows: seq<InventoryRow>)
    requires forall k :: 0 <= k < |ids| ==> ids[k] < |db.stocks|
    ensures |rows| == |ids|
    ensures forall k :: 0 <= k < |ids| ==> rows[k] == MapStock(db, ids[k])
  {
    seq(|ids|, k requires 0 <= k < |ids| => MapStock(db, ids[k]))
  }

  /** Distinct stocks give distinct rows, as each row carries its stock's id. */
  lemma MapAllNoDuplicates(db: Db, ids: seq<Id>)
    requires forall k :: 0 <= k < |ids| ==> ids[k] < |db.stocks|
    requires forall k, l :: 0 <= k < l < |ids| ==> ids[k] < ids[l]
    ensures NoDuplicates(MapAll(db, ids))
  {
    var rows := MapAll(db, ids);
    forall k, l | 0 <= k < l < |rows| ensures rows[k] != rows[l] {
      assert rows[k].stockId == ids[k] && rows[l].stockId == ids[l];
    }
  }

  /** stocks.findByBuilding_Id: the building's stocks. The query has no ORDER BY; the model takes id order. */
  function StocksOf(db: Db, building: Id): (ids: seq<Id>)
    ensures forall k :: 0 <= k < |ids| ==> ids[k] < |db.stocks| && db.stocks[ids[k]].building == building
    ensures forall k, l :: 0 <= k < l < |ids| ==> ids[k] < ids[l]
    ensures forall j :: 0 <= j < |db.stocks| && db.stocks[j].building == building ==> j in ids
  {
    Matches(db.stocks, (s: Stock) => s.building == building)
  }

  /** stocks.findAll: every stock, in table order. */
  function AllStocks(db: Db): (ids: seq<Id>)
    ensures |ids| == |db.stocks|
    ensures forall k :: 0 <= k < |ids| ==> ids[k] == k
  {
    seq(|db.stocks|, k => k)
  }

  /** A missing grade sorts as grade 0. */
  function GradeOrZero(r: InventoryRow): int {
    if r.grade.Some? then r.grade.value else 0
  }

  /** The sort of one building's inventory: grade, then subject and title ignoring case. */
  function GradeKey(r: InventoryRow): seq<KeyPart> {
    [Num(GradeOrZero(r)), Txt(Lower(r.subject)), Txt(Lower(r.title))]
  }

  /** The sort of the whole inventory: building name ignoring case, then as GradeKey. */
  function BuildingKey(r: InventoryRow): seq<KeyPart> {
    [Txt(Lower(r.buildingName))] + GradeKey(r)
  }

  /** forBuilding: the building's stocks as rows, sorted by GradeKey. */
  function ForBuilding(db: Db, building: Id): (rows: seq<InventoryRow>)
    ensures SortedByKey(rows, GradeKey)
    ensures multiset(rows) == multiset(MapAll(db, StocksOf(db, building)))
  {
    SortByKey(MapAll(db, StocksOf(db, building)), GradeKey)
  }

  /** all: every stock as a row, sorted by BuildingKey. */
  function All(db: Db): (rows: seq<InventoryRow>)
    ensures SortedByKey(rows, BuildingKey)
    ensures multiset(rows) == multiset(MapAll(db, AllStocks(db)))
  {
    SortByKey(MapAll(db, AllStocks(db)), BuildingKey)
  }

  /** A reordering of the rows of stocks `ids`, with ids ascending: each row is the row of the stock it names, one of `ids`; every such row is there; and no stock appears twice. */
  lemma ReorderedRows(db: Db, ids: seq<Id>, rows: seq<InventoryRow>)
    requires forall i :: 0 <= i < |ids| ==> ids[i] < |db.stocks|
    requires forall k, l :: 0 <= k < l < |ids| ==> ids[k] < ids[l]
    requires multiset(rows) == multiset(MapAll(db, ids))
    ensures forall k :: 0 <= k < |rows| ==> rows[k].stockId in ids && rows[k] == MapStock(db, rows[k].stockId)
    ensures forall k :: 0 <= k < |ids| ==> MapStock(db, ids[k]) in rows
    ensures forall k, l :: 0 <= k < l < |rows| ==> rows[k].stockId != rows[l].stockId
  {
    var mapped := MapAll(db, ids);
    forall k | 0 <= k < |ids| ensures MapStock(db, ids[k]) in rows {
      assert mapped[k] in multiset(rows);
    }
    forall k | 0 <= k < |rows| ensures rows[k].stockId in ids && rows[k] == MapStock(db, rows[k].stockId) {
      RowIsItsStock(db, ids, rows, k);
    }
    MapAllNoDuplicates(db, ids);
    PermutationNoDuplicates(mapped, rows);
    forall k, l | 0 <= k < l < |rows| ensures rows[k].stockId != rows[l].stockId {
      RowIsItsStock(db, ids, rows, k);
      RowIsItsStock(db, ids, rows, l);
    }
  }

  /** A row of a reordering of MapAll is the row of the stock it names, which is one of `ids`. */
  lemma RowIsItsStock(db: Db, ids: seq<Id>, rows: seq<InventoryRow>, k: nat)
    requires forall i :: 0 <= i < |ids| ==> ids[i] < |db.stocks|
    requires multiset(rows) == multiset(MapAll(db, ids)) && k < |rows|
    ensures rows[k].stockId in ids && rows[k].stockId < |db.stocks| && rows[k] == MapStock(db, rows[k].stockId)
  {
    var mapped := MapAll(db, ids);
    assert rows[k] in multiset(mapped);
    var i :| 0 <= i < |mapped| && mapped[i] == rows[k];
    assert rows[k].stockId == ids[i];
  }

  /**
   * One building's inventory lists each of its stocks exactly once and
   * nothing else: every row is the row of a stock of that building, every
   * stock of the building has its row there, and no stock appears twice.
   */
  lemma ForBuildingRows(db: Db, building: Id)
    ensures var rows := ForBuilding(db, building);
      && (forall k :: 0 <= k < |rows| ==>
            rows[k].stockId < |db.stocks| && db.stocks[rows[k].stockId].building == building && rows[k] == MapStock(db, rows[k].stockId))
      && (forall j :: 0 <= j < |db.stocks| && db.stocks[j].building == building ==> MapStock(db, j) in rows)
      && (forall k, l :: 0 <= k < l < |rows| ==> rows[k].stockId != rows[l].stockId)
  {
    BuildingRows(db, building, ForBuilding(db, building));
  }

  /** Any reordering of the rows of a building's stocks lists each of its stocks exactly once and nothing else. */
  lemma BuildingRows(db: Db, building: Id, rows: seq<InventoryRow>)
    requires multiset(rows) == multiset(MapAll(db, StocksOf(db, building)))
    ensures forall k :: 0 <= k < |rows| ==>
      rows[k].stockId < |db.stocks| && db.stocks[rows[k].stockId].building == building && rows[k] == MapStock(db, rows[k].stockId)
    ensures forall j :: 0 <= j < |db.stocks| && db.stocks[j].building == building ==> MapStock(db, j) in rows
    ensures forall k, l :: 0 <= k < l < |rows| ==> rows[k].stockId != rows[l].stockId
  {
    var ids := StocksOf(db, building);
    ReorderedRows(db, ids, rows);
    forall k | 0 <= k < |rows|
      ensures rows[k].stockId < |db.stocks| && db.stocks[rows[k].stockId].building == building
    {
      var m :| 0 <= m < |ids| && ids[m] == rows[k].stockId;
    }
    forall j | 0 <= j < |db.stocks| && db.stocks[j].building == building ensures MapStock(db, j) in rows {
      var m :| 0 <= m < |ids| && ids[m] == j;
    }
  }

  /** The whole inventory lists every stock exactly once. */
  lemma AllRows(db: Db)
    ensures var rows := All(db);
      && |rows| == |db.stocks|
      && (forall k :: 0 <= k < |rows| ==> rows[k].stockId < |db.stocks| && rows[k] == MapStock(db, rows[k].stockId))
      && (forall j :: 0 <= j < |db.stocks| ==> MapStock(db, j) in rows)
      && (forall k, l :: 0 <= k < l < |rows| ==> rows[k].stockId != rows[l].stockId)
  {
    var ids := AllStocks(db);
    var rows := All(db);
    assert |rows| == |MapAll(db, ids)| by {
      assert |multiset(rows)| == |multiset(MapAll(db, ids))|;
    }
    ReorderedRows(db, ids, rows);
    forall j | 0 <= j < |db.stocks| ensures MapStock(db, j) in rows {
      assert ids[j] == j;
    }
  }

  /** One building's inventory as shown: grades ascending (a missing grade as 0), then subjects, then titles, ignoring case. */
  lemma ForBuildingOrdered(db: Db, building: Id)
    ensures var rows := ForBuilding(db, building);
      forall i, j :: 0 <= i < j < |rows| ==>
        && GradeOrZero(rows[i]) <= GradeOrZero(rows[j])
        && (GradeOrZero(rows[i]) == GradeOrZero(rows[j]) ==> LeqIgnoreCase(rows[i].subject, rows[j].subject))
        && (GradeOrZero(rows[i]) == GradeOrZero(rows[j]) && EqualsIgnoreCase(rows[i].subject, rows[j].subject) ==>
              LeqIgnoreCase(rows[i].title, rows[j].title))
  {
    var rows := ForBuilding(db, building);
    forall i, j | 0 <= i < j < |rows|
      ensures && GradeOrZero(rows[i]) <= GradeOrZero(rows[j])
              && (GradeOrZero(rows[i]) == GradeOrZero(rows[j]) ==> LeqIgnoreCase(rows[i].subject, rows[j].subject))
              && (GradeOrZero(rows[i]) == GradeOrZero(rows[j]) && EqualsIgnoreCase(rows[i].subject, rows[j].subject) ==>
                    LeqIgnoreCase(rows[i].title, rows[j].title))
    {
      GradeKeyLeq(rows[i], rows[j]);
    }
  }

  lemma GradeKeyLeq(a: InventoryRow, b: InventoryRow)
    requires KeyLeq(GradeKey(a), GradeKey(b))
    ensures GradeOrZero(a) <= GradeOrZero(b)
    ensures GradeOrZero(a) == GradeOrZero(b) ==> LeqIgnoreCase(a.subject, b.subject)
    ensures GradeOrZero(a) == GradeOrZero(b) && EqualsIgnoreCase(a.subject, b.subject) ==> LeqIgnoreCase(a.title, b.title)
  {
    NumTxtTxtLeq(GradeOrZero(a), Lower(a.subject), Lower(a.title), GradeOrZero(b), Lower(b.subject), Lower(b.title));
  }

  /** The whole inventory as shown: building names ignoring case; within a building name, as ForBuildingOrdered. */
  lemma AllOrdered(db: Db)
    ensures var rows := All(db);
      forall i, j :: 0 <= i < j < |rows| ==>
        && LeqIgnoreCase(rows[i].buildingName, rows[j].buildingName)
        && (EqualsIgnoreCase(rows[i].buildingName, rows[j].buildingName) ==> GradeOrZero(rows[i]) <= GradeOrZero(rows[j]))
        && (EqualsIgnoreCase(rows[i].buildingName, rows[j].buildingName) && GradeOrZero(rows[i]) == GradeOrZero(rows[j]) ==>
              LeqIgnoreCase(rows[i].subject, rows[j].subject))
        && ((EqualsIgnoreCase(rows[i].buildingName, rows[j].buildingName) && GradeOrZero(rows[i]) == GradeOrZero(rows[j])
               && EqualsIgnoreCase(rows[i].subject, rows[j].subject)) ==> LeqIgnoreCase(rows[i].title, rows[j].title))
  {
    var rows := All(db);
    forall i, j | 0 <= i < j < |rows|
      ensures && LeqIgnoreCase(rows[i].buildingName, rows[j].buildingName)
              && (EqualsIgnoreCase(rows[i].buildingName, rows[j].buildingName) ==> GradeOrZero(rows[i]) <= GradeOrZero(rows[j]))
              && (EqualsIgnoreCase(rows[i].buildingName, rows[j].buildingName) && GradeOrZero(rows[i]) == GradeOrZero(rows[j]) ==>
                    LeqIgnoreCase(rows[i].subject, rows[j].subject))
              && ((EqualsIgnoreCase(rows[i].buildingName, rows[j].buildingName) && GradeOrZero(rows[i]) == GradeOrZero(rows[j])
                     && EqualsIgnoreCase(rows[i].subject, rows[j].subject)) ==> LeqIgnoreCase(rows[i].title, rows[j].title))
    {
      var a, b := rows[i], rows[j];
      KeyLeqCons(Txt(Lower(a.buildingName)), Txt(Lower(b.buildingName)), GradeKey(a), GradeKey(b));
      if EqualsIgnoreCase(a.buildingName, b.buildingName) {
        GradeKeyLeq(a, b);
      }
    }
  }
}

=== FILE: numbers.dfy ===
/**
 * Reading integers from cell text, as the importer does it.
 *
 * Two parsers exist in the source. `parseInt`, `parseIntNullable` and
 * `parseIntSafe` go through Double.parseDouble (after turning a decimal comma
 * into a point) and cast to int, so "12,7" reads as 12 and "-3.9" as -3.
 * `getInt` and `getIntNullable` use Integer.parseInt and reject any fraction.
 * Both treat a blank cell as 0 (or as null in the nullable variants).
 */
module Numbers {
  import opened Wrappers
  import opened Text

  const IntMin: int := -0x8000_0000
  const IntMax: int := 0x7FFF_FFFF

  predicate InIntRange(x: int) {
    IntMin <= x <= IntMax
  }

  /** The `(int)` cast of an integral double: values beyond the int range saturate at its bounds. */
  function SaturateInt(x: int): (r: int)
    ensures InIntRange(r)
    ensures InIntRange(x) ==> r == x
  {
    if x < IntMin then IntMin else if x > IntMax then IntMax else x
  }

  /** Math.max(0, x): negative values become zero. */
  function Max0(x: int): (r: int)
    ensures r >= 0 && r >= x
    ensures r == x || r == 0
  {
    if x > 0 then x else 0
  }

  /** How many ASCII digits `s` starts with. */
  function LeadingDigits(s: string): (k: nat)
    ensures k <= |s| && AllDigits(s[..k])
    ensures k < |s| ==> !IsAsciiDigit(s[k])
  {
    if |s| > 0 && IsAsciiDigit(s[0]) then
      var k := 1 + LeadingDigits(s[1..]);
      assert s[..k] == [s[0]] + s[1..][..k - 1];
      k
    else 0
  }

  predicate HasSign(s: string) {
    |s| > 0 && (s[0] == '-' || s[0] == '+')
  }

  function Unsigned(s: string): string {
    if HasSign(s) then s[1..] else s
  }

  function Signed(s: string, magnitude: nat): int {
    if |s| > 0 && s[0] == '-' then -(magnitude as int) else magnitude as int
  }

  /** Integer.parseInt: an optional sign and at least one digit, within the int range; the error carries the text. */
  function ParseJavaInt(s: string): (r: Result<int, string>)
    ensures r.Success? ==> InIntRange(r.value)
    ensures r.Failure? ==> r.error == s
  {
    var body := Unsigned(s);
    if |body| == 0 || !AllDigits(body) then Failure(s)
    else
      var v := Signed(s, DigitsValue(body));
      if InIntRange(v) then Success(v) else Failure(s)
  }

  /**
   * `(int) Double.parseDouble(s)` for plain decimal literals: an optional
   * sign, then digits with an optional fraction, or a point and digits.
   * The fraction is dropped exactly, truncating toward zero. Java first
   * rounds the literal to the nearest double, which agrees with this as
   * long as the literal has no more than about 15 significant digits;
   * "0.99999999999999999" rounds up to 1.0 there and reads as 1.
   */
  function ParseDoubleTruncated(s: string): (r: Result<int, string>)
    ensures r.Success? ==> InIntRange(r.value)
  {
    var body := Unsigned(s);
    var k := LeadingDigits(body);
    var rest := body[k..];
    if |rest| == 0 && k > 0 then Success(SaturateInt(Signed(s, DigitsValue(body[..k]))))
    else if |rest| > 0 && rest[0] == '.' && AllDigits(rest[1..]) && (k > 0 || |rest| > 1) then
      Success(SaturateInt(Signed(s, DigitsValue(body[..k]))))
    else Failure(s)
  }

  /** parseInt / parseIntSafe: blank text is 0; otherwise the truncated decimal, a comma read as a point. */
  function ParseInt(raw: string): (r: Result<int, string>)
    ensures IsBlank(Trim(raw)) ==> r == Success(0)
    ensures r.Success? ==> InIntRange(r.value)
  {
    var s := Trim(raw);
    if IsBlank(s) then Success(0) else ParseDoubleTruncated(Replace(s, ",", "."))
  }

  /** parseIntNullable: as ParseInt, but blank text is null. */
  function ParseIntNullable(raw: string): (r: Result<Option<int>, string>)
    ensures IsBlank(Trim(raw)) <==> r == Success(None)
    ensures r.Success? && r.value.Some? ==> Success(r.value.value) == ParseInt(raw)
  {
    var s := Trim(raw);
    if IsBlank(s) then Success(None)
    else match ParseDoubleTruncated(Replace(s, ",", "."))
      case Success(v) => Success(Some(v))
      case Failure(e) => Failure(e)
  }

  /** getInt on a text cell: the trimmed text through Integer.parseInt, blank being 0. */
  function GetInt(raw: string): (r: Result<int, string>)
    ensures IsBlank(Trim(raw)) ==> r == Success(0)
    ensures !IsBlank(Trim(raw)) ==> r == ParseJavaInt(Trim(raw))
  {
    var s := Trim(raw);
    if IsBlank(s) then Success(0) else ParseJavaInt(s)
  }

  /** getIntNullable on a text cell: as GetInt, but blank is null. */
  function GetIntNullable(raw: string): (r: Result<Option<int>, string>)
    ensures IsBlank(Trim(raw)) <==> r == Success(None)
    ensures r.Success? && r.value.Some? ==> Success(r.value.value) == GetInt(raw)
  {
    var s := Trim(raw);
    if IsBlank(s) then Success(None)
    else match ParseJavaInt(s)
      case Success(v) => Success(Some(v))
      case Failure(e) => Failure(e)
  }

  /** The index of the first ASCII digit of `s`, or `|s|` when there is none. */
  function FirstDigitIndex(s: string): (i: nat)
    ensures i <= |s|
    ensures forall j :: 0 <= j < i ==> !IsAsciiDigit(s[j])
    ensures i < |s| ==> IsAsciiDigit(s[i])
  {
    if |s| == 0 then 0
    else if IsAsciiDigit(s[0]) then 0
    else 1 + FirstDigitIndex(s[1..])
  }

  /** parseGrade: the first run of one or two digits (the pattern `\d{1,2}`), or 0 when the text has no digit. */
  function ParseGrade(raw: string): (g: int)
    ensures 0 <= g <= 99
    ensures !HasDigit(raw) ==> g == 0
  {
    var s := Trim(raw);
    if IsBlank(s) then 0
    else
      var i := FirstDigitIndex(s);
      if i == |s| then 0
      else
        assert s[i] in raw;
        if i + 1 < |s| && IsAsciiDigit(s[i + 1]) then DigitValue(s[i]) * 10 + DigitValue(s[i + 1])
        else DigitValue(s[i])
  }

  // ---------------------------------------------------------------------
  // Round trips: every parser reads back String.valueOf of an int
  // ---------------------------------------------------------------------

  lemma NoCommaNoContains(s: string)
    requires forall i :: 0 <= i < |s| ==> s[i] != ','
    ensures !Contains(s, ",")
  {
    if |s| > 0 {
      assert s[..1][0] == s[0];
      NoCommaNoContains(s[1..]);
    }
  }

  lemma IntToStringShape(n: int)
    ensures var s := IntToString(n);
      && |s| > 0
      && Unsigned(s) == NatToString(if n < 0 then -n else n)
      && Signed(s, if n < 0 then -n else n) == n
      && Trim(s) == s
      && !IsBlank(s)
      && forall i :: 0 <= i < |s| ==> s[i] != ','
  {
    IntToStringEnds(n);
    IntToStringTrimmed(n);
  }

  /** The text starts with a minus or a digit and ends with a digit; only a minus or digits occur in it. */
  lemma IntToStringEnds(n: int)
    ensures var s := IntToString(n);
      && |s| > 0 && IsAsciiDigit(s[|s| - 1]) && (s[0] == '-' || IsAsciiDigit(s[0]))
      && (forall i :: 0 <= i < |s| ==> s[i] == '-' || IsAsciiDigit(s[i]))
  {
    var s := IntToString(n);
    var d := NatToString(if n < 0 then -n else n);
    assert s[|s| - 1] == d[|d| - 1];
  }

  /** Decimal text has nothing to trim and is not blank. */
  lemma IntToStringTrimmed(n: int)
    ensures Trim(IntToString(n)) == IntToString(n)
    ensures !IsBlank(IntToString(n))
  {
    var s := IntToString(n);
    IntToStringEnds(n);
    TrimSolid(s);
    assert !IsJavaWhitespace(s[|s| - 1]);
  }

  lemma ParseJavaIntRoundTrip(n: int)
    requires InIntRange(n)
    ensures ParseJavaInt(IntToString(n)) == Success(n)
    ensures GetInt(IntToString(n)) == Success(n)
  {
    IntToStringShape(n);
    NatToStringValue(if n < 0 then -n else n);
  }

  lemma ParseIntRoundTrip(n: int)
    requires InIntRange(n)
    ensures ParseInt(IntToString(n)) == Success(n)
  {
    var s := IntToString(n);
    IntToStringShape(n);
    NoCommaNoContains(s);
    var m := if n < 0 then -n else n;
    NatToStringValue(m);
    var body := Unsigned(s);
    assert LeadingDigits(body) == |body|;
    assert body[..|body|] == body;
  }

  /**
   * The grade is the first digit run's leading one or two digits: in
   * `p + d + q`, with no digit in `p`, `d` a run of digits and `q` not
   * starting with one, the grade is the value of `d`'s first two digits,
   * or of its only digit ("5 класс" is 5, "123" is 12, "10-А" is 10).
   */
  lemma ParseGradeValue(p: string, d: string, q: string)
    requires forall j :: 0 <= j < |p| ==> !IsAsciiDigit(p[j])
    requires |d| > 0 && AllDigits(d)
    requires |q| == 0 || !IsAsciiDigit(q[0])
    ensures ParseGrade(p + d + q) == DigitsValue(d[..if |d| >= 2 then 2 else 1])
  {
    var i := RunInTrim(p, d, q);
    ParseGradeAt(p + d + q, i);
    LeadingDigitsValue(d);
  }

  /** In the trimmed `p + d + q` the run `d` starts at `i`, no digit comes before it, and after a one-digit run comes `q`. */
  lemma RunInTrim(p: string, d: string, q: string) returns (i: nat)
    requires forall j :: 0 <= j < |p| ==> !IsAsciiDigit(p[j])
    requires |d| > 0 && AllDigits(d)
    ensures var s := Trim(p + d + q);
      && i < |s| && s[i] == d[0]
      && (forall j :: 0 <= j < i ==> !IsAsciiDigit(s[j]))
      && (|d| >= 2 ==> i + 1 < |s| && s[i + 1] == d[1])
      && (|d| == 1 && i + 1 < |s| ==> |q| > 0 && s[i + 1] == q[0])
  {
    var m, n := TrimAroundRun(p, d, q);
    i := RunInSlice(p, d, q, m, n);
  }

  /** The same, for any slice `m..n` of `p + d + q` that starts within `p` and ends within `q`. */
  lemma RunInSlice(p: string, d: string, q: string, m: nat, n: nat) returns (i: nat)
    requires forall j :: 0 <= j < |p| ==> !IsAsciiDigit(p[j])
    requires |d| > 0
    requires m <= |p| && |p| + |d| <= n <= |p + d + q|
    ensures i == |p| - m
    ensures var s := (p + d + q)[m..n];
      && i < |s| && s[i] == d[0]
      && (forall j :: 0 <= j < i ==> !IsAsciiDigit(s[j]))
      && (|d| >= 2 ==> i + 1 < |s| && s[i + 1] == d[1])
      && (|d| == 1 && i + 1 < |s| ==> |q| > 0 && s[i + 1] == q[0])
  {
    var raw := p + d + q;
    var s := raw[m..n];
    i := |p| - m;
    assert forall j :: 0 <= j < i ==> s[j] == p[m + j];
    assert s[i] == d[0];
    if |d| >= 2 {
      assert s[i + 1] == d[1];
    } else if i + 1 < |s| {
      assert s[i + 1] == q[0];
    }
  }

  /** With the first digit of the trimmed text at `i`, the grade is that digit, or it and the next one. */
  lemma ParseGradeAt(raw: string, i: nat)
    requires i < |Trim(raw)| && IsAsciiDigit(Trim(raw)[i])
    requires forall j :: 0 <= j < i ==> !IsAsciiDigit(Trim(raw)[j])
    ensures var s := Trim(raw);
      ParseGrade(raw) == if i + 1 < |s| && IsAsciiDigit(s[i + 1]) then DigitValue(s[i]) * 10 + DigitValue(s[i + 1]) else DigitValue(s[i])
  {
    var s := Trim(raw);
    assert !IsJavaWhitespace(s[i]);
    assert FirstDigitIndex(s) == i;
  }

  /** The value of one or two leading digits. */
  lemma LeadingDigitsValue(d: string)
    requires |d| > 0 && AllDigits(d)
    ensures DigitsValue(d[..1]) == DigitValue(d[0])
    ensures |d| >= 2 ==> DigitsValue(d[..2]) == DigitValue(d[0]) * 10 + DigitValue(d[1])
  {
    assert d[..1][..0] == [];
    if |d| >= 2 {
      assert d[..2][..1] == d[..1];
    }
  }

  lemma ParseGradeExampleWord()
    ensures ParseGrade("5 класс") == 5
  {
    ParseGradeValue("", "5", " класс");
    assert "" + "5" + " класс" == "5 класс";
    assert DigitsValue("5") == 5;
  }

  /** A text without outer blanks that starts with two digits has those two as its grade. */
  lemma LeadingPair(s: string)
    requires |s| >= 2 && IsAsciiDigit(s[0]) && IsAsciiDigit(s[1]) && !IsTrimmable(s[|s| - 1])
    ensures ParseGrade(s) == DigitValue(s[0]) * 10 + DigitValue(s[1])
  {
    TrimSolid(s);
    ParseGradeAt(s, 0);
  }

  lemma ParseGradeExampleLong()
    ensures ParseGrade("123") == 12
  {
    var s := "123";
    LeadingPair(s);
    assert DigitValue(s[0]) == 1 && DigitValue(s[1]) == 2;
  }

  lemma ParseGradeExampleLetter()
    ensures ParseGrade("10-А") == 10
  {
    ParseGradeValue("", "10", "-А");
    assert "" + "10" + "-А" == "10-А";
    assert "10"[..2] == "10";
    assert DigitsValue("1") == 1;
    assert DigitsValue("10") == 10;
  }

  /** Trimming `p + d + q` cuts only into `p` and `q` when `d` is a run of digits. */
  lemma TrimAroundRun(p: string, d: string, q: string) returns (m: nat, n: nat)
    requires |d| > 0 && AllDigits(d)
    ensures m <= |p| && |p| + |d| <= n <= |p + d + q|
    ensures Trim(p + d + q) == (p + d + q)[m..n]
  {
    var raw := p + d + q;
    assert raw[|p|] == d[0];
    assert raw[|p| + |d| - 1] == d[|d| - 1];
    m, n := TrimAround(raw, |p|, |p| + |d| - 1);
  }

  lemma ParseGradeRoundTrip(g: nat)
    requires g <= 99
    ensures ParseGrade(NatToString(g)) == g
  {
    var s := NatToString(g);
    IntToStringTrimmed(g);
    assert FirstDigitIndex(s) == 0;
    if g >= 10 {
      TwoDigits(g);
    } else {
      OneDigit(g);
    }
  }

  /** A number below 10 is written as its one digit. */
  lemma OneDigit(g: nat)
    requires g < 10
    ensures var s := NatToString(g);
      |s| == 1 && IsAsciiDigit(s[0]) && DigitValue(s[0]) == g
  {
  }

  /** A number from 10 to 99 is written as two digits: the tens, then the units. */
  lemma TwoDigits(g: nat)
    requires 10 <= g <= 99
    ensures var s := NatToString(g);
      |s| == 2 && IsAsciiDigit(s[0]) && IsAsciiDigit(s[1]) && DigitValue(s[0]) == g / 10 && DigitValue(s[1]) == g % 10
  {
    var s := NatToString(g);
    assert s == NatToString(g / 10) + [DigitChar(g % 10)];
    assert NatToString(g / 10) == [DigitChar(g / 10)];
  }


  /** The text of a two-digit number is its two digits. */
  lemma TwoDigitText(n: nat)
    requires 10 <= n < 100
    ensures IntToString(n) == [DigitChar(n / 10), DigitChar(n % 10)]
  {
    assert NatToString(n) == NatToString(n / 10) + [DigitChar(n % 10)];
  }

  lemma Read29()
    ensures ParseInt("29") == Success(29)
  {
    TwoDigitText(29);
    assert IntToString(29) == "29";
    ParseIntRoundTrip(29);
  }

  lemma Read5And25()
    ensures GetInt("5") == Success(5) && GetInt("25") == Success(25)
  {
    TwoDigitText(25);
    assert IntToString(25) == "25";
    assert IntToString(5) == "5";
    ParseJavaIntRoundTrip(5);
    ParseJavaIntRoundTrip(25);
  }
}

=== FILE: planning.dfy ===
/**
 * The purchase plan of one building for a coming academic year: for every
 * curriculum item whose grade will have students there, the copies needed
 * by the projected headcount against the copies available, sorted by
 * grade, subject and title.
 */
module Planning {
  import opened Wrappers
  import opened Text
  import opened Entities
  import opened Sorting
  import opened Reconciliation

  /** One line of the plan. */
  datatype PlanRow = PlanRow(
    grade: int,
    subject: string,
    title: string,
    isbnOrKey: string,
    perStudent: int,
    students: int,
    needed: int,
    available: int,
    deficit: int)

  /** The title shown for an item without a book title. */
  const NoTitle: string := "(не задано)"

  /** The projected students of the building's classes of that year and grade, summed; 0 when there are none. */
  function FutureGradeStudents(groups: seq<FutureClassGroup>, building: Id, year: int, grade: int): int {
    if |groups| == 0 then 0
    else
      var g := groups[|groups| - 1];
      FutureGradeStudents(groups[..|groups| - 1], building, year, grade)
        + (if g.building == building && g.academicYear == year && g.grade == grade then g.students else 0)
  }

  /** Without a class of that building, year and grade there are no students to plan for. */
  lemma {:induction false} FutureGradeStudentsNone(groups: seq<FutureClassGroup>, building: Id, year: int, grade: int)
    requires forall k :: 0 <= k < |groups| ==> groups[k].building != building || groups[k].academicYear != year || groups[k].grade != grade
    ensures FutureGradeStudents(groups, building, year, grade) == 0
  {
    if |groups| > 0 {
      FutureGradeStudentsNone(groups[..|groups| - 1], building, year, grade);
    }
  }

  /** Classes of other buildings or other years do not count: the sum is the same over the building's classes of that year alone. */
  lemma {:induction false} FutureGradeStudentsOwnOnly(groups: seq<FutureClassGroup>, other: FutureClassGroup, building: Id, year: int, grade: int)
    requires other.building != building || other.academicYear != year
    ensures FutureGradeStudents(groups + [other], building, year, grade) == FutureGradeStudents(groups, building, year, grade)
  {
    assert (groups + [other])[..|groups|] == groups;
  }

  /** The ISBN when it is set and not blank, otherwise the external key when set, otherwise empty. */
  function IsbnOrKey(t: BookTitle): (k: string)
    ensures t.isbn.Some? && !IsBlank(t.isbn.value) ==> k == t.isbn.value
    ensures (t.isbn.None? || IsBlank(t.isbn.value)) && t.externalKey.Some? ==> k == t.externalKey.value
    ensures (t.isbn.None? || IsBlank(t.isbn.value)) && t.externalKey.None? ==> k == ""
  {
    if t.isbn.Some? && !IsBlank(t.isbn.value) then t.isbn.value
    else if t.externalKey.Some? then t.externalKey.value
    else ""
  }

  /**
   * The row of one item whose grade has `students` students. A subject or
   * book title the item does not reach (an id outside its table stands for
   * a null reference) gives an empty subject, the placeholder title, an
   * empty ISBN and nothing available.
   */
  function PlanOf(db: Db, building: Id, item: CurriculumItem, students: int): (r: PlanRow)
    requires StockKeysUnique(db.stocks)
  {
    var hasTitle := item.bookTitle < |db.titles|;
    var needed := students * item.perStudent;
    var available := if hasTitle then AvailableOf(db.stocks, building, item.bookTitle) else 0;
    PlanRow(
      item.grade,
      if item.subject < |db.subjects| then db.subjects[item.subject].name else "",
      if hasTitle then db.titles[item.bookTitle].title else NoTitle,
      if hasTitle then IsbnOrKey(db.titles[item.bookTitle]) else "",
      item.perStudent,
      students,
      needed,
      available,
      Deficit(needed, available))
  }

  /** What a plan row says about its item: the need, the stock found for the title, and the shortfall. */
  lemma PlanOfMeans(db: Db, building: Id, item: CurriculumItem, students: int, r: PlanRow)
    requires StockKeysUnique(db.stocks) && r == PlanOf(db, building, item, students)
    ensures r.grade == item.grade && r.perStudent == item.perStudent && r.students == students
    ensures r.needed == students * item.perStudent
    ensures item.bookTitle >= |db.titles| ==> r.title == NoTitle && r.isbnOrKey == "" && r.available == 0
    ensures item.bookTitle < |db.titles| && StockOf(db.stocks, building, item.bookTitle).Missing? ==> r.available == 0
    ensures item.bookTitle < |db.titles| && StockOf(db.stocks, building, item.bookTitle).Found? ==>
      r.available == db.stocks[StockOf(db.stocks, building, item.bookTitle).id].available
    ensures r.deficit >= 0 && (r.deficit == 0 <==> r.needed <= r.available)
  {
  }

  /** The row of one item, with the projected students of its grade. */
  function ItemPlan(db: Db, building: Id, year: int, item: CurriculumItem): PlanRow
    requires StockKeysUnique(db.stocks)
  {
    PlanOf(db, building, item, FutureGradeStudents(db.futureClasses, building, year, item.grade))
  }

  /** `row` is the row of one of the items. */
  ghost predicate RowOfSome(db: Db, building: Id, year: int, items: seq<CurriculumItem>, row: PlanRow)
    requires StockKeysUnique(db.stocks)
  {
    exists j :: 0 <= j < |items| && row == ItemPlan(db, building, year, items[j])
  }

  /** A row of the later items is a row of the items. */
  lemma RowOfSomeTail(db: Db, building: Id, year: int, items: seq<CurriculumItem>, row: PlanRow)
    requires StockKeysUnique(db.stocks) && |items| > 0 && RowOfSome(db, building, year, items[1..], row)
    ensures RowOfSome(db, building, year, items, row)
  {
    var j :| 0 <= j < |items[1..]| && row == ItemPlan(db, building, year, items[1..][j]);
    assert items[1..][j] == items[j + 1];
  }

  /** The items' rows in curriculum order, skipping every item whose grade has no students. */
  function PlanRows(db: Db, building: Id, year: int, items: seq<CurriculumItem>): (rows: seq<PlanRow>)
    requires StockKeysUnique(db.stocks)
    ensures forall k :: 0 <= k < |rows| ==> rows[k].students != 0
    ensures |rows| <= |items|
  {
    if |items| == 0 then []
    else
      var students := FutureGradeStudents(db.futureClasses, building, year, items[0].grade);
      var rest := PlanRows(db, building, year, items[1..]);
      if students == 0 then rest
      else [PlanOf(db, building, items[0], students)] + rest
  }

  /** The plan has a row for every item whose grade has students, and every row is such an item's. */
  lemma {:induction false} PlanRowsExactly(db: Db, building: Id, year: int, items: seq<CurriculumItem>)
    requires StockKeysUnique(db.stocks)
    ensures forall k :: 0 <= k < |PlanRows(db, building, year, items)| ==> RowOfSome(db, building, year, items, PlanRows(db, building, year, items)[k])
    ensures forall j :: 0 <= j < |items| && FutureGradeStudents(db.futureClasses, building, year, items[j].grade) != 0 ==>
      ItemPlan(db, building, year, items[j]) in PlanRows(db, building, year, items)
  {
    if |items| > 0 {
      var rows := PlanRows(db, building, year, items);
      var rest := PlanRows(db, building, year, items[1..]);
      PlanRowsExactly(db, building, year, items[1..]);
      forall k | 0 <= k < |rest| ensures RowOfSome(db, building, year, items, rest[k]) {
        RowOfSomeTail(db, building, year, items, rest[k]);
      }
      assert RowOfSome(db, building, year, items, ItemPlan(db, building, year, items[0]));
      forall j | 1 <= j < |items| ensures items[1..][j - 1] == items[j] { }
    }
  }

  /** The sort: grade, then subject and title compared ignoring case. */
  function PlanKey(r: PlanRow): seq<KeyPart> {
    [Num(r.grade), Txt(Lower(r.subject)), Txt(Lower(r.title))]
  }

  /**
   * calcForBuilding: an unknown building fails before anything is read;
   * otherwise the rows of the items whose grade has projected students,
   * sorted by PlanKey.
   */
  function CalcPlan(db: Db, building: Id, year: int): (r: Result<seq<PlanRow>, ImportError>)
    requires StockKeysUnique(db.stocks)
    ensures r.Failure? <==> building >= |db.buildings|
    ensures r.Failure? ==> r.error == NoValuePresent
    ensures r.Success? ==> multiset(r.value) == multiset(PlanRows(db, building, year, db.curriculum))
    ensures r.Success? ==> SortedByKey(r.value, PlanKey)
  {
    if building >= |db.buildings| then Failure(NoValuePresent)
    else Success(SortByKey(PlanRows(db, building, year, db.curriculum), PlanKey))
  }

  /** Three-part keys in order mean: grade ascending, then subject ignoring case, then title ignoring case. */
  lemma PlanKeyLeq(a: PlanRow, b: PlanRow)
    requires KeyLeq(PlanKey(a), PlanKey(b))
    ensures a.grade <= b.grade
    ensures a.grade == b.grade ==> LeqIgnoreCase(a.subject, b.subject)
    ensures a.grade == b.grade && EqualsIgnoreCase(a.subject, b.subject) ==> LeqIgnoreCase(a.title, b.title)
  {
    NumTxtTxtLeq(a.grade, Lower(a.subject), Lower(a.title), b.grade, Lower(b.subject), Lower(b.title));
  }

  /**
   * The plan as the screen shows it: grades ascending; within a grade,
   * subjects in case-insensitive order; within a subject, titles likewise;
   * every row of an item with students, and only those.
   */
  lemma CalcPlanOrdered(db: Db, building: Id, year: int)
    requires StockKeysUnique(db.stocks) && building < |db.buildings|
    ensures var rows := CalcPlan(db, building, year).value;
      && (forall k :: 0 <= k < |rows| ==> rows[k].students != 0)
      && (forall i, j :: 0 <= i < j < |rows| ==>
            && rows[i].grade <= rows[j].grade
            && (rows[i].grade == rows[j].grade ==> LeqIgnoreCase(rows[i].subject, rows[j].subject))
            && (rows[i].grade == rows[j].grade && EqualsIgnoreCase(rows[i].subject, rows[j].subject) ==>
                  LeqIgnoreCase(rows[i].title, rows[j].title)))
  {
    var rows := CalcPlan(db, building, year).value;
    var all := PlanRows(db, building, year, db.curriculum);
    forall k | 0 <= k < |rows| ensures rows[k].students != 0 {
      assert rows[k] in multiset(all);
    }
    forall i, j | 0 <= i < j < |rows|
      ensures && rows[i].grade <= rows[j].grade
              && (rows[i].grade == rows[j].grade ==> LeqIgnoreCase(rows[i].subject, rows[j].subject))
              && (rows[i].grade == rows[j].grade && EqualsIgnoreCase(rows[i].subject, rows[j].subject) ==>
                    LeqIgnoreCase(rows[i].title, rows[j].title))
    {
      PlanKeyLeq(rows[i], rows[j]);
    }
  }
}

=== FILE: reconciliation.dfy ===
/**
 * The reconciliation report of one building: for every curriculum item, how
 * many copies the building's classes need, how many it has available, and
 * the shortfall; and the report's rows summed by a key (subject, grade).
 */
module Reconciliation {
  import opened Text
  import opened Numbers
  import opened Entities

  /** One line of the report. */
  datatype ReconRow = ReconRow(buildingCode: string, grade: int, subject: string, title: string, needed: int, available: int, deficit: int)

  /** One group of the summary: its key and the sums of its rows. */
  datatype SummaryRow = SummaryRow(key: string, needed: int, available: int, deficit: int)

  // ---------------------------------------------------------------------
  // The per-item rows
  // ---------------------------------------------------------------------

  /** The students of the building's classes of that grade, summed; 0 when it has none. */
  function GradeStudents(classes: seq<ClassGroup>, building: Id, grade: int): int {
    if |classes| == 0 then 0
    else
      var c := classes[|classes| - 1];
      GradeStudents(classes[..|classes| - 1], building, grade) + (if c.building == building && c.grade == grade then c.students else 0)
  }

  /** A table without a class of that building and grade contributes no students. */
  lemma {:induction false} GradeStudentsNone(classes: seq<ClassGroup>, building: Id, grade: int)
    requires forall k :: 0 <= k < |classes| ==> classes[k].building != building || classes[k].grade != grade
    ensures GradeStudents(classes, building, grade) == 0
  {
    if |classes| > 0 {
      GradeStudentsNone(classes[..|classes| - 1], building, grade);
    }
  }

  /** Replacing one class changes its grade's sum by the difference of the headcounts, and no other grade's. */
  lemma {:induction false} GradeStudentsReplace(classes: seq<ClassGroup>, id: Id, c: ClassGroup, building: Id, grade: int)
    requires id < |classes|
    ensures GradeStudents(classes[id := c], building, grade)
      == GradeStudents(classes, building, grade)
         - (if classes[id].building == building && classes[id].grade == grade then classes[id].students else 0)
         + (if c.building == building && c.grade == grade then c.students else 0)
  {
    var n := |classes|;
    if id == n - 1 {
      assert classes[id := c][..n - 1] == classes[..n - 1];
    } else {
      assert classes[id := c][..n - 1] == classes[..n - 1][id := c];
      GradeStudentsReplace(classes[..n - 1], id, c, building, grade);
    }
  }

  /** Appending a class adds its headcount to its own grade's sum only. */
  lemma GradeStudentsAppend(classes: seq<ClassGroup>, c: ClassGroup, building: Id, grade: int)
    ensures GradeStudents(classes + [c], building, grade)
      == GradeStudents(classes, building, grade) + (if c.building == building && c.grade == grade then c.students else 0)
  {
    assert (classes + [c])[..|classes|] == classes;
  }

  /** stocks.findAvailable(building, title).orElse(0): the stock row's available copies, or 0 without a row. */
  function AvailableOf(stocks: seq<Stock>, building: Id, title: Id): (n: int)
    requires StockKeysUnique(stocks)
    ensures StockOf(stocks, building, title).Missing? ==> n == 0
    ensures StockOf(stocks, building, title).Found? ==> n == stocks[StockOf(stocks, building, title).id].available
  {
    match StockOf(stocks, building, title)
    case Found(i) => stocks[i].available
    case _ => 0
  }

  /** Math.max(0, needed - available) on unbounded integers: what is missing, never negative. */
  function Deficit(needed: int, available: int): (d: int)
    ensures d >= 0 && d >= needed - available
    ensures d == 0 <==> needed <= available
    ensures d > 0 ==> needed == available + d
  {
    Max0(needed - available)
  }

  /** The row of one curriculum item. */
  function ReconOf(db: Db, building: Id, code: string, item: CurriculumItem): (r: ReconRow)
    requires StockKeysUnique(db.stocks)
    requires item.subject < |db.subjects| && item.bookTitle < |db.titles|
  {
    var needed := GradeStudents(db.classes, building, item.grade) * item.perStudent;
    var available := AvailableOf(db.stocks, building, item.bookTitle);
    ReconRow(code, item.grade, db.subjects[item.subject].name, db.titles[item.bookTitle].title,
      needed, available, Deficit(needed, available))
  }

  /**
   * calcForBuilding: one row per curriculum item, in the curriculum's order
   * (nothing is sorted), whether or not the building has classes of its
   * grade.
   */
  function CalcForBuilding(db: Db, building: Id, code: string): (rows: seq<ReconRow>)
    requires StockKeysUnique(db.stocks) && CurriculumLinked(db)
    ensures |rows| == |db.curriculum|
    ensures forall k :: 0 <= k < |rows| ==> rows[k] == ReconOf(db, building, code, db.curriculum[k])
  {
    seq(|db.curriculum|, k requires 0 <= k < |db.curriculum| => ReconOf(db, building, code, db.curriculum[k]))
  }

  /**
   * What each row of the report says about its item: the building's code,
   * the item's grade, subject and title; copies needed as the grade's
   * students times the copies per student; copies available from the
   * building's stock; and a deficit that is zero exactly when the need is
   * covered and otherwise the missing count.
   */
  lemma CalcForBuildingRows(db: Db, building: Id, code: string, k: nat)
    requires StockKeysUnique(db.stocks) && CurriculumLinked(db) && k < |db.curriculum|
    ensures var r := CalcForBuilding(db, building, code)[k];
      var item := db.curriculum[k];
      && r.buildingCode == code && r.grade == item.grade
      && r.subject == db.subjects[item.subject].name && r.title == db.titles[item.bookTitle].title
      && r.needed == GradeStudents(db.classes, building, item.grade) * item.perStudent
      && (StockOf(db.stocks, building, item.bookTitle).Missing? ==> r.available == 0)
      && (StockOf(db.stocks, building, item.bookTitle).Found? ==> r.available == db.stocks[StockOf(db.stocks, building, item.bookTitle).id].available)
      && r.deficit >= 0
      && (r.deficit == 0 <==> r.needed <= r.available)
      && (r.deficit > 0 ==> r.needed == r.available + r.deficit)
  {
    var item := db.curriculum[k];
    var r := CalcForBuilding(db, building, code)[k];
    assert r == ReconOf(db, building, code, item);
  }

  /** 30 students of grade 5 each needing 2 copies, against 40 available: 60 needed, 20 missing. */
  lemma DeficitExample(db: Db, code: string, letter: string)
    requires StockKeysUnique(db.stocks) && CurriculumLinked(db)
    requires db.classes == [ClassGroup(0, 5, letter, 30)]
    requires db.curriculum == [CurriculumItem(5, 0, 0, 2)]
    requires |db.stocks| == 1 && db.stocks[0].building == 0 && db.stocks[0].bookTitle == 0 && db.stocks[0].available == 40
    ensures var rows := CalcForBuilding(db, 0, code);
      |rows| == 1 && rows[0].needed == 60 && rows[0].available == 40 && rows[0].deficit == 20
  {
    assert GradeStudents(db.classes, 0, 5) == GradeStudents([], 0, 5) + 30;
    assert StockOf(db.stocks, 0, 0) == Found(0);
    CalcForBuildingRows(db, 0, code, 0);
  }

  // ---------------------------------------------------------------------
  // The summary
  // ---------------------------------------------------------------------

  /** The three summed columns. */
  datatype Measure = Needed | Available | Short

  function Of(r: ReconRow, m: Measure): int {
    match m
    case Needed => r.needed
    case Available => r.available
    case Short => r.deficit
  }

  function OfSummary(s: SummaryRow, m: Measure): int {
    match m
    case Needed => s.needed
    case Available => s.available
    case Short => s.deficit
  }

  /** The measure summed over the rows whose key is `key`. */
  function GroupSum(rows: seq<ReconRow>, keyOf: ReconRow -> string, key: string, m: Measure): int {
    if |rows| == 0 then 0
    else
      var r := rows[|rows| - 1];
      GroupSum(rows[..|rows| - 1], keyOf, key, m) + (if keyOf(r) == key then Of(r, m) else 0)
  }

  /** The measure summed over all rows. */
  function Total(rows: seq<ReconRow>, m: Measure): int {
    if |rows| == 0 then 0 else Total(rows[..|rows| - 1], m) + Of(rows[|rows| - 1], m)
  }

  /** The measure summed over the summary's groups. */
  function SummaryTotal(groups: seq<SummaryRow>, m: Measure): int {
    if |groups| == 0 then 0 else SummaryTotal(groups[..|groups| - 1], m) + OfSummary(groups[|groups| - 1], m)
  }

  /** Ascending in String.compareTo order, no key twice. */
  predicate StrictlyAscending(keys: seq<string>) {
    forall i, j :: 0 <= i < j < |keys| ==> LexLeq(keys[i], keys[j]) && keys[i] != keys[j]
  }

  /** The key put into its place among sorted distinct keys, unless it is there already. */
  function InsertKey(keys: seq<string>, key: string): (r: seq<string>)
    requires StrictlyAscending(keys)
    ensures StrictlyAscending(r)
    ensures forall x :: x in r <==> x in keys || x == key
  {
    if |keys| == 0 then [key]
    else if key == keys[0] then keys
    else if LexLeq(key, keys[0]) then
      assert forall j :: 0 <= j < |keys| ==> LexLeq(key, keys[j]) && key != keys[j] by {
        forall j | 0 <= j < |keys| ensures LexLeq(key, keys[j]) && key != keys[j] {
          if j > 0 {
            LexLeqTransitive(key, keys[0], keys[j]);
            if key == keys[j] {
              LexLeqAntisymmetric(keys[0], keys[j]);
            }
          }
        }
      }
      [key] + keys
    else
      LexLeqTotal(key, keys[0]);
      var rest := InsertKey(keys[1..], key);
      assert forall x :: x in keys[1..] ==> LexLeq(keys[0], x) && keys[0] != x;
      [keys[0]] + rest
  }

  /** The distinct keys of the rows, ascending. */
  function KeysOf(rows: seq<ReconRow>, keyOf: ReconRow -> string): (keys: seq<string>)
    ensures StrictlyAscending(keys)
    ensures forall x :: x in keys <==> exists k :: 0 <= k < |rows| && keyOf(rows[k]) == x
  {
    if |rows| == 0 then []
    else
      var keys := InsertKey(KeysOf(rows[..|rows| - 1], keyOf), keyOf(rows[|rows| - 1]));
      assert forall k :: 0 <= k < |rows| - 1 ==> rows[..|rows| - 1][k] == rows[k];
      keys
  }

  /** One summary row per key, in the keys' order. */
  function Groups(rows: seq<ReconRow>, keyOf: ReconRow -> string, keys: seq<string>): (groups: seq<SummaryRow>)
    ensures |groups| == |keys|
    ensures forall i :: 0 <= i < |keys| ==> groups[i] == SummaryRow(keys[i],
      GroupSum(rows, keyOf, keys[i], Needed), GroupSum(rows, keyOf, keys[i], Available), GroupSum(rows, keyOf, keys[i], Short))
  {
    seq(|keys|, i requires 0 <= i < |keys| => SummaryRow(keys[i],
      GroupSum(rows, keyOf, keys[i], Needed), GroupSum(rows, keyOf, keys[i], Available), GroupSum(rows, keyOf, keys[i], Short)))
  }

  /**
   * summarize: the rows grouped by their key, each group's needed,
   * available and deficit summed, the groups ascending by key in
   * String.compareTo order (so «10» comes before «2»).
   */
  function Summarize(rows: seq<ReconRow>, keyOf: ReconRow -> string): (groups: seq<SummaryRow>)
    ensures forall i, j :: 0 <= i < j < |groups| ==> LexLeq(groups[i].key, groups[j].key) && groups[i].key != groups[j].key
    ensures forall i, m :: 0 <= i < |groups| ==> OfSummary(groups[i], m) == GroupSum(rows, keyOf, groups[i].key, m)
  {
    Groups(rows, keyOf, KeysOf(rows, keyOf))
  }

  /** The summary has a group for every key some row has, and for no other. */
  lemma SummarizeKeys(rows: seq<ReconRow>, keyOf: ReconRow -> string)
    ensures var groups := Summarize(rows, keyOf);
      && (forall i :: 0 <= i < |groups| ==> exists k :: 0 <= k < |rows| && keyOf(rows[k]) == groups[i].key)
      && (forall k :: 0 <= k < |rows| ==> exists i :: 0 <= i < |groups| && groups[i].key == keyOf(rows[k]))
  {
    var keys := KeysOf(rows, keyOf);
    var groups := Summarize(rows, keyOf);
    assert forall i :: 0 <= i < |groups| ==> groups[i].key == keys[i] && keys[i] in keys;
    forall k | 0 <= k < |rows| ensures exists i :: 0 <= i < |groups| && groups[i].key == keyOf(rows[k]) {
      assert keyOf(rows[k]) in keys;
      var i :| 0 <= i < |keys| && keys[i] == keyOf(rows[k]);
      assert groups[i].key == keyOf(rows[k]);
    }
  }

  // Conservation: the groups' sums add up to the rows' sums.

  /** The measure summed group by group over the given keys. */
  function KeyTotal(keys: seq<string>, rows: seq<ReconRow>, keyOf: ReconRow -> string, m: Measure): int {
    if |keys| == 0 then 0
    else KeyTotal(keys[..|keys| - 1], rows, keyOf, m) + GroupSum(rows, keyOf, keys[|keys| - 1], m)
  }

  /** Distinct keys: no key twice. */
  predicate Distinct(keys: seq<string>) {
    forall i, j :: 0 <= i < j < |keys| ==> keys[i] != keys[j]
  }

  /** One more row adds its measure to the group total once, when its key is among the keys. */
  lemma {:induction false} KeyTotalAppend(keys: seq<string>, rows: seq<ReconRow>, r: ReconRow, keyOf: ReconRow -> string, m: Measure)
    requires Distinct(keys)
    ensures KeyTotal(keys, rows + [r], keyOf, m) == KeyTotal(keys, rows, keyOf, m) + (if keyOf(r) in keys then Of(r, m) else 0)
  {
    if |keys| > 0 {
      var init := keys[..|keys| - 1];
      var last := keys[|keys| - 1];
      KeyTotalAppend(init, rows, r, keyOf, m);
      assert (rows + [r])[..|rows|] == rows;
      assert keyOf(r) in keys <==> keyOf(r) in init || keyOf(r) == last;
      assert !(keyOf(r) in init && keyOf(r) == last);
    }
  }

  lemma {:induction false} KeyTotalEmpty(keys: seq<string>, keyOf: ReconRow -> string, m: Measure)
    ensures KeyTotal(keys, [], keyOf, m) == 0
  {
    if |keys| > 0 {
      KeyTotalEmpty(keys[..|keys| - 1], keyOf, m);
    }
  }

  /** Over distinct keys that cover every row's key, the groups' totals add up to the rows' total. */
  lemma {:induction false} KeyTotalCovers(keys: seq<string>, rows: seq<ReconRow>, keyOf: ReconRow -> string, m: Measure)
    requires Distinct(keys)
    requires forall k :: 0 <= k < |rows| ==> keyOf(rows[k]) in keys
    ensures KeyTotal(keys, rows, keyOf, m) == Total(rows, m)
  {
    if |rows| == 0 {
      KeyTotalEmpty(keys, keyOf, m);
    } else {
      var init := rows[..|rows| - 1];
      var r := rows[|rows| - 1];
      assert forall k :: 0 <= k < |init| ==> init[k] == rows[k];
      KeyTotalCovers(keys, init, keyOf, m);
      assert init + [r] == rows;
      KeyTotalAppend(keys, init, r, keyOf, m);
    }
  }

  /** Summing the groups row by row is summing their measures key by key. */
  lemma {:induction false} GroupsTotal(rows: seq<ReconRow>, keyOf: ReconRow -> string, keys: seq<string>, m: Measure)
    ensures SummaryTotal(Groups(rows, keyOf, keys), m) == KeyTotal(keys, rows, keyOf, m)
  {
    if |keys| > 0 {
      var init := keys[..|keys| - 1];
      GroupsTotal(rows, keyOf, init, m);
      assert Groups(rows, keyOf, keys)[..|keys| - 1] == Groups(rows, keyOf, init);
    }
  }

  /** summarize loses nothing: over all groups, needed, available and deficit add up to their sums over the rows. */
  lemma SummarizeConserves(rows: seq<ReconRow>, keyOf: ReconRow -> string, m: Measure)
    ensures SummaryTotal(Summarize(rows, keyOf), m) == Total(rows, m)
  {
    var keys := KeysOf(rows, keyOf);
    assert Summarize(rows, keyOf) == Groups(rows, keyOf, keys);
    GroupsTotal(rows, keyOf, keys, m);
    KeyTotalCovers(keys, rows, keyOf, m);
  }
}

=== FILE: row_import.dfy ===
/**
 * The row loop the registry, librarian, old-registry and future-class
 * importers share.
 *
 * Each existing row after the header goes through the format's row step.
 * A row that fails is recorded as «Строка n: message», n being its 1-based
 * line, and the loop goes on; after the 30th failure it stops. Writes a
 * failing row made before it failed stay, since nothing is rolled back.
 * When at least one row failed, the import reports the count of processed
 * rows and the failures.
 */
module RowImport {
  import opened Wrappers
  import opened Text
  import opened Entities
  import opened Sheets

  /** The import stops collecting failures once it has this many. */
  const MaxErrors: nat := 30

  /** What one row step did: nothing, a saved row, or a failure after the given writes. */
  datatype Step<S> = Skip | Saved(state: S) | Failed(state: S, error: ImportError)

  /** A failed row and its 1-based line number. */
  datatype RowError = RowError(line: nat, error: ImportError)

  /** The loop's state: the database so far, the rows processed, the failures. */
  datatype Scan<S> = Scan(state: S, processed: nat, errors: seq<RowError>)

  /** How an import ends: every row fine, some rows failed, or the whole file rejected. */
  datatype Outcome = Done(processed: nat) | RowErrors(processed: nat, errors: seq<RowError>) | Aborted(message: string)

  /** The scan after row `i` went through the step. */
  function Apply<S>(acc: Scan<S>, st: Step<S>, i: nat): (r: Scan<S>)
    ensures st.Skip? ==> r == acc
    ensures st.Saved? ==> r == Scan(st.state, acc.processed + 1, acc.errors)
    ensures st.Failed? ==> r == Scan(st.state, acc.processed, acc.errors + [RowError(i + 1, st.error)])
  {
    match st
    case Skip => acc
    case Saved(s) => acc.(state := s, processed := acc.processed + 1)
    case Failed(s, e) => acc.(state := s, errors := acc.errors + [RowError(i + 1, e)])
  }

  /**
   * Rows `from..` of the sheet, stopping right after the failure that makes
   * `cap`: 30 for the loops that collect failures, 1 for the imports where
   * the first failure ends everything.
   */
  function Run<S>(sheet: Sheet, step: (S, Row) -> Step<S>, cap: nat, from: nat, acc: Scan<S>): Scan<S>
    requires from <= |sheet|
    decreases |sheet| - from
  {
    if from == |sheet| then acc
    else match sheet[from]
      case None => Run(sheet, step, cap, from + 1, acc)
      case Some(row) =>
        var next := Apply(acc, step(acc.state, row), from);
        if |next.errors| >= cap then next else Run(sheet, step, cap, from + 1, next)
  }

  /** Rows `from..until` of the sheet, with no limit on failures: the reference the capped loop is measured against. */
  function RunAll<S>(sheet: Sheet, step: (S, Row) -> Step<S>, from: nat, until: nat, acc: Scan<S>): (r: Scan<S>)
    requires from <= until <= |sheet|
    ensures |acc.errors| <= |r.errors| && r.errors[..|acc.errors|] == acc.errors
    ensures acc.processed <= r.processed
    ensures forall k :: |acc.errors| <= k < |r.errors| ==> from < r.errors[k].line <= until && sheet[r.errors[k].line - 1].Some?
    decreases until - from
  {
    if from == until then acc
    else match sheet[from]
      case None => RunAll(sheet, step, from + 1, until, acc)
      case Some(row) => RunAll(sheet, step, from + 1, until, Apply(acc, step(acc.state, row), from))
  }

  /** The row after which the capped loop stops: the row of the failure that makes `cap`, or the end of the sheet. */
  function StopRow<S>(sheet: Sheet, step: (S, Row) -> Step<S>, cap: nat, from: nat, acc: Scan<S>): (stop: nat)
    requires from <= |sheet|
    ensures from <= stop <= |sheet|
    decreases |sheet| - from
  {
    if from == |sheet| then from
    else match sheet[from]
      case None => StopRow(sheet, step, cap, from + 1, acc)
      case Some(row) =>
        var next := Apply(acc, step(acc.state, row), from);
        if |next.errors| >= cap then from + 1 else StopRow(sheet, step, cap, from + 1, next)
  }

  /**
   * The capped loop is the uncapped one over the rows up to its stopping
   * row, and it stops early only because the failure that makes `cap` came.
   */
  lemma {:induction false} RunIsRunAllUntilStop<S>(sheet: Sheet, step: (S, Row) -> Step<S>, cap: nat, from: nat, acc: Scan<S>)
    requires from <= |sheet| && |acc.errors| < cap
    ensures var stop := StopRow(sheet, step, cap, from, acc);
      && Run(sheet, step, cap, from, acc) == RunAll(sheet, step, from, stop, acc)
      && (stop < |sheet| ==> |Run(sheet, step, cap, from, acc).errors| == cap)
      && |Run(sheet, step, cap, from, acc).errors| <= cap
    decreases |sheet| - from
  {
    if from < |sheet| {
      match sheet[from]
      case None =>
        RunIsRunAllUntilStop(sheet, step, cap, from + 1, acc);
      case Some(row) =>
        var next := Apply(acc, step(acc.state, row), from);
        if |next.errors| < cap {
          RunIsRunAllUntilStop(sheet, step, cap, from + 1, next);
        }
    }
  }

  /**
   * The failures the capped loop reports are the first `cap` (or all, if
   * fewer) of those a loop without the cap would collect; when fewer than
   * `cap` rows fail, the two loops agree entirely.
   */
  lemma {:induction false} RunKeepsFirstErrors<S>(sheet: Sheet, step: (S, Row) -> Step<S>, cap: nat, from: nat, acc: Scan<S>)
    requires from <= |sheet| && |acc.errors| < cap
    ensures var (capped, all) := (Run(sheet, step, cap, from, acc), RunAll(sheet, step, from, |sheet|, acc));
      && (|all.errors| < cap ==> capped == all)
      && (|all.errors| >= cap ==> capped.errors == all.errors[..cap])
    decreases |sheet| - from
  {
    if from < |sheet| {
      match sheet[from]
      case None =>
        RunKeepsFirstErrors(sheet, step, cap, from + 1, acc);
      case Some(row) =>
        var next := Apply(acc, step(acc.state, row), from);
        if |next.errors| < cap {
          RunKeepsFirstErrors(sheet, step, cap, from + 1, next);
        } else {
          var all := RunAll(sheet, step, from + 1, |sheet|, next);
          assert |next.errors| == cap;
          assert all.errors[..cap] == next.errors;
        }
    }
  }

  /** The step never breaks `inv`: from a state satisfying it, whatever the row, the state after the step satisfies it too. */
  ghost predicate StepKeeps<S(!new)>(step: (S, Row) -> Step<S>, inv: S -> bool) {
    forall s, row :: inv(s) ==> match step(s, row)
      case Skip => true
      case Saved(t) => inv(t)
      case Failed(t, _) => inv(t)
  }

  /** An invariant every step keeps holds after the whole uncapped loop, failed rows included. */
  lemma {:induction false} RunAllKeeps<S(!new)>(sheet: Sheet, step: (S, Row) -> Step<S>, inv: S -> bool, from: nat, until: nat, acc: Scan<S>)
    requires from <= until <= |sheet|
    requires StepKeeps(step, inv) && inv(acc.state)
    ensures inv(RunAll(sheet, step, from, until, acc).state)
    decreases until - from
  {
    if from < until {
      match sheet[from]
      case None =>
        RunAllKeeps(sheet, step, inv, from + 1, until, acc);
      case Some(row) =>
        RunAllKeeps(sheet, step, inv, from + 1, until, Apply(acc, step(acc.state, row), from));
    }
  }

  /**
   * The rows after the header through the loop, starting from no failures,
   * stopping at `cap` failures.
   */
  function ScanSheet<S>(sheet: Sheet, step: (S, Row) -> Step<S>, cap: nat, headerRow: nat, init: S): (r: Scan<S>)
    requires cap >= 1 && headerRow < |sheet|
    ensures |r.errors| <= cap
    ensures forall k :: 0 <= k < |r.errors| ==> headerRow + 1 < r.errors[k].line <= |sheet|
  {
    var acc := Scan(init, 0, []);
    RunIsRunAllUntilStop(sheet, step, cap, headerRow + 1, acc);
    Run(sheet, step, cap, headerRow + 1, acc)
  }

  /** An invariant every step keeps holds after the scan, however it ended. */
  lemma ScanSheetKeeps<S(!new)>(sheet: Sheet, step: (S, Row) -> Step<S>, inv: S -> bool, cap: nat, headerRow: nat, init: S)
    requires cap >= 1 && headerRow < |sheet|
    requires StepKeeps(step, inv) && inv(init)
    ensures inv(ScanSheet(sheet, step, cap, headerRow, init).state)
  {
    var acc := Scan(init, 0, []);
    RunIsRunAllUntilStop(sheet, step, cap, headerRow + 1, acc);
    RunAllKeeps(sheet, step, inv, headerRow + 1, StopRow(sheet, step, cap, headerRow + 1, acc), acc);
  }

  /** The end of the import: failures, if any, are reported together with the count of processed rows. */
  function Finish<S>(scan: Scan<S>): (o: Outcome)
    ensures o.Done? <==> |scan.errors| == 0
    ensures o.Done? ==> o.processed == scan.processed
    ensures o.RowErrors? ==> o.processed == scan.processed && o.errors == scan.errors
    ensures !o.Aborted?
  {
    if |scan.errors| == 0 then Done(scan.processed) else RowErrors(scan.processed, scan.errors)
  }

  /** The words a failure line starts with, before the row number. */
  const RowPrefix: string := "Строка "

  /** «Строка n: message», the text a failure is reported as. */
  function RowErrorText(e: RowError): string {
    RowPrefix + NatToString(e.line) + ": " + Message(e.error)
  }

  /**
   * A failed row is reported under its own 1-based line number: the line
   * the loop adds for the row at index `i` reads «Строка i+1: message».
   */
  lemma ApplyReportsLine<S>(acc: Scan<S>, st: Step<S>, i: nat)
    requires st.Failed?
    ensures var r := Apply(acc, st, i);
      && |r.errors| == |acc.errors| + 1
      && RowErrorText(r.errors[|acc.errors|]) == "Строка " + NatToString(i + 1) + ": " + Message(st.error)
  {
  }

  /** Different row numbers or different messages give different failure lines: the line tells which row failed and why. */
  lemma RowErrorTextInjective(e1: RowError, e2: RowError)
    requires RowErrorText(e1) == RowErrorText(e2)
    ensures e1.line == e2.line && Message(e1.error) == Message(e2.error)
  {
    var (n1, n2) := (NatToString(e1.line), NatToString(e2.line));
    var (m1, m2) := (Message(e1.error), Message(e2.error));
    assert RowPrefix + n1 + ": " + m1 == RowPrefix + n2 + ": " + m2;
    NumberThenColon(RowPrefix, n1, m1, n2, m2);
    NatToStringValue(e1.line);
    NatToStringValue(e2.line);
  }

  /** After a common prefix, a run of digits ended by ": " splits a string in one way only. */
  lemma NumberThenColon(p: string, n1: string, m1: string, n2: string, m2: string)
    requires AllDigits(n1) && AllDigits(n2)
    requires p + n1 + ": " + m1 == p + n2 + ": " + m2
    ensures n1 == n2 && m1 == m2
  {
    var t1, t2 := n1 + ": " + m1, n2 + ": " + m2;
    assert (p + n1 + ": " + m1)[|p|..] == t1;
    assert (p + n2 + ": " + m2)[|p|..] == t2;
    assert t1[|n1|] == ':' == t2[|n1|];
    assert t2[|n2|] == ':' == t1[|n2|];
    assert |n1| == |n2|;
    assert n1 == t1[..|n1|] && n2 == t2[..|n2|];
    assert m1 == t1[|n1| + 2..] && m2 == t2[|n2| + 2..];
  }

  /**
   * The end of an import without the failure list (classes, curriculum):
   * the first failure is the whole import's failure, the rows before it
   * staying saved.
   */
  function FinishFirst<S>(scan: Scan<S>): (o: Outcome)
    ensures o.Done? <==> |scan.errors| == 0
    ensures o.Done? ==> o.processed == scan.processed
    ensures o.Aborted? <==> |scan.errors| > 0
    ensures o.Aborted? ==> o.message == Message(scan.errors[0].error)
  {
    if |scan.errors| == 0 then Done(scan.processed) else Aborted(Message(scan.errors[0].error))
  }

  /** A number cell that did not parse fails the row with its text. */
  function AsNumber<T>(r: Result<T, string>): (n: Result<T, ImportError>)
    ensures r.Success? <==> n.Success?
    ensures r.Success? ==> n.value == r.value
    ensures r.Failure? ==> n.error == BadNumber(r.error)
  {
    match r
    case Success(v) => Success(v)
    case Failure(e) => Failure(BadNumber(e))
  }

  /**
   * The message of the exception each error stands for. The texts of
   * NonUniqueResult and DuplicateKey are stand-ins for the library's
   * longer messages.
   */
  function Message(e: ImportError): string {
    match e
    case BadNumber(text) => "For input string: \"" + text + "\""
    case UnknownBuilding(code) => "Unknown building code: " + code
    case BadClassName(raw) => "Bad class name: " + raw
    case BookNotFound(isbn) => "Book not found for curriculum: isbn=" + isbn
    case NoSuchBuilding => "Корпус не найден"
    case NoValuePresent => "No value present"
    case NonUniqueResult => "query did not return a unique result"
    case DuplicateKey => "duplicate key value violates unique constraint"
  }
}

=== FILE: sheets.dfy ===
/**
 * The first sheet of an uploaded workbook, as the importers read it.
 *
 * A sheet is a sequence of physical rows; a row the file does not define is
 * `None` and every importer skips it. A row is the text of its cells; a cell
 * beyond the row's end reads as empty. Reading a cell trims it.
 */
module Sheets {
  import opened Wrappers
  import opened Text

  type Row = seq<string>

  type Sheet = seq<Option<Row>>

  /** cellString / getString on a text cell: its trimmed text, or "" when the cell is missing. */
  function Cell(r: Row, i: nat): (v: string)
    ensures i < |r| ==> v == Trim(r[i])
    ensures i >= |r| ==> v == ""
  {
    if i < |r| then Trim(r[i]) else ""
  }

  /** How a header cell is looked up: trimmed and lower-cased. */
  function HeaderKey(cell: string): string {
    Lower(Trim(cell))
  }

  /** The lookup key of every header cell, in column order. */
  function HeaderKeys(header: Row): (keys: seq<string>)
    ensures |keys| == |header|
    ensures forall i :: 0 <= i < |header| ==> keys[i] == HeaderKey(header[i])
  {
    seq(|header|, i requires 0 <= i < |header| => HeaderKey(header[i]))
  }

  /** Each key to the index of its last occurrence. */
  function LastIndexMap(keys: seq<string>): (m: map<string, nat>)
    ensures forall k :: k in m <==> k in keys
    ensures forall k :: k in m ==> m[k] < |keys| && keys[m[k]] == k
    ensures forall k, j :: k in m && m[k] < j < |keys| ==> keys[j] != k
    decreases |keys|
  {
    if |keys| == 0 then map[]
    else
      var prefix := keys[..|keys| - 1];
      assert keys == prefix + [keys[|keys| - 1]];
      LastIndexMap(prefix)[keys[|keys| - 1] := |keys| - 1]
  }

  /**
   * The header row's column map: each header text (trimmed, lower-cased) to
   * its column. Cells are put left to right, so a repeated header maps to
   * its last column.
   */
  function ColumnMap(header: Row): (m: map<string, nat>)
    ensures forall k :: k in m <==> exists i :: 0 <= i < |header| && HeaderKey(header[i]) == k
    ensures forall k :: k in m ==> m[k] < |header| && HeaderKey(header[m[k]]) == k
    ensures forall k, j :: k in m && m[k] < j < |header| ==> HeaderKey(header[j]) != k
  {
    var keys := HeaderKeys(header);
    assert forall k :: k in keys <==> exists i :: 0 <= i < |header| && keys[i] == k;
    LastIndexMap(keys)
  }

  /** getStringByHeader: the cell under the named header, or "" when the sheet has no such header. */
  function ByHeader(r: Row, col: map<string, nat>, name: string): string {
    var k := Lower(name);
    if k in col then Cell(r, col[k]) else ""
  }

  /** getStringByAnyHeader: the cell under the first of the names the sheet has, or "". */
  function ByAnyHeader(r: Row, col: map<string, nat>, names: seq<string>): (v: string)
    ensures (forall i :: 0 <= i < |names| ==> Lower(names[i]) !in col) ==> v == ""
    ensures forall i :: 0 <= i < |names| && Lower(names[i]) in col && (forall j :: 0 <= j < i ==> Lower(names[j]) !in col) ==>
      v == Cell(r, col[Lower(names[i])])
  {
    if |names| == 0 then ""
    else if Lower(names[0]) in col then Cell(r, col[Lower(names[0])])
    else
      assert forall i :: 1 <= i < |names| ==> names[1..][i - 1] == names[i];
      ByAnyHeader(r, col, names[1..])
  }

  // ---------------------------------------------------------------------
  // Locating the header row
  // ---------------------------------------------------------------------

  /** sh.getLastRowNum(): the index of the last row, -1 for an empty sheet. */
  function LastRow(sheet: Sheet): int {
    |sheet| - 1
  }

  /** Row `i` exists, lies within the first `limit + 1` rows, and satisfies `p`. */
  predicate Qualifies(sheet: Sheet, limit: nat, p: Row -> bool, i: int) {
    0 <= i <= limit && i < |sheet| && sheet[i].Some? && p(sheet[i].value)
  }

  /**
   * The first of rows `from..min(limit, last)` that exists and satisfies
   * `p`, or -1 when none does.
   */
  function FindRow(sheet: Sheet, limit: nat, p: Row -> bool, from: nat): (r: int)
    ensures r == -1 || (from <= r && Qualifies(sheet, limit, p, r))
    ensures r == -1 ==> forall i :: from <= i ==> !Qualifies(sheet, limit, p, i)
    ensures r >= 0 ==> forall i :: from <= i < r ==> !Qualifies(sheet, limit, p, i)
    decreases |sheet| - from
  {
    if from > limit || from >= |sheet| then -1
    else if sheet[from].Some? && p(sheet[from].value) then from
    else FindRow(sheet, limit, p, from + 1)
  }

  /** Some cell among the first `n` reads, lower-cased, as `v`. */
  predicate HasCell(r: Row, n: nat, v: string) {
    exists c :: 0 <= c < n && Lower(Cell(r, c)) == v
  }

  /** Our registry template starts with a header whose first cell is `buildingCode` or mentions «код корпуса». */
  predicate TemplateHeader(r: Row) {
    var c0 := Lower(Cell(r, 0));
    c0 == "buildingcode" || Contains(c0, "код корпуса")
  }

  /** A MESH registry header has the cells «Название», «Предмет» and «Параллель» among its first 30. */
  predicate MeshHeader(r: Row) {
    HasCell(r, 30, "название") && HasCell(r, 30, "предмет") && HasCell(r, 30, "параллель")
  }

  predicate RegistryHeader(r: Row) {
    TemplateHeader(r) || MeshHeader(r)
  }

  /** findHeaderRow: the first of rows 0..50 that is a template or MESH header, or -1. */
  function FindHeaderRow(sheet: Sheet): int {
    FindRow(sheet, 50, RegistryHeader, 0)
  }

  /** The librarian template's header has a title cell and a subject cell, in Russian or English, among its first 20. */
  predicate LibrarianHeader(r: Row) {
    (HasCell(r, 20, "название") || HasCell(r, 20, "title")) && (HasCell(r, 20, "предмет") || HasCell(r, 20, "subject"))
  }

  /** findLibrarianHeaderRow: the first of rows 0..30 that is a librarian header, or -1. */
  function FindLibrarianHeaderRow(sheet: Sheet): int {
    FindRow(sheet, 30, LibrarianHeader, 0)
  }

  /** The old registry's header: the first cell mentions «паралл» and the second «наимен». */
  predicate LegacyHeader(r: Row) {
    Contains(Lower(Cell(r, 0)), "паралл") && Contains(Lower(Cell(r, 1)), "наимен")
  }

  /** The header search of importLegacyRegistry: the first of rows 0..30 that is an old-registry header, or -1. */
  function FindLegacyHeaderRow(sheet: Sheet): int {
    FindRow(sheet, 30, LegacyHeader, 0)
  }

  /** The header search stops at its limit: a header placed after it is not found. */
  lemma HeaderBeyondLimitMissed(sheet: Sheet)
    requires |sheet| > 51
    requires forall i :: 0 <= i <= 50 ==> sheet[i].None?
    ensures FindHeaderRow(sheet) == -1
  {
  }

  /** A cell whose text has nothing to trim reads as that text. */
  lemma CellIs(r: Row, i: nat, v: string)
    requires i < |r| && r[i] == v && Trim(v) == v
    ensures Cell(r, i) == v
  {
  }

  /** A row of four texts with nothing to trim reads cell by cell as those texts. */
  lemma FourTrimmedCells(a: string, b: string, c: string, d: string)
    requires Trim(a) == a && Trim(b) == b && Trim(c) == c && Trim(d) == d
    ensures var r := [a, b, c, d];
      Cell(r, 0) == a && Cell(r, 1) == b && Cell(r, 2) == c && Cell(r, 3) == d
  {
    var r := [a, b, c, d];
    CellIs(r, 0, a);
    CellIs(r, 1, b);
    CellIs(r, 2, c);
    CellIs(r, 3, d);
  }

  /** A cell holding a word without outer blanks reads as that word. */
  lemma CellIsWord(r: Row, i: nat, w: string)
    requires i < |r| && r[i] == w
    requires |w| > 0 && !IsTrimmable(w[0]) && !IsTrimmable(w[|w| - 1])
    ensures Cell(r, i) == w
  {
    TrimSolid(w);
  }

  lemma EnglishLibrarianHeader()
    ensures LibrarianHeader(["Subject", "Title"])
  {
    var header: Row := ["Subject", "Title"];
    SubjectCell(header);
    TitleCell(header);
    assert HasCell(header, 20, "subject");
    assert HasCell(header, 20, "title");
  }

  lemma SubjectCell(header: Row)
    requires |header| > 0 && header[0] == "Subject"
    ensures Lower(Cell(header, 0)) == "subject"
  {
    SubjectWord();
  }

  lemma SubjectWord()
    ensures Lower(Trim("Subject")) == "subject"
  {
    assert TrimStart("Subject") == "Subject";
    assert TrimEnd("Subject") == "Subject";
    assert Lower("Subject") == "subject";
  }

  lemma TitleCell(header: Row)
    requires |header| > 1 && header[1] == "Title"
    ensures Lower(Cell(header, 1)) == "title"
  {
    TitleWord();
  }

  lemma TitleWord()
    ensures Lower(Trim("Title")) == "title"
  {
    assert TrimStart("Title") == "Title";
    assert TrimEnd("Title") == "Title";
    assert Lower("Title") == "title";
  }

  /** A sheet whose first two rows are missing and whose third is an English header finds the header at row 2. */
  lemma LibrarianHeaderExample()
    ensures FindLibrarianHeaderRow([None, None, Some(["Subject", "Title"])]) == 2
  {
    var sheet: Sheet := [None, None, Some(["Subject", "Title"])];
    EnglishLibrarianHeader();
    assert sheet[2].value == ["Subject", "Title"];
    assert FindRow(sheet, 30, LibrarianHeader, 2) == 2;
    assert FindRow(sheet, 30, LibrarianHeader, 1) == 2;
  }
}

=== FILE: sorting.dfy ===
/**
 * Sorting report rows by a chain of comparators, as
 * Comparator.comparing(...).thenComparing(...) does.
 *
 * A row's sort key is a sequence of parts compared in turn: a number by its
 * value, a text by String.compareTo. A case-insensitive comparison is a text
 * part holding the lower-cased string, so two names equal ignoring case tie
 * and the next part decides.
 */
module Sorting {
  import opened Text

  datatype KeyPart = Num(n: int) | Txt(s: string)

  /** One part at most another. Parts in the same position always have the same kind; numbers are put first otherwise. */
  predicate PartLeq(a: KeyPart, b: KeyPart) {
    match (a, b)
    case (Num(x), Num(y)) => x <= y
    case (Txt(x), Txt(y)) => LexLeq(x, y)
    case (Num(_), Txt(_)) => true
    case (Txt(_), Num(_)) => false
  }

  predicate PartLess(a: KeyPart, b: KeyPart) {
    PartLeq(a, b) && a != b
  }

  lemma PartLeqTotal(a: KeyPart, b: KeyPart)
    ensures PartLeq(a, b) || PartLeq(b, a)
  {
    if a.Txt? && b.Txt? {
      LexLeqTotal(a.s, b.s);
    }
  }

  lemma PartLeqReflexive(a: KeyPart)
    ensures PartLeq(a, a)
  {
    if a.Txt? {
      LexLeqTotal(a.s, a.s);
    }
  }

  lemma PartLeqAntisymmetric(a: KeyPart, b: KeyPart)
    requires PartLeq(a, b) && PartLeq(b, a)
    ensures a == b
  {
    if a.Txt? && b.Txt? {
      LexLeqAntisymmetric(a.s, b.s);
    }
  }

  lemma PartLeqTransitive(a: KeyPart, b: KeyPart, c: KeyPart)
    requires PartLeq(a, b) && PartLeq(b, c)
    ensures PartLeq(a, c)
  {
    if a.Txt? && b.Txt? && c.Txt? {
      LexLeqTransitive(a.s, b.s, c.s);
    }
  }

  /** The key `a` sorts no later than `b`: the first part where they differ decides; a key that runs out first is smaller. */
  predicate KeyLeq(a: seq<KeyPart>, b: seq<KeyPart>)
    decreases |a|
  {
    |a| == 0 || (|b| > 0 && (PartLess(a[0], b[0]) || (a[0] == b[0] && KeyLeq(a[1..], b[1..]))))
  }

  lemma {:induction false} KeyLeqTotal(a: seq<KeyPart>, b: seq<KeyPart>)
    ensures KeyLeq(a, b) || KeyLeq(b, a)
    decreases |a|
  {
    if |a| > 0 && |b| > 0 {
      if a[0] == b[0] {
        KeyLeqTotal(a[1..], b[1..]);
      } else {
        PartLeqTotal(a[0], b[0]);
      }
    }
  }

  lemma {:induction false} KeyLeqTransitive(a: seq<KeyPart>, b: seq<KeyPart>, c: seq<KeyPart>)
    requires KeyLeq(a, b) && KeyLeq(b, c)
    ensures KeyLeq(a, c)
    decreases |a|
  {
    if |a| > 0 {
      if a[0] == b[0] && b[0] == c[0] {
        KeyLeqTransitive(a[1..], b[1..], c[1..]);
      } else {
        PartLeqReflexive(a[0]);
        PartLeqReflexive(b[0]);
        PartLeqTransitive(a[0], b[0], c[0]);
        if a[0] == c[0] {
          PartLeqAntisymmetric(a[0], b[0]);
        }
      }
    }
  }

  /** Keys in order start with parts in order, and keys whose first parts tie are ordered by the rest. */
  lemma KeyLeqCons(p: KeyPart, q: KeyPart, a: seq<KeyPart>, b: seq<KeyPart>)
    requires KeyLeq([p] + a, [q] + b)
    ensures PartLeq(p, q)
    ensures p == q ==> KeyLeq(a, b)
  {
    assert ([p] + a)[0] == p && ([p] + a)[1..] == a;
    assert ([q] + b)[0] == q && ([q] + b)[1..] == b;
    PartLeqReflexive(p);
  }

  /** A key of a number and two texts in order: the numbers ascend; on a tie the first texts, then the second, are in order. */
  lemma NumTxtTxtLeq(g1: int, s1: string, t1: string, g2: int, s2: string, t2: string)
    requires KeyLeq([Num(g1), Txt(s1), Txt(t1)], [Num(g2), Txt(s2), Txt(t2)])
    ensures g1 <= g2
    ensures g1 == g2 ==> LexLeq(s1, s2)
    ensures g1 == g2 && s1 == s2 ==> LexLeq(t1, t2)
  {
    assert [Num(g1), Txt(s1), Txt(t1)] == [Num(g1)] + ([Txt(s1)] + [Txt(t1)]);
    assert [Num(g2), Txt(s2), Txt(t2)] == [Num(g2)] + ([Txt(s2)] + [Txt(t2)]);
    KeyLeqCons(Num(g1), Num(g2), [Txt(s1)] + [Txt(t1)], [Txt(s2)] + [Txt(t2)]);
    if g1 == g2 {
      KeyLeqCons(Txt(s1), Txt(s2), [Txt(t1)], [Txt(t2)]);
      if s1 == s2 {
        assert [Txt(t1)] == [Txt(t1)] + [] && [Txt(t2)] == [Txt(t2)] + [];
        KeyLeqCons(Txt(t1), Txt(t2), [], []);
      }
    }
  }

  /** Every row sorts no later than every row after it. */
  predicate SortedByKey<T>(xs: seq<T>, key: T -> seq<KeyPart>) {
    forall i, j :: 0 <= i < j < |xs| ==> KeyLeq(key(xs[i]), key(xs[j]))
  }

  /** Every row of `xs` sorts no earlier than the key `k`. */
  predicate AllFrom<T>(k: seq<KeyPart>, xs: seq<T>, key: T -> seq<KeyPart>) {
    forall j :: 0 <= j < |xs| ==> KeyLeq(k, key(xs[j]))
  }

  /** A row no later than every row of a sorted sequence can head it. */
  lemma SortedCons<T>(h: T, xs: seq<T>, key: T -> seq<KeyPart>)
    requires SortedByKey(xs, key) && AllFrom(key(h), xs, key)
    ensures SortedByKey([h] + xs, key)
  {
  }

  /** AllFrom depends only on which rows there are. */
  lemma AllFromMultiset<T>(k: seq<KeyPart>, xs: seq<T>, ys: seq<T>, key: T -> seq<KeyPart>)
    requires AllFrom(k, xs, key) && multiset(ys) <= multiset(xs)
    ensures AllFrom(k, ys, key)
  {
    forall j | 0 <= j < |ys| ensures KeyLeq(k, key(ys[j])) {
      assert ys[j] in multiset(xs);
      var i :| 0 <= i < |xs| && xs[i] == ys[j];
    }
  }

  /** The row put before the first row it sorts no later than. */
  function InsertByKey<T(==)>(x: T, xs: seq<T>, key: T -> seq<KeyPart>): (r: seq<T>)
    requires SortedByKey(xs, key)
    ensures SortedByKey(r, key)
    ensures multiset(r) == multiset(xs) + multiset{x}
    ensures |r| == |xs| + 1
  {
    if |xs| == 0 then [x]
    else if KeyLeq(key(x), key(xs[0])) then
      assert AllFrom(key(x), xs, key) by {
        forall j | 0 < j < |xs| ensures KeyLeq(key(x), key(xs[j])) {
          KeyLeqTransitive(key(x), key(xs[0]), key(xs[j]));
        }
      }
      SortedCons(x, xs, key);
      assert xs == [xs[0]] + xs[1..];
      [x] + xs
    else
      var h := xs[0];
      var t := xs[1..];
      assert xs == [h] + t;
      KeyLeqTotal(key(x), key(h));
      var rest := InsertByKey(x, t, key);
      assert AllFrom(key(h), [x] + t, key);
      AllFromMultiset(key(h), [x] + t, rest, key);
      SortedCons(h, rest, key);
      [h] + rest
  }

  /** Insertion sort by key: the same rows, in key order. */
  function SortByKey<T(==)>(xs: seq<T>, key: T -> seq<KeyPart>): (r: seq<T>)
    ensures SortedByKey(r, key)
    ensures multiset(r) == multiset(xs)
    ensures |r| == |xs|
  {
    if |xs| == 0 then []
    else
      assert xs == [xs[0]] + xs[1..];
      InsertByKey(xs[0], SortByKey(xs[1..], key), key)
  }

  /** Rows already in key order come back unchanged: the sort moves a row only past rows that sort strictly earlier. */
  lemma {:induction false} SortByKeyKeepsSorted<T>(xs: seq<T>, key: T -> seq<KeyPart>)
    requires SortedByKey(xs, key)
    ensures SortByKey(xs, key) == xs
  {
    if |xs| > 0 {
      var t := xs[1..];
      assert SortedByKey(t, key);
      SortByKeyKeepsSorted(t, key);
      assert xs == [xs[0]] + t;
    }
  }

  /** No element occurs twice. */
  predicate NoDuplicates<T(==)>(xs: seq<T>) {
    forall i, j :: 0 <= i < j < |xs| ==> xs[i] != xs[j]
  }

  lemma {:induction false} NoDuplicatesCount<T>(xs: seq<T>, x: T)
    requires NoDuplicates(xs)
    ensures multiset(xs)[x] <= 1
  {
    if |xs| > 0 {
      assert xs == [xs[0]] + xs[1..];
      assert NoDuplicates(xs[1..]);
      NoDuplicatesCount(xs[1..], x);
      if xs[0] == x {
        assert x !in xs[1..];
      }
    }
  }

  lemma RepeatCount<T>(xs: seq<T>, i: nat, j: nat)
    requires i < j < |xs| && xs[i] == xs[j]
    ensures multiset(xs)[xs[i]] >= 2
  {
    assert xs == xs[..i] + [xs[i]] + xs[i + 1..j] + [xs[j]] + xs[j + 1..];
  }

  /** Reordering a sequence without repeats, as the sort does, introduces none. */
  lemma PermutationNoDuplicates<T>(xs: seq<T>, ys: seq<T>)
    requires NoDuplicates(xs) && multiset(ys) == multiset(xs)
    ensures NoDuplicates(ys)
  {
    forall i, j | 0 <= i < j < |ys| ensures ys[i] != ys[j] {
      if ys[i] == ys[j] {
        RepeatCount(ys, i, j);
        NoDuplicatesCount(xs, ys[i]);
        assert false;
      }
    }
  }
}

=== FILE: stock_import.dfy ===
/**
 * The three imports that load stock counts: the librarian's template, the
 * registry (our template or a MESH export) and the old registry.
 *
 * Each locates its header, checks the building, then sends every row after
 * the header through its row step in the shared loop. A row step finds or
 * creates the subject, resolves the book title and overwrites the stock
 * counts of the building and title. Nothing is rolled back: a failing
 * import keeps every row saved before, and the writes a failing row made
 * before it failed.
 */
module StockImport {
  import opened Wrappers
  import opened Text
  import opened Numbers
  import opened Entities
  import opened Catalog
  import opened Sheets
  import opened RowImport
  import opened BuildingCodes
  import opened YearSplit

  /** `b` differs from `a` at most in the subjects, titles and stock rows: what a stock import may write. */
  predicate StockTablesOnly(a: Db, b: Db) {
    && b.buildings == a.buildings && b.curriculum == a.curriculum && b.classes == a.classes
    && b.futureClasses == a.futureClasses && b.enrollmentLog == a.enrollmentLog
    && b.writeOffs == a.writeOffs && b.movements == a.movements
  }

  /** What a stock-import row step promises about the database it leaves, whatever the row. */
  predicate StepWrites(db: Db, st: Step<Db>) {
    !st.Skip? ==>
      && StockTablesOnly(db, st.state)
      && (StockKeysUnique(db.stocks) ==> StockKeysUnique(st.state.stocks))
      && |db.subjects| <= |st.state.subjects| && |db.titles| <= |st.state.titles|
  }

  /** Title `id` of `d` has this title, grade and (ignoring case) subject name. */
  predicate TitleIs(d: Db, id: Id, title: string, grade: int, subject: string) {
    && id < |d.titles| && d.titles[id].title == title && d.titles[id].grade == grade
    && d.titles[id].subject < |d.subjects| && EqualsIgnoreCase(d.subjects[d.titles[id].subject].name, subject)
  }

  /** Some stock row of the building and title holds these three counts. */
  predicate StockHolds(stocks: seq<Stock>, building: Id, title: Id, total: int, available: int, inUse: int) {
    exists k :: 0 <= k < |stocks| && stocks[k].building == building && stocks[k].bookTitle == title
      && stocks[k].total == total && stocks[k].available == available && stocks[k].inUse == inUse
  }

  /**
   * The tail every row step shares, after the subject: the title as the
   * format resolved it, then its stock row in the building, whose counts
   * are overwritten (or created). Writes made before a failure stay.
   */
  function TitleThenStock(db: Db, t: Result<Stored<BookTitle>, ImportError>, building: Id, total: int, available: int, inUse: int): (st: Step<Db>)
    requires t.Success? ==> WroteOne(db.titles, t.value.rows, t.value.id)
    ensures !st.Skip? && StockTablesOnly(db, st.state) && st.state.subjects == db.subjects
    ensures |db.titles| <= |st.state.titles|
    ensures StockKeysUnique(db.stocks) ==> StockKeysUnique(st.state.stocks)
    ensures t.Failure? ==> st == Failed(db, t.error)
    ensures st.Saved? ==> t.Success? && st.state.titles == t.value.rows
    ensures st.Saved? ==> StockHolds(st.state.stocks, building, t.value.id, total, available, inUse)
  {
    match t
    case Failure(e) => Failed(db, e)
    case Success(title) =>
      var db1 := db.(titles := title.rows);
      match WriteStockCounts(db1.stocks, building, title.id, total, available, inUse)
      case Failure(e) => Failed(db1, e)
      case Success(s) =>
        assert s.rows[s.id].building == building && s.rows[s.id].bookTitle == title.id;
        Saved(db1.(stocks := s.rows))
  }

  // ---------------------------------------------------------------------
  // The librarian's template
  // ---------------------------------------------------------------------

  const LibrarianHeaderMissing := "Не найден заголовок шаблона остатков библиотекаря"

  /** The cells of a librarian row, numbers parsed. */
  datatype LibrarianFields = LibrarianFields(subject: string, grade: int, title: string, authors: string, publisher: string,
                                             year: Option<int>, isbn: string, total: int, available: int, inUse: int)

  /** The row's cells under their headers, Russian or English, parsed in the order the loop reads them. */
  function ReadLibrarianRow(r: Row, col: map<string, nat>): Result<LibrarianFields, ImportError> {
    var subject := ByAnyHeader(r, col, ["предмет", "subject"]);
    var grade :- AsNumber(ParseInt(ByAnyHeader(r, col, ["параллель", "grade"])));
    var title := ByAnyHeader(r, col, ["название", "title"]);
    var authors := ByAnyHeader(r, col, ["авторы", "authors"]);
    var publisher := ByAnyHeader(r, col, ["издательство", "publisher"]);
    var year :- AsNumber(ParseIntNullable(ByAnyHeader(r, col, ["год издания", "year"])));
    var isbn := ByAnyHeader(r, col, ["isbn"]);
    var total :- AsNumber(ParseInt(ByAnyHeader(r, col, ["всего", "total"])));
    var available :- AsNumber(ParseInt(ByAnyHeader(r, col, ["свободно", "available"])));
    var inUse :- AsNumber(ParseInt(ByAnyHeader(r, col, ["в использовании", "inuse"])));
    Success(LibrarianFields(subject, grade, title, authors, publisher, year, isbn, total, available, inUse))
  }

  /**
   * One row of the librarian's template: numbers are parsed first, so a bad
   * number fails even a row that would be skipped; a row with neither
   * title nor subject is skipped; otherwise subject, title (by ISBN, then by
   * title) and the stock counts, each clamped at zero.
   */
  function LibrarianRow(building: Id, col: map<string, nat>, db: Db, r: Row): (st: Step<Db>)
    ensures StepWrites(db, st)
    ensures ReadLibrarianRow(r, col).Failure? ==> st == Failed(db, ReadLibrarianRow(r, col).error)
    ensures st.Skip? <==> (ReadLibrarianRow(r, col).Success?
      && IsBlank(ReadLibrarianRow(r, col).value.title) && IsBlank(ReadLibrarianRow(r, col).value.subject))
  {
    match ReadLibrarianRow(r, col)
    case Failure(e) => Failed(db, e)
    case Success(f) =>
      if IsBlank(f.title) && IsBlank(f.subject) then Skip else SaveLibrarianRow(building, db, f)
  }

  /** A librarian row that is not skipped: subject, title (by ISBN, then by title), stock counts clamped at zero. */
  function SaveLibrarianRow(building: Id, db: Db, f: LibrarianFields): (st: Step<Db>)
    ensures !st.Skip? && StepWrites(db, st)
  {
    match FindOrCreateSubject(db.subjects, f.subject)
    case Failure(e) => Failed(db, e)
    case Success(sub) =>
      var db1 := db.(subjects := sub.rows);
      TitleThenStock(db1, ResolveLibrarianTitle(db1.titles, sub.id, f.grade, f.title, f.authors, f.publisher, f.year, f.isbn),
                     building, Max0(f.total), Max0(f.available), Max0(f.inUse))
  }

  /**
   * A saved librarian row leaves the building a stock of a title with the
   * row's title, grade and subject, holding the row's counts clamped at
   * zero: the counts replace the old ones, they are not added to them.
   */
  lemma LibrarianRowStores(building: Id, db: Db, f: LibrarianFields)
    requires SaveLibrarianRow(building, db, f).Saved?
    ensures var d := SaveLibrarianRow(building, db, f).state;
      exists id :: TitleIs(d, id, f.title, f.grade, f.subject)
        && StockHolds(d.stocks, building, id, Max0(f.total), Max0(f.available), Max0(f.inUse))
  {
    var sub := FindOrCreateSubject(db.subjects, f.subject).value;
    var t := ResolveLibrarianTitle(db.titles, sub.id, f.grade, f.title, f.authors, f.publisher, f.year, f.isbn).value;
    var d := SaveLibrarianRow(building, db, f).state;
    assert d.subjects == sub.rows && d.titles == t.rows;
    assert TitleIs(d, t.id, f.title, f.grade, f.subject);
  }

  /** Importing the same librarian row twice leaves the database as importing it once. */
  lemma LibrarianRowIdempotent(building: Id, col: map<string, nat>, db: Db, r: Row)
    requires LibrarianRow(building, col, db, r).Saved?
    ensures var d := LibrarianRow(building, col, db, r).state;
      LibrarianRow(building, col, d, r) == Saved(d)
  {
    var f := ReadLibrarianRow(r, col).value;
    var sub := FindOrCreateSubject(db.subjects, f.subject).value;
    FindOrCreateSubjectIdempotent(db.subjects, f.subject);
    var t := ResolveLibrarianTitle(db.titles, sub.id, f.grade, f.title, f.authors, f.publisher, f.year, f.isbn).value;
    ResolveLibrarianTitleIdempotent(db.titles, sub.id, f.grade, f.title, f.authors, f.publisher, f.year, f.isbn);
    WriteStockCountsIdempotent(db.stocks, building, t.id, Max0(f.total), Max0(f.available), Max0(f.inUse));
  }

  /** The librarian's row step for one building and header. */
  function LibrarianStep(building: Id, col: map<string, nat>): (Db, Row) -> Step<Db> {
    (db: Db, r: Row) => LibrarianRow(building, col, db, r)
  }

  /**
   * importLibrarianStock: the building must exist and the sheet must have
   * a librarian header, or nothing is read; then every row after the
   * header, failures collected up to 30.
   */
  function ImportLibrarianStock(db: Db, buildingId: Id, sheet: Sheet): (r: (Db, Outcome))
    ensures buildingId >= |db.buildings| ==> r == (db, Aborted(Message(NoSuchBuilding)))
    ensures buildingId < |db.buildings| && FindLibrarianHeaderRow(sheet) < 0 ==> r == (db, Aborted(LibrarianHeaderMissing))
    ensures r.1.Aborted? ==> r.0 == db
    ensures r.1.RowErrors? ==> 0 < |r.1.errors| <= MaxErrors
  {
    if buildingId >= |db.buildings| then (db, Aborted(Message(NoSuchBuilding)))
    else
      var h := FindLibrarianHeaderRow(sheet);
      if h < 0 then (db, Aborted(LibrarianHeaderMissing))
      else
        var scan := ScanSheet(sheet, LibrarianStep(buildingId, ColumnMap(sheet[h].value)), MaxErrors, h, db);
        (scan.state, Finish(scan))
  }

  // ---------------------------------------------------------------------
  // The registry: our template
  // ---------------------------------------------------------------------

  /** The cells of a row of our registry template, numbers parsed. */
  datatype TemplateFields = TemplateFields(code: string, grade: int, subject: string, title: string, authors: string,
                                           year: Option<int>, isbn: string, total: int, available: int, inUse: int)

  /** The ten fixed columns, numbers read with Integer.parseInt in column order; blank numbers are 0 (the year null). */
  function ReadTemplateRow(r: Row): (f: Result<TemplateFields, ImportError>)
    ensures f.Success? ==> f.value.code == Cell(r, 0) && f.value.isbn == Cell(r, 6)
  {
    var grade :- AsNumber(GetInt(Cell(r, 1)));
    var year :- AsNumber(GetIntNullable(Cell(r, 5)));
    var total :- AsNumber(GetInt(Cell(r, 7)));
    var available :- AsNumber(GetInt(Cell(r, 8)));
    var inUse :- AsNumber(GetInt(Cell(r, 9)));
    Success(TemplateFields(Cell(r, 0), grade, Cell(r, 2), Cell(r, 3), Cell(r, 4), year, Cell(r, 6), total, available, inUse))
  }

  /**
   * One row of our registry template. No row is skipped: a blank row names
   * no building and fails. The building comes from the row's own code
   * column; an unknown code fails the row before anything is written.
   */
  function TemplateRow(db: Db, r: Row): (st: Step<Db>)
    ensures StepWrites(db, st) && !st.Skip?
    ensures ReadTemplateRow(r).Failure? ==> st == Failed(db, ReadTemplateRow(r).error)
    ensures ReadTemplateRow(r).Success? && BuildingByCode(db.buildings, NormalizeBuildingCode(ReadTemplateRow(r).value.code)).Missing? ==>
      st == Failed(db, UnknownBuilding(ReadTemplateRow(r).value.code))
  {
    match ReadTemplateRow(r)
    case Failure(e) => Failed(db, e)
    case Success(f) =>
      match BuildingByCode(db.buildings, NormalizeBuildingCode(f.code))
      case Missing => Failed(db, UnknownBuilding(f.code))
      case Ambiguous => Failed(db, NonUniqueResult)
      case Found(b) => SaveTemplateRow(b, db, f)
  }

  /** A template row whose building was found: subject, title by ISBN, stock counts as given. */
  function SaveTemplateRow(building: Id, db: Db, f: TemplateFields): (st: Step<Db>)
    ensures !st.Skip? && StepWrites(db, st)
  {
    match FindOrCreateSubject(db.subjects, f.subject)
    case Failure(e) => Failed(db, e)
    case Success(sub) =>
      var db1 := db.(subjects := sub.rows);
      TitleThenStock(db1, ResolveTemplateTitle(db1.titles, f.isbn, f.grade, sub.id, f.title, f.authors, f.year),
                     building, f.total, f.available, f.inUse)
  }

  /** A saved template row leaves the building a stock of the row's title holding the row's counts as written, negative ones included. */
  lemma TemplateRowStores(building: Id, db: Db, f: TemplateFields)
    requires SaveTemplateRow(building, db, f).Saved?
    ensures var d := SaveTemplateRow(building, db, f).state;
      exists id :: TitleIs(d, id, f.title, f.grade, f.subject) && StockHolds(d.stocks, building, id, f.total, f.available, f.inUse)
  {
    var sub := FindOrCreateSubject(db.subjects, f.subject).value;
    var t := ResolveTemplateTitle(db.titles, f.isbn, f.grade, sub.id, f.title, f.authors, f.year).value;
    var d := SaveTemplateRow(building, db, f).state;
    assert d.subjects == sub.rows && d.titles == t.rows;
    assert TitleIs(d, t.id, f.title, f.grade, f.subject);
  }

  /** With an ISBN, importing the same template row twice leaves the database as importing it once. */
  lemma TemplateRowIdempotent(building: Id, db: Db, f: TemplateFields)
    requires !IsBlank(f.isbn)
    requires SaveTemplateRow(building, db, f).Saved?
    ensures var d := SaveTemplateRow(building, db, f).state;
      SaveTemplateRow(building, d, f) == Saved(d)
  {
    var sub := FindOrCreateSubject(db.subjects, f.subject).value;
    FindOrCreateSubjectIdempotent(db.subjects, f.subject);
    var t := ResolveTemplateTitle(db.titles, f.isbn, f.grade, sub.id, f.title, f.authors, f.year).value;
    ResolveTemplateTitleIdempotent(db.titles, f.isbn, f.grade, sub.id, f.title, f.authors, f.year);
    WriteStockCountsIdempotent(db.stocks, building, t.id, f.total, f.available, f.inUse);
  }

  /** Without an ISBN, every import of a template row creates one more title. */
  lemma TemplateRowWithoutIsbnAddsTitle(building: Id, db: Db, f: TemplateFields)
    requires IsBlank(f.isbn)
    requires SaveTemplateRow(building, db, f).Saved?
    ensures |SaveTemplateRow(building, db, f).state.titles| == |db.titles| + 1
  {
    var sub := FindOrCreateSubject(db.subjects, f.subject).value;
    var t := ResolveTemplateTitle(db.titles, f.isbn, f.grade, sub.id, f.title, f.authors, f.year).value;
    assert t.id == |db.titles|;
  }

  function TemplateStep(): (Db, Row) -> Step<Db> {
    (db: Db, r: Row) => TemplateRow(db, r)
  }

  // ---------------------------------------------------------------------
  // The registry: a MESH export
  // ---------------------------------------------------------------------

  /** The cells of a MESH registry row, numbers parsed, the edition-year cell read as its year candidates. */
  datatype MeshFields = MeshFields(title: string, subject: string, grade: int, authors: string, publisher: string,
                                   fpu: string, total: int, available: int, years: seq<Option<int>>)

  /** Several year candidates are all present and pairwise different, as the year scan yields them. */
  predicate YearsApart(years: seq<Option<int>>) {
    |years| > 1 ==> forall k :: 0 <= k < |years| ==> years[k].Some? && years[k] !in years[..k]
  }

  /** The edition-year cell as the year candidates the counts are split over. */
  function MeshYears(raw: string): (r: Result<seq<Option<int>>, ImportError>)
    ensures r.Success? ==> |r.value| >= 1 && YearsApart(r.value)
    ensures r.Failure? ==> ParseYearCandidates(raw).Failure? && r.error == BadNumber(ParseYearCandidates(raw).error)
  {
    match ParseYearCandidates(raw)
    case Failure(e) => Failure(BadNumber(e))
    case Success(years) =>
      if |years| > 1 then
        ParseYearCandidatesSeveral(raw);
        assert forall k :: 0 <= k < |years| ==> years[k] !in years[..k] by {
          forall k, a | 0 <= a < k < |years| ensures years[..k][a] != years[k] {
            assert years[..k][a] == years[a];
          }
        }
        Success(years)
      else Success(years)
  }

  /** The MESH headers the row step reads, in the order the fields of MeshFields list them. */
  const MeshHeaders: seq<string> := ["название", "предмет", "параллель", "автор(-ы)", "издательство", "№ фпу",
                                     "общее кол-во экземпляров", "кол-во свободных экземпляров", "год издания"]

  /**
   * The row's cells under the MESH headers `h` (MeshHeaders, passed down
   * from the import); the two counts are read before the year cell.
   */
  function ReadMeshRow(r: Row, col: map<string, nat>, h: seq<string>): (f: Result<MeshFields, ImportError>)
    requires |h| == 9
    ensures f.Success? ==> |f.value.years| >= 1 && YearsApart(f.value.years)
  {
    var cells := seq(9, i requires 0 <= i < 9 => ByHeader(r, col, h[i]));
    ParseMeshCells(cells[0], cells[1], cells[2], cells[3], cells[4], cells[5], cells[6], cells[7], cells[8])
  }

  /** The MESH cells with the total, the free count and the edition years parsed, in that order. */
  function ParseMeshCells(title: string, subject: string, grade: string, authors: string, publisher: string, fpu: string,
                          total: string, available: string, years: string): (f: Result<MeshFields, ImportError>)
    ensures f.Success? ==> |f.value.years| >= 1 && YearsApart(f.value.years)
    ensures f.Success? ==> f.value.title == title && f.value.subject == subject && f.value.fpu == fpu
  {
    var t :- AsNumber(ParseInt(total));
    var a :- AsNumber(ParseInt(available));
    var ys :- MeshYears(years);
    Success(MeshFields(title, subject, ParseGrade(grade), authors, publisher, fpu, t, a, ys))
  }

  /**
   * One row of a MESH export: skipped when the title is blank; otherwise
   * the counts are split over the edition years the row names, and each
   * year gets its own title (keyed by the federal-list number and the year)
   * and its own stock row.
   */
  function MeshRow(building: Id, col: map<string, nat>, h: seq<string>, db: Db, r: Row): (st: Step<Db>)
    requires |h| == 9
    ensures StepWrites(db, st)
    ensures st.Skip? <==> IsBlank(ByHeader(r, col, h[0]))
    ensures !st.Skip? && ReadMeshRow(r, col, h).Failure? ==> st == Failed(db, ReadMeshRow(r, col, h).error)
    ensures st.Saved? ==> ReadMeshRow(r, col, h).Success? && st == SaveMeshRow(building, db, ReadMeshRow(r, col, h).value)
  {
    if IsBlank(ByHeader(r, col, h[0])) then Skip
    else match ReadMeshRow(r, col, h)
      case Failure(e) => Failed(db, e)
      case Success(f) => SaveMeshRow(building, db, f)
  }

  /** The subject, then one title and one stock row per year share. */
  function SaveMeshRow(building: Id, db: Db, f: MeshFields): (st: Step<Db>)
    ensures !st.Skip? && StepWrites(db, st)
  {
    match FindOrCreateSubject(db.subjects, f.subject)
    case Failure(e) => Failed(db, e)
    case Success(sub) =>
      WriteShares(db.(subjects := sub.rows), building, sub.id, f, Shares(f.years, f.total, f.available), |f.years| > 1)
  }

  /**
   * The loop over the year shares: the title of each share, then its stock
   * row. A failing share leaves the shares before it written.
   */
  function WriteShares(db: Db, building: Id, subject: Id, f: MeshFields, shares: seq<YearShare>, split: bool): (st: Step<Db>)
    ensures !st.Skip? && StepWrites(db, st) && st.state.subjects == db.subjects
    decreases |shares|
  {
    if |shares| == 0 then Saved(db)
    else
      var sh := shares[0];
      var st := TitleThenStock(db, FindOrCreateMeshTitle(db.titles, f.fpu, f.grade, subject, f.title, f.authors, f.publisher, sh.year, split),
                               building, sh.total, sh.available, sh.inUse);
      if st.Saved? then WriteShares(st.state, building, subject, f, shares[1..], split) else st
  }

  /** The key share `sh` of the row is stored under. */
  function ShareKey(f: MeshFields, sh: YearShare, split: bool): string {
    EffectiveKey(f.fpu, sh.year, split)
  }

  /**
   * `d` has a title of the row's grade and subject under `key`, named as
   * the row, and the building's stock of it holds the share's counts.
   */
  predicate Recorded(d: Db, building: Id, subject: Id, f: MeshFields, key: string, sh: YearShare) {
    exists id :: 0 <= id < |d.titles| && d.titles[id].externalKey == Some(key) && d.titles[id].title == f.title
      && d.titles[id].grade == f.grade && d.titles[id].subject == subject
      && StockHolds(d.stocks, building, id, sh.total, sh.available, sh.inUse)
  }

  /** A later share's key is blank (so it always makes a new title) or differs from every earlier share's key. */
  predicate KeysApart(f: MeshFields, shares: seq<YearShare>, split: bool) {
    forall a, b :: 0 <= a < b < |shares| ==> IsBlank(ShareKey(f, shares[b], split)) || ShareKey(f, shares[b], split) != ShareKey(f, shares[a], split)
  }

  /** Writing one share keeps what an earlier share with another key recorded. */
  lemma ShareKeepsRecorded(db: Db, building: Id, subject: Id, f: MeshFields, sh: YearShare, split: bool, key: string, earlier: YearShare)
    requires Recorded(db, building, subject, f, key, earlier)
    requires IsBlank(ShareKey(f, sh, split)) || ShareKey(f, sh, split) != key
    requires TitleThenStock(db, FindOrCreateMeshTitle(db.titles, f.fpu, f.grade, subject, f.title, f.authors, f.publisher, sh.year, split),
                            building, sh.total, sh.available, sh.inUse).Saved?
    ensures Recorded(TitleThenStock(db, FindOrCreateMeshTitle(db.titles, f.fpu, f.grade, subject, f.title, f.authors, f.publisher, sh.year, split),
                                    building, sh.total, sh.available, sh.inUse).state, building, subject, f, key, earlier)
  {
    var t := FindOrCreateMeshTitle(db.titles, f.fpu, f.grade, subject, f.title, f.authors, f.publisher, sh.year, split);
    assert t.value.id < |db.titles| ==> db.titles[t.value.id].externalKey != Some(key);
    StepKeepsRecorded(db, t, building, sh.total, sh.available, sh.inUse, subject, f, key, earlier);
  }

  /** A title-then-stock write that leaves alone every title under `key` keeps what was recorded under it. */
  lemma StepKeepsRecorded(db: Db, t: Result<Stored<BookTitle>, ImportError>, building: Id, total: int, available: int, inUse: int,
                          subject: Id, f: MeshFields, key: string, earlier: YearShare)
    requires t.Success? ==> WroteOne(db.titles, t.value.rows, t.value.id)
    requires t.Success? && t.value.id < |db.titles| ==> db.titles[t.value.id].externalKey != Some(key)
    requires Recorded(db, building, subject, f, key, earlier)
    requires TitleThenStock(db, t, building, total, available, inUse).Saved?
    ensures Recorded(TitleThenStock(db, t, building, total, available, inUse).state, building, subject, f, key, earlier)
  {
    var id :| 0 <= id < |db.titles| && db.titles[id].externalKey == Some(key) && db.titles[id].title == f.title
      && db.titles[id].grade == f.grade && db.titles[id].subject == subject
      && StockHolds(db.stocks, building, id, earlier.total, earlier.available, earlier.inUse);
    var k :| 0 <= k < |db.stocks| && db.stocks[k].building == building && db.stocks[k].bookTitle == id
      && db.stocks[k].total == earlier.total && db.stocks[k].available == earlier.available && db.stocks[k].inUse == earlier.inUse;
    assert t.value.id != id;
    var s := WriteStockCounts(db.stocks, building, t.value.id, total, available, inUse).value;
    assert k != s.id;
    var d := TitleThenStock(db, t, building, total, available, inUse).state;
    assert d.titles[id] == db.titles[id];
    assert d.stocks[k] == db.stocks[k];
  }

  /** Writing one share records it. */
  lemma ShareRecorded(db: Db, building: Id, subject: Id, f: MeshFields, sh: YearShare, split: bool)
    requires TitleThenStock(db, FindOrCreateMeshTitle(db.titles, f.fpu, f.grade, subject, f.title, f.authors, f.publisher, sh.year, split),
                            building, sh.total, sh.available, sh.inUse).Saved?
    ensures Recorded(TitleThenStock(db, FindOrCreateMeshTitle(db.titles, f.fpu, f.grade, subject, f.title, f.authors, f.publisher, sh.year, split),
                                    building, sh.total, sh.available, sh.inUse).state, building, subject, f, ShareKey(f, sh, split), sh)
  {
    var t := FindOrCreateMeshTitle(db.titles, f.fpu, f.grade, subject, f.title, f.authors, f.publisher, sh.year, split).value;
    var d := TitleThenStock(db, FindOrCreateMeshTitle(db.titles, f.fpu, f.grade, subject, f.title, f.authors, f.publisher, sh.year, split),
                            building, sh.total, sh.available, sh.inUse).state;
    assert d.titles[t.id] == t.rows[t.id];
  }

  /** The rest of the loop keeps what an earlier share recorded, when none of the rest shares its key. */
  lemma {:induction false} WriteSharesKeeps(db: Db, building: Id, subject: Id, f: MeshFields, shares: seq<YearShare>, split: bool,
                                            key: string, earlier: YearShare)
    requires Recorded(db, building, subject, f, key, earlier)
    requires forall b :: 0 <= b < |shares| ==> IsBlank(ShareKey(f, shares[b], split)) || ShareKey(f, shares[b], split) != key
    requires WriteShares(db, building, subject, f, shares, split).Saved?
    ensures Recorded(WriteShares(db, building, subject, f, shares, split).state, building, subject, f, key, earlier)
    decreases |shares|
  {
    if |shares| > 0 {
      var sh := shares[0];
      var st := TitleThenStock(db, FindOrCreateMeshTitle(db.titles, f.fpu, f.grade, subject, f.title, f.authors, f.publisher, sh.year, split),
                               building, sh.total, sh.available, sh.inUse);
      ShareKeepsRecorded(db, building, subject, f, sh, split, key, earlier);
      WriteSharesKeeps(st.state, building, subject, f, shares[1..], split, key, earlier);
    }
  }

  /**
   * A loop that completes records every share: each year's title holds its
   * share of the counts, provided no two shares collide on a non-blank key.
   */
  lemma {:induction false} WriteSharesRecordsAll(db: Db, building: Id, subject: Id, f: MeshFields, shares: seq<YearShare>, split: bool)
    requires KeysApart(f, shares, split)
    requires WriteShares(db, building, subject, f, shares, split).Saved?
    ensures forall i :: 0 <= i < |shares| ==>
      Recorded(WriteShares(db, building, subject, f, shares, split).state, building, subject, f, ShareKey(f, shares[i], split), shares[i])
    decreases |shares|
  {
    if |shares| > 0 {
      var sh := shares[0];
      var st := TitleThenStock(db, FindOrCreateMeshTitle(db.titles, f.fpu, f.grade, subject, f.title, f.authors, f.publisher, sh.year, split),
                               building, sh.total, sh.available, sh.inUse);
      var rest := shares[1..];
      assert WriteShares(db, building, subject, f, shares, split) == WriteShares(st.state, building, subject, f, rest, split);
      ShareRecorded(db, building, subject, f, sh, split);
      KeysApartTail(f, shares, split);
      WriteSharesKeeps(st.state, building, subject, f, rest, split, ShareKey(f, sh, split), sh);
      WriteSharesRecordsAll(st.state, building, subject, f, rest, split);
      forall i | 0 < i < |shares|
        ensures Recorded(WriteShares(db, building, subject, f, shares, split).state, building, subject, f, ShareKey(f, shares[i], split), shares[i])
      {
        assert shares[i] == rest[i - 1];
      }
    }
  }

  /** Shares kept apart stay apart without the first, and none of the rest shares the first one's key. */
  lemma KeysApartTail(f: MeshFields, shares: seq<YearShare>, split: bool)
    requires |shares| > 0 && KeysApart(f, shares, split)
    ensures KeysApart(f, shares[1..], split)
    ensures forall b :: 0 <= b < |shares[1..]| ==>
      IsBlank(ShareKey(f, shares[1..][b], split)) || ShareKey(f, shares[1..][b], split) != ShareKey(f, shares[0], split)
  {
    var rest := shares[1..];
    forall b | 0 <= b < |rest| ensures IsBlank(ShareKey(f, rest[b], split)) || ShareKey(f, rest[b], split) != ShareKey(f, shares[0], split) {
      assert rest[b] == shares[b + 1];
    }
    forall a, b | 0 <= a < b < |rest| ensures IsBlank(ShareKey(f, rest[b], split)) || ShareKey(f, rest[b], split) != ShareKey(f, rest[a], split) {
      assert rest[a] == shares[a + 1] && rest[b] == shares[b + 1];
    }
  }

  /** The year shares of a row never collide: a split row's years differ, so do their keys; an unsplit row has one share. */
  lemma MeshKeysApart(f: MeshFields)
    requires |f.years| >= 1 && YearsApart(f.years)
    ensures KeysApart(f, Shares(f.years, f.total, f.available), |f.years| > 1)
  {
    var shares := Shares(f.years, f.total, f.available);
    var split := |f.years| > 1;
    forall a, b | 0 <= a < b < |shares|
      ensures IsBlank(ShareKey(f, shares[b], split)) || ShareKey(f, shares[b], split) != ShareKey(f, shares[a], split)
    {
      assert split;
      assert f.years[..b][a] == f.years[a];
      if !IsBlank(Trim(f.fpu)) {
        EffectiveKeysDistinct(f.fpu, shares[a].year.value, shares[b].year.value);
      }
    }
  }

  /**
   * Every edition year the row names has, in `d`, a title under that
   * year's key, of the row's subject, whose stock in the building holds
   * that year's share of the row's counts.
   */
  predicate RowRecorded(d: Db, building: Id, f: MeshFields) {
    var shares := Shares(f.years, f.total, f.available);
    exists subject: Id :: subject < |d.subjects| && EqualsIgnoreCase(d.subjects[subject].name, f.subject)
      && forall i :: 0 <= i < |shares| ==> Recorded(d, building, subject, f, ShareKey(f, shares[i], |f.years| > 1), shares[i])
  }

  /** A saved MESH row records all its year shares. */
  lemma MeshRowStores(building: Id, db: Db, f: MeshFields)
    requires |f.years| >= 1 && YearsApart(f.years)
    requires SaveMeshRow(building, db, f).Saved?
    ensures RowRecorded(SaveMeshRow(building, db, f).state, building, f)
  {
    var sub := FindOrCreateSubject(db.subjects, f.subject).value;
    var shares := Shares(f.years, f.total, f.available);
    var split := |f.years| > 1;
    var st := WriteShares(db.(subjects := sub.rows), building, sub.id, f, shares, split);
    assert SaveMeshRow(building, db, f) == st;
    MeshKeysApart(f);
    WriteSharesRecordsAll(db.(subjects := sub.rows), building, sub.id, f, shares, split);
    assert st.state.subjects == sub.rows;
    assert EqualsIgnoreCase(st.state.subjects[sub.id].name, f.subject);
  }

  /** A MESH row that goes through records every year share of the row as read. */
  lemma MeshRowRecords(building: Id, col: map<string, nat>, h: seq<string>, db: Db, r: Row)
    requires |h| == 9 && MeshRow(building, col, h, db, r).Saved?
    ensures ReadMeshRow(r, col, h).Success?
    ensures RowRecorded(MeshRow(building, col, h, db, r).state, building, ReadMeshRow(r, col, h).value)
  {
    MeshRowStores(building, db, ReadMeshRow(r, col, h).value);
  }

  function MeshStep(building: Id, col: map<string, nat>, h: seq<string>): (Db, Row) -> Step<Db>
    requires |h| == 9
  {
    (db: Db, r: Row) => MeshRow(building, col, h, db, r)
  }

  // ---------------------------------------------------------------------
  // The registry: the import
  // ---------------------------------------------------------------------

  const RegistryHeaderMissing := "Не смог найти строку заголовков в реестре. Ожидал либо шаблон, либо реестр МЭШ."

  /** The header has the three MESH columns: the rows are read as a MESH export. */
  predicate IsMeshColumns(col: map<string, nat>) {
    "название" in col && "предмет" in col && "параллель" in col
  }

  /**
   * importRegistry: the header among rows 0..50, then the building named
   * by the request (used by MESH rows; template rows name their own), then
   * every row after the header as MESH or template rows, failures
   * collected up to 30.
   */
  function ImportRegistry(db: Db, buildingCode: string, sheet: Sheet): (r: (Db, Outcome))
    ensures FindHeaderRow(sheet) < 0 ==> r == (db, Aborted(RegistryHeaderMissing))
    ensures FindHeaderRow(sheet) >= 0 && BuildingByCode(db.buildings, NormalizeBuildingCode(buildingCode)).Missing? ==>
      r == (db, Aborted(Message(UnknownBuilding(buildingCode))))
    ensures r.1.Aborted? ==> r.0 == db
    ensures r.1.RowErrors? ==> 0 < |r.1.errors| <= MaxErrors
  {
    var h := FindHeaderRow(sheet);
    if h < 0 then (db, Aborted(RegistryHeaderMissing))
    else
      match BuildingByCode(db.buildings, NormalizeBuildingCode(buildingCode))
      case Missing => (db, Aborted(Message(UnknownBuilding(buildingCode))))
      case Ambiguous => (db, Aborted(Message(NonUniqueResult)))
      case Found(b) => RegistryScan(db, b, sheet, h)
  }

  /** The shared loop over the rows after the header, with the MESH row step when the header shows MESH columns, else the template one. */
  function RegistryScan(db: Db, b: Id, sheet: Sheet, h: nat): (r: (Db, Outcome))
    requires h < |sheet| && sheet[h].Some?
    ensures !r.1.Aborted?
    ensures r.1.RowErrors? ==> 0 < |r.1.errors| <= MaxErrors
  {
    var col := ColumnMap(sheet[h].value);
    var scan := ScanSheet(sheet, if IsMeshColumns(col) then MeshStep(b, col, MeshHeaders) else TemplateStep(), MaxErrors, h, db);
    (scan.state, Finish(scan))
  }

  // ---------------------------------------------------------------------
  // The old registry
  // ---------------------------------------------------------------------

  const LegacyHeaderMissing := "Не найден заголовок старого реестра (ожидал: 'Параллель:' и 'Наименование учебника:')"

  /**
   * One row of the old registry: skipped when both the grade and the title
   * are blank; otherwise the quantity is read (a bad one fails the row),
   * and every copy counts as free, none in use.
   */
  function LegacyRow(building: Id, db: Db, r: Row): (st: Step<Db>)
    ensures StepWrites(db, st)
    ensures st.Skip? <==> IsBlank(Cell(r, 1)) && IsBlank(Cell(r, 0))
    ensures !st.Skip? && ParseInt(Cell(r, 7)).Failure? ==> st == Failed(db, BadNumber(ParseInt(Cell(r, 7)).error))
  {
    var gradeRaw := Cell(r, 0);
    var title := Cell(r, 1);
    if IsBlank(title) && IsBlank(gradeRaw) then Skip
    else match ParseInt(Cell(r, 7))
      case Failure(e) => Failed(db, BadNumber(e))
      case Success(total) => SaveLegacyRow(building, db, title, ParseGrade(gradeRaw), Cell(r, 2), Cell(r, 3), total)
  }

  /** An old-registry row that is not skipped: subject, title by title alone, then `total` copies, all free. */
  function SaveLegacyRow(building: Id, db: Db, title: string, grade: int, subject: string, publisher: string, total: int): (st: Step<Db>)
    ensures !st.Skip? && StepWrites(db, st)
  {
    match FindOrCreateSubject(db.subjects, subject)
    case Failure(e) => Failed(db, e)
    case Success(sub) =>
      var db1 := db.(subjects := sub.rows);
      TitleThenStock(db1, ResolveLegacyTitle(db1.titles, title, grade, sub.id, publisher), building, total, total, 0)
  }

  /** A saved old-registry row leaves the building a stock of the row's title with the quantity as total and as free, none in use. */
  lemma LegacyRowStores(building: Id, db: Db, title: string, grade: int, subject: string, publisher: string, total: int)
    requires SaveLegacyRow(building, db, title, grade, subject, publisher, total).Saved?
    ensures var d := SaveLegacyRow(building, db, title, grade, subject, publisher, total).state;
      exists id :: TitleIs(d, id, title, grade, subject) && StockHolds(d.stocks, building, id, total, total, 0)
  {
    var sub := FindOrCreateSubject(db.subjects, subject).value;
    var t := ResolveLegacyTitle(db.titles, title, grade, sub.id, publisher).value;
    var d := SaveLegacyRow(building, db, title, grade, subject, publisher, total).state;
    assert d.subjects == sub.rows && d.titles == t.rows;
    assert TitleIs(d, t.id, title, grade, subject);
  }

  /** Importing the same old-registry row twice leaves the database as importing it once. */
  lemma LegacyRowIdempotent(building: Id, db: Db, title: string, grade: int, subject: string, publisher: string, total: int)
    requires SaveLegacyRow(building, db, title, grade, subject, publisher, total).Saved?
    ensures var d := SaveLegacyRow(building, db, title, grade, subject, publisher, total).state;
      SaveLegacyRow(building, d, title, grade, subject, publisher, total) == Saved(d)
  {
    var sub := FindOrCreateSubject(db.subjects, subject).value;
    FindOrCreateSubjectIdempotent(db.subjects, subject);
    var t := ResolveLegacyTitle(db.titles, title, grade, sub.id, publisher).value;
    LegacyTitleIdempotent(db.titles, title, grade, sub.id, publisher);
    WriteStockCountsIdempotent(db.stocks, building, t.id, total, total, 0);
  }

  function LegacyStep(building: Id): (Db, Row) -> Step<Db> {
    (db: Db, r: Row) => LegacyRow(building, db, r)
  }

  /**
   * importLegacyRegistry: the header (a grade cell, then a title cell)
   * among rows 0..30, then the building by its normalised code, then every
   * row after the header, failures collected up to 30.
   */
  function ImportLegacyRegistry(db: Db, buildingCode: string, sheet: Sheet): (r: (Db, Outcome))
    ensures FindLegacyHeaderRow(sheet) < 0 ==> r == (db, Aborted(LegacyHeaderMissing))
    ensures FindLegacyHeaderRow(sheet) >= 0 && BuildingByCode(db.buildings, NormalizeBuildingCode(buildingCode)).Missing? ==>
      r == (db, Aborted(Message(UnknownBuilding(buildingCode))))
    ensures r.1.Aborted? ==> r.0 == db
    ensures r.1.RowErrors? ==> 0 < |r.1.errors| <= MaxErrors
  {
    var h := FindLegacyHeaderRow(sheet);
    if h < 0 then (db, Aborted(LegacyHeaderMissing))
    else match BuildingByCode(db.buildings, NormalizeBuildingCode(buildingCode))
      case Missing => (db, Aborted(Message(UnknownBuilding(buildingCode))))
      case Ambiguous => (db, Aborted(Message(NonUniqueResult)))
      case Found(b) =>
        var scan := ScanSheet(sheet, LegacyStep(b), MaxErrors, h, db);
        (scan.state, Finish(scan))
  }

  lemma ImportLegacyRegistryKeeps(db: Db, buildingCode: string, sheet: Sheet)
    ensures var (d, _) := ImportLegacyRegistry(db, buildingCode, sheet);
      StockTablesOnly(db, d) && (StockKeysUnique(db.stocks) ==> StockKeysUnique(d.stocks))
  {
    var h := FindLegacyHeaderRow(sheet);
    if h >= 0 {
      var l := BuildingByCode(db.buildings, NormalizeBuildingCode(buildingCode));
      if l.Found? {
        var step := LegacyStep(l.id);
        assert StepsWrite(step) by {
          forall s, r ensures StepWrites(s, step(s, r)) { }
        }
        ScanWrites(sheet, step, h, db);
      }
    }
  }

  // ---------------------------------------------------------------------
  // What every stock import keeps
  // ---------------------------------------------------------------------

  /** Every row step keeps to the stock tables and keeps the stock key unique. */
  ghost predicate StepsWrite(step: (Db, Row) -> Step<Db>) {
    forall db, r :: StepWrites(db, step(db, r))
  }

  /** A loop of such steps writes only stock tables and keeps the stock key unique, however it ends. */
  lemma ScanWrites(sheet: Sheet, step: (Db, Row) -> Step<Db>, headerRow: nat, db: Db)
    requires StepsWrite(step) && headerRow < |sheet|
    ensures StockTablesOnly(db, ScanSheet(sheet, step, MaxErrors, headerRow, db).state)
    ensures StockKeysUnique(db.stocks) ==> StockKeysUnique(ScanSheet(sheet, step, MaxErrors, headerRow, db).state.stocks)
  {
    var only := (s: Db) => StockTablesOnly(db, s);
    forall s, r | only(s)
      ensures match step(s, r)
        case Skip => true
        case Saved(t) => only(t)
        case Failed(t, _) => only(t)
    {
      assert StepWrites(s, step(s, r));
    }
    ScanSheetKeeps(sheet, step, only, MaxErrors, headerRow, db);
    if StockKeysUnique(db.stocks) {
      var unique := (s: Db) => StockKeysUnique(s.stocks);
      forall s, r | unique(s)
        ensures match step(s, r)
          case Skip => true
          case Saved(t) => unique(t)
          case Failed(t, _) => unique(t)
      {
        assert StepWrites(s, step(s, r));
      }
      ScanSheetKeeps(sheet, step, unique, MaxErrors, headerRow, db);
    }
  }

  lemma MeshStepsWrite(building: Id, col: map<string, nat>, h: seq<string>)
    requires |h| == 9
    ensures StepsWrite(MeshStep(building, col, h))
  {
    forall s, r ensures StepWrites(s, MeshStep(building, col, h)(s, r)) {
      assert MeshStep(building, col, h)(s, r) == MeshRow(building, col, h, s, r);
    }
  }

  lemma TemplateStepsWrite()
    ensures StepsWrite(TemplateStep())
  {
    forall s, r ensures StepWrites(s, TemplateStep()(s, r)) {
      assert TemplateStep()(s, r) == TemplateRow(s, r);
    }
  }

  /** Whichever layout the header shows, its row step keeps to the stock tables. */
  lemma RegistryStepsWrite(b: Id, col: map<string, nat>)
    ensures StepsWrite(if IsMeshColumns(col) then MeshStep(b, col, MeshHeaders) else TemplateStep())
  {
    if IsMeshColumns(col) {
      MeshStepsWrite(b, col, MeshHeaders);
    } else {
      TemplateStepsWrite();
    }
  }

  lemma RegistryScanKeeps(db: Db, b: Id, sheet: Sheet, h: nat)
    requires h < |sheet| && sheet[h].Some?
    ensures StockTablesOnly(db, RegistryScan(db, b, sheet, h).0)
    ensures StockKeysUnique(db.stocks) ==> StockKeysUnique(RegistryScan(db, b, sheet, h).0.stocks)
  {
    var col := ColumnMap(sheet[h].value);
    RegistryStepsWrite(b, col);
    ScanWrites(sheet, if IsMeshColumns(col) then MeshStep(b, col, MeshHeaders) else TemplateStep(), h, db);
  }

  /** Importing a registry writes only stock tables and keeps one stock row per building and title. */
  lemma ImportRegistryKeeps(db: Db, buildingCode: string, sheet: Sheet)
    ensures StockTablesOnly(db, ImportRegistry(db, buildingCode, sheet).0)
    ensures StockKeysUnique(db.stocks) ==> StockKeysUnique(ImportRegistry(db, buildingCode, sheet).0.stocks)
  {
    var h := FindHeaderRow(sheet);
    var l := BuildingByCode(db.buildings, NormalizeBuildingCode(buildingCode));
    if h >= 0 && l.Found? {
      assert ImportRegistry(db, buildingCode, sheet) == RegistryScan(db, l.id, sheet, h);
      RegistryScanKeeps(db, l.id, sheet, h);
    }
  }

  /** Importing the librarian's template writes only stock tables and keeps one stock row per building and title. */
  lemma ImportLibrarianStockKeeps(db: Db, buildingId: Id, sheet: Sheet)
    ensures var (d, _) := ImportLibrarianStock(db, buildingId, sheet);
      StockTablesOnly(db, d) && (StockKeysUnique(db.stocks) ==> StockKeysUnique(d.stocks))
  {
    var h := FindLibrarianHeaderRow(sheet);
    if buildingId < |db.buildings| && h >= 0 {
      var step := LibrarianStep(buildingId, ColumnMap(sheet[h].value));
      assert StepsWrite(step) by {
        forall s, r ensures StepWrites(s, step(s, r)) { }
      }
      ScanWrites(sheet, step, h, db);
    }
  }
}

=== FILE: text.dfy ===
/**
 * The java.lang.String operations the import and report code relies on:
 * trim, isBlank, contains, startsWith, replace, the digit filter used by the
 * building-code normaliser, case folding, natural and case-insensitive order,
 * and decimal rendering of integers (String.valueOf).
 *
 * Case folding covers ASCII and the Cyrillic block U+0400..U+045F, which is
 * every letter the imported spreadsheets use.
 */
module Text {

  // ---------------------------------------------------------------------
  // Character classes
  // ---------------------------------------------------------------------

  /** The characters String.trim strips from both ends: every code point up to U+0020. */
  predicate IsTrimmable(c: char) {
    c <= ' '
  }

  /** Character.isWhitespace, the test String.isBlank applies to every character. */
  predicate IsJavaWhitespace(c: char) {
    || c == ' '
    || ('\t' <= c <= '\r')
    || ('\U{001C}' <= c <= '\U{001F}')
    || c == '\U{1680}'
    || ('\U{2000}' <= c <= '\U{2006}')
    || ('\U{2008}' <= c <= '\U{200A}')
    || c == '\U{2028}' || c == '\U{2029}' || c == '\U{205F}' || c == '\U{3000}'
  }

  /** The regular-expression class `\s`: space, tab, line feed, vertical tab, form feed, carriage return. */
  predicate IsRegexSpace(c: char) {
    c == ' ' || ('\t' <= c <= '\r')
  }

  /** The regular-expression class `\d` (and `[0-9]`): ASCII digits only. */
  predicate IsAsciiDigit(c: char) {
    '0' <= c <= '9'
  }

  // ---------------------------------------------------------------------
  // trim / isBlank
  // ---------------------------------------------------------------------

  function TrimStart(s: string): (r: string)
    ensures |r| <= |s| && r == s[|s| - |r|..]
    ensures forall i :: 0 <= i < |s| - |r| ==> IsTrimmable(s[i])
    ensures |r| == 0 || !IsTrimmable(r[0])
  {
    if |s| > 0 && IsTrimmable(s[0]) then TrimStart(s[1..]) else s
  }

  function TrimEnd(s: string): (r: string)
    ensures |r| <= |s| && r == s[..|r|]
    ensures forall i :: |r| <= i < |s| ==> IsTrimmable(s[i])
    ensures |r| == 0 || !IsTrimmable(r[|r| - 1])
  {
    if |s| > 0 && IsTrimmable(s[|s| - 1]) then TrimEnd(s[..|s| - 1]) else s
  }

  /** What TrimStart drops is trimmable: every other character stays. */
  lemma TrimStartKeepsChars(s: string)
    ensures forall c :: c in s && !IsTrimmable(c) ==> c in TrimStart(s)
  {
    var t := TrimStart(s);
    forall c | c in s && !IsTrimmable(c) ensures c in t {
      var i :| 0 <= i < |s| && s[i] == c;
      assert t[i - (|s| - |t|)] == c;
    }
  }

  /** What TrimEnd drops is trimmable: every other character stays. */
  lemma TrimEndKeepsChars(s: string)
    ensures forall c :: c in s && !IsTrimmable(c) ==> c in TrimEnd(s)
  {
    var t := TrimEnd(s);
    forall c | c in s && !IsTrimmable(c) ensures c in t {
      var i :| 0 <= i < |s| && s[i] == c;
      assert t[i] == c;
    }
  }

  /** String.trim. */
  function Trim(s: string): (r: string)
    ensures |r| <= |s|
    ensures |r| == 0 || (!IsTrimmable(r[0]) && !IsTrimmable(r[|r| - 1]))
  {
    TrimEnd(TrimStart(s))
  }

  /** Trimming drops only trimmable characters from the ends: the characters left are the string's, and every other character stays. */
  lemma TrimKeepsChars(s: string)
    ensures forall c :: c in Trim(s) ==> c in s
    ensures forall c :: c in s && !IsTrimmable(c) ==> c in Trim(s)
  {
    var t := TrimStart(s);
    var r := TrimEnd(t);
    TrimStartKeepsChars(s);
    TrimEndKeepsChars(t);
    assert forall c :: c in r ==> c in t;
    assert forall c :: c in t ==> c in s;
  }

  /** A string that starts and ends with a character trim keeps is its own trim. */
  lemma TrimSolid(s: string)
    requires |s| > 0 && !IsTrimmable(s[0]) && !IsTrimmable(s[|s| - 1])
    ensures Trim(s) == s
  {
    assert TrimStart(s) == s;
    assert TrimEnd(s) == s;
  }

  lemma TrimIdempotent(s: string)
    ensures Trim(Trim(s)) == Trim(s)
  {
    var r := Trim(s);
    if |r| > 0 {
      assert TrimStart(r) == r;
      assert TrimEnd(r) == r;
    }
  }

  /** String.isBlank: every character is whitespace (so the empty string is blank). */
  predicate IsBlank(s: string) {
    forall i :: 0 <= i < |s| ==> IsJavaWhitespace(s[i])
  }

  // ---------------------------------------------------------------------
  // startsWith / contains / replace
  // ---------------------------------------------------------------------

  predicate StartsWith(s: string, prefix: string) {
    |prefix| <= |s| && s[..|prefix|] == prefix
  }

  /** String.contains: `pat` occurs somewhere in `s`. */
  predicate Contains(s: string, pat: string)
    decreases |s|
  {
    StartsWith(s, pat) || (|s| > 0 && Contains(s[1..], pat))
  }

  /**
   * String.replace(CharSequence, CharSequence): every occurrence of `pat`,
   * found left to right without overlap, is replaced by `rep`.
   */
  function Replace(s: string, pat: string, rep: string): (r: string)
    requires |pat| > 0
    ensures !Contains(s, pat) ==> r == s
    decreases |s|
  {
    if |s| < |pat| then s
    else if s[..|pat|] == pat then rep + Replace(s[|pat|..], pat, rep)
    else [s[0]] + Replace(s[1..], pat, rep)
  }

  // ---------------------------------------------------------------------
  // Filters: the digits of a string, and a string without `\s` characters
  // ---------------------------------------------------------------------

  predicate HasDigit(s: string) {
    exists i :: 0 <= i < |s| && IsAsciiDigit(s[i])
  }

  predicate AllDigits(s: string) {
    forall i :: 0 <= i < |s| ==> IsAsciiDigit(s[i])
  }

  /** `s.replaceAll("[^0-9]", "")`: the ASCII digits of `s`, in order. */
  function Digits(s: string): (r: string)
    ensures AllDigits(r)
    ensures |r| <= |s|
    ensures |r| > 0 <==> HasDigit(s)
  {
    if |s| == 0 then ""
    else
      var rest := Digits(s[1..]);
      assert HasDigit(s) <==> IsAsciiDigit(s[0]) || HasDigit(s[1..]) by {
        if HasDigit(s[1..]) {
          var i :| 0 <= i < |s[1..]| && IsAsciiDigit(s[1..][i]);
          assert IsAsciiDigit(s[i + 1]);
        }
        if HasDigit(s) && !IsAsciiDigit(s[0]) {
          var i :| 0 <= i < |s| && IsAsciiDigit(s[i]);
          assert IsAsciiDigit(s[1..][i - 1]);
        }
      }
      if IsAsciiDigit(s[0]) then [s[0]] + rest else rest
  }

  lemma DigitsAppend(a: string, b: string)
    ensures Digits(a + b) == Digits(a) + Digits(b)
  {
    if |a| > 0 {
      assert (a + b)[1..] == a[1..] + b;
      DigitsAppend(a[1..], b);
    } else {
      assert a + b == b;
    }
  }

  lemma DigitsOfAllDigits(s: string)
    requires AllDigits(s)
    ensures Digits(s) == s
  {
  }

  lemma NoDigitNoDigits(s: string)
    requires forall i :: 0 <= i < |s| ==> !IsAsciiDigit(s[i])
    ensures Digits(s) == ""
  {
  }

  lemma {:induction false} TrimStartKeepsDigits(s: string)
    ensures Digits(TrimStart(s)) == Digits(s)
  {
    if |s| > 0 && IsTrimmable(s[0]) {
      TrimStartKeepsDigits(s[1..]);
    }
  }

  lemma {:induction false} TrimEndKeepsDigits(s: string)
    ensures Digits(TrimEnd(s)) == Digits(s)
  {
    if |s| > 0 && IsTrimmable(s[|s| - 1]) {
      var init := s[..|s| - 1];
      TrimEndKeepsDigits(init);
      assert s == init + [s[|s| - 1]];
      DigitsAppend(init, [s[|s| - 1]]);
    }
  }

  /** Trimming removes only characters up to U+0020, none of them digits. */
  lemma TrimKeepsDigits(s: string)
    ensures Digits(Trim(s)) == Digits(s)
  {
    TrimStartKeepsDigits(s);
    TrimEndKeepsDigits(TrimStart(s));
  }

  /** Replacing a digit-free pattern by digit-free text leaves the digits of a string alone. */
  lemma ReplaceKeepsDigits(s: string, pat: string, rep: string)
    requires |pat| > 0 && !HasDigit(pat) && !HasDigit(rep)
    ensures Digits(Replace(s, pat, rep)) == Digits(s)
    decreases |s|
  {
    if |s| < |pat| {
    } else if s[..|pat|] == pat {
      ReplaceKeepsDigits(s[|pat|..], pat, rep);
      DigitsAppend(rep, Replace(s[|pat|..], pat, rep));
      assert s == pat + s[|pat|..];
      DigitsAppend(pat, s[|pat|..]);
    } else {
      ReplaceKeepsDigits(s[1..], pat, rep);
      DigitsAppend([s[0]], Replace(s[1..], pat, rep));
      assert s == [s[0]] + s[1..];
      DigitsAppend([s[0]], s[1..]);
    }
  }

  /** `s.replaceAll("\\s+", "")`. */
  function RemoveRegexSpaces(s: string): (r: string)
    ensures |r| <= |s|
    ensures forall i :: 0 <= i < |r| ==> !IsRegexSpace(r[i])
  {
    if |s| == 0 then ""
    else if IsRegexSpace(s[0]) then RemoveRegexSpaces(s[1..])
    else [s[0]] + RemoveRegexSpaces(s[1..])
  }

  lemma RemoveRegexSpacesAppend(a: string, b: string)
    ensures RemoveRegexSpaces(a + b) == RemoveRegexSpaces(a) + RemoveRegexSpaces(b)
  {
    if |a| > 0 {
      assert (a + b)[1..] == a[1..] + b;
      RemoveRegexSpacesAppend(a[1..], b);
    } else {
      assert a + b == b;
    }
  }

  // ---------------------------------------------------------------------
  // Case folding
  // ---------------------------------------------------------------------

  /** Character.toLowerCase on ASCII and on Cyrillic U+0400..U+042F. */
  function LowerChar(c: char): char {
    if 'A' <= c <= 'Z' || 'А' <= c <= 'Я' then ((c as int) + 32) as char
    else if '\U{0400}' <= c <= '\U{040F}' then ((c as int) + 80) as char
    else c
  }

  /** Character.toUpperCase on ASCII and on Cyrillic U+0430..U+045F. */
  function UpperChar(c: char): char {
    if 'a' <= c <= 'z' || 'а' <= c <= 'я' then ((c as int) - 32) as char
    else if '\U{0450}' <= c <= '\U{045F}' then ((c as int) - 80) as char
    else c
  }

  /** String.toLowerCase. */
  function Lower(s: string): (r: string)
    ensures |r| == |s|
    ensures forall i :: 0 <= i < |s| ==> r[i] == LowerChar(s[i])
  {
    seq(|s|, i requires 0 <= i < |s| => LowerChar(s[i]))
  }

  /** String.toUpperCase. */
  function Upper(s: string): (r: string)
    ensures |r| == |s|
    ensures forall i :: 0 <= i < |s| ==> r[i] == UpperChar(s[i])
  {
    seq(|s|, i requires 0 <= i < |s| => UpperChar(s[i]))
  }

  /** Folding is idempotent, and folding an upper-cased string gives the same as folding it directly. */
  lemma FoldLaws(s: string)
    ensures Lower(Lower(s)) == Lower(s)
    ensures Upper(Upper(s)) == Upper(s)
    ensures Lower(Upper(s)) == Lower(s)
  {
  }

  lemma LowerKeepsDigits(s: string)
    ensures Digits(Lower(s)) == Digits(s)
  {
    if |s| > 0 {
      assert Lower(s)[1..] == Lower(s[1..]);
      LowerKeepsDigits(s[1..]);
    }
  }

  /** equalsIgnoreCase, and the `IgnoreCase` comparisons of the repository queries. */
  predicate EqualsIgnoreCase(a: string, b: string) {
    Lower(a) == Lower(b)
  }

  // ---------------------------------------------------------------------
  // Order: String.compareTo and String.compareToIgnoreCase
  // ---------------------------------------------------------------------

  /** `a.compareTo(b) <= 0`: lexicographic order on characters, a proper prefix first. */
  predicate LexLeq(a: string, b: string)
    decreases |a|
  {
    |a| == 0 || (|b| > 0 && (a[0] < b[0] || (a[0] == b[0] && LexLeq(a[1..], b[1..]))))
  }

  lemma {:induction false} LexLeqTotal(a: string, b: string)
    ensures LexLeq(a, b) || LexLeq(b, a)
    decreases |a|
  {
    if |a| > 0 && |b| > 0 && a[0] == b[0] {
      LexLeqTotal(a[1..], b[1..]);
    }
  }

  lemma {:induction false} LexLeqAntisymmetric(a: string, b: string)
    requires LexLeq(a, b) && LexLeq(b, a)
    ensures a == b
    decreases |a|
  {
    if |a| > 0 {
      LexLeqAntisymmetric(a[1..], b[1..]);
      assert a == [a[0]] + a[1..];
      assert b == [b[0]] + b[1..];
    }
  }

  lemma {:induction false} LexLeqTransitive(a: string, b: string, c: string)
    requires LexLeq(a, b) && LexLeq(b, c)
    ensures LexLeq(a, c)
    decreases |a|
  {
    if |a| > 0 && a[0] == b[0] && b[0] == c[0] {
      LexLeqTransitive(a[1..], b[1..], c[1..]);
    }
  }

  /** `a.compareToIgnoreCase(b) <= 0`: Java compares the characters after upper- then lower-casing each. */
  predicate LeqIgnoreCase(a: string, b: string) {
    LexLeq(Lower(a), Lower(b))
  }

  /** `a.compareToIgnoreCase(b) < 0`. */
  predicate LessIgnoreCase(a: string, b: string) {
    LeqIgnoreCase(a, b) && !EqualsIgnoreCase(a, b)
  }

  lemma LeqIgnoreCaseTotal(a: string, b: string)
    ensures LeqIgnoreCase(a, b) || LeqIgnoreCase(b, a)
  {
    LexLeqTotal(Lower(a), Lower(b));
  }

  lemma LeqIgnoreCaseBoth(a: string, b: string)
    requires LeqIgnoreCase(a, b) && LeqIgnoreCase(b, a)
    ensures EqualsIgnoreCase(a, b)
  {
    LexLeqAntisymmetric(Lower(a), Lower(b));
  }

  // ---------------------------------------------------------------------
  // Decimal text of integers (String.valueOf(int)) and its value
  // ---------------------------------------------------------------------

  function DigitChar(d: nat): (c: char)
    requires d < 10
    ensures IsAsciiDigit(c)
  {
    (('0' as int) + d) as char
  }

  function DigitValue(c: char): (d: nat)
    requires IsAsciiDigit(c)
    ensures d < 10
  {
    (c as int) - ('0' as int)
  }

  /** The number a string of ASCII digits denotes. */
  function DigitsValue(s: string): nat
    requires AllDigits(s)
  {
    if |s| == 0 then 0 else DigitsValue(s[..|s| - 1]) * 10 + DigitValue(s[|s| - 1])
  }

  /** Decimal text of a natural number, without leading zeros. */
  function NatToString(n: nat): (r: string)
    ensures |r| > 0 && AllDigits(r)
    ensures r[0] == '0' ==> n == 0
    decreases n
  {
    if n < 10 then [DigitChar(n)] else NatToString(n / 10) + [DigitChar(n % 10)]
  }

  /** String.valueOf(int). */
  function IntToString(n: int): string {
    if n < 0 then "-" + NatToString(-n) else NatToString(n)
  }

  lemma {:induction false} NatToStringValue(n: nat)
    ensures DigitsValue(NatToString(n)) == n
    decreases n
  {
    if n >= 10 {
      var s := NatToString(n);
      NatToStringValue(n / 10);
      assert s[..|s| - 1] == NatToString(n / 10);
      assert DigitValue(s[|s| - 1]) == n % 10;
    }
  }

  /** Different integers have different decimal texts. */
  lemma IntToStringInjective(a: int, b: int)
    requires IntToString(a) == IntToString(b)
    ensures a == b
  {
    var (sa, sb) := (IntToString(a), IntToString(b));
    var (ma, mb) := (if a < 0 then -a else a, if b < 0 then -b else b);
    assert IsAsciiDigit(NatToString(ma)[0]) && IsAsciiDigit(NatToString(mb)[0]);
    assert (a < 0) == (sa[0] == '-');
    assert (b < 0) == (sb[0] == '-');
    if a < 0 {
      assert NatToString(ma) == sa[1..];
      assert NatToString(mb) == sb[1..];
    }
    NatToStringValue(ma);
    NatToStringValue(mb);
  }

  /** Trimming a string whose non-trimmable part spans `lo..hi` leaves exactly that part. */
  lemma TrimSlice(s: string, lo: nat, hi: nat)
    requires lo < hi <= |s|
    requires forall k :: 0 <= k < lo ==> IsTrimmable(s[k])
    requires forall k :: hi <= k < |s| ==> IsTrimmable(s[k])
    requires !IsTrimmable(s[lo]) && !IsTrimmable(s[hi - 1])
    ensures Trim(s) == s[lo..hi]
  {
    TrimStartSlice(s, lo);
    var t := s[lo..];
    forall k | hi - lo <= k < |t| ensures IsTrimmable(t[k]) {
      assert t[k] == s[lo + k];
    }
    assert t[hi - lo - 1] == s[hi - 1];
    TrimEndSlice(t, hi - lo);
    assert Trim(s) == TrimEnd(t);
    SliceOfSlice(s, lo, hi);
  }

  /** Trimming a string whose characters at `a` and `b` are not trimmable keeps both, and what lies between. */
  lemma TrimAround(s: string, a: nat, b: nat) returns (lo: nat, hi: nat)
    requires a <= b < |s| && !IsTrimmable(s[a]) && !IsTrimmable(s[b])
    ensures lo <= a && b < hi <= |s|
    ensures Trim(s) == s[lo..hi]
  {
    lo := FirstSolid(s, 0, a);
    hi := LastSolid(s, |s|, b);
    TrimSlice(s, lo, hi);
  }

  /** The first character from `i` on that is not trimmable, found at or before `a`. */
  lemma {:induction false} FirstSolid(s: string, i: nat, a: nat) returns (lo: nat)
    requires i <= a < |s| && !IsTrimmable(s[a])
    requires forall k :: 0 <= k < i ==> IsTrimmable(s[k])
    ensures i <= lo <= a && !IsTrimmable(s[lo])
    ensures forall k :: 0 <= k < lo ==> IsTrimmable(s[k])
    decreases a - i
  {
    if IsTrimmable(s[i]) {
      lo := FirstSolid(s, i + 1, a);
    } else {
      lo := i;
    }
  }

  /** The end of the last character before `j` that is not trimmable, found after `b`. */
  lemma {:induction false} LastSolid(s: string, j: nat, b: nat) returns (hi: nat)
    requires b < j <= |s| && !IsTrimmable(s[b])
    requires forall k :: j <= k < |s| ==> IsTrimmable(s[k])
    ensures b < hi <= j && !IsTrimmable(s[hi - 1])
    ensures forall k :: hi <= k < |s| ==> IsTrimmable(s[k])
    decreases j
  {
    if IsTrimmable(s[j - 1]) {
      hi := LastSolid(s, j - 1, b);
    } else {
      hi := j;
    }
  }

  lemma SliceOfSlice<T>(s: seq<T>, lo: nat, hi: nat)
    requires lo <= hi <= |s|
    ensures s[lo..][..hi - lo] == s[lo..hi]
  {
  }

  /** TrimStart drops exactly the trimmable characters before the first other one. */
  lemma TrimStartSlice(s: string, lo: nat)
    requires lo < |s| && !IsTrimmable(s[lo])
    requires forall k :: 0 <= k < lo ==> IsTrimmable(s[k])
    ensures TrimStart(s) == s[lo..]
  {
    var t := TrimStart(s);
    var k := |s| - |t|;
    assert k <= lo;
    assert |t| > 0 && t[0] == s[k];
  }

  /** TrimEnd drops exactly the trimmable characters after the last other one. */
  lemma TrimEndSlice(t: string, n: nat)
    requires 0 < n <= |t| && !IsTrimmable(t[n - 1])
    requires forall k :: n <= k < |t| ==> IsTrimmable(t[k])
    ensures TrimEnd(t) == t[..n]
  {
    var r := TrimEnd(t);
    assert t[n - 1] == t[..|r|][n - 1] || |r| < n;
    assert |r| >= n;
    assert r[|r| - 1] == t[|r| - 1];
  }

  /** String.replace with one character for another changes exactly those characters. */
  lemma ReplaceChar(s: string, a: char, b: char)
    ensures |Replace(s, [a], [b])| == |s|
    ensures forall i :: 0 <= i < |s| ==> Replace(s, [a], [b])[i] == (if s[i] == a then b else s[i])
  {
    if |s| > 0 {
      ReplaceChar(s[1..], a, b);
    }
  }

  /** Replacing one character by another works piece by piece. */
  lemma ReplaceCharAppend(a: string, b: string, x: char, y: char)
    ensures Replace(a + b, [x], [y]) == Replace(a, [x], [y]) + Replace(b, [x], [y])
  {
    ReplaceChar(a + b, x, y);
    ReplaceChar(a, x, y);
    ReplaceChar(b, x, y);
    var l := Replace(a + b, [x], [y]);
    var r := Replace(a, [x], [y]) + Replace(b, [x], [y]);
    forall i | 0 <= i < |l| ensures l[i] == r[i] {
      if i >= |a| {
        assert (a + b)[i] == b[i - |a|];
      }
    }
  }

  /** A string without the character is left as it is. */
  lemma ReplaceCharAbsent(s: string, x: char, y: char)
    requires forall k :: 0 <= k < |s| ==> s[k] != x
    ensures Replace(s, [x], [y]) == s
  {
    ReplaceChar(s, x, y);
  }
}

=== FILE: wrappers.dfy ===
/** Nullable values and failing computations, in place of Java's null and exceptions. */
module Wrappers {

  /** A value that may be absent: Java's `null` for a reference or boxed `Integer`. */
  datatype Option<+T> = None | Some(value: T) {
    function GetOr(default: T): T {
      match this
      case Some(v) => v
      case None => default
    }
  }

  /** The outcome of an operation that may throw: a value or the error it raised. */
  datatype Result<+T, +E> = Success(value: T) | Failure(error: E) {
    predicate IsFailure() {
      Failure?
    }

    function PropagateFailure<U>(): Result<U, E>
      requires Failure?
    {
      Failure(error)
    }

    function Extract(): T
      requires Success?
    {
      value
    }
  }
}

=== FILE: write_off.dfy ===
/**
 * Writing copies off a building's stock: the guarded decrement of one stock
 * row, recorded as one write-off and one adjustment movement out of the
 * building. The call is one transaction: when it fails nothing is written.
 */
module WriteOffs {
  import opened Wrappers
  import opened Numbers
  import opened Entities

  /** Why a write-off was refused. */
  datatype WriteOffError =
    | NoStock          // no stock row for the building and title
    | StockNotUnique   // the lookup matched more than one row
    | NotPositive      // count <= 0
    | NotEnough        // fewer copies available than asked for

  /** The text the exception carries; the non-unique lookup fails inside the repository with its own text. */
  function Message(e: WriteOffError): string {
    match e
    case NoStock => "Нет остатка по книге в корпусе"
    case StockNotUnique => "query did not return a unique result"
    case NotPositive => "Количество должно быть > 0"
    case NotEnough => "Недостаточно доступных экземпляров"
  }

  const NotePrefix: string := "Списание: "

  /** The movement note: the prefix followed by the reason, or by nothing when there is none. */
  function MovementNote(reason: Option<string>): (n: string)
    ensures |n| >= |NotePrefix| && n[..|NotePrefix|] == NotePrefix
    ensures reason.Some? ==> n[|NotePrefix|..] == reason.value
    ensures reason.None? ==> n == NotePrefix
  {
    NotePrefix + (if reason.Some? then reason.value else "")
  }

  /** The stock row after `count` copies leave it: fewer available, the total lowered (without 32-bit wrap) but never below zero, nothing else touched. */
  function Decrement(s: Stock, count: int): Stock {
    s.(available := s.available - count, total := Max0(s.total - count))
  }

  /**
   * writeOff. The stock row is looked up first; then the count must be
   * positive, then no larger than what is available. On success the row is
   * decremented and one write-off and one adjustment movement from the
   * building to nowhere are appended, stamped with the actor and `now`.
   */
  function WriteOffStock(db: Db, building: Id, title: Id, count: int, reason: Option<string>, actor: Id, now: Timestamp): (r: Result<Db, WriteOffError>)
    ensures StockOf(db.stocks, building, title).Missing? ==> r == Failure(NoStock)
    ensures StockOf(db.stocks, building, title).Ambiguous? ==> r == Failure(StockNotUnique)
    ensures StockOf(db.stocks, building, title).Found? && count <= 0 ==> r == Failure(NotPositive)
    ensures (StockOf(db.stocks, building, title).Found? && count > 0
               && db.stocks[StockOf(db.stocks, building, title).id].available < count) ==> r == Failure(NotEnough)
    ensures r.Success? <==> StockOf(db.stocks, building, title).Found? && 0 < count <= db.stocks[StockOf(db.stocks, building, title).id].available
    ensures r.Success? ==> var id := StockOf(db.stocks, building, title).id;
      && |r.value.stocks| == |db.stocks|
      && r.value.stocks[id] == Decrement(db.stocks[id], count)
      && r.value.stocks[id].available >= 0
      && (forall j :: 0 <= j < |db.stocks| && j != id ==> r.value.stocks[j] == db.stocks[j])
      && r.value.writeOffs == db.writeOffs + [WriteOff(building, title, count, reason, actor, now)]
      && r.value.movements == db.movements + [Movement(Adjustment, Some(building), None, title, count, actor, now, MovementNote(reason))]
      && r.value == db.(stocks := r.value.stocks, writeOffs := r.value.writeOffs, movements := r.value.movements)
  {
    match StockOf(db.stocks, building, title)
    case Missing => Failure(NoStock)
    case Ambiguous => Failure(StockNotUnique)
    case Found(id) =>
      var st := db.stocks[id];
      if count <= 0 then Failure(NotPositive)
      else if st.available < count then Failure(NotEnough)
      else
        Success(db.(
          stocks := db.stocks[id := Decrement(st, count)],
          writeOffs := db.writeOffs + [WriteOff(building, title, count, reason, actor, now)],
          movements := db.movements + [Movement(Adjustment, Some(building), None, title, count, actor, now, MovementNote(reason))]))
  }

  /** The copies written off so far from one building's stock of one title. */
  function WrittenOff(ws: seq<Entities.WriteOff>, building: Id, title: Id): int {
    if |ws| == 0 then 0
    else
      var w := ws[|ws| - 1];
      WrittenOff(ws[..|ws| - 1], building, title) + (if w.building == building && w.bookTitle == title then w.count else 0)
  }

  /**
   * Copies are neither created nor lost: what is available plus what has
   * been written off stays the same across a successful write-off, and no
   * other stock's write-offs change.
   */
  lemma {:induction false} WriteOffConserves(db: Db, building: Id, title: Id, count: int, reason: Option<string>, actor: Id, now: Timestamp)
    requires WriteOffStock(db, building, title, count, reason, actor, now).Success?
    ensures var after := WriteOffStock(db, building, title, count, reason, actor, now).value;
      var id := StockOf(db.stocks, building, title).id;
      && after.stocks[id].available + WrittenOff(after.writeOffs, building, title)
         == db.stocks[id].available + WrittenOff(db.writeOffs, building, title)
      && forall b: Id, t: Id :: (b, t) != (building, title) ==> WrittenOff(after.writeOffs, b, t) == WrittenOff(db.writeOffs, b, t)
  {
    var after := WriteOffStock(db, building, title, count, reason, actor, now).value;
    assert after.writeOffs[..|after.writeOffs| - 1] == db.writeOffs;
  }

  /**
   * Two successful write-offs in a row leave the stock row exactly as one
   * write-off of their sum would; and the two succeed together exactly
   * when both counts are positive and their sum is available.
   */
  lemma WriteOffTwice(db: Db, building: Id, title: Id, a: int, b: int, reason: Option<string>, actor: Id, now: Timestamp)
    requires StockOf(db.stocks, building, title).Found?
    ensures var first := WriteOffStock(db, building, title, a, reason, actor, now);
      var id := StockOf(db.stocks, building, title).id;
      && ((first.Success? && WriteOffStock(first.value, building, title, b, reason, actor, now).Success?)
            <==> 0 < a && 0 < b && a + b <= db.stocks[id].available)
      && (first.Success? && WriteOffStock(first.value, building, title, b, reason, actor, now).Success? ==>
            && WriteOffStock(db, building, title, a + b, reason, actor, now).Success?
            && WriteOffStock(first.value, building, title, b, reason, actor, now).value.stocks[id]
               == WriteOffStock(db, building, title, a + b, reason, actor, now).value.stocks[id])
  {
    var id := StockOf(db.stocks, building, title).id;
    var first := WriteOffStock(db, building, title, a, reason, actor, now);
    if first.Success? {
      StockOfAfterWriteOff(db, building, title, a, reason, actor, now);
    }
  }

  /** The lookup finds the same row after a write-off: only counts changed. */
  lemma StockOfAfterWriteOff(db: Db, building: Id, title: Id, count: int, reason: Option<string>, actor: Id, now: Timestamp)
    requires WriteOffStock(db, building, title, count, reason, actor, now).Success?
    ensures StockOf(WriteOffStock(db, building, title, count, reason, actor, now).value.stocks, building, title)
         == StockOf(db.stocks, building, title)
  {
    var after := WriteOffStock(db, building, title, count, reason, actor, now).value.stocks;
    var id := StockOf(db.stocks, building, title).id;
    assert forall j :: 0 <= j < |after| ==> after[j].building == db.stocks[j].building && after[j].bookTitle == db.stocks[j].bookTitle;
    var p := (s: Stock) => s.building == building && s.bookTitle == title;
    assert forall j :: 0 <= j < |after| ==> p(after[j]) == p(db.stocks[j]);
    assert forall j :: 0 <= j < |after| && j != id ==> !p(after[j]);
    assert p(after[id]);
  }
}

=== FILE: year_split.dfy ===
/**
 * The year splitter of the citywide-export import. A "Год издания" cell may
 * name several editions ("2019, 2020"); the row's copy counts are then divided
 * between the years as evenly as integers allow, the first parts taking the
 * remainder, and each year becomes its own book title.
 */
module YearSplit {
  import opened Wrappers
  import opened Text
  import opened Numbers

  // ---------------------------------------------------------------------
  // parseYearCandidates
  // ---------------------------------------------------------------------

  /** A match of the pattern `19\d{2}|20\d{2}` starting at position `i`. */
  predicate YearAt(s: string, i: nat) {
    && i + 4 <= |s|
    && ((s[i] == '1' && s[i + 1] == '9') || (s[i] == '2' && s[i + 1] == '0'))
    && IsAsciiDigit(s[i + 2]) && IsAsciiDigit(s[i + 3])
  }

  /** Integer.parseInt of the four matched characters. */
  function YearValue(s: string, i: nat): (y: int)
    requires YearAt(s, i)
    ensures 1900 <= y <= 2099
  {
    DigitValue(s[i]) * 1000 + DigitValue(s[i + 1]) * 100 + DigitValue(s[i + 2]) * 10 + DigitValue(s[i + 3])
  }

  predicate Distinct(xs: seq<int>) {
    forall a, b :: 0 <= a < b < |xs| ==> xs[a] != xs[b]
  }

  /**
   * The `Matcher.find` loop from position `i`: matches are taken left to
   * right, scanning resumes after each match, and a year is appended to
   * `found` only on its first appearance.
   */
  function ScanYears(s: string, i: nat, found: seq<int>): (r: seq<int>)
    requires i <= |s|
    decreases |s| - i
  {
    if i + 4 > |s| then found
    else if YearAt(s, i) then
      var y := YearValue(s, i);
      ScanYears(s, i + 4, if y in found then found else found + [y])
    else ScanYears(s, i + 1, found)
  }

  predicate InYearRange(xs: seq<int>) {
    forall k :: 0 <= k < |xs| ==> 1900 <= xs[k] <= 2099
  }

  /** The year `y` is read at some match position at or after `i`. */
  ghost predicate ReadFrom(s: string, i: nat, y: int) {
    exists j :: i <= j && YearAt(s, j) && YearValue(s, j) == y
  }

  /** What the scan adds: distinct years in range, each read at a match position at or after `i`. */
  lemma ScanYearsSound(s: string, i: nat, found: seq<int>)
    requires i <= |s|
    requires Distinct(found) && InYearRange(found)
    ensures var r := ScanYears(s, i, found);
      && found <= r
      && Distinct(r) && InYearRange(r)
      && forall k :: |found| <= k < |r| ==> ReadFrom(s, i, r[k])
  {
    ScanYearsPrefix(s, i, found);
    ScanYearsDistinct(s, i, found);
    ScanYearsRead(s, i, found);
  }

  /** The scan only appends. */
  lemma {:induction false} ScanYearsPrefix(s: string, i: nat, found: seq<int>)
    requires i <= |s|
    ensures found <= ScanYears(s, i, found)
    decreases |s| - i
  {
    if i + 4 > |s| {
    } else if YearAt(s, i) {
      var y := YearValue(s, i);
      ScanYearsPrefix(s, i + 4, if y in found then found else found + [y]);
    } else {
      ScanYearsPrefix(s, i + 1, found);
    }
  }

  /** The scan appends a year only when it is new, and every year it reads is in range. */
  lemma {:induction false} ScanYearsDistinct(s: string, i: nat, found: seq<int>)
    requires i <= |s|
    requires Distinct(found) && InYearRange(found)
    ensures Distinct(ScanYears(s, i, found)) && InYearRange(ScanYears(s, i, found))
    decreases |s| - i
  {
    if i + 4 > |s| {
    } else if YearAt(s, i) {
      var y := YearValue(s, i);
      var next := if y in found then found else found + [y];
      assert Distinct(next) && InYearRange(next);
      ScanYearsDistinct(s, i + 4, next);
    } else {
      ScanYearsDistinct(s, i + 1, found);
    }
  }

  /** Every year the scan appends is read at a match position at or after `i`. */
  lemma {:induction false} ScanYearsRead(s: string, i: nat, found: seq<int>)
    requires i <= |s|
    ensures forall k :: |found| <= k < |ScanYears(s, i, found)| ==> ReadFrom(s, i, ScanYears(s, i, found)[k])
    decreases |s| - i
  {
    if i + 4 > |s| {
    } else if YearAt(s, i) {
      var y := YearValue(s, i);
      var next := if y in found then found else found + [y];
      ScanYearsRead(s, i + 4, next);
      ScanYearsPrefix(s, i + 4, next);
      var r := ScanYears(s, i + 4, next);
      forall k | |found| <= k < |r| ensures ReadFrom(s, i, r[k]) {
        if k < |next| {
          assert k == |found| && next[k] == y;
          assert r[..|next|] == next;
          assert r[k] == r[..|next|][k];
        } else {
          assert ReadFrom(s, i + 4, r[k]);
          var j :| i + 4 <= j && YearAt(s, j) && YearValue(s, j) == r[k];
        }
      }
    } else {
      ScanYearsRead(s, i + 1, found);
      var r := ScanYears(s, i + 1, found);
      forall k | |found| <= k < |r| ensures ReadFrom(s, i, r[k]) {
        assert ReadFrom(s, i + 1, r[k]);
        var j :| i + 1 <= j && YearAt(s, j) && YearValue(s, j) == r[k];
      }
    }
  }

  /** The scan from an empty list finds nothing exactly when no position at or after `i` starts a year. */
  lemma {:induction false} ScanYearsEmpty(s: string, i: nat, found: seq<int>)
    requires i <= |s|
    ensures |ScanYears(s, i, found)| >= |found|
    ensures ScanYears(s, i, found) == found && found == [] ==> forall j :: i <= j ==> !YearAt(s, j)
    decreases |s| - i
  {
    if i + 4 > |s| {
    } else if YearAt(s, i) {
      var y := YearValue(s, i);
      var next := if y in found then found else found + [y];
      ScanYearsEmpty(s, i + 4, next);
    } else {
      ScanYearsEmpty(s, i + 1, found);
    }
  }

  /** Where no year starts at or after `i`, the scan adds nothing. */
  lemma {:induction false} ScanYearsNoMatch(s: string, i: nat, found: seq<int>)
    requires i <= |s|
    requires forall j :: i <= j ==> !YearAt(s, j)
    ensures ScanYears(s, i, found) == found
    decreases |s| - i
  {
    if i + 4 <= |s| {
      ScanYearsNoMatch(s, i + 1, found);
    }
  }

  /**
   * The years the `Matcher.find` loop reaches from position `i`, in order
   * and with repeats: at each position the leftmost match is taken, and
   * the search resumes after its four characters.
   */
  function MatchValues(s: string, i: nat): (ys: seq<int>)
    requires i <= |s|
    decreases |s| - i
  {
    if i + 4 > |s| then []
    else if YearAt(s, i) then [YearValue(s, i)] + MatchValues(s, i + 4)
    else MatchValues(s, i + 1)
  }

  /** The elements of `xs` not in `seen`, each once, on its first appearance. */
  function NewIn(seen: seq<int>, xs: seq<int>): seq<int>
    decreases |xs|
  {
    if |xs| == 0 then []
    else if xs[0] in seen then NewIn(seen, xs[1..])
    else [xs[0]] + NewIn(seen + [xs[0]], xs[1..])
  }

  /** The distinct elements of `xs`, in order of first appearance. */
  function Dedup(xs: seq<int>): seq<int> {
    NewIn([], xs)
  }

  /**
   * What NewIn keeps: no element twice and none of `seen`; every element of
   * `xs` outside `seen`; nothing else; and of two kept elements the earlier
   * one appears in `xs` before the later one first does.
   */
  lemma NewInMeans(seen: seq<int>, xs: seq<int>)
    ensures var r := NewIn(seen, xs);
      && Distinct(r)
      && (forall k :: 0 <= k < |r| ==> r[k] in xs && r[k] !in seen)
      && (forall j :: 0 <= j < |xs| && xs[j] !in seen ==> xs[j] in r)
      && (forall a, b :: 0 <= a < b < |r| ==> FirstBefore(xs, r[a], r[b]))
  {
    NewInSound(seen, xs);
    NewInComplete(seen, xs);
    NewInOrder(seen, xs);
  }

  /** NewIn keeps no element twice, and only elements of `xs` outside `seen`. */
  lemma {:induction false} NewInSound(seen: seq<int>, xs: seq<int>)
    ensures var r := NewIn(seen, xs);
      Distinct(r) && forall k :: 0 <= k < |r| ==> r[k] in xs && r[k] !in seen
    decreases |xs|
  {
    if |xs| > 0 {
      var x, rest := xs[0], xs[1..];
      assert forall y :: y in rest ==> y in xs;
      if x in seen {
        NewInSound(seen, rest);
      } else {
        NewInSound(seen + [x], rest);
        var tail := NewIn(seen + [x], rest);
        assert forall k :: 0 < k < |[x] + tail| ==> ([x] + tail)[k] == tail[k - 1];
      }
    }
  }

  /** NewIn keeps every element of `xs` outside `seen`. */
  lemma {:induction false} NewInComplete(seen: seq<int>, xs: seq<int>)
    ensures forall j :: 0 <= j < |xs| && xs[j] !in seen ==> xs[j] in NewIn(seen, xs)
    decreases |xs|
  {
    if |xs| > 0 {
      var x, rest := xs[0], xs[1..];
      assert forall j :: 0 < j < |xs| ==> xs[j] == rest[j - 1];
      if x in seen {
        NewInComplete(seen, rest);
      } else {
        NewInComplete(seen + [x], rest);
      }
    }
  }

  /** `u` appears in `xs` before `v` first does. */
  predicate FirstBefore(xs: seq<int>, u: int, v: int) {
    exists j :: 0 <= j < |xs| && xs[j] == u && v !in xs[..j]
  }

  /** An order seen in the tail still holds with one more element in front. */
  lemma FirstBeforeCons(xs: seq<int>, u: int, v: int)
    requires |xs| > 0 && FirstBefore(xs[1..], u, v) && v != xs[0]
    ensures FirstBefore(xs, u, v)
  {
    var rest := xs[1..];
    var j :| 0 <= j < |rest| && rest[j] == u && v !in rest[..j];
    assert xs[j + 1] == u;
    assert xs[..j + 1] == [xs[0]] + rest[..j];
  }

  /** Of two elements NewIn keeps, the earlier one appears in `xs` before the later one first does. */
  lemma {:induction false} NewInOrder(seen: seq<int>, xs: seq<int>)
    ensures var r := NewIn(seen, xs);
      forall a, b :: 0 <= a < b < |r| ==> FirstBefore(xs, r[a], r[b])
    decreases |xs|
  {
    if |xs| > 0 {
      var x, rest := xs[0], xs[1..];
      if x in seen {
        NewInSound(seen, rest);
        NewInOrder(seen, rest);
        var r := NewIn(seen, rest);
        forall a, b | 0 <= a < b < |r| ensures FirstBefore(xs, r[a], r[b]) {
          FirstBeforeCons(xs, r[a], r[b]);
        }
      } else {
        NewInSound(seen + [x], rest);
        NewInOrder(seen + [x], rest);
        var tail := NewIn(seen + [x], rest);
        var r := [x] + tail;
        forall a, b | 0 <= a < b < |r| ensures FirstBefore(xs, r[a], r[b]) {
          if a == 0 {
            assert xs[0] == r[a] && xs[..0] == [];
          } else {
            assert r[a] == tail[a - 1] && r[b] == tail[b - 1];
            FirstBeforeCons(xs, r[a], r[b]);
          }
        }
      }
    }
  }

  /** The scan is the accumulated list followed by the new years of the matches, in first-appearance order. */
  lemma {:induction false} ScanYearsMatches(s: string, i: nat, found: seq<int>)
    requires i <= |s|
    ensures ScanYears(s, i, found) == found + NewIn(found, MatchValues(s, i))
    decreases |s| - i
  {
    if i + 4 > |s| {
    } else if YearAt(s, i) {
      var y := YearValue(s, i);
      var ms := [y] + MatchValues(s, i + 4);
      assert ms[0] == y && ms[1..] == MatchValues(s, i + 4);
      if y in found {
        ScanYearsMatches(s, i + 4, found);
      } else {
        ScanYearsMatches(s, i + 4, found + [y]);
      }
    } else {
      ScanYearsMatches(s, i + 1, found);
    }
  }

  /**
   * parseYearCandidates: a blank cell gives the single year null; otherwise
   * the distinct years found, in order of first appearance; when there are
   * none, the cell read as a number (which may fail, failing the row).
   */
  function ParseYearCandidates(raw: string): (r: Result<seq<Option<int>>, string>)
    ensures r.Success? ==> |r.value| >= 1
    ensures IsBlank(raw) ==> r == Success([None])
  {
    if IsBlank(raw) then Success([None])
    else
      var years := ScanYears(raw, 0, []);
      if |years| == 0 then
        match ParseIntNullable(raw)
        case Success(y) => Success([y])
        case Failure(e) => Failure(e)
      else Success(seq(|years|, k requires 0 <= k < |years| => Some(years[k])))
  }

  /** With at least one year in a non-blank cell: distinct years in 1900..2099, each read from the cell. */
  lemma ParseYearCandidatesFound(raw: string, j: nat)
    requires !IsBlank(raw) && YearAt(raw, j)
    ensures var r := ParseYearCandidates(raw);
      && r.Success?
      && (forall k :: 0 <= k < |r.value| ==> r.value[k].Some? && 1900 <= r.value[k].value <= 2099)
      && (forall a, b :: 0 <= a < b < |r.value| ==> r.value[a] != r.value[b])
      && (forall k :: 0 <= k < |r.value| ==> exists p :: YearAt(raw, p) && YearValue(raw, p) == r.value[k].value)
  {
    ScanYearsSound(raw, 0, []);
    ScanYearsEmpty(raw, 0, []);
    var years := ScanYears(raw, 0, []);
    assert |years| > 0;
    forall k | 0 <= k < |years| ensures exists p :: YearAt(raw, p) && YearValue(raw, p) == years[k] {
      assert ReadFrom(raw, 0, years[k]);
    }
  }

  /**
   * In a non-blank cell with at least one match, the candidates are the
   * matched years, each once, in order of first appearance: the scan is
   * Dedup of the years `Matcher.find` reaches.
   */
  lemma ParseYearCandidatesMatches(raw: string)
    requires !IsBlank(raw) && |MatchValues(raw, 0)| > 0
    ensures var r := ParseYearCandidates(raw);
      var d := Dedup(MatchValues(raw, 0));
      && r.Success? && |r.value| == |d|
      && forall k :: 0 <= k < |d| ==> r.value[k] == Some(d[k])
  {
    var ms := MatchValues(raw, 0);
    ScanYearsMatches(raw, 0, []);
    assert [] + Dedup(ms) == Dedup(ms);
    assert ms[0] !in [];
  }

  /** In a non-blank cell where `Matcher.find` reaches no year, the single candidate is the cell read as a nullable number. */
  lemma ParseYearCandidatesNoMatch(raw: string)
    requires !IsBlank(raw) && |MatchValues(raw, 0)| == 0
    ensures ParseYearCandidates(raw) == match ParseIntNullable(raw)
      case Success(y) => Success([y])
      case Failure(e) => Failure(e)
  {
    ScanYearsMatches(raw, 0, []);
  }

  /** Dedup keeps every element once, loses none, adds none, and keeps first-appearance order. */
  lemma DedupMeans(xs: seq<int>)
    ensures var d := Dedup(xs);
      && Distinct(d)
      && (forall k :: 0 <= k < |d| ==> d[k] in xs)
      && (forall j :: 0 <= j < |xs| ==> xs[j] in d)
      && (forall a, b :: 0 <= a < b < |d| ==> FirstBefore(xs, d[a], d[b]))
  {
    NewInMeans([], xs);
  }

  /** Several candidates only come from years found in the cell: each present, no two alike. */
  lemma ParseYearCandidatesSeveral(raw: string)
    requires ParseYearCandidates(raw).Success? && |ParseYearCandidates(raw).value| > 1
    ensures var ys := ParseYearCandidates(raw).value;
      (forall k :: 0 <= k < |ys| ==> ys[k].Some?) && forall a, b :: 0 <= a < b < |ys| ==> ys[a] != ys[b]
  {
    ScanYearsSound(raw, 0, []);
  }

  /** With no year anywhere in a non-blank cell, the single candidate is the cell read as a nullable number. */
  lemma ParseYearCandidatesFallback(raw: string)
    requires !IsBlank(raw)
    requires forall j :: 0 <= j ==> !YearAt(raw, j)
    ensures ParseYearCandidates(raw) == match ParseIntNullable(raw)
      case Success(y) => Success([y])
      case Failure(e) => Failure(e)
  {
    ScanYearsNoMatch(raw, 0, []);
  }

  lemma ParseYearCandidatesExamples()
    ensures ParseYearCandidates("") == Success([None])
    ensures ParseYearCandidates("2019") == Success([Some(2019)])
    ensures ParseYearCandidates("2019, 2020") == Success([Some(2019), Some(2020)])
    ensures ParseYearCandidates("2020/2020") == Success([Some(2020)])
  {
    OneYearExample();
    TwoYearsExample();
    RepeatedYearExample();
  }

  lemma OneYearExample()
    ensures ParseYearCandidates("2019") == Success([Some(2019)])
  {
    var a := "2019";
    assert !IsJavaWhitespace(a[0]);
    assert YearAt(a, 0) && YearValue(a, 0) == 2019;
    assert ScanYears(a, 4, [2019]) == [2019];
    assert ScanYears(a, 0, []) == [2019];
    assert seq(1, k requires 0 <= k < 1 => Some([2019][k])) == [Some(2019)];
  }

  lemma TwoYearsExample()
    ensures ParseYearCandidates("2019, 2020") == Success([Some(2019), Some(2020)])
  {
    var b := "2019, 2020";
    assert !IsJavaWhitespace(b[0]);
    assert YearAt(b, 0) && YearValue(b, 0) == 2019;
    assert YearAt(b, 6) && YearValue(b, 6) == 2020;
    assert ScanYears(b, 10, [2019, 2020]) == [2019, 2020];
    assert ScanYears(b, 6, [2019]) == [2019, 2020];
    assert !YearAt(b, 5) && !YearAt(b, 4);
    assert ScanYears(b, 4, [2019]) == [2019, 2020];
    assert ScanYears(b, 0, []) == [2019, 2020];
    assert seq(2, k requires 0 <= k < 2 => Some([2019, 2020][k])) == [Some(2019), Some(2020)];
  }

  lemma RepeatedYearExample()
    ensures ParseYearCandidates("2020/2020") == Success([Some(2020)])
  {
    var c := "2020/2020";
    assert !IsJavaWhitespace(c[0]);
    assert YearAt(c, 0) && YearValue(c, 0) == 2020;
    assert YearAt(c, 5) && YearValue(c, 5) == 2020;
    assert ScanYears(c, 9, [2020]) == [2020];
    assert ScanYears(c, 5, [2020]) == [2020];
    assert !YearAt(c, 4);
    assert ScanYears(c, 4, [2020]) == [2020];
    assert ScanYears(c, 0, []) == [2020];
    assert seq(1, k requires 0 <= k < 1 => Some([2020][k])) == [Some(2020)];
  }

  // ---------------------------------------------------------------------
  // splitPart
  // ---------------------------------------------------------------------

  /** Java's `/` on int, which truncates toward zero (Dafny's `/` is Euclidean). */
  function JavaDiv(a: int, b: int): int
    requires b > 0
  {
    if a >= 0 then a / b else -((-a) / b)
  }

  /**
   * splitPart: part `idx` of `total` divided into `parts`. The base share is
   * `total / parts` (Java division) and the first `Math.floorMod(total, parts)`
   * parts get one more. With at most one part the total is returned whole.
   */
  function SplitPart(total: int, parts: int, idx: int): int {
    if parts <= 1 then total
    else
      var base := JavaDiv(total, parts);
      var remainder := total % parts;
      if idx < remainder then base + 1 else base
  }

  function Split(total: int, n: nat): (r: seq<int>)
    ensures |r| == n
  {
    seq(n, i requires 0 <= i < n => SplitPart(total, n, i))
  }

  function Sum(xs: seq<int>): int {
    if |xs| == 0 then 0 else xs[0] + Sum(xs[1..])
  }

  lemma {:induction false} SumOfSteps(xs: seq<int>, base: int, r: nat)
    requires r <= |xs|
    requires forall i :: 0 <= i < |xs| ==> xs[i] == (if i < r then base + 1 else base)
    ensures Sum(xs) == |xs| * base + r
  {
    if |xs| > 0 {
      SumOfSteps(xs[1..], base, if r > 0 then r - 1 else 0);
      assert |xs| * base == (|xs| - 1) * base + base;
    }
  }

  /** The parts of a non-negative total add up to it, for any number of parts. */
  lemma SplitConserves(total: int, n: nat)
    requires total >= 0 && n >= 1
    ensures Sum(Split(total, n)) == total
  {
    var xs := Split(total, n);
    if n == 1 {
      assert xs == [total];
    } else {
      SumOfSteps(xs, total / n, total % n);
    }
  }

  /** The parts never grow along the sequence and differ by at most one. */
  lemma SplitEven(total: int, n: nat, i: nat, j: nat)
    requires total >= 0 && i <= j < n
    ensures SplitPart(total, n, j) <= SplitPart(total, n, i) <= SplitPart(total, n, j) + 1
  {
  }

  /** A larger non-negative total never gives a smaller part. */
  lemma SplitMonotone(a: int, t: int, n: nat, i: nat)
    requires 0 <= a <= t && n >= 1
    ensures SplitPart(a, n, i) <= SplitPart(t, n, i)
  {
    if n > 1 {
      var qa, ra := a / n, a % n;
      var qt, rt := t / n, t % n;
      assert JavaDiv(a, n) == qa && JavaDiv(t, n) == qt;
      assert a == n * qa + ra && t == n * qt + rt && 0 <= ra < n && 0 <= rt < n;
      if qa > qt {
        MulMonotone(n, qt + 1, qa);
        assert false;
      }
      if qa == qt {
        assert ra <= rt;
      }
    }
  }

  lemma MulMonotone(n: nat, x: int, y: int)
    requires x <= y
    ensures n * x <= n * y
  {
  }

  lemma SplitExamples()
    ensures Split(10, 3) == [4, 3, 3]
    ensures Split(7, 3) == [3, 2, 2]
    ensures Split(5, 1) == [5]
  {
  }

  /** For a negative total the parts do not add up: -7 over three parts gives -1, -1, -2. */
  lemma SplitNegativeTotal()
    ensures Split(-7, 3) == [-1, -1, -2]
    ensures Sum(Split(-7, 3)) == -4
  {
    assert JavaDiv(-7, 3) == -2;
    assert -7 % 3 == 2;
  }

  // ---------------------------------------------------------------------
  // The per-year shares of one export row
  // ---------------------------------------------------------------------

  /** One year's share of a row: its counts of all, free and in-use copies. */
  datatype YearShare = YearShare(year: Option<int>, total: int, available: int, inUse: int)

  /** The loop over the year candidates: part `i` of each count, in use being what is not free (on unbounded integers), never negative. */
  function Shares(years: seq<Option<int>>, total: int, available: int): (r: seq<YearShare>)
    ensures |r| == |years|
  {
    var n := |years|;
    seq(n, i requires 0 <= i < n =>
      var t := SplitPart(total, n, i);
      var a := SplitPart(available, n, i);
      YearShare(years[i], t, a, if t - a > 0 then t - a else 0))
  }

  function TotalsOf(shares: seq<YearShare>): seq<int> {
    seq(|shares|, i requires 0 <= i < |shares| => shares[i].total)
  }

  function AvailablesOf(shares: seq<YearShare>): seq<int> {
    seq(|shares|, i requires 0 <= i < |shares| => shares[i].available)
  }

  /**
   * The shares keep the row's counts: totals and free counts each add up,
   * no in-use count is negative, and when the free count does not exceed
   * the total every share's in-use count is exactly its total minus its free.
   */
  lemma SharesConserve(years: seq<Option<int>>, total: int, available: int)
    requires |years| >= 1 && 0 <= available && 0 <= total
    ensures var r := Shares(years, total, available);
      && Sum(TotalsOf(r)) == total
      && Sum(AvailablesOf(r)) == available
      && (forall i :: 0 <= i < |r| ==> r[i].year == years[i] && r[i].inUse >= 0)
      && (available <= total ==> forall i :: 0 <= i < |r| ==> r[i].inUse == r[i].total - r[i].available)
  {
    var r := Shares(years, total, available);
    var n := |years|;
    assert TotalsOf(r) == Split(total, n);
    assert AvailablesOf(r) == Split(available, n);
    SplitConserves(total, n);
    SplitConserves(available, n);
    if available <= total {
      forall i | 0 <= i < n
        ensures r[i].inUse == r[i].total - r[i].available
      {
        SplitMonotone(available, total, n, i);
      }
    }
  }

  /** The worked case: 10 copies, 7 free, three editions. */
  lemma SharesExample()
    ensures Shares([Some(2019), Some(2020), Some(2021)], 10, 7) ==
      [YearShare(Some(2019), 4, 3, 1), YearShare(Some(2020), 3, 2, 1), YearShare(Some(2021), 3, 2, 1)]
  {
  }
}
